=== FILE: README.md ===
# A Dafny model of a multi-tenant restaurant storefront

The system is a digital menu ("cardápio digital") for Brazilian restaurants.
Each restaurant (a tenant, named by the slug in the page path) keeps its
products, add-ons, coupons and settings in its own Google spreadsheet. A
master spreadsheet maps slugs to those spreadsheets. In the browser a React
front end does the following:

- groups the menu by category;
- lets the customer configure a dish with add-on groups;
- computes prices;
- schedules pickup or delivery times from the store's opening hours;
- shows whether the store is open now;
- builds the order, which an API handler appends as one row to the
  tenant's order sheet, before a WhatsApp message is sent.

An edge middleware fills the page's title and description for the slug.

This project models the pure rules inside those components and handlers,
one Dafny module per source file:

| module | source |
|---|---|
| `DateTimePicker` | `src/components/DateTimePicker.jsx` |
| `Header` | `src/components/Header.jsx` |
| `ProductModal` | `src/components/ProductModal.jsx` |
| `ProductCard` | `src/components/ProductCard.jsx` |
| `CheckoutForm` | `src/components/CheckoutForm.jsx` |
| `MenuLayout` | `src/components/MenuLayout.jsx` |
| `ApiIndex` | `api/index.js` |
| `SheetData` | `api/sheetData.js` |
| `SubmitOrder` | `api/submitOrder.js` |
| `Middleware` | `middleware.js` |

Six modules are shared:

- `Seqs`: sequence helpers.
- `Text`: string helpers, including `toLowerCase`, `trim`, `split` and
  regex-shaped replacements, each pattern written as its own matcher.
- `Js`: the JavaScript semantics the code relies on. These are `Number`,
  `parseInt` and `parseFloat` over decimal text, plus plain objects whose
  key order puts integer-like keys first.
- `Sheets`: spreadsheet rows, `rowsToObjects` and tenant lookup.
- `Orders`: the order payload, `itemsString` and the payment-method table.
- `Currency`: the pt-BR currency text `BrlText` that prices are written in
  and read back from.

Duplicated helpers are modelled once per distinct behaviour and compared:

- `parseCurrency` has two variants. `ProductModal` and `ProductCard` remove
  group points. `CheckoutForm` and `ApiIndex` keep them. Lemmas show when
  each pair agrees and where the two variants part.
- `rowsToObjects` has two variants. One is in `Sheets`; `api/index.js` and
  `api/submitOrder.js` hold it letter for letter. The other is in
  `SheetData` and drops blank rows.
- The customizations table differs between `ApiIndex` and `SheetData`.
- The order row has two variants, `ApiIndex.NewRow` and `SubmitOrder.NewRow`.

"Now" is a parameter: today's weekday and the minutes since midnight.
Day `d` from today is weekday `(w0 + d) mod 7`, and a time on it is the
instant `d·1440 + minutes`. Money is a Dafny `real`.

## Model

| member | source | states |
|---|---|---|
| DateTimePicker.TimeToMinutes | src/components/DateTimePicker.jsx:6-9 | a number of minutes comes back only when the text has a part after a colon; otherwise the result is NaN |
| DateTimePicker.ReadsClockText | src/components/DateTimePicker.jsx:6-9 | digits, a colon and digits read as 60 times the hours plus the minutes |
| DateTimePicker.WholeHours | src/components/DateTimePicker.jsx:6-9 | "HH:" with nothing after the colon reads as HH whole hours, because `Number('')` is 0 |
| DateTimePicker.MinutesToTime | src/components/DateTimePicker.jsx:11-15 | the text is hour digits, a colon and exactly two minute digits |
| DateTimePicker.ClockRoundTrip | src/components/DateTimePicker.jsx:6-15 | every time the picker writes reads back as the same number of minutes |
| DateTimePicker.DayIndex | src/components/DateTimePicker.jsx:20-31 | the index of a three-letter day name, from Sunday 0 to Saturday 6, and -1 exactly for text that is no day name |
| DateTimePicker.DayRange | src/components/DateTimePicker.jsx:32-38 | a range from an earlier to a later day holds the days between them; otherwise it wraps past Saturday to Sunday |
| DateTimePicker.DaysOfPartsIff | src/components/DateTimePicker.jsx:24-44 | a weekday is a working day exactly when one of the comma-separated parts names it |
| DateTimePicker.PartDaysOfEnds | src/components/DateTimePicker.jsx:28-39 | a range part names the range between its two trimmed, three-letter ends, and nothing when either end is unknown |
| DateTimePicker.RangeNamesSpan | src/components/DateTimePicker.jsx:28-39 | two words around " a " name the day range between their first three letters |
| DateTimePicker.StripMarksOfAscii | src/components/DateTimePicker.jsx:23 | stripping diacritics leaves unaccented text unchanged |
| DateTimePicker.NormalizedAsWritten | src/components/DateTimePicker.jsx:23 | as written, `\s*a\s+` also rewrites the final "a" of the first day, so "…a a y" gains a second range word |
| DateTimePicker.RangeAfterFinalAAsWritten | src/components/DateTimePicker.jsx:23-44 | as written, a range whose first day name ends in "a" names no day at all |
| DateTimePicker.MondayToFridayAsWritten | src/components/DateTimePicker.jsx:23-44 | "segunda a sexta" yields no working day as written |
| DateTimePicker.NormalizedRange | src/components/DateTimePicker.jsx:23 | once the range word must stand between spaces, two words joined by it come out of normalisation unchanged |
| DateTimePicker.RangeOfWords | src/components/DateTimePicker.jsx:23-39 | in the corrected reading, two words joined by " a " name the days from the first to the second, wrapping |
| DateTimePicker.MondayToFriday | src/components/DateTimePicker.jsx:23-39 | in the corrected reading, "segunda a sexta" is Monday to Friday |
| DateTimePicker.PartInterval | src/components/DateTimePicker.jsx:50-53 | an hours part gives one interval exactly when it has at least two non-empty pieces, and none otherwise |
| DateTimePicker.IntervalsOfParts | src/components/DateTimePicker.jsx:48-54 | at most one interval per hours part |
| DateTimePicker.ConnectiveAsWritten | src/components/DateTimePicker.jsx:47-54 | as written, "HHh às HHh" loses its connective, its two ends are glued together, and it yields no interval |
| DateTimePicker.ConnectiveAsDash | src/components/DateTimePicker.jsx:47-54 | with "às" read as a dash, "HHh às HHh" is the one interval between those whole hours |
| DateTimePicker.SixToTen | src/components/DateTimePicker.jsx:47-54 | "18h às 22h" gives no interval as written, and 18:00 to 22:00 once corrected |
| DateTimePicker.Candidates | src/components/DateTimePicker.jsx:70-80 | the i-th candidate time is start + 30·i and lies below the end, and one more step would reach the end |
| DateTimePicker.CandidatesIff | src/components/DateTimePicker.jsx:70-80 | a time is a candidate exactly when start ≤ t < end and t is a whole number of 30-minute steps after start; there is none when end ≤ start |
| DateTimePicker.DayTimes | src/components/DateTimePicker.jsx:58-80 | every time offered on a day is strictly after now plus the lead time |
| DateTimePicker.DayTimesIff | src/components/DateTimePicker.jsx:58-80 | a time is offered on a day exactly when it is strictly after now plus the lead time and is a candidate of some interval |
| DateTimePicker.IntervalBlockAscends | src/components/DateTimePicker.jsx:70-79 | within one interval, the offered times strictly ascend |
| DateTimePicker.DaysFrom | src/components/DateTimePicker.jsx:61-86 | the day offsets examined are below 30, strictly increasing, and each passes the test |
| DateTimePicker.DaysFromIff | src/components/DateTimePicker.jsx:61-86 | a day offset is listed exactly when it is below 30 and passes the test |
| DateTimePicker.OpenDaysFrom | src/components/DateTimePicker.jsx:61-86 | the listed days are increasing offsets below 30, each a working day with at least one offered time |
| DateTimePicker.OpenDayIff | src/components/DateTimePicker.jsx:61-86 | a day is listed exactly when it is within 30 days, a working day, and has an offered time |
| DateTimePicker.Slots | src/components/DateTimePicker.jsx:61-87 | at most 30 days are returned, and each holds at least one time |
| DateTimePicker.SlotsAreOpenDays | src/components/DateTimePicker.jsx:61-87 | one returned day per open day; the i-th returned day is the i-th open day, and its times are that day's offered times written as clock text |
| DateTimePicker.GenerateAvailableSlots | src/components/DateTimePicker.jsx:17-88 | a missing or empty days or hours text yields no slots; otherwise the slots are those of the parsed working days and intervals, at most 30 days, each non-empty |
| DateTimePicker.GenerateAvailableSlotsAsWritten | src/components/DateTimePicker.jsx:17-88 | the as-written readers keep the empty-input guard and the bounds of at most 30 days, each non-empty |
| Header.DayNumbers | src/components/Header.jsx:10-18 | every day name the store accepts stands for a weekday from 0 to 6 |
| Header.Range | src/components/Header.jsx:43 | the days from start to end inclusive, and none when the end comes first (no wrap) |
| Header.DaysOfPartsIff | src/components/Header.jsx:36-49 | a day is listed exactly when one of the comma-separated parts names it |
| Header.SingleDay | src/components/Header.jsx:45-47 | in the corrected reading, a known single name lists exactly its day |
| Header.RangeOfDays | src/components/Header.jsx:36-44 | in the corrected reading, "x a y" lists exactly the days from x to y |
| Header.MondayToFriday | src/components/Header.jsx:26-44 | in the corrected reading, "seg a sex" lists Monday to Friday |
| Header.EBecomesComma | src/components/Header.jsx:28 | as written, an "e" inside a word becomes a comma and splits the word |
| Header.SplitAtEAsWritten | src/components/Header.jsx:26-48 | as written, a name containing "e" is cut into two unknown names, so nothing is listed |
| Header.MondayAsWritten | src/components/Header.jsx:26-52 | as written, "seg" lists no working day, so the store always shows closed |
| Header.Monday | src/components/Header.jsx:26-47 | in the corrected reading, "seg" lists Monday |
| Header.InnerAMatch | src/components/Header.jsx:38 | the range pattern backs off to the last "a" of a single word and takes the text around it as the two names |
| Header.InnerAAsWritten | src/components/Header.jsx:38-48 | as written, a single name with an inner "a" is taken for a range of two unknown names, and lists nothing |
| Header.SaturdayAsWritten | src/components/Header.jsx:38-52 | as written, "sab" lists no working day, so the store always shows closed |
| Header.Saturday | src/components/Header.jsx:38-47 | in the corrected reading, "sab" lists Saturday |
| Header.ParseTimeClock | src/components/Header.jsx:67-71 | digits, a colon and digits read as hours times 60 plus minutes |
| Header.ParseTimeHours | src/components/Header.jsx:67-71 | digits alone read as whole hours; the missing minutes are NaN and count as 0 |
| Header.ParseTimePoint | src/components/Header.jsx:68 | a point between hours and minutes reads like a colon |
| Header.NoDashNoMatch | src/components/Header.jsx:64-65 | hours text without a dash has no start-end match, so it is read as closed |
| Header.HoursGlued | src/components/Header.jsx:56-61 | as written, "HHh às HHh" normalises to the two numbers run together, with no dash |
| Header.ConnectiveDroppedAsWritten | src/components/Header.jsx:56-65 | as written, hours given as "HHh às HHh" never match, so the store always shows closed |
| Header.HoursDashed | src/components/Header.jsx:56-61 | with the connective replaced first, "HHh às HHh" normalises to "HH-HH" |
| Header.DashedBounds | src/components/Header.jsx:64 | the first start-end match of "HH-HH" has the two numbers as its groups |
| Header.VerdictOpen | src/components/Header.jsx:51-83 | open exactly on a working day with start ≤ now ≤ end, both ends included and with no overnight wrap |
| Header.CheckIsOpenAsWritten | src/components/Header.jsx:5-89 | empty days or hours give closed; the status text is "Aberto" exactly when open; open needs a listed working day and a matched start-end pair |
| Header.CheckIsOpen | src/components/Header.jsx:5-89 | the same guarantees with the corrected readers of days and hours |
| Header.OpenWithin | src/components/Header.jsx:51-83 | with both texts given, open exactly on a working day from the first pair's start to its end, both included |
| Header.OpenWithinAsWritten | src/components/Header.jsx:51-83 | the same, with the readers as written |
| Header.ConnectiveAsDash | src/components/Header.jsx:56-83 | once corrected, hours "HHh às HHh" are open exactly on working days from HH:00 to HH:00, both included |
| Header.ImagesOf | src/components/Header.jsx:109-115 | banner URLs are never blank and are no more than the fields |
| Header.ImagesOfIff | src/components/Header.jsx:109-115 | a URL is shown exactly when it is not blank and one of the image fields holds it |
| Header.Images | src/components/Header.jsx:109-115 | at most three banner images |
| Header.ImagesOfOne | src/components/Header.jsx:110-114 | one field gives its URL when it holds non-blank text and nothing otherwise |
| Header.ImagesOfAppend | src/components/Header.jsx:110-115 | the banners of two field lists joined are the banners of the first followed by those of the second |
| Header.ImagesInFieldOrder | src/components/Header.jsx:110-115 | the banners follow the three image fields in order, a URL held by two fields appearing twice |
| Header.AllImages | src/components/Header.jsx:110-114 | with all three fields filled, all three images show, in field order |
| Header.NextIndex | src/components/Header.jsx:119-123 | with more than one image, the index moves to the next one and wraps to 0 after the last; otherwise it stays |
| Header.TicksCycle | src/components/Header.jsx:119-126 | after k timer firings the index has advanced by k modulo the number of images |
| Header.EveryBannerShown | src/components/Header.jsx:119-126 | starting from the first banner, every banner comes round |
| ProductModal.ParseCurrency | src/components/ProductModal.jsx:4-9 | a number passes through unchanged, and a value that is not a string is 0 |
| ProductModal.SameAsCard | src/components/ProductModal.jsx:4-9 | the dialog reads every value exactly as the product card does |
| ProductModal.ReadsBrlText | src/components/ProductModal.jsx:4-9 | a price in the pt-BR currency format, group points included, reads back as its amount |
| ProductModal.BoundAt | src/components/ProductModal.jsx:35 | a bound is its listed number unless that is missing, NaN or 0, in which case it is the fallback |
| ProductModal.ParseBoundsEmpty | src/components/ProductModal.jsx:32-33 | an empty min or max cell gives no number |
| ProductModal.OptionsOfMembers | src/components/ProductModal.jsx:36 | an add-on is an option of a group exactly when it is listed, belongs to that group and is "Ativo" |
| ProductModal.Candidates | src/components/ProductModal.jsx:34-36 | one group per listed name, in order, with its bounds and options |
| ProductModal.Shown | src/components/ProductModal.jsx:34-37 | every shown group has at least one option |
| ProductModal.ShownMembers | src/components/ProductModal.jsx:34-37 | a group is shown exactly when it is one of the named groups and has an option |
| ProductModal.GroupsOfferTheirOptions | src/components/ProductModal.jsx:34-37 | a shown group's options are exactly the active add-ons of that group |
| ProductModal.DefaultBounds | src/components/ProductModal.jsx:32-35 | where the lists give no number, a group has minimum 0 and maximum 1 |
| ProductModal.AccompanimentGroups | src/components/ProductModal.jsx:28-39 | no groups unless the product names groups, add-ons are loaded and the bound lists exist; otherwise the named groups that have options |
| ProductModal.AddEffect | src/components/ProductModal.jsx:51-56 | at the group's maximum nothing changes; below it the option's count rises by exactly one, every other id is untouched, and every count stays at least one |
| ProductModal.AddTotals | src/components/ProductModal.jsx:51-55 | adding one option raises the total of its own group by one and no other group's |
| ProductModal.RemoveEffect | src/components/ProductModal.jsx:58-66 | a count of at most one is deleted, a larger count falls by one keeping its data, every other id is untouched, and every count stays at least one |
| ProductModal.RemoveTotals | src/components/ProductModal.jsx:58-66 | removing an unselected option changes nothing; otherwise its group's total falls by one and no other total changes |
| ProductModal.CapsHold | src/components/ProductModal.jsx:51-66 | for a catalogue whose group names are distinct and whose add-on ids each name one add-on: from the empty selection, no sequence of add and remove clicks takes a group past its maximum, and every stored count stays at least one |
| ProductModal.SharedIdPastCap | src/components/ProductModal.jsx:51-56 | two add-ons in different groups that share an id: after one plus click on each, the second group counts 2 under that id, past a maximum of 1, so such a catalogue is outside CapsHold |
| ProductModal.RepeatedNamePastCap | src/components/ProductModal.jsx:31-56 | two groups with one name and different maxima: plus clicks allowed by the larger maximum take the shared total past the smaller one, so such a catalogue is outside CapsHold |
| ProductModal.EnabledPlusAtCap | src/components/ProductModal.jsx:131 | at the cap, the plus button of an already chosen option stays enabled, yet pressing it changes nothing |
| ProductModal.StatusLookup | src/components/ProductModal.jsx:68-76 | the status object has one entry per group name, holding the status of the last group with that name |
| ProductModal.ValidIff | src/components/ProductModal.jsx:68-78 | the order is valid exactly when every group that is the last of its name has reached its minimum, so it is valid with no groups |
| ProductModal.ValidIffDistinct | src/components/ProductModal.jsx:68-78 | with distinct group names, the order is valid exactly when every group has reached its minimum |
| ProductModal.InvalidEntry | src/components/ProductModal.jsx:78 | an invalid order has a status entry that is invalid |
| ProductModal.FinalMainQuantity | src/components/ProductModal.jsx:85 | with add-on groups the dish counts once; without them the stepper's quantity counts |
| ProductModal.BasePriceIsCardPrice | src/components/ProductModal.jsx:80 | the dialog's base price is the card's final price |
| ProductModal.AddCost | src/components/ProductModal.jsx:81-83 | for any price reading, one more of an option adds exactly its unit price to the add-on cost |
| ProductModal.RemoveCost | src/components/ProductModal.jsx:81-83 | removing one of a selected option takes exactly its unit price off |
| ProductModal.AddPrice | src/components/ProductModal.jsx:81-83 | with the component's own price reading, one more of an option adds its listed price |
| ProductModal.StepperAndPrice | src/components/ProductModal.jsx:85-86 | with groups the total is base plus add-ons; without them it is that sum times the stepper's quantity |
| ProductModal.Confirm | src/components/ProductModal.jsx:89-100 | an item is emitted exactly when the order is valid, carrying the product, the chosen options, the final quantity and the total price |
| ProductModal.ConfirmedOptions | src/components/ProductModal.jsx:90-93 | the emitted options are the selected add-ons, one per id and each with its count of at least one, and nothing else |
| ProductModal.Stepper | src/components/ProductModal.jsx:141 | minus never goes below one, and plus adds one |
| ProductModal.StepperBounds | src/components/ProductModal.jsx:141 | starting from one, no presses take the quantity below one or above one plus the number of presses |
| ProductCard.ParseCurrency | src/components/ProductCard.jsx:3-9 | a number passes through, anything else that is not a string is 0, and text that does not parse is 0 |
| ProductCard.ReadsBrlText | src/components/ProductCard.jsx:3-9 | a price in the pt-BR currency format, group points included, reads back as its amount |
| ProductCard.DecimalPointDropped | src/components/ProductCard.jsx:6 | a price written with a decimal point loses the point: "12.50" reads as 1250 |
| ProductCard.EmptyIsZero | src/components/ProductCard.jsx:3-9 | an empty price cell is 0 |
| ProductCard.View | src/components/ProductCard.jsx:15-46 | final price = price − discount; the old price is struck through exactly when discount > 0; the price block shows exactly when price > 0; the button says "Encomendar" exactly when the product's `Encomenda` field is "Sim", otherwise "Adicionar" |
| ProductCard.ViewOfListedPrices | src/components/ProductCard.jsx:16-41 | for prices listed in the currency format, the card shows their difference and strikes or hides according to the amounts |
| ProductCard.NoDiscountCell | src/components/ProductCard.jsx:17-19 | without a discount cell the final price is the price and nothing is struck through |
| CheckoutForm.ParseCurrency | src/components/CheckoutForm.jsx:8-13 | a number passes through, anything else that is not a string is 0, and text that does not parse is 0 |
| CheckoutForm.ReadsSmallBrlText | src/components/CheckoutForm.jsx:8-13 | below a thousand reais a price in the currency format reads back as its amount |
| CheckoutForm.GroupedBrlTextShrinks | src/components/CheckoutForm.jsx:11-12 | from a thousand reais on, the group point is taken for the decimal point: "R$ 1.234,56" reads as 1.234 |
| CheckoutForm.AgreesWithCardBelowThousand | src/components/CheckoutForm.jsx:8-13 | the checkout and card parsers agree on a currency-format price exactly when it is below a thousand reais |
| CheckoutForm.ReadsDecimalText | src/components/CheckoutForm.jsx:11-12 | two-decimal text with a point reads as its amount |
| CheckoutForm.DeliveryFee | src/components/CheckoutForm.jsx:58 | the fee is the store's 'Taxa Entrega' ('0' when absent or empty) for a delivery, and 0 for anything else |
| CheckoutForm.DeliveryFreeWithoutFee | src/components/CheckoutForm.jsx:58 | a store without a fee delivers for free |
| CheckoutForm.DeliveryFeeAsListed | src/components/CheckoutForm.jsx:58 | a delivery pays the store's fee as listed |
| CheckoutForm.ApplyCoupon | src/components/CheckoutForm.jsx:61-63 | an empty code is ignored without consulting the cart; otherwise the coupon is applied exactly when the cart accepts it |
| CheckoutForm.CouponToast | src/components/CheckoutForm.jsx:62-68 | a toast appears exactly when the code was not ignored |
| CheckoutForm.PixCode | src/components/CheckoutForm.jsx:73-74 | a PIX code is present exactly when the store's field is set and non-empty, and it is that field |
| CheckoutForm.PixClick | src/components/CheckoutForm.jsx:71-81 | PIX becomes the payment method; a code is copied exactly when the store's 'Código PIX' is non-empty, and then the message's payment block shows a PIX key, that same code, while without a copied code it shows none |
| CheckoutForm.ItemBlock | src/components/CheckoutForm.jsx:96-102 | an item gives one head line plus one line per add-on |
| CheckoutForm.ItemLinesLayout | src/components/CheckoutForm.jsx:96-103 | item k's head line sits at its offset, its add-ons follow it in order, and the blocks together fill the item lines |
| CheckoutForm.SummaryLines | src/components/CheckoutForm.jsx:111-120 | the summary cannot be built, because the message throws, exactly when there is a discount but no coupon to name |
| CheckoutForm.MessageLines | src/components/CheckoutForm.jsx:87-148 | the message throws exactly when there is a discount without a coupon; otherwise it opens with title, blank and customer and closes with the fixed closing lines |
| CheckoutForm.DiscountLineIff | src/components/CheckoutForm.jsx:114-116 | the discount line appears exactly when the cart has a discount, and then it names the coupon and the amount |
| CheckoutForm.FeeLineIff | src/components/CheckoutForm.jsx:117-119 | the fee line appears exactly for a delivery, and then it shows the fee |
| CheckoutForm.NotesIff | src/components/CheckoutForm.jsx:105-109 | the notes block appears exactly when there are observations |
| CheckoutForm.PixKeyIff | src/components/CheckoutForm.jsx:126-132 | the PIX key line appears exactly when paying by PIX at a store with a code |
| CheckoutForm.DeliveryBlockIff | src/components/CheckoutForm.jsx:134-137 | the address block appears exactly for a delivery, with the address |
| CheckoutForm.PickupBlockIff | src/components/CheckoutForm.jsx:138-142 | "Retirada / No local" appears exactly when the order is not a delivery |
| CheckoutForm.InMessage | src/components/CheckoutForm.jsx:88-146 | every line of the notes, summary, payment and destination blocks is a line of the message |
| CheckoutForm.Message | src/components/CheckoutForm.jsx:148 | a text exists exactly when the lines do |
| CheckoutForm.MessageSplits | src/components/CheckoutForm.jsx:148 | splitting the message on newlines gives back its lines, as long as no copied text holds a newline |
| CheckoutForm.OrderOf | src/components/CheckoutForm.jsx:162-174 | the order has an address exactly for a delivery, carries the cart's items, the delivery fee and total = cart total + fee, and has a coupon exactly when the cart's coupon has a code |
| CheckoutForm.PickupHasNoAddress | src/components/CheckoutForm.jsx:58-165 | a pickup order has no address and no fee, its total is the cart total, and its message has no fee line and no delivery block |
| CheckoutForm.PostedSlug | src/components/CheckoutForm.jsx:177 | the posted slug is never empty |
| CheckoutForm.PostedSlugOfStorePath | src/components/CheckoutForm.jsx:177 | on "/name" and on "/", the page posts the slug the middleware derives |
| CheckoutForm.PostedSlugKeepsTrailingSlash | src/components/CheckoutForm.jsx:177 | on "/name/", the page posts "name/" while the middleware derives "name" |
| CheckoutForm.Submit | src/components/CheckoutForm.jsx:153-200 | without a payment method only the toast appears; otherwise the order and slug are posted, and the page redirects to the WhatsApp URL exactly when the post succeeds and the message can be built |
| Orders.PaymentLabel | api/index.js:84-85 | a known method is shown by its label, and an unknown method is shown unchanged |
| Orders.ItemsStringSplits | api/submitOrder.js:49-56 | splitting the items text on " \| " gives one summary per cart line, in cart order, when no name contains a bar |
| MenuLayout.InCategory | src/components/MenuLayout.jsx:10-19 | a category's list holds only products of that category |
| MenuLayout.CategoriesGrouped | src/components/MenuLayout.jsx:10-19 | the grouping has one entry per category, in order of first appearance, each holding exactly that category's products in input order |
| MenuLayout.AddGrouped | src/components/MenuLayout.jsx:11-17 | each step of the reduce keeps the object grouped |
| MenuLayout.CategoryContents | src/components/MenuLayout.jsx:10-19 | a category that occurs maps to exactly its products in input order; any other key is absent |
| MenuLayout.ProductInItsCategory | src/components/MenuLayout.jsx:10-19 | every product is in the list of its own category |
| MenuLayout.InCategoryFrom | src/components/MenuLayout.jsx:16 | a product listed under a category is an input product of that category |
| MenuLayout.CategorySizesSum | src/components/MenuLayout.jsx:10-19 | the category lists together are exactly as long as the product list |
| MenuLayout.CategoryNamesOrder | src/components/MenuLayout.jsx:21 | with no integer-like category name, the category names come in order of first appearance |
| MenuLayout.ActiveCategoryIsACategory | src/components/MenuLayout.jsx:23-27 | there are category names exactly when there are products, and then the highlighted category is one of them |
| Sheets.CellAt | api/index.js:17 | a missing cell reads as the empty string |
| Sheets.RowToRecord | api/index.js:15-18 | the keys are exactly the header cells, and a repeated header takes its last column's cell |
| Sheets.RowsToObjects | api/index.js:11-20 | fewer than two rows give no records; otherwise there is one record per data row, mapping each header cell to the row's cell or '' |
| Sheets.FindTenant | api/index.js:45 | the position of the first company whose 'URL Empresa' is the slug, or -1 when none is |
| Sheets.TenantLink | api/index.js:45-47 | a spreadsheet id exactly when the first matching company has a non-empty 'Link Planilha', and it is that link |
| Sheets.TenantLinkFirstWins | api/index.js:45 | companies listed after a match never take over the slug |
| Sheets.KeyValueTable | api/index.js:53 | the keys are exactly the first cells of the rows |
| Sheets.KeyValueTableLast | api/index.js:53 | each key holds the second cell (or '') of the last row with that key |
| ApiIndex.ParseCurrency | api/index.js:3-8 | a number passes through, and a value that is not a string is 0 |
| ApiIndex.SameAsCheckout | api/index.js:3-8 | the handler's parser is the checkout form's on every input |
| ApiIndex.ReadsSmallBrlText | api/index.js:3-8 | below a thousand reais a price in the currency format reads back as its amount |
| ApiIndex.Customizations | api/index.js:53 | the keys are the first cells of the rows after the header whose first cell is non-empty |
| ApiIndex.CustomizationValue | api/index.js:53 | a key holds the second cell (or '') of the last row with that key |
| ApiIndex.NewRow | api/index.js:87-93 | 14 cells; the fourth is "Retirada" exactly for pickup, otherwise "Entrega"; a missing address or coupon is written as '' and a present one as itself; the observations are copied; the payment method is translated; the status is "Novo" |
| ApiIndex.NewRowItemsColumn | api/index.js:78-93 | the items column splits back into one summary per cart line |
| ApiIndex.HandleGet | api/index.js:36-61 | 400 exactly without a slug, 404 exactly when the tenant lookup fails, 200 exactly for a found tenant whose four menu tabs are all read, 500 exactly when the master sheet or one of those tabs cannot be read; a 200 carries the tenant's Produtos, Acompanhamentos and Cupons as records and its Customizações table; nothing is appended |
| ApiIndex.HandlePost | api/index.js:63-105 | 400 exactly without order data or slug; 404 exactly when the master sheet is read but no row matches the slug with a non-empty 'Link Planilha'; a found tenant always gets the order's row appended to its Pedidos!A:N, and no other append happens; 200 exactly when that append succeeds; 500 exactly when the master sheet cannot be read or the append fails |
| ApiIndex.Handle | api/index.js:34-107 | 405 exactly for a method other than GET or POST; 400 exactly for the missing-parameter cases; only a POST appends |
| SheetData.RowsToObjects | api/sheetData.js:6-17 | blank rows are dropped first; fewer than two remaining rows give no records; otherwise there is one record per remaining data row with '' for missing cells |
| SheetData.BlankRowIgnored | api/sheetData.js:8 | a blank row anywhere in a tab changes nothing |
| SheetData.AgreesWithoutBlankRows | api/sheetData.js:6-17 | on a tab without blank rows this variant agrees with the other one |
| SheetData.Customizations | api/sheetData.js:55-62 | the table holds the keys of the single handler's table that are not whitespace, with the same values: the two handlers differ only on keys made of whitespace |
| SheetData.WithoutBlankKeys | api/sheetData.js:56 | skipping rows with a blank key removes exactly the blank keys from the table and changes no other value |
| SheetData.HandleGet | api/sheetData.js:33-76 | 400 exactly without a slug, 404 exactly when the tenant lookup fails, 200 exactly for a found tenant whose four menu tabs are all read, 500 exactly when the master sheet or one of those tabs cannot be read; a 200 carries the tenant's Produtos, Acompanhamentos and Cupons as records (blank rows dropped) and its Customizações table |
| SubmitOrder.NewRow | api/submitOrder.js:58-66 | 14 cells, with the payment method stored untranslated and a missing address or coupon written as '' |
| SubmitOrder.RowsDifferOnlyInPayment | api/submitOrder.js:58-66 | this order row and the API one differ only in the payment column, and agree there exactly when the method has no label |
| SubmitOrder.HandlePost | api/submitOrder.js:31-80 | 400 exactly without order data or slug; 404 exactly when the master sheet is read but the tenant lookup fails; a found tenant always gets the order's row appended to its Pedidos!A:N, and no other append happens; 200 exactly when that append succeeds, answering "Pedido salvo!" with the order id; 500 exactly when the master sheet cannot be read or the append fails |
| Middleware.StripSlashes | middleware.js:24 | the leading slash when present and the trailing slash when present are removed, and nothing else; a lone "/" becomes empty |
| Middleware.Slug | middleware.js:24 | the slug is never empty; it is the stripped path unless that is empty |
| Middleware.SlugOfStorePath | middleware.js:24 | "/name" and "/name/" are the same store |
| Middleware.SlugOfRoot | middleware.js:24 | "", "/" and "//" open the default store |
| Middleware.Setting | middleware.js:39-40 | a customization is used when present and non-empty; otherwise the fallback is used |
| Middleware.MetaOf | middleware.js:39-47 | name and logo are never empty, and the title is "name \| Cardápio Digital" |
| Middleware.DefaultMeta | middleware.js:39-40 | a store without a name or logo gets "Cardápio Digital" and the placeholder logo |
| Middleware.DescriptionNamesStore | middleware.js:41 | the description is the fixed prefix followed by the store's name |
| Middleware.Handle | middleware.js:10-93 | skipped paths pass through; the page is rewritten exactly when the path is not skipped, the API answers OK and the page template is fetched, and it then carries the store's metadata |

## Left out

- Rendering, JSX, CSS classes and hook wiring are left out: they are presentation. This covers `useState`, `useEffect` and `useMemo`, the scrollspy observer, and the picker's month grid and selection state (src/components/DateTimePicker.jsx:92-225). The state changes the core depends on are modelled as pure functions.
- Google Sheets calls, authentication, `fetch`, Express routing, `window.location`, the clipboard and `encodeURIComponent` are I/O or foreign calls. Their results are parameters: `read`, `appendOk`, `saved`, `encode`, `htmlOk`, and `api`. So is the HTML rewriting in middleware.js:44-82, which works on a fetched page.
- `Intl.NumberFormat`, `toLocaleDateString` and `toLocaleString` are uninterpreted functions passed in (`formatCurrency`, `dateText`, `date`). `Currency.BrlText` models the pt-BR currency text only where a lemma reads a price back.
- Time is not modelled: timers, the banner's five-second delay and the toast delays. The banner is modelled by the number of timer firings.
- The index is not reset when the image list shrinks: Header.NextIndex assumes the stored index belongs to the current list.
- Calendar arithmetic is left out: `Date.setDate`, months, daylight saving and time zones. A day is an offset from today with weekday `(w0 + d) mod 7`.
- The lead time is a whole number of hours. A fractional `minLeadTimeHours` is not modelled.
- Money is a Dafny `real`, not integer centavos and not IEEE doubles. `parseFloat` of decimal text gives an exact rational, so price formulas hold exactly. Rounding of binary floating point is not modelled.
- Js.ToNumber: only blank text and runs of digits are numbers; signed, decimal and exponent text is NaN here, while JavaScript's `Number` reads it. In DateTimePicker an hour such as "18.5h-22h" survives the normalisation at src/components/DateTimePicker.jsx:47-50, so JavaScript would offer slots from 18:30 and the model offers none from that interval. Header removes '.' and '+' at src/components/Header.jsx:58, so no decimal reaches its parser. `parseFloat` (Js.ParseFloat) does accept a sign, a fraction and an exponent, but not `Infinity` or hexadecimal.
- ProductModal.CapsHold: proved only for catalogues whose group names are distinct and whose add-on ids each name one add-on. The dialog checks neither; ProductModal.SharedIdPastCap and ProductModal.RepeatedNamePastCap show the cap failing without them.
- SheetData.HandleGet: the 500 response's `details` field, the exception message at api/sheetData.js:74, is not modelled, because exception messages are not.
- Middleware.Handle: the template fetch is modelled as completed or thrown. Its HTTP status is never checked at middleware.js:34-35, so an error page that arrives is rewritten like the real template.
- DateTimePicker.LeadHours: only an absent `minLeadTimeHours` takes the default of 24. A `null` prop is not modelled; JavaScript treats it as a lead time of 0.
- Unicode decomposition (`normalize('NFD')`) is modelled for the lower-case Latin-1 letters only (DateTimePicker.BaseLetter). `toLowerCase` is modelled for ASCII and Latin-1 (Text.LowerChar).
- JavaScript regular expressions are not interpreted in general. Each pattern the code uses is written as its own leftmost-longest matcher in Dafny, with backtracking where the pattern needs it (Header.RangeFrom).
- Header.ParseTime: the point-to-colon step is modelled, but in checkIsOpen every point has already been removed at src/components/Header.jsx:58, so the step never applies there.
- Header.CheckIsOpen: the corrected reading removes only the stray conjunction and connectives. The "h" of "18h30" is still dropped, so that time reads as 1830 minutes, as it does in the code.
- Object keys are strings. The JavaScript prototype chain is left out, so a day map lookup such as `dayMap['constructor']` is not modelled; no day name reaches one.
- The cart engine is not part of this model: `addItem`, de-duplication and the coupon discount. It enters as a `Cart` value, and `applyCoupon` enters as a function.
- Presentational files with no logic are left out: CartModal, CartBar, ProductList, SearchModal, CategoryBar, Footer, Toast, InfoBar, LoadingSkeleton, StorePage, App, main, server.js and the gSheetParser service.
- DateTimePicker.TimeToMinutes: its contract states only when a number comes back. Its value on clock text is stated by DateTimePicker.ReadsClockText and DateTimePicker.ClockRoundTrip.
- DateTimePicker.GenerateAvailableSlotsAsWritten: its contract gives the guard and the bounds only. The days it lists as written are described by DateTimePicker.RangeAfterFinalAAsWritten and DateTimePicker.MondayToFridayAsWritten.
- ProductModal.ParseCurrency and ApiIndex.ParseCurrency: their own contracts cover numbers and non-strings. Their text cases are stated through ProductModal.SameAsCard, ApiIndex.SameAsCheckout and the ReadsBrlText lemmas.
- ProductModal.AccompanimentGroups: the `try`/`catch` is modelled only for the case the code can reach, a missing `min` or `max` list. `split` on a non-string cell does not arise, because records hold strings.

## Findings

| source | as written | input that shows it | evidently intended | confidence | as-written member | corrected member |
|---|---|---|---|---|---|---|
| src/components/DateTimePicker.jsx:23 | `\s*a\s+` also matches the final "a" of a day name followed by a space | "segunda a sexta" becomes "segund a a sexta" and yields no working day | only the word "a" between spaces marks a range, giving Monday to Friday | high, not executed | DateTimePicker.MondayToFridayAsWritten | DateTimePicker.MondayToFriday |
| src/components/DateTimePicker.jsx:47 | the connective "às" is deleted, gluing "18:" to "22:" | "18h às 22h" yields no interval, so no slot is ever offered | the connective separates start and end: 18:00 to 22:00 | high, not executed | DateTimePicker.ConnectiveAsWritten | DateTimePicker.ConnectiveAsDash |
| src/components/Header.jsx:28 | every letter "e" becomes a comma | "seg" becomes "s,g" and lists no day, so the store always shows closed | only the conjunction "e" between spaces separates days | high, not executed | Header.MondayAsWritten | Header.Monday |
| src/components/Header.jsx:38 | the range pattern with `\s*` matches an inner "a" of a single name | "sab" is read as the range "s" to "b" and lists no day | a range needs the word "a" between spaces, so "sab" is Saturday | high, not executed | Header.SaturdayAsWritten | Header.Saturday |
| src/components/Header.jsx:58-59 | letters are removed before the connectives become dashes, so "às" is lost | "18h às 22h" normalises to "1822", never matches, and the store always shows closed | the connective becomes the dash, "18-22", open from 18:00 to 22:00 | high, not executed | Header.ConnectiveDroppedAsWritten | Header.ConnectiveAsDash |

=== FILE: api_index.dfy ===
/** The single serverless API handler (api/index.js): GET serves a tenant's
    menu tabs, POST appends an order row to the tenant's order sheet, any
    other method is refused. The spreadsheet service is a pair of
    parameters: `read(sheetId, range)` and the success flag of the append. */
module ApiIndex {
  import opened Text
  import opened Seqs
  import opened Js
  import opened Sheets
  import opened Orders
  import opened Currency
  import CheckoutForm

  /** The handler's own `parseCurrency` (nothing in the handler calls it):
      numbers pass through, anything that is not a string is 0, otherwise the
      first `R$` is removed, the text trimmed, the first comma made the decimal
      point and the result parsed, NaN becoming 0. */
  function ParseCurrency(v: Value): (r: real)
    ensures v.Num? ==> r == v.n
    ensures v.Undefined? ==> r == 0.0
  {
    match v
    case Num(n) => n
    case Undefined => 0.0
    case Str(s) =>
      var cleaned := ReplaceFirst(Trim(ReplaceFirst(s, "R$", "")), ",", ".");
      if ParseFloat(cleaned).None? then 0.0 else ParseFloat(cleaned).value
  }

  /** The handler's parser is the checkout form's on every input, so it also
      reads group-separated prices of a thousand reais or more wrongly. */
  lemma {:induction false} SameAsCheckout(v: Value)
    ensures ParseCurrency(v) == CheckoutForm.ParseCurrency(v)
  {
  }

  /** Prices below a thousand reais in the currency format read back exactly. */
  lemma {:induction false} ReadsSmallBrlText(amount: nat)
    requires amount < 100000
    ensures ParseCurrency(Str(BrlText(amount))) == amount as real / 100.0
  {
    SameAsCheckout(Str(BrlText(amount)));
    CheckoutForm.ReadsSmallBrlText(amount);
  }

  /** An incoming request, after JSON decoding of query and body. */
  datatype Request =
    | GetMenu(slug: Option<string>)
    | PostOrder(orderData: Option<OrderData>, slug: Option<string>)
    | OtherMethod(verb: string)

  /** The master-sheet tab GET reads. */
  const CompaniesTab := "Empresas"
  /** The master-sheet tab POST reads. */
  const OrdersMasterTab := "P\U{00E1}gina1"
  const OrdersRange := "Pedidos!A:N"

  predicate HasKeyCell(row: Row) {
    |row| > 0 && row[0] != ""
  }

  /** The customizations tab as a key/value table: the header row and rows
      whose first cell is empty are skipped; the value defaults to ''. */
  function Customizations(rows: seq<Row>): (r: map<string, string>)
    ensures forall k :: k in r <==> Heads(rows, 1, HasKeyCell, k)
  {
    var kept := Filter(DropHeader(rows), HasKeyCell);
    KeptFirstCells(rows, HasKeyCell);
    KeyValueTable(kept)
  }

  /** The value of a customization is the second cell of the last row with its key. */
  lemma {:induction false} CustomizationValue(rows: seq<Row>, i: nat)
    requires 1 <= i < |rows| && HasKeyCell(rows[i])
    requires forall j :: i < j < |rows| && |rows[j]| > 0 ==> rows[j][0] != rows[i][0]
    ensures Customizations(rows)[rows[i][0]] == CellAt(rows[i], 1)
  {
    var body := rows[1..];
    assert rows[i] == body[i - 1];
    FilterAppend(body[..i - 1], body[i - 1..], HasKeyCell);
    assert body == body[..i - 1] + body[i - 1..];
    assert body[i - 1..] == [rows[i]] + body[i..];
    FilterAppend([rows[i]], body[i..], HasKeyCell);
    var kept := Filter(body, HasKeyCell);
    var p := |Filter(body[..i - 1], HasKeyCell)|;
    assert kept[p] == rows[i];
    forall j | p < j < |kept|
      ensures kept[j][0] != kept[p][0]
    {
      assert kept[j] in Filter(body[i..], HasKeyCell);
      FilterMembers(body[i..], HasKeyCell, kept[j]);
    }
    KeyValueTableLast(kept, p);
  }

  /** The 14 cells (columns A to N) of an order row, with the payment method
      translated to its label. */
  function NewRow(order: OrderData, orderId: string, date: string): (r: seq<Cell>)
    ensures |r| == 14
    ensures r[3] == TextCell("Retirada") <==> order.deliveryType == "pickup"
    ensures r[3] == TextCell("Entrega") <==> order.deliveryType != "pickup"
    ensures r[6] == TextCell(PaymentLabel(order.paymentMethod))
    ensures r[13] == TextCell("Novo")
    ensures order.address.None? ==> r[4] == TextCell("")
    ensures order.address.Some? ==> r[4] == TextCell(order.address.value)
    ensures r[5] == TextCell(order.observations)
    ensures order.coupon.None? ==> r[11] == TextCell("")
    ensures order.coupon.Some? ==> r[11] == TextCell(order.coupon.value)
  {
    [ TextCell(orderId), TextCell(date), TextCell(order.customerName),
      TextCell(if order.deliveryType == "pickup" then "Retirada" else "Entrega"),
      TextCell(TextOr(order.address)), TextCell(order.observations),
      TextCell(PaymentLabel(order.paymentMethod)), TextCell(""),
      TextCell(ItemsString(order.cart)), NumberCell(order.subtotal),
      NumberCell(order.deliveryFee), TextCell(TextOr(order.coupon)),
      NumberCell(order.total), TextCell("Novo") ]
  }

  function NotFound(slug: string): Body {
    Error("Empresa '" + slug + "' n\U{00E3}o encontrada.")
  }

  /** GET: the tenant's products, add-ons, coupons and customizations. */
  function HandleGet(slug: Option<string>, masterId: string, read: (string, string) -> Fetch<seq<Row>>): (r: Outcome)
    ensures r.appended.None?
    ensures r.response.status == 400 <==> Missing(slug)
    ensures r.response.status == 200 <==>
      !Missing(slug) && read(masterId, CompaniesTab).Got?
      && TenantLink(RowsToObjects(read(masterId, CompaniesTab).value), slug.value).Some?
      && TabsRead(read, TenantLink(RowsToObjects(read(masterId, CompaniesTab).value), slug.value).value)
    ensures r.response.status == 200 ==>
      var sheet := TenantLink(RowsToObjects(read(masterId, CompaniesTab).value), slug.value).value;
      r.response.body == Menu(RowsToObjects(read(sheet, "Produtos").value),
                              RowsToObjects(read(sheet, "Acompanhamentos").value),
                              RowsToObjects(read(sheet, "Cupons").value),
                              Customizations(read(sheet, "Customiza\U{00E7}\U{00F5}es").value))
    ensures r.response.status == 404 <==>
      !Missing(slug) && read(masterId, CompaniesTab).Got?
      && TenantLink(RowsToObjects(read(masterId, CompaniesTab).value), slug.value).None?
    ensures r.response.status == 500 <==>
      !Missing(slug) && (read(masterId, CompaniesTab).Failed?
                         || (TenantLink(RowsToObjects(read(masterId, CompaniesTab).value), slug.value).Some?
                             && !TabsRead(read, TenantLink(RowsToObjects(read(masterId, CompaniesTab).value), slug.value).value)))
    ensures r.response.status in {200, 400, 404, 500}
  {
    if Missing(slug) then Outcome(Response(400, Error("Slug da empresa \U{00E9} obrigat\U{00F3}rio.")), None)
    else
      var failed := Outcome(Response(500, Error("Falha ao buscar dados do card\U{00E1}pio.")), None);
      match read(masterId, CompaniesTab)
      case Failed => failed
      case Got(masterRows) =>
        match TenantLink(RowsToObjects(masterRows), slug.value)
        case None => Outcome(Response(404, NotFound(slug.value)), None)
        case Some(sheet) =>
          var products, extras := read(sheet, "Produtos"), read(sheet, "Acompanhamentos");
          var coupons, settings := read(sheet, "Cupons"), read(sheet, "Customiza\U{00E7}\U{00F5}es");
          if products.Failed? || extras.Failed? || coupons.Failed? || settings.Failed? then failed
          else
            Outcome(Response(200, Menu(RowsToObjects(products.value), RowsToObjects(extras.value),
                                       RowsToObjects(coupons.value), Customizations(settings.value))), None)
  }

  /** POST: append the order to the tenant's order sheet. */
  function HandlePost(orderData: Option<OrderData>, slug: Option<string>, masterId: string,
                      read: (string, string) -> Fetch<seq<Row>>, appendOk: bool,
                      timestamp: int, date: string): (r: Outcome)
    ensures r.response.status == 400 <==> orderData.None? || Missing(slug)
    ensures r.appended.Some? ==>
      orderData.Some? && !Missing(slug) && read(masterId, OrdersMasterTab).Got?
      && TenantLink(RowsToObjects(read(masterId, OrdersMasterTab).value), slug.value) == Some(r.appended.value.sheetId)
      && r.appended.value.range == OrdersRange
      && r.appended.value.row == NewRow(orderData.value, OrderId(timestamp), date)
    ensures r.response.status == 200 <==> r.appended.Some? && appendOk
    ensures r.response.status == 404 <==>
      orderData.Some? && !Missing(slug) && read(masterId, OrdersMasterTab).Got?
      && TenantLink(RowsToObjects(read(masterId, OrdersMasterTab).value), slug.value).None?
    ensures orderData.Some? && !Missing(slug) && read(masterId, OrdersMasterTab).Got?
            && TenantLink(RowsToObjects(read(masterId, OrdersMasterTab).value), slug.value).Some? ==>
      r.appended == Some(Append(TenantLink(RowsToObjects(read(masterId, OrdersMasterTab).value), slug.value).value, OrdersRange,
                                NewRow(orderData.value, OrderId(timestamp), date)))
    ensures r.response.status == 500 <==>
      orderData.Some? && !Missing(slug)
      && (read(masterId, OrdersMasterTab).Failed? || (TenantLink(RowsToObjects(read(masterId, OrdersMasterTab).value), slug.value).Some? && !appendOk))
    ensures r.response.status in {200, 400, 404, 500}
  {
    if orderData.None? || Missing(slug) then
      Outcome(Response(400, Error("Dados do pedido ou slug faltando.")), None)
    else
      var failed := Response(500, Error("Falha ao salvar o pedido."));
      match read(masterId, OrdersMasterTab)
      case Failed => Outcome(failed, None)
      case Got(masterRows) =>
        match TenantLink(RowsToObjects(masterRows), slug.value)
        case None => Outcome(Response(404, NotFound(slug.value)), None)
        case Some(sheet) =>
          var append := Append(sheet, OrdersRange, NewRow(orderData.value, OrderId(timestamp), date));
          if appendOk then Outcome(Response(200, Saved("Pedido salvo com sucesso!")), Some(append))
          else Outcome(failed, Some(append))
  }

  /** The handler's dispatch on the request method. */
  function Handle(req: Request, masterId: string, read: (string, string) -> Fetch<seq<Row>>,
                  appendOk: bool, timestamp: int, date: string): (r: Outcome)
    ensures r.response.status == 405 <==> req.OtherMethod?
    ensures r.response.status == 400 <==>
      (req.GetMenu? && Missing(req.slug)) || (req.PostOrder? && (req.orderData.None? || Missing(req.slug)))
    ensures r.appended.Some? ==> req.PostOrder?
  {
    match req
    case GetMenu(slug) => HandleGet(slug, masterId, read)
    case PostOrder(orderData, slug) => HandlePost(orderData, slug, masterId, read, appendOk, timestamp, date)
    case OtherMethod(_) => Outcome(Response(405, Error("M\U{00E9}todo n\U{00E3}o permitido.")), None)
  }

  /** The items column of an order row splits back into one summary per cart line. */
  lemma {:induction false} NewRowItemsColumn(order: OrderData, orderId: string, date: string)
    requires |order.cart| >= 1 && BarFreeNames(order.cart)
    ensures NewRow(order, orderId, date)[8].TextCell?
    ensures SplitOn(NewRow(order, orderId, date)[8].text, " | ") == Map(order.cart, ItemText)
  {
    ItemsStringSplits(order.cart);
  }
}

=== FILE: checkout_form.dfy ===
/** The checkout page (src/components/CheckoutForm.jsx): the delivery fee and
    the final total, the coupon button, the PIX button, the order payload the
    page posts, and the WhatsApp message it opens afterwards. The cart engine
    is an input seen only through the fields the page reads; `formatCurrency`,
    `encodeURIComponent`, the clipboard and the POST itself are parameters. */
module CheckoutForm {
  import opened Text
  import opened Seqs
  import opened Js
  import opened Currency
  import opened Orders
  import ProductCard
  import Middleware

  // ---------------------------------------------------------------------------
  // Prices
  // ---------------------------------------------------------------------------

  /** The text handed to `parseFloat`: the first `R$` removed, trimmed and the
      first comma made the decimal point. Points are kept. */
  function Cleaned(s: string): string {
    ReplaceFirst(Trim(ReplaceFirst(s, "R$", "")), ",", ".")
  }

  /** This component's `parseCurrency`: numbers pass through, anything that
      is not a string is 0, text is cleaned and parsed, NaN becomes 0. */
  function ParseCurrency(v: Value): (r: real)
    ensures v.Num? ==> r == v.n
    ensures v.Undefined? ==> r == 0.0
    ensures v.Str? && ParseFloat(Cleaned(v.s)).None? ==> r == 0.0
  {
    match v
    case Num(n) => n
    case Undefined => 0.0
    case Str(s) => ParseFloat(Cleaned(s)).GetOr(0.0)
  }

  lemma {:induction false} CleanedBrlText(amount: nat)
    ensures Cleaned(BrlText(amount)) == Grouped(amount / 100) + "." + Cents(amount)
  {
    BrlBody(amount);
    GroupedLacks(amount / 100, ',');
    ReplaceFirstComma(Grouped(amount / 100), Cents(amount));
  }

  /** A price below a thousand reais in the currency format reads back as its amount. */
  lemma {:induction false} ReadsSmallBrlText(amount: nat)
    requires amount < 100000
    ensures ParseCurrency(Str(BrlText(amount))) == amount as real / 100.0
  {
    var n := amount / 100;
    CleanedBrlText(amount);
    GroupedSmall(n);
    NatToStringValue(n);
    ParseFloatCents(NatToString(n), amount);
  }

  /** The reais below a million: the thousands, a point and three digits. */
  lemma {:induction false} GroupedThousands(n: nat)
    requires 1000 <= n < 1000000
    ensures Grouped(n) == NatToString(n / 1000) + "." + PadThree(NatToString(n % 1000))
    ensures |PadThree(NatToString(n % 1000))| == 3 && AllDigits(PadThree(NatToString(n % 1000)))
    ensures DigitsValue(PadThree(NatToString(n % 1000))) == n % 1000
  {
    GroupedSmall(n / 1000);
    ShortNumeral(n % 1000);
    PadThreeValue(NatToString(n % 1000));
    NatToStringValue(n % 1000);
  }

  lemma {:induction false} NumeralThousandths(w: string, t: string, n: nat)
    requires AllDigits(w) && AllDigits(t) && |t| == 3
    requires DigitsValue(w) == n / 1000 && DigitsValue(t) == n % 1000
    ensures Numeral(w, t, 0) == n as real / 1000.0
  {
    NumeralUnscaled(w, t);
    assert Pow10(|t|) == 1000;
    Thousandths(n / 1000, n % 1000, n);
  }

  lemma {:induction false} Thousandths(q: nat, r: nat, n: nat)
    requires n == q * 1000 + r
    ensures q as real + r as real / 1000.0 == n as real / 1000.0
  {
    assert n as real == q as real * 1000.0 + r as real;
    assert (q as real * 1000.0) / 1000.0 == q as real;
  }

  /** The cleaned text of a price from a thousand reais on: the thousands, a
      point, three digits, a point and the centavos. */
  lemma {:induction false} CleanedGroupedBrlText(amount: nat)
    requires 100000 <= amount < 100000000
    ensures Cleaned(BrlText(amount))
         == NatToString(amount / 100 / 1000) + "." + PadThree(NatToString(amount / 100 % 1000)) + "." + Cents(amount)
  {
    CleanedBrlText(amount);
    GroupedThousands(amount / 100);
  }

  /** From a thousand reais on, the group point is read as the decimal point
      and the rest is ignored: `R$ 1.234,56` reads as 1.234. */
  lemma {:induction false} GroupedBrlTextShrinks(amount: nat)
    requires 100000 <= amount < 100000000
    ensures ParseCurrency(Str(BrlText(amount))) == (amount / 100) as real / 1000.0
  {
    var n := amount / 100;
    var w, t := NatToString(n / 1000), PadThree(NatToString(n % 1000));
    CleanedGroupedBrlText(amount);
    GroupedThousands(n);
    NatToStringValue(n / 1000);
    ParseStopsAtSecondPoint(w, t, Cents(amount));
    NumeralThousandths(w, t, n);
  }

  /** `parseFloat` stops at the second point. */
  lemma {:induction false} ParseStopsAtSecondPoint(w: string, t: string, f: string)
    requires |w| >= 1 && AllDigits(w) && AllDigits(t)
    ensures ParseFloat(w + "." + t + "." + f) == Some(Numeral(w, t, 0))
  {
    var tail := "." + f;
    assert EndsFraction(tail);
    assert w + "." + t + "." + f == w + "." + t + tail;
    ParseFloatPointed(w, t, tail);
  }

  /** The card's parser and this one agree on prices below a thousand reais
      and part ways from there on. */
  lemma {:induction false} AgreesWithCardBelowThousand(amount: nat)
    requires amount < 100000000
    ensures ParseCurrency(Str(BrlText(amount))) == ProductCard.ParseCurrency(Str(BrlText(amount)))
        <==> amount < 100000
  {
    ProductCard.ReadsBrlText(amount);
    if amount < 100000 {
      ReadsSmallBrlText(amount);
    } else {
      GroupedBrlTextShrinks(amount);
      var n := amount / 100;
      assert n as real / 1000.0 < amount as real / 100.0 by {
        assert n >= 1000;
        assert (n * 100) as real <= amount as real;
      }
    }
  }

  /** Two-decimal text with a point reads back as its amount (the card's
      parser drops that point). */
  lemma {:induction false} ReadsDecimalText(hundredths: nat)
    ensures ParseCurrency(Str(DecimalText(hundredths))) == hundredths as real / 100.0
  {
    var s := DecimalText(hundredths);
    DecimalTextPlain(hundredths);
    ReplaceFirstNoComma(s);
    assert s + "" == s;
    ParseFloatDecimalText(hundredths, "");
  }

  const FeeField := "Taxa Entrega"

  /** `deliveryFee`: the store's delivery fee (text, '0' when missing or
      empty) for a delivery, nothing for a pickup. */
  function DeliveryFee(deliveryType: string, customizations: Record): (r: real)
    ensures deliveryType != "delivery" ==> r == 0.0
    ensures deliveryType == "delivery" ==> r == ParseCurrency(Str(OrElse(customizations, FeeField, "0")))
  {
    if deliveryType == "delivery" then ParseCurrency(Str(OrElse(customizations, FeeField, "0"))) else 0.0
  }

  /** A store without a fee delivers for free. */
  lemma {:induction false} DeliveryFreeWithoutFee(customizations: Record)
    requires FeeField !in customizations || customizations[FeeField] == ""
    ensures DeliveryFee("delivery", customizations) == 0.0
  {
    ReadsZero();
  }

  /** The fee of a delivery is the store's fee as listed. */
  lemma {:induction false} DeliveryFeeAsListed(customizations: Record, amount: nat)
    requires amount < 100000
    requires FeeField in customizations && customizations[FeeField] == BrlText(amount)
    ensures DeliveryFee("delivery", customizations) == amount as real / 100.0
  {
    ReadsSmallBrlText(amount);
  }

  lemma {:induction false} ReadsZero()
    ensures ParseCurrency(Str("0")) == 0.0
  {
    assert "0"[0] == '0' && "R$"[0] == 'R';
    assert !OccursAt("0", "R$", 0) && !OccursAt("0", "R$", 1);
    assert ReplaceFirst("0", "R$", "") == "0";
    TrimOfTrimmed("0");
    ReplaceFirstNoComma("0");
    assert "0" == "0" + "";
    ParseFloatWhole("0", "");
  }

  // ---------------------------------------------------------------------------
  // Buttons
  // ---------------------------------------------------------------------------

  datatype CouponOutcome = Ignored | Applied | Rejected

  /** `handleApplyCoupon`: an empty code is ignored without asking the cart;
      otherwise the cart's `applyCoupon` decides. */
  function ApplyCoupon(code: string, applyCoupon: string -> bool): (r: CouponOutcome)
    ensures r.Ignored? <==> code == ""
    ensures r.Applied? <==> code != "" && applyCoupon(code)
  {
    if code == "" then Ignored else if applyCoupon(code) then Applied else Rejected
  }

  /** The toast each coupon outcome shows. */
  function CouponToast(r: CouponOutcome): (t: Option<string>)
    ensures t.None? <==> r.Ignored?
  {
    match r
    case Ignored => None
    case Applied => Some("Cupom aplicado com sucesso!")
    case Rejected => Some("Cupom inv\U{00E1}lido ou expirado.")
  }

  const PixField := "C\U{00F3}digo PIX"

  /** `customizations['Código PIX']` when it is truthy. */
  function PixCode(customizations: Record): (r: Option<string>)
    ensures r.Some? <==> PixField in customizations && customizations[PixField] != ""
    ensures r.Some? ==> r.value == customizations[PixField]
  {
    if PixField in customizations && customizations[PixField] != "" then Some(customizations[PixField]) else None
  }

  /** `handlePixClick`: PIX becomes the payment method, and the store's PIX
      code, when it has one, is what goes to the clipboard. The payment block
      of the message then shows a PIX key exactly when a code was copied, and
      it is the copied code. */
  function PixClick(customizations: Record): (r: (string, Option<string>))
    ensures r.0 == "pix"
    ensures r.1.Some? <==> PixField in customizations && customizations[PixField] != ""
    ensures r.1.Some? ==> r.1.value == customizations[PixField]
    ensures Any(PaymentLines(r.0, customizations), IsPixKey) <==> r.1.Some?
    ensures r.1.Some? ==> PixKey(r.1.value) in PaymentLines(r.0, customizations)
  {
    PaymentSection("pix", customizations, IsPixKey);
    ("pix", PixCode(customizations))
  }

  // ---------------------------------------------------------------------------
  // The WhatsApp message
  // ---------------------------------------------------------------------------

  /** What the page reads of the cart engine. */
  datatype Cart = Cart(items: seq<CartItem>, subtotal: real, discount: real, total: real, coupon: Option<Record>)

  /** One line of the message, by what it says. */
  datatype Line =
    | Title
    | Blank
    | Customer(name: string)
    | OrderHeading
    | ItemHead(quantity: int, name: string)
    | OptionLine(quantity: int, name: string)
    | NotesHeading
    | Notes(text: string)
    | SummaryHeading
    | Subtotal(amount: string)
    | Discount(code: string, amount: string)
    | Fee(amount: string)
    | Total(amount: string)
    | PaymentHeading
    | Method(name: string)
    | PixKey(code: string)
    | PixNote
    | DeliveryHeading
    | Address(text: string)
    | PickupHeading
    | OnSite
    | Sent
    | Thanks

  /** The text of a line. */
  function Render(l: Line): string {
    match l
    case Title => "\U{1F4F1} *PEDIDO NA TELA DA FOME!* \U{1F60B}"
    case Blank => ""
    case Customer(name) => "*\U{1F464} Cliente:* " + name
    case OrderHeading => "*\U{1F6D2} Pedido:*"
    case ItemHead(q, name) => "\U{2022} " + IntToString(q) + "x *" + name + "*"
    case OptionLine(q, name) => "   \U{2514} " + IntToString(q) + "x " + name
    case NotesHeading => "*\U{270F}\U{FE0F} Observa\U{00E7}\U{00F5}es:*"
    case Notes(text) => "_" + text + "_"
    case SummaryHeading => "*\U{1F4B0} Resumo do Pagamento:*"
    case Subtotal(a) => "Subtotal: " + a
    case Discount(code, a) => "Desconto (" + code + "): -" + a
    case Fee(a) => "Taxa de entrega: " + a
    case Total(a) => "\U{27A1}\U{FE0F} *Total: " + a + "*"
    case PaymentHeading => "*\U{1F4B3} Forma de Pagamento:*"
    case Method(name) => name
    case PixKey(code) => "*Chave PIX:* " + code
    case PixNote => "_(Por favor, envie o " + "comprovante ap\U{00F3}s o pagamento)_"
    case DeliveryHeading => "*\U{1F4CD} Endere\U{00E7}o de Entrega:*"
    case Address(text) => text
    case PickupHeading => "*\U{1F6CD}\U{FE0F} Retirada:*"
    case OnSite => "No local"
    case Sent => "\U{2705} Pedido enviado com sucesso!"
    case Thanks => "Aguarde nossa confirma\U{00E7}\U{00E3}o. " + "Obrigado pela prefer\U{00EA}ncia! \U{1F64F}\U{1F60A}"
  }

  function OptionOf(o: ChosenOption): Line {
    OptionLine(o.quantity, Show(o.fields, "Nome"))
  }

  /** An item's head line followed by one line per add-on. */
  function ItemBlock(item: CartItem): (r: seq<Line>)
    ensures |r| == 1 + |item.options|
  {
    [ItemHead(item.mainQuantity, Show(item.product, "Nome"))] + Map(item.options, OptionOf)
  }

  /** The lines of every cart item, in cart order. */
  function ItemLines(items: seq<CartItem>): (r: seq<Line>)
    ensures forall i :: 0 <= i < |r| ==> r[i].ItemHead? || r[i].OptionLine?
  {
    if |items| == 0 then [] else ItemBlock(items[0]) + ItemLines(items[1..])
  }

  function BlockSize(item: CartItem): int {
    1 + |item.options|
  }

  /** Where the block of item `k` starts. */
  function Offset(items: seq<CartItem>, k: nat): int
    requires k <= |items|
  {
    Sum(items[..k], BlockSize)
  }

  lemma {:induction false} ItemLinesLength(items: seq<CartItem>)
    ensures |ItemLines(items)| == Sum(items, BlockSize)
    decreases |items|
  {
    if |items| > 0 {
      ItemLinesLength(items[1..]);
    }
  }

  lemma {:induction false} OffsetStep(items: seq<CartItem>, k: nat)
    requires 1 <= k <= |items|
    ensures Offset(items, k) == BlockSize(items[0]) + Offset(items[1..], k - 1)
  {
    assert items[..k][1..] == items[1..][..k - 1];
  }

  /** The lines of the first item open the item lines. */
  lemma {:induction false} FirstBlock(items: seq<CartItem>)
    requires |items| > 0
    ensures ItemLines(items)[..BlockSize(items[0])] == ItemBlock(items[0])
    ensures |ItemLines(items)| >= BlockSize(items[0])
  {
    assert ItemLines(items) == ItemBlock(items[0]) + ItemLines(items[1..]);
  }

  /** After the first item's lines come the lines of the others. */
  lemma {:induction false} LaterBlocks(items: seq<CartItem>, x: nat)
    requires |items| > 0 && x < |ItemLines(items[1..])|
    ensures BlockSize(items[0]) + x < |ItemLines(items)|
    ensures ItemLines(items)[BlockSize(items[0]) + x] == ItemLines(items[1..])[x]
  {
    assert ItemLines(items) == ItemBlock(items[0]) + ItemLines(items[1..]);
  }

  /** Item `k`'s block lies inside the item lines, its head line first. */
  lemma {:induction false} HeadAtOffset(items: seq<CartItem>, k: nat)
    requires k < |items|
    ensures 0 <= Offset(items, k) && Offset(items, k) + BlockSize(items[k]) <= |ItemLines(items)|
    ensures ItemLines(items)[Offset(items, k)] == ItemHead(items[k].mainQuantity, Show(items[k].product, "Nome"))
    decreases |items|
  {
    if k == 0 {
      assert items[..0] == [];
      FirstBlock(items);
    } else {
      var rest := items[1..];
      HeadAtOffset(rest, k - 1);
      OffsetStep(items, k);
      assert rest[k - 1] == items[k];
      LaterBlocks(items, Offset(rest, k - 1));
      ItemLinesLength(items);
      ItemLinesLength(rest);
    }
  }

  /** Item `k`'s add-ons follow its head line in order. */
  lemma {:induction false} OptionsAfterHead(items: seq<CartItem>, k: nat, j: nat)
    requires k < |items| && j < |items[k].options|
    ensures 0 <= Offset(items, k) && Offset(items, k) + 1 + j < |ItemLines(items)|
    ensures ItemLines(items)[Offset(items, k) + 1 + j] == OptionOf(items[k].options[j])
    decreases |items|
  {
    if k == 0 {
      FirstOptions(items, j);
    } else {
      assert items[1..][k - 1] == items[k];
      OptionsAfterHead(items[1..], k - 1, j);
      LaterOptions(items, k, j);
    }
  }

  /** The add-ons of a later item sit one block further on than in the rest of the list. */
  lemma {:induction false} LaterOptions(items: seq<CartItem>, k: nat, j: nat)
    requires 0 < k < |items| && j < |items[k].options|
    requires 0 <= Offset(items[1..], k - 1) && Offset(items[1..], k - 1) + 1 + j < |ItemLines(items[1..])|
    requires ItemLines(items[1..])[Offset(items[1..], k - 1) + 1 + j] == OptionOf(items[1..][k - 1].options[j])
    ensures 0 <= Offset(items, k) && Offset(items, k) + 1 + j < |ItemLines(items)|
    ensures ItemLines(items)[Offset(items, k) + 1 + j] == OptionOf(items[k].options[j])
  {
    OffsetStep(items, k);
    LaterBlocks(items, Offset(items[1..], k - 1) + 1 + j);
  }

  lemma {:induction false} FirstOptions(items: seq<CartItem>, j: nat)
    requires |items| > 0 && j < |items[0].options|
    ensures Offset(items, 0) == 0 && 1 + j < |ItemLines(items)|
    ensures ItemLines(items)[1 + j] == OptionOf(items[0].options[j])
  {
    assert items[..0] == [];
    FirstBlock(items);
    assert ItemLines(items)[1 + j] == ItemBlock(items[0])[1 + j];
  }

  /** Item `k`'s head line sits at its offset and its add-ons follow it in
      order; all blocks together fill the item lines. */
  lemma {:induction false} ItemLinesLayout(items: seq<CartItem>, k: nat)
    requires k < |items|
    ensures |ItemLines(items)| == Offset(items, |items|)
    ensures 0 <= Offset(items, k) && Offset(items, k) + BlockSize(items[k]) <= |ItemLines(items)|
    ensures ItemLines(items)[Offset(items, k)] == ItemHead(items[k].mainQuantity, Show(items[k].product, "Nome"))
    ensures forall j :: 0 <= j < |items[k].options| ==>
      ItemLines(items)[Offset(items, k) + 1 + j] == OptionOf(items[k].options[j])
  {
    assert items[..|items|] == items;
    ItemLinesLength(items);
    HeadAtOffset(items, k);
    forall j | 0 <= j < |items[k].options|
      ensures ItemLines(items)[Offset(items, k) + 1 + j] == OptionOf(items[k].options[j])
    {
      OptionsAfterHead(items, k, j);
    }
  }

  /** The notes block, present only for non-empty observations. */
  function NotesLines(observations: string): seq<Line> {
    if observations != "" then [Blank, NotesHeading, Notes(observations)] else []
  }

  /** `cart.coupon['Código']`: None when there is no coupon to read (a TypeError). */
  function CouponCode(coupon: Option<Record>): Option<string> {
    if coupon.Some? then Some(Show(coupon.value, "C\U{00F3}digo")) else None
  }

  /** The payment summary; None when a discount has no coupon to name. */
  function SummaryLines(cart: Cart, delivery: bool, deliveryFee: real, finalTotal: real,
                        formatCurrency: real -> string): (r: Option<seq<Line>>)
    ensures r.None? <==> cart.discount > 0.0 && cart.coupon.None?
  {
    if cart.discount > 0.0 && cart.coupon.None? then None
    else
      var discount := if cart.discount > 0.0
        then [Discount(CouponCode(cart.coupon).value, formatCurrency(cart.discount))] else [];
      var fee := if delivery then [Fee(formatCurrency(deliveryFee))] else [];
      Some([Blank, SummaryHeading, Subtotal(formatCurrency(cart.subtotal))] + discount + fee
           + [Total(formatCurrency(finalTotal)), Blank])
  }

  /** The payment method's label, then the PIX key and a reminder when paying
      by PIX to a store with a PIX code. */
  function PaymentLines(paymentMethod: string, customizations: Record): seq<Line> {
    [PaymentHeading, Method(PaymentLabel(paymentMethod))]
      + if paymentMethod == "pix" && PixCode(customizations).Some?
        then [PixKey(PixCode(customizations).value), PixNote] else []
  }

  /** `${orderData.address}`. */
  function AddressText(address: Option<string>): string {
    if address.Some? then address.value else "null"
  }

  /** Where the order goes: the address for a delivery, the counter otherwise. */
  function DestinationLines(order: OrderData): seq<Line> {
    if order.deliveryType == "delivery" then [Blank, DeliveryHeading, Address(AddressText(order.address))]
    else [Blank, PickupHeading, OnSite]
  }

  /** The title and the customer's name, up to the order heading. */
  function Head(customerName: string): seq<Line> {
    [Title, Blank, Customer(customerName), Blank, OrderHeading]
  }

  const Closing: seq<Line> := [Blank, Sent, Thanks]

  /** The `messageParts` of `generateWhatsAppMessage`, or None when it throws. */
  function MessageLines(order: OrderData, cart: Cart, deliveryFee: real, finalTotal: real,
                       formatCurrency: real -> string, customizations: Record): (r: Option<seq<Line>>)
    ensures r.None? <==> cart.discount > 0.0 && cart.coupon.None?
    ensures r.Some? ==> |r.value| >= 8 && r.value[..3] == [Title, Blank, Customer(order.customerName)]
    ensures r.Some? ==> r.value[|r.value| - 3..] == Closing
  {
    match SummaryLines(cart, order.deliveryType == "delivery", deliveryFee, finalTotal, formatCurrency)
    case None => None
    case Some(summary) =>
      Some(Head(order.customerName) + ItemLines(order.cart)
           + NotesLines(order.observations) + summary + PaymentLines(order.paymentMethod, customizations)
           + DestinationLines(order) + Closing)
  }

  /** The message text: the rendered lines joined by newlines. */
  function Message(order: OrderData, cart: Cart, deliveryFee: real, finalTotal: real,
                  formatCurrency: real -> string, customizations: Record): (r: Option<string>)
    ensures r.Some? <==> MessageLines(order, cart, deliveryFee, finalTotal, formatCurrency, customizations).Some?
  {
    match MessageLines(order, cart, deliveryFee, finalTotal, formatCurrency, customizations)
    case None => None
    case Some(lines) => Some(Join(Map(lines, Render), "\n"))
  }

  /** The message's sections in order. */
  lemma {:induction false} MessageShape(order: OrderData, cart: Cart, deliveryFee: real, finalTotal: real,
                    formatCurrency: real -> string, customizations: Record)
    requires MessageLines(order, cart, deliveryFee, finalTotal, formatCurrency, customizations).Some?
    ensures MessageLines(order, cart, deliveryFee, finalTotal, formatCurrency, customizations).value
         == Head(order.customerName) + ItemLines(order.cart) + NotesLines(order.observations)
            + SummaryLines(cart, order.deliveryType == "delivery", deliveryFee, finalTotal, formatCurrency).value
            + PaymentLines(order.paymentMethod, customizations) + DestinationLines(order) + Closing
  {
  }

  /** Some line of `lines` satisfies `p`. */
  predicate Any(lines: seq<Line>, p: Line -> bool) {
    exists i :: 0 <= i < |lines| && p(lines[i])
  }

  lemma {:induction false} AnyAppend(a: seq<Line>, b: seq<Line>, p: Line -> bool)
    ensures Any(a + b, p) <==> Any(a, p) || Any(b, p)
  {
    if Any(a, p) {
      var i :| 0 <= i < |a| && p(a[i]);
      assert (a + b)[i] == a[i];
    }
    if Any(b, p) {
      var i :| 0 <= i < |b| && p(b[i]);
      assert (a + b)[|a| + i] == b[i];
    }
    if Any(a + b, p) {
      var i :| 0 <= i < |a + b| && p((a + b)[i]);
      if i < |a| {
        assert (a + b)[i] == a[i];
      } else {
        assert (a + b)[i] == b[i - |a|];
      }
    }
  }

  /** The message split into its sections, with the facts the section lemmas
      need about each. */
  lemma {:induction false} Sections(order: OrderData, cart: Cart, deliveryFee: real, finalTotal: real,
                                    formatCurrency: real -> string, customizations: Record, p: Line -> bool)
    requires MessageLines(order, cart, deliveryFee, finalTotal, formatCurrency, customizations).Some?
    requires forall l: Line :: (l.Title? || l.Blank? || l.Customer? || l.OrderHeading? || l.ItemHead? || l.OptionLine?
                               || l.Sent? || l.Thanks?) ==> !p(l)
    ensures var lines := MessageLines(order, cart, deliveryFee, finalTotal, formatCurrency, customizations).value;
      var summary := SummaryLines(cart, order.deliveryType == "delivery", deliveryFee, finalTotal, formatCurrency).value;
      Any(lines, p) <==>
        Any(NotesLines(order.observations), p) || Any(summary, p)
        || Any(PaymentLines(order.paymentMethod, customizations), p) || Any(DestinationLines(order), p)
  {
    var summary := SummaryLines(cart, order.deliveryType == "delivery", deliveryFee, finalTotal, formatCurrency).value;
    var head := Head(order.customerName);
    var items := ItemLines(order.cart);
    var notes := NotesLines(order.observations);
    var pay := PaymentLines(order.paymentMethod, customizations);
    var dest := DestinationLines(order);
    assert !Any(items, p);
    assert !Any(head, p);
    assert !Any(Closing, p);
    AnyAppend(head, items, p);
    AnyAppend(head + items, notes, p);
    AnyAppend(head + items + notes, summary, p);
    AnyAppend(head + items + notes + summary, pay, p);
    AnyAppend(head + items + notes + summary + pay, dest, p);
    AnyAppend(head + items + notes + summary + pay + dest, Closing, p);
  }

  lemma {:induction false} AnyOfOne(a: Line, p: Line -> bool)
    ensures Any([a], p) <==> p(a)
  {
    if p(a) {
      assert [a][0] == a;
    }
  }

  lemma {:induction false} AnyOfTwo(a: Line, b: Line, p: Line -> bool)
    ensures Any([a, b], p) <==> p(a) || p(b)
  {
    if p(a) {
      assert [a, b][0] == a;
    }
    if p(b) {
      assert [a, b][1] == b;
    }
  }

  lemma {:induction false} AnyOfThree(a: Line, b: Line, c: Line, p: Line -> bool)
    ensures Any([a, b, c], p) <==> p(a) || p(b) || p(c)
  {
    if p(a) {
      assert [a, b, c][0] == a;
    }
    if p(b) {
      assert [a, b, c][1] == b;
    }
    if p(c) {
      assert [a, b, c][2] == c;
    }
  }

  /** Which lines the notes block offers. */
  lemma {:induction false} NotesSection(observations: string, p: Line -> bool)
    ensures Any(NotesLines(observations), p)
        <==> observations != "" && (p(Blank) || p(NotesHeading) || p(Notes(observations)))
  {
    if observations != "" {
      AnyOfThree(Blank, NotesHeading, Notes(observations), p);
    }
  }

  /** Which lines the payment summary offers. */
  lemma {:induction false} SummarySection(cart: Cart, delivery: bool, deliveryFee: real, finalTotal: real,
                                          formatCurrency: real -> string, p: Line -> bool)
    requires !(cart.discount > 0.0 && cart.coupon.None?)
    ensures Any(SummaryLines(cart, delivery, deliveryFee, finalTotal, formatCurrency).value, p)
        <==> p(Blank) || p(SummaryHeading) || p(Subtotal(formatCurrency(cart.subtotal)))
             || (cart.discount > 0.0 && p(Discount(CouponCode(cart.coupon).value, formatCurrency(cart.discount))))
             || (delivery && p(Fee(formatCurrency(deliveryFee))))
             || p(Total(formatCurrency(finalTotal)))
  {
    var a := [Blank, SummaryHeading, Subtotal(formatCurrency(cart.subtotal))];
    var d := if cart.discount > 0.0
      then [Discount(CouponCode(cart.coupon).value, formatCurrency(cart.discount))] else [];
    var f := if delivery then [Fee(formatCurrency(deliveryFee))] else [];
    var z := [Total(formatCurrency(finalTotal)), Blank];
    assert SummaryLines(cart, delivery, deliveryFee, finalTotal, formatCurrency).value == a + d + f + z;
    AnyAppend(a, d, p);
    AnyAppend(a + d, f, p);
    AnyAppend(a + d + f, z, p);
    AnyOfThree(Blank, SummaryHeading, Subtotal(formatCurrency(cart.subtotal)), p);
    AnyOfTwo(Total(formatCurrency(finalTotal)), Blank, p);
    if cart.discount > 0.0 {
      AnyOfOne(Discount(CouponCode(cart.coupon).value, formatCurrency(cart.discount)), p);
    }
    if delivery {
      AnyOfOne(Fee(formatCurrency(deliveryFee)), p);
    }
  }

  /** Which lines the payment block offers. */
  lemma {:induction false} PaymentSection(paymentMethod: string, customizations: Record, p: Line -> bool)
    ensures Any(PaymentLines(paymentMethod, customizations), p)
        <==> p(PaymentHeading) || p(Method(PaymentLabel(paymentMethod)))
             || (paymentMethod == "pix" && PixCode(customizations).Some?
                 && (p(PixKey(PixCode(customizations).value)) || p(PixNote)))
  {
    var a := [PaymentHeading, Method(PaymentLabel(paymentMethod))];
    AnyOfTwo(PaymentHeading, Method(PaymentLabel(paymentMethod)), p);
    if paymentMethod == "pix" && PixCode(customizations).Some? {
      AnyAppend(a, [PixKey(PixCode(customizations).value), PixNote], p);
      AnyOfTwo(PixKey(PixCode(customizations).value), PixNote, p);
    } else {
      assert PaymentLines(paymentMethod, customizations) == a;
    }
  }

  /** Which lines the destination block offers. */
  lemma {:induction false} DestinationSection(order: OrderData, p: Line -> bool)
    ensures Any(DestinationLines(order), p)
        <==> p(Blank)
             || (order.deliveryType == "delivery" && (p(DeliveryHeading) || p(Address(AddressText(order.address)))))
             || (order.deliveryType != "delivery" && (p(PickupHeading) || p(OnSite)))
  {
    if order.deliveryType == "delivery" {
      AnyOfThree(Blank, DeliveryHeading, Address(AddressText(order.address)), p);
    } else {
      AnyOfThree(Blank, PickupHeading, OnSite, p);
    }
  }

  predicate IsDiscount(l: Line) { l.Discount? }
  predicate IsFee(l: Line) { l.Fee? }
  predicate IsNotes(l: Line) { l.Notes? }
  predicate IsPixKey(l: Line) { l.PixKey? }
  predicate IsDeliveryHeading(l: Line) { l.DeliveryHeading? }
  predicate IsPickupHeading(l: Line) { l.PickupHeading? }

  /** A discount line appears exactly when the cart has a discount, and then
      it names the coupon and the formatted discount. */
  lemma {:induction false} DiscountLineIff(order: OrderData, cart: Cart, deliveryFee: real, finalTotal: real,
                        formatCurrency: real -> string, customizations: Record)
    requires MessageLines(order, cart, deliveryFee, finalTotal, formatCurrency, customizations).Some?
    ensures var lines := MessageLines(order, cart, deliveryFee, finalTotal, formatCurrency, customizations).value;
      (Any(lines, IsDiscount) <==> cart.discount > 0.0)
      && (cart.discount > 0.0 ==> Discount(Show(cart.coupon.value, "C\U{00F3}digo"), formatCurrency(cart.discount)) in lines)
  {
    DiscountLineAny(order, cart, deliveryFee, finalTotal, formatCurrency, customizations);
    if cart.discount > 0.0 {
      InMessage(order, cart, deliveryFee, finalTotal, formatCurrency, customizations, Discount(Show(cart.coupon.value, "C\U{00F3}digo"), formatCurrency(cart.discount)));
    }
  }

  lemma {:induction false} DiscountLineAny(order: OrderData, cart: Cart, deliveryFee: real, finalTotal: real,
                           formatCurrency: real -> string, customizations: Record)
    requires MessageLines(order, cart, deliveryFee, finalTotal, formatCurrency, customizations).Some?
    ensures Any(MessageLines(order, cart, deliveryFee, finalTotal, formatCurrency, customizations).value, IsDiscount) <==> cart.discount > 0.0
  {
    Sections(order, cart, deliveryFee, finalTotal, formatCurrency, customizations, IsDiscount);
    NotesSection(order.observations, IsDiscount);
    SummarySection(cart, order.deliveryType == "delivery", deliveryFee, finalTotal, formatCurrency, IsDiscount);
    PaymentSection(order.paymentMethod, customizations, IsDiscount);
    DestinationSection(order, IsDiscount);
  }

  /** The fee line appears exactly for a delivery, with the formatted fee. */
  lemma {:induction false} FeeLineIff(order: OrderData, cart: Cart, deliveryFee: real, finalTotal: real,
                   formatCurrency: real -> string, customizations: Record)
    requires MessageLines(order, cart, deliveryFee, finalTotal, formatCurrency, customizations).Some?
    ensures var lines := MessageLines(order, cart, deliveryFee, finalTotal, formatCurrency, customizations).value;
      (Any(lines, IsFee) <==> order.deliveryType == "delivery")
      && (order.deliveryType == "delivery" ==> Fee(formatCurrency(deliveryFee)) in lines)
  {
    FeeLineAny(order, cart, deliveryFee, finalTotal, formatCurrency, customizations);
    if order.deliveryType == "delivery" {
      InMessage(order, cart, deliveryFee, finalTotal, formatCurrency, customizations, Fee(formatCurrency(deliveryFee)));
    }
  }

  lemma {:induction false} FeeLineAny(order: OrderData, cart: Cart, deliveryFee: real, finalTotal: real,
                      formatCurrency: real -> string, customizations: Record)
    requires MessageLines(order, cart, deliveryFee, finalTotal, formatCurrency, customizations).Some?
    ensures Any(MessageLines(order, cart, deliveryFee, finalTotal, formatCurrency, customizations).value, IsFee) <==> order.deliveryType == "delivery"
  {
    Sections(order, cart, deliveryFee, finalTotal, formatCurrency, customizations, IsFee);
    NotesSection(order.observations, IsFee);
    SummarySection(cart, order.deliveryType == "delivery", deliveryFee, finalTotal, formatCurrency, IsFee);
    PaymentSection(order.paymentMethod, customizations, IsFee);
    DestinationSection(order, IsFee);
  }

  /** The notes block appears exactly when there are observations. */
  lemma {:induction false} NotesIff(order: OrderData, cart: Cart, deliveryFee: real, finalTotal: real,
                 formatCurrency: real -> string, customizations: Record)
    requires MessageLines(order, cart, deliveryFee, finalTotal, formatCurrency, customizations).Some?
    ensures var lines := MessageLines(order, cart, deliveryFee, finalTotal, formatCurrency, customizations).value;
      (Any(lines, IsNotes) <==> order.observations != "")
      && (order.observations != "" ==> Notes(order.observations) in lines)
  {
    NotesAny(order, cart, deliveryFee, finalTotal, formatCurrency, customizations);
    if order.observations != "" {
      InMessage(order, cart, deliveryFee, finalTotal, formatCurrency, customizations, Notes(order.observations));
    }
  }

  lemma {:induction false} NotesAny(order: OrderData, cart: Cart, deliveryFee: real, finalTotal: real,
                    formatCurrency: real -> string, customizations: Record)
    requires MessageLines(order, cart, deliveryFee, finalTotal, formatCurrency, customizations).Some?
    ensures Any(MessageLines(order, cart, deliveryFee, finalTotal, formatCurrency, customizations).value, IsNotes) <==> order.observations != ""
  {
    Sections(order, cart, deliveryFee, finalTotal, formatCurrency, customizations, IsNotes);
    NotesSection(order.observations, IsNotes);
    SummarySection(cart, order.deliveryType == "delivery", deliveryFee, finalTotal, formatCurrency, IsNotes);
    PaymentSection(order.paymentMethod, customizations, IsNotes);
    DestinationSection(order, IsNotes);
  }

  /** The PIX key appears exactly when paying by PIX at a store with a code. */
  lemma {:induction false} PixKeyIff(order: OrderData, cart: Cart, deliveryFee: real, finalTotal: real,
                  formatCurrency: real -> string, customizations: Record)
    requires MessageLines(order, cart, deliveryFee, finalTotal, formatCurrency, customizations).Some?
    ensures var lines := MessageLines(order, cart, deliveryFee, finalTotal, formatCurrency, customizations).value;
      (Any(lines, IsPixKey) <==> order.paymentMethod == "pix" && PixCode(customizations).Some?)
      && (order.paymentMethod == "pix" && PixCode(customizations).Some? ==> PixKey(customizations[PixField]) in lines)
  {
    PixKeyAny(order, cart, deliveryFee, finalTotal, formatCurrency, customizations);
    if order.paymentMethod == "pix" && PixCode(customizations).Some? {
      InMessage(order, cart, deliveryFee, finalTotal, formatCurrency, customizations, PixKey(customizations[PixField]));
    }
  }

  lemma {:induction false} PixKeyAny(order: OrderData, cart: Cart, deliveryFee: real, finalTotal: real,
                     formatCurrency: real -> string, customizations: Record)
    requires MessageLines(order, cart, deliveryFee, finalTotal, formatCurrency, customizations).Some?
    ensures Any(MessageLines(order, cart, deliveryFee, finalTotal, formatCurrency, customizations).value, IsPixKey) <==> order.paymentMethod == "pix" && PixCode(customizations).Some?
  {
    Sections(order, cart, deliveryFee, finalTotal, formatCurrency, customizations, IsPixKey);
    NotesSection(order.observations, IsPixKey);
    SummarySection(cart, order.deliveryType == "delivery", deliveryFee, finalTotal, formatCurrency, IsPixKey);
    PaymentSection(order.paymentMethod, customizations, IsPixKey);
    DestinationSection(order, IsPixKey);
  }

  /** A delivery ends with the address block, and only a delivery does. */
  lemma {:induction false} DeliveryBlockIff(order: OrderData, cart: Cart, deliveryFee: real, finalTotal: real,
                         formatCurrency: real -> string, customizations: Record)
    requires MessageLines(order, cart, deliveryFee, finalTotal, formatCurrency, customizations).Some?
    ensures var lines := MessageLines(order, cart, deliveryFee, finalTotal, formatCurrency, customizations).value;
      (Any(lines, IsDeliveryHeading) <==> order.deliveryType == "delivery")
      && (order.deliveryType == "delivery" ==> Address(AddressText(order.address)) in lines)
  {
    DeliveryBlockAny(order, cart, deliveryFee, finalTotal, formatCurrency, customizations);
    if order.deliveryType == "delivery" {
      InMessage(order, cart, deliveryFee, finalTotal, formatCurrency, customizations, Address(AddressText(order.address)));
    }
  }

  lemma {:induction false} DeliveryBlockAny(order: OrderData, cart: Cart, deliveryFee: real, finalTotal: real,
                            formatCurrency: real -> string, customizations: Record)
    requires MessageLines(order, cart, deliveryFee, finalTotal, formatCurrency, customizations).Some?
    ensures Any(MessageLines(order, cart, deliveryFee, finalTotal, formatCurrency, customizations).value, IsDeliveryHeading) <==> order.deliveryType == "delivery"
  {
    Sections(order, cart, deliveryFee, finalTotal, formatCurrency, customizations, IsDeliveryHeading);
    NotesSection(order.observations, IsDeliveryHeading);
    SummarySection(cart, order.deliveryType == "delivery", deliveryFee, finalTotal, formatCurrency, IsDeliveryHeading);
    PaymentSection(order.paymentMethod, customizations, IsDeliveryHeading);
    DestinationSection(order, IsDeliveryHeading);
  }

  /** A pickup ends with "Retirada / No local", and only a pickup does. */
  lemma {:induction false} PickupBlockIff(order: OrderData, cart: Cart, deliveryFee: real, finalTotal: real,
                       formatCurrency: real -> string, customizations: Record)
    requires MessageLines(order, cart, deliveryFee, finalTotal, formatCurrency, customizations).Some?
    ensures var lines := MessageLines(order, cart, deliveryFee, finalTotal, formatCurrency, customizations).value;
      (Any(lines, IsPickupHeading) <==> order.deliveryType != "delivery")
      && (order.deliveryType != "delivery" ==> OnSite in lines)
  {
    PickupBlockAny(order, cart, deliveryFee, finalTotal, formatCurrency, customizations);
    if order.deliveryType != "delivery" {
      InMessage(order, cart, deliveryFee, finalTotal, formatCurrency, customizations, OnSite);
    }
  }

  lemma {:induction false} PickupBlockAny(order: OrderData, cart: Cart, deliveryFee: real, finalTotal: real,
                          formatCurrency: real -> string, customizations: Record)
    requires MessageLines(order, cart, deliveryFee, finalTotal, formatCurrency, customizations).Some?
    ensures Any(MessageLines(order, cart, deliveryFee, finalTotal, formatCurrency, customizations).value, IsPickupHeading) <==> order.deliveryType != "delivery"
  {
    Sections(order, cart, deliveryFee, finalTotal, formatCurrency, customizations, IsPickupHeading);
    NotesSection(order.observations, IsPickupHeading);
    SummarySection(cart, order.deliveryType == "delivery", deliveryFee, finalTotal, formatCurrency, IsPickupHeading);
    PaymentSection(order.paymentMethod, customizations, IsPickupHeading);
    DestinationSection(order, IsPickupHeading);
  }

  /** A line of the notes, the summary, the payment or the destination is a line of the message. */
  lemma {:induction false} InMessage(order: OrderData, cart: Cart, deliveryFee: real, finalTotal: real,
                   formatCurrency: real -> string, customizations: Record, l: Line)
    requires MessageLines(order, cart, deliveryFee, finalTotal, formatCurrency, customizations).Some?
    requires l in NotesLines(order.observations) || l in SummaryLines(cart, order.deliveryType == "delivery", deliveryFee, finalTotal, formatCurrency).value
          || l in PaymentLines(order.paymentMethod, customizations) || l in DestinationLines(order)
    ensures l in MessageLines(order, cart, deliveryFee, finalTotal, formatCurrency, customizations).value
  {
    MessageShape(order, cart, deliveryFee, finalTotal, formatCurrency, customizations);
  }

  /** The free text the message copies into its lines. */
  ghost predicate SingleLine(order: OrderData, cart: Cart, formatCurrency: real -> string, customizations: Record) {
    && Lacks(order.customerName, '\n')
    && Lacks(order.observations, '\n')
    && Lacks(AddressText(order.address), '\n')
    && Lacks(PaymentLabel(order.paymentMethod), '\n')
    && (PixField in customizations ==> Lacks(customizations[PixField], '\n'))
    && (cart.coupon.Some? ==> Lacks(Show(cart.coupon.value, "C\U{00F3}digo"), '\n'))
    && (forall x :: Lacks(formatCurrency(x), '\n'))
    && (forall k :: 0 <= k < |order.cart| ==>
          Lacks(Show(order.cart[k].product, "Nome"), '\n')
          && forall j :: 0 <= j < |order.cart[k].options| ==> Lacks(Show(order.cart[k].options[j].fields, "Nome"), '\n'))
  }

  /** Every free-text field of a line lacks a newline. */
  predicate FieldsSingleLine(l: Line) {
    match l
    case Customer(name) => Lacks(name, '\n')
    case ItemHead(_, name) => Lacks(name, '\n')
    case OptionLine(_, name) => Lacks(name, '\n')
    case Notes(text) => Lacks(text, '\n')
    case Subtotal(a) => Lacks(a, '\n')
    case Discount(code, a) => Lacks(code, '\n') && Lacks(a, '\n')
    case Fee(a) => Lacks(a, '\n')
    case Total(a) => Lacks(a, '\n')
    case Method(name) => Lacks(name, '\n')
    case PixKey(code) => Lacks(code, '\n')
    case Address(text) => Lacks(text, '\n')
    case _ => true
  }

  /** Text without a newline character, as a membership fact the verifier
      can check on a short literal. */
  lemma {:induction false} NoNewline(s: string)
    requires '\n' !in s
    ensures Lacks(s, '\n')
  {
  }

  /** Two single-line texts glued together. */
  lemma {:induction false} Glue(a: string, b: string)
    requires Lacks(a, '\n') && Lacks(b, '\n')
    ensures Lacks(a + b, '\n')
  {
    LacksAppend(a, b, '\n');
  }

  // The long fixed lines, each checked piece by piece.

  lemma {:induction false} TitleSingleLine()
    ensures Lacks(Render(Title), '\n')
  {
    assert Render(Title) == "\U{1F4F1} *PEDIDO NA TELA" + " DA FOME!* \U{1F60B}";
    assert '\n' !in "\U{1F4F1} *PEDIDO NA TELA" && '\n' !in " DA FOME!* \U{1F60B}";
  }

  lemma {:induction false} PixNoteSingleLine()
    ensures Lacks(Render(PixNote), '\n')
  {
    var a, b := "_(Por favor, envie o ", "comprovante ap\U{00F3}s o pagamento)_";
    assert '\n' !in a && '\n' !in b;
    LacksAppend(a, b, '\n');
  }

  lemma {:induction false} SummaryHeadingSingleLine()
    ensures Lacks(Render(SummaryHeading), '\n')
  {
    assert Render(SummaryHeading) == "*\U{1F4B0} Resumo " + "do Pagamento:*";
    assert '\n' !in "*\U{1F4B0} Resumo " && '\n' !in "do Pagamento:*";
  }

  lemma {:induction false} PaymentHeadingSingleLine()
    ensures Lacks(Render(PaymentHeading), '\n')
  {
    assert Render(PaymentHeading) == "*\U{1F4B3} Forma " + "de Pagamento:*";
    assert '\n' !in "*\U{1F4B3} Forma " && '\n' !in "de Pagamento:*";
  }

  lemma {:induction false} DeliveryHeadingSingleLine()
    ensures Lacks(Render(DeliveryHeading), '\n')
  {
    assert Render(DeliveryHeading) == "*\U{1F4CD} Endere\U{00E7}o " + "de Entrega:*";
    assert '\n' !in "*\U{1F4CD} Endere\U{00E7}o " && '\n' !in "de Entrega:*";
  }

  lemma {:induction false} SentSingleLine()
    ensures Lacks(Render(Sent), '\n')
  {
    assert Render(Sent) == "\U{2705} Pedido enviado " + "com sucesso!";
    assert '\n' !in "\U{2705} Pedido enviado " && '\n' !in "com sucesso!";
  }

  lemma {:induction false} ThanksSingleLine()
    ensures Lacks(Render(Thanks), '\n')
  {
    var a, b := "Aguarde nossa confirma\U{00E7}\U{00E3}o. ", "Obrigado pela prefer\U{00EA}ncia! \U{1F64F}\U{1F60A}";
    assert '\n' !in a && '\n' !in b;
  }

  /** The lines without free text are single lines. */
  lemma {:induction false} FixedSingleLine(l: Line)
    requires !l.Customer? && !l.ItemHead? && !l.OptionLine? && !l.Notes? && !l.Subtotal?
    requires !l.Discount? && !l.Fee? && !l.Total? && !l.Method? && !l.PixKey? && !l.Address?
    ensures Lacks(Render(l), '\n')
  {
    match l
    case Title => TitleSingleLine();
    case PixNote => PixNoteSingleLine();
    case SummaryHeading => SummaryHeadingSingleLine();
    case PaymentHeading => PaymentHeadingSingleLine();
    case DeliveryHeading => DeliveryHeadingSingleLine();
    case Sent => SentSingleLine();
    case Thanks => ThanksSingleLine();
    case _ => ShortSingleLine(l);
  }

  /** The short fixed lines. */
  lemma {:induction false} ShortSingleLine(l: Line)
    requires l.Blank? || l.OrderHeading? || l.NotesHeading? || l.PickupHeading? || l.OnSite?
    ensures Lacks(Render(l), '\n')
  {
    match l
    case Blank =>
    case OrderHeading => NoNewline(Render(l));
    case NotesHeading => NoNewline(Render(l));
    case PickupHeading => NoNewline(Render(l));
    case OnSite => NoNewline(Render(l));
  }

  /** A line's text is a single line when its fields are. */
  lemma {:induction false} RenderSingleLine(l: Line)
    requires FieldsSingleLine(l)
    ensures Lacks(Render(l), '\n')
  {
    match l
    case Customer(name) =>
      NoNewline("*\U{1F464} Cliente:* ");
      Glue("*\U{1F464} Cliente:* ", name);
    case ItemHead(q, name) =>
      ItemHeadSingleLine(q, name);
    case OptionLine(q, name) =>
      OptionLineSingleLine(q, name);
    case Notes(text) =>
      NotesSingleLine(text);
    case Subtotal(a) =>
      NoNewline("Subtotal: ");
      Glue("Subtotal: ", a);
    case Discount(code, a) =>
      DiscountSingleLine(code, a);
    case Fee(a) =>
      NoNewline("Taxa de entrega: ");
      Glue("Taxa de entrega: ", a);
    case Total(a) =>
      TotalSingleLine(a);
    case Method(name) =>
    case PixKey(code) =>
      NoNewline("*Chave PIX:* ");
      Glue("*Chave PIX:* ", code);
    case Address(text) =>
    case _ =>
      FixedSingleLine(l);
  }

  lemma {:induction false} ItemHeadSingleLine(q: int, name: string)
    requires Lacks(name, '\n')
    ensures Lacks(Render(ItemHead(q, name)), '\n')
  {
    IntToStringLacks(q, '\n');
    NoNewline("\U{2022} ");
    NoNewline("x *");
    NoNewline("*");
    Glue("\U{2022} ", IntToString(q));
    Glue("\U{2022} " + IntToString(q), "x *");
    Glue("\U{2022} " + IntToString(q) + "x *", name);
    Glue("\U{2022} " + IntToString(q) + "x *" + name, "*");
  }

  lemma {:induction false} OptionLineSingleLine(q: int, name: string)
    requires Lacks(name, '\n')
    ensures Lacks(Render(OptionLine(q, name)), '\n')
  {
    IntToStringLacks(q, '\n');
    NoNewline("   \U{2514} ");
    NoNewline("x ");
    Glue("   \U{2514} ", IntToString(q));
    Glue("   \U{2514} " + IntToString(q), "x ");
    Glue("   \U{2514} " + IntToString(q) + "x ", name);
  }

  lemma {:induction false} NotesSingleLine(text: string)
    requires Lacks(text, '\n')
    ensures Lacks(Render(Notes(text)), '\n')
  {
    NoNewline("_");
    Glue("_", text);
    Glue("_" + text, "_");
  }

  lemma {:induction false} DiscountSingleLine(code: string, a: string)
    requires Lacks(code, '\n') && Lacks(a, '\n')
    ensures Lacks(Render(Discount(code, a)), '\n')
  {
    NoNewline("Desconto (");
    NoNewline("): -");
    Glue("Desconto (", code);
    Glue("Desconto (" + code, "): -");
    Glue("Desconto (" + code + "): -", a);
  }

  lemma {:induction false} TotalSingleLine(a: string)
    requires Lacks(a, '\n')
    ensures Lacks(Render(Total(a)), '\n')
  {
    NoNewline("\U{27A1}\U{FE0F} *Total: ");
    NoNewline("*");
    Glue("\U{27A1}\U{FE0F} *Total: ", a);
    Glue("\U{27A1}\U{FE0F} *Total: " + a, "*");
  }

  /** Splitting the message on newlines gives back its lines, as long as no
      copied text contains a newline. */
  lemma {:induction false} MessageSplits(order: OrderData, cart: Cart, deliveryFee: real, finalTotal: real,
                     formatCurrency: real -> string, customizations: Record)
    requires MessageLines(order, cart, deliveryFee, finalTotal, formatCurrency, customizations).Some?
    requires SingleLine(order, cart, formatCurrency, customizations)
    ensures var lines := MessageLines(order, cart, deliveryFee, finalTotal, formatCurrency, customizations).value;
      SplitOn(Message(order, cart, deliveryFee, finalTotal, formatCurrency, customizations).value, "\n")
        == Map(lines, Render)
  {
    var lines := MessageLines(order, cart, deliveryFee, finalTotal, formatCurrency, customizations).value;
    var texts := Map(lines, Render);
    FieldsOfMessage(order, cart, deliveryFee, finalTotal, formatCurrency, customizations);
    forall i | 0 <= i < |texts|
      ensures Lacks(texts[i], "\n"[0])
    {
      RenderSingleLine(lines[i]);
    }
    SplitJoin(texts, "\n", 0);
  }

  lemma {:induction false} ItemFields(items: seq<CartItem>)
    requires forall k :: 0 <= k < |items| ==> ItemNamesSingle(items[k])
    ensures AllSingle(ItemLines(items))
    decreases |items|
  {
    if |items| > 0 {
      var rest := items[1..];
      assert forall k :: 0 <= k < |rest| ==> rest[k] == items[k + 1];
      ItemFields(rest);
      BlockSingle(items[0]);
      assert ItemLines(items) == ItemBlock(items[0]) + ItemLines(rest);
      AllSingleAppend(ItemBlock(items[0]), ItemLines(rest));
    }
  }

  /** The product's name and every add-on's name are one line each. */
  predicate ItemNamesSingle(item: CartItem) {
    Lacks(Show(item.product, "Nome"), '\n')
    && forall j :: 0 <= j < |item.options| ==> Lacks(Show(item.options[j].fields, "Nome"), '\n')
  }

  lemma {:induction false} BlockSingle(item: CartItem)
    requires ItemNamesSingle(item)
    ensures AllSingle(ItemBlock(item))
  {
    var b := ItemBlock(item);
    assert forall j :: 0 <= j < |item.options| ==> b[1 + j] == OptionOf(item.options[j]);
    forall i | 0 <= i < |b|
      ensures FieldsSingleLine(b[i])
    {
      if i > 0 {
        assert b[i] == OptionOf(item.options[i - 1]);
      }
    }
  }

  /** No line of `lines` has a field with a newline. */
  predicate AllSingle(lines: seq<Line>) {
    forall i :: 0 <= i < |lines| ==> FieldsSingleLine(lines[i])
  }

  lemma {:induction false} AllSingleAppend(a: seq<Line>, b: seq<Line>)
    requires AllSingle(a) && AllSingle(b)
    ensures AllSingle(a + b)
  {
    forall i | 0 <= i < |a + b|
      ensures FieldsSingleLine((a + b)[i])
    {
      if i >= |a| {
        assert (a + b)[i] == b[i - |a|];
      }
    }
  }

  lemma {:induction false} SummarySingle(cart: Cart, delivery: bool, deliveryFee: real, finalTotal: real,
                      formatCurrency: real -> string)
    requires SummaryLines(cart, delivery, deliveryFee, finalTotal, formatCurrency).Some?
    requires forall x :: Lacks(formatCurrency(x), '\n')
    requires cart.coupon.Some? ==> Lacks(Show(cart.coupon.value, "C\U{00F3}digo"), '\n')
    ensures AllSingle(SummaryLines(cart, delivery, deliveryFee, finalTotal, formatCurrency).value)
  {
  }

  lemma {:induction false} PaymentSingle(paymentMethod: string, customizations: Record)
    requires Lacks(PaymentLabel(paymentMethod), '\n')
    requires PixField in customizations ==> Lacks(customizations[PixField], '\n')
    ensures AllSingle(PaymentLines(paymentMethod, customizations))
  {
  }

  lemma {:induction false} SectionsSingle(head: seq<Line>, items: seq<Line>, notes: seq<Line>, summary: seq<Line>,
                       pay: seq<Line>, dest: seq<Line>)
    requires AllSingle(head) && AllSingle(items) && AllSingle(notes) && AllSingle(summary)
    requires AllSingle(pay) && AllSingle(dest)
    ensures AllSingle(head + items + notes + summary + pay + dest + Closing)
  {
    assert AllSingle(Closing);
    AllSingleAppend(head, items);
    AllSingleAppend(head + items, notes);
    AllSingleAppend(head + items + notes, summary);
    AllSingleAppend(head + items + notes + summary, pay);
    AllSingleAppend(head + items + notes + summary + pay, dest);
    AllSingleAppend(head + items + notes + summary + pay + dest, Closing);
  }

  lemma {:induction false} TextSectionsSingle(order: OrderData)
    requires Lacks(order.customerName, '\n') && Lacks(order.observations, '\n')
    requires Lacks(AddressText(order.address), '\n')
    ensures AllSingle(Head(order.customerName)) && AllSingle(NotesLines(order.observations))
    ensures AllSingle(DestinationLines(order))
  {
  }

  lemma {:induction false} FieldsOfMessage(order: OrderData, cart: Cart, deliveryFee: real, finalTotal: real,
                       formatCurrency: real -> string, customizations: Record)
    requires MessageLines(order, cart, deliveryFee, finalTotal, formatCurrency, customizations).Some?
    requires SingleLine(order, cart, formatCurrency, customizations)
    ensures AllSingle(MessageLines(order, cart, deliveryFee, finalTotal, formatCurrency, customizations).value)
  {
    var delivery := order.deliveryType == "delivery";
    MessageShape(order, cart, deliveryFee, finalTotal, formatCurrency, customizations);
    ItemFields(order.cart);
    SummarySingle(cart, delivery, deliveryFee, finalTotal, formatCurrency);
    PaymentSingle(order.paymentMethod, customizations);
    TextSectionsSingle(order);
    SectionsSingle(Head(order.customerName), ItemLines(order.cart), NotesLines(order.observations),
                   SummaryLines(cart, delivery, deliveryFee, finalTotal, formatCurrency).value,
                   PaymentLines(order.paymentMethod, customizations), DestinationLines(order));
  }

  // ---------------------------------------------------------------------------
  // Submitting
  // ---------------------------------------------------------------------------

  /** The slug the page posts: the first '/' of the path removed, the default
      store when nothing is left. */
  function PostedSlug(pathname: string): (r: string)
    ensures r != ""
  {
    var s := ReplaceFirst(pathname, "/", "");
    if s == "" then Middleware.DefaultSlug else s
  }

  /** A path that starts with '/' posts what follows that slash. */
  lemma {:induction false} PostedSlugAfterSlash(p: string)
    requires |p| > 1 && p[0] == '/'
    ensures PostedSlug(p) == p[1..]
  {
    assert OccursAt(p, "/", 0);
    IndexOfAt(p, "/", 0);
  }

  /** On a store's own path the posted slug is the one the middleware derives. */
  lemma {:induction false} PostedSlugOfStorePath(name: string)
    requires |name| > 0 && Lacks(name, '/')
    ensures PostedSlug("/" + name) == name == Middleware.Slug("/" + name)
    ensures PostedSlug("/") == Middleware.Slug("/") == Middleware.DefaultSlug
  {
    PostedSlugOfPath(name);
    assert name[0] != '/' && name[|name| - 1] != '/';
    Middleware.SlugOfStorePath(name);
    PostedSlugOfRoot();
    Middleware.SlugOfRoot();
  }

  lemma {:induction false} PostedSlugOfPath(name: string)
    requires |name| > 0
    ensures PostedSlug("/" + name) == name
  {
    PostedSlugAfterSlash("/" + name);
    assert ("/" + name)[1..] == name;
  }

  lemma {:induction false} PostedSlugOfRoot()
    ensures PostedSlug("/") == Middleware.DefaultSlug
  {
    assert OccursAt("/", "/", 0);
    IndexOfAt("/", "/", 0);
  }

  /** With a trailing slash the page posts a slug the middleware would not:
      `/loja/` posts `loja/` while the page was built for `loja`. */
  lemma {:induction false} PostedSlugKeepsTrailingSlash(name: string)
    requires |name| > 0 && Lacks(name, '/')
    ensures PostedSlug("/" + name + "/") == name + "/"
    ensures Middleware.Slug("/" + name + "/") == name
  {
    PostedSlugOfPath(name + "/");
    assert "/" + (name + "/") == "/" + name + "/";
    assert name[0] != '/' && name[|name| - 1] != '/';
    Middleware.SlugOfStorePath(name);
  }

  /** What the form fields hold when it is submitted. */
  datatype Form = Form(customerName: string, address: string, observations: string)

  /** `orderData` as `handleSubmit` builds it. */
  function OrderOf(form: Form, deliveryType: string, paymentMethod: string, cart: Cart,
                   customizations: Record): (o: OrderData)
    ensures o.address.Some? <==> deliveryType == "delivery"
    ensures o.address.Some? ==> o.address.value == form.address
    ensures o.cart == cart.items
    ensures o.deliveryFee == DeliveryFee(deliveryType, customizations)
    ensures o.total == cart.total + o.deliveryFee
    ensures o.coupon.Some? <==> cart.coupon.Some? && "C\U{00F3}digo" in cart.coupon.value
  {
    var fee := DeliveryFee(deliveryType, customizations);
    OrderData(
      form.customerName,
      deliveryType,
      if deliveryType == "delivery" then Some(form.address) else None,
      paymentMethod,
      form.observations,
      cart.items,
      cart.subtotal,
      fee,
      cart.discount,
      if cart.coupon.Some? then Get(cart.coupon.value, "C\U{00F3}digo") else None,
      cart.total + fee)
  }

  datatype Submission =
    | AskForPayment
    | Failed(order: OrderData, slug: string)
    | Redirect(order: OrderData, slug: string, url: string)

  /** `handleSubmit`. `saved` is whether the API accepted the post and
      `encode` is `encodeURIComponent`. Without a payment method nothing is
      posted; a refused post, or a message that throws, shows the error toast. */
  function Submit(form: Form, deliveryType: string, paymentMethod: string, cart: Cart,
                  customizations: Record, pathname: string, saved: bool,
                  formatCurrency: real -> string, encode: string -> string): (r: Submission)
    ensures r.AskForPayment? <==> paymentMethod == ""
    ensures !r.AskForPayment? ==>
      r.order == OrderOf(form, deliveryType, paymentMethod, cart, customizations)
      && r.slug == PostedSlug(pathname)
    ensures r.Redirect? <==> paymentMethod != "" && saved && !(cart.discount > 0.0 && cart.coupon.None?)
    ensures r.Redirect? ==>
      r.url == "https://wa.me/55" + Show(customizations, "Whatsapp") + "?text="
               + encode(Message(r.order, cart, r.order.deliveryFee, r.order.total, formatCurrency, customizations).value)
  {
    if paymentMethod == "" then AskForPayment
    else
      var order := OrderOf(form, deliveryType, paymentMethod, cart, customizations);
      var slug := PostedSlug(pathname);
      var message := Message(order, cart, order.deliveryFee, order.total, formatCurrency, customizations);
      if !saved || message.None? then Failed(order, slug)
      else Redirect(order, slug, "https://wa.me/55" + Show(customizations, "Whatsapp") + "?text=" + encode(message.value))
  }

  /** A pickup order carries no address, whatever the form held, and the
      message then names no delivery fee. */
  lemma {:induction false} PickupHasNoAddress(form: Form, paymentMethod: string, cart: Cart, customizations: Record,
                           formatCurrency: real -> string)
    requires !(cart.discount > 0.0 && cart.coupon.None?)
    ensures var o := OrderOf(form, "pickup", paymentMethod, cart, customizations);
      o.address.None? && o.deliveryFee == 0.0 && o.total == cart.total
      && !Any(MessageLines(o, cart, 0.0, cart.total, formatCurrency, customizations).value, IsFee)
      && !Any(MessageLines(o, cart, 0.0, cart.total, formatCurrency, customizations).value, IsDeliveryHeading)
  {
    var o := OrderOf(form, "pickup", paymentMethod, cart, customizations);
    FeeLineIff(o, cart, 0.0, cart.total, formatCurrency, customizations);
    DeliveryBlockIff(o, cart, 0.0, cart.total, formatCurrency, customizations);
  }
}

=== FILE: currency.dfy ===
/** Prices as the storefront's spreadsheets show them: the Brazilian
    currency format `R$ 1.234,56` (a no-break space after the symbol, a point
    between groups of three digits, a decimal comma), and the facts about its
    pieces that the components' `parseCurrency` variants rely on. */
module Currency {
  import opened Text
  import opened Js

  /** `padStart(3, '0')`. */
  function PadThree(s: string): (r: string)
    ensures |s| >= 3 ==> r == s
    ensures |s| < 3 ==> |r| == 3
    ensures AllDigits(s) ==> AllDigits(r)
    decreases 3 - |s|
  {
    if |s| >= 3 then s else PadThree("0" + s)
  }

  lemma {:induction false} PadThreeValue(s: string)
    requires AllDigits(s)
    ensures DigitsValue(PadThree(s)) == DigitsValue(s)
    decreases 3 - |s|
  {
    if |s| < 3 {
      DigitsValueAppend("0", s);
      assert DigitsValue("0") == 0;
      PadThreeValue("0" + s);
    }
  }

  lemma {:induction false} ShortNumeral(n: nat)
    requires n < 1000
    ensures n < 10 ==> |NatToString(n)| == 1
    ensures n < 100 ==> |NatToString(n)| <= 2
    ensures |NatToString(n)| <= 3
  {
    if n >= 10 {
      ShortNumeral(n / 10);
    }
  }

  /** Reais written with a point between groups of three digits. */
  function Grouped(n: nat): (r: string)
    ensures |r| >= 1 && IsDigit(r[0]) && IsDigit(r[|r| - 1])
    ensures forall i :: 0 <= i < |r| ==> IsDigit(r[i]) || r[i] == '.'
    decreases n
  {
    if n < 1000 then NatToString(n)
    else
      var head := Grouped(n / 1000);
      var tail := PadThree(NatToString(n % 1000));
      ShortNumeral(n % 1000);
      head + "." + tail
  }

  /** Below a thousand reais there is no group separator. */
  lemma {:induction false} GroupedSmall(n: nat)
    requires n < 1000
    ensures Grouped(n) == NatToString(n)
  {
  }

  lemma {:induction false} GroupedLacks(n: nat, c: char)
    requires c != '.' && !IsDigit(c)
    ensures Lacks(Grouped(n), c)
  {
  }

  /** The separators removed from a grouped number of a thousand or more:
      the head's digits followed by the last three digits. */
  lemma {:induction false} UngroupStep(n: nat)
    requires n >= 1000
    ensures ReplaceChar(Grouped(n), '.', "")
         == ReplaceChar(Grouped(n / 1000), '.', "") + PadThree(NatToString(n % 1000))
  {
    var g := Grouped(n / 1000);
    var t := PadThree(NatToString(n % 1000));
    assert Grouped(n) == g + "." + t;
    RemoveSeparator(g, t, '.');
  }

  /** Removing the group separators leaves the digits of the number. */
  lemma {:induction false} UngroupedValue(n: nat)
    ensures var u := ReplaceChar(Grouped(n), '.', "");
      |u| >= 1 && AllDigits(u) && IsDigit(u[0]) && IsDigit(u[|u| - 1]) && DigitsValue(u) == n
    decreases n
  {
    if n < 1000 {
      NatToStringValue(n);
    } else {
      var t := PadThree(NatToString(n % 1000));
      ShortNumeral(n % 1000);
      PadThreeValue(NatToString(n % 1000));
      NatToStringValue(n % 1000);
      UngroupedValue(n / 1000);
      var u' := ReplaceChar(Grouped(n / 1000), '.', "");
      UngroupStep(n);
      DigitsValueAppend(u', t);
      assert |t| == 3 && Pow10(3) == 1000;
      assert DigitsValue(u' + t) == DigitsValue(u') * 1000 + DigitsValue(t);
      assert n == (n / 1000) * 1000 + n % 1000;
    }
  }

  /** The two centavo digits. */
  function Cents(amount: nat): string {
    PadTwo(NatToString(amount % 100))
  }

  lemma {:induction false} CentsDigits(amount: nat)
    ensures |Cents(amount)| == 2 && AllDigits(Cents(amount))
    ensures DigitsValue(Cents(amount)) == amount % 100
  {
    TwoDigits(amount % 100);
  }

  /** The pt-BR currency text of an amount given in centavos. */
  function BrlText(amount: nat): string {
    "R$\U{00A0}" + Grouped(amount / 100) + "," + Cents(amount)
  }

  /** What is left of the currency text once the symbol is replaced by
      nothing and the result trimmed. */
  lemma {:induction false} BrlBody(amount: nat)
    ensures Trim(ReplaceFirst(BrlText(amount), "R$", ""))
         == Grouped(amount / 100) + "," + Cents(amount)
  {
    var s := BrlText(amount);
    var body := Grouped(amount / 100) + "," + Cents(amount);
    assert s == "R$" + ("\U{00A0}" + body);
    IndexOfAt(s, "R$", 0);
    assert s[2..] == "\U{00A0}" + body;
    assert ReplaceFirst(s, "R$", "") == ['\U{00A0}'] + body;
    CentsDigits(amount);
    TrimLeadingSpace('\U{00A0}', body);
  }

  /** `replace(',', '.')` on text whose first comma separates two parts. */
  lemma {:induction false} ReplaceFirstComma(a: string, b: string)
    requires Lacks(a, ',')
    ensures ReplaceFirst(a + "," + b, ",", ".") == a + "." + b
  {
    var s := a + "," + b;
    assert OccursAt(s, ",", |a|);
    assert ","[0] == ',';
    forall j | 0 <= j < |a|
      ensures !OccursAt(s, ",", j)
    {
      assert s[j] == a[j] && a[j] != ',';
    }
    IndexOfAt(s, ",", |a|);
    assert s[|a| + 1..] == b;
  }

  /** `replace(',', '.')` on text without a comma. */
  lemma {:induction false} ReplaceFirstNoComma(s: string)
    requires Lacks(s, ',')
    ensures ReplaceFirst(s, ",", ".") == s
  {
  }

  lemma {:induction false} CentsNumeral(w: string, f: string, amount: nat)
    requires AllDigits(w) && AllDigits(f) && |f| == 2
    requires DigitsValue(w) == amount / 100 && DigitsValue(f) == amount % 100
    ensures Numeral(w, f, 0) == amount as real / 100.0
  {
    NumeralUnscaled(w, f);
    assert Pow10(|f|) == 100;
    HundredthsSplit(amount);
  }

  /** `parseFloat` of reais, a point and the two centavo digits. */
  lemma {:induction false} ParseFloatCents(w: string, amount: nat)
    requires |w| >= 1 && AllDigits(w) && DigitsValue(w) == amount / 100
    ensures var r := ParseFloat(w + "." + Cents(amount));
      r.Some? && r.value == amount as real / 100.0
  {
    var f := Cents(amount);
    CentsDigits(amount);
    CentsNumeral(w, f, amount);
    ParseFloatPointedWhole(w, f, Numeral(w, f, 0));
  }
}

=== FILE: date_time_picker.dfy ===
/** The scheduling picker (src/components/DateTimePicker.jsx): the store's
    opening days and hours, typed free-form in the customization sheet, are
    read into a set of weekdays and a list of time intervals, and the picker
    offers every half-hour slot of the next 30 days that lies after the
    minimum lead time.

    The clock and the calendar are parameters: `Now` holds today's weekday
    and the milliseconds since local midnight, and `dateText` gives the
    `dd/mm/yyyy` text of the day `offset` days from today. */
module DateTimePicker {
  import opened Text
  import opened Seqs
  import opened Js

  // ---------------------------------------------------------------------------
  // Clock text
  // ---------------------------------------------------------------------------

  /** `timeToMinutes`: the text split on ':', both parts read with `Number`,
      hours times 60 plus minutes; NaN (None) when the minutes are missing or
      a part is not a number. */
  function TimeToMinutes(timeStr: string): (r: Option<nat>)
    ensures r.Some? ==> |SplitOn(timeStr, ":")| >= 2
  {
    var parts := SplitOn(timeStr, ":");
    if |parts| < 2 then None
    else
      var hours, mins := ToNumber(parts[0]), ToNumber(parts[1]);
      if hours.Some? && mins.Some? then Some(hours.value * 60 + mins.value) else None
  }

  /** `minutesToTime`: the hours and the minutes, each padded to two digits. */
  function MinutesToTime(minutes: nat): (r: string)
    ensures |r| >= 5 && r[|r| - 3] == ':'
    ensures AllDigits(r[..|r| - 3]) && AllDigits(r[|r| - 2..])
  {
    var h := PadTwo(NatToString(minutes / 60));
    var m := PadTwo(NatToString(minutes % 60));
    PadTwoValue(NatToString(minutes / 60));
    TwoDigits(minutes % 60);
    assert (h + ":" + m)[..|h|] == h && (h + ":" + m)[|h| + 1..] == m;
    h + ":" + m
  }

  lemma {:induction false} DigitsTrimmed(s: string)
    requires AllDigits(s)
    ensures Trim(s) == s
  {
    TrimOfTrimmed(s);
  }

  /** "HH:MM" reads as 60 times HH plus MM. */
  lemma {:induction false} ReadsClockText(h: string, m: string)
    requires AllDigits(h) && AllDigits(m)
    ensures TimeToMinutes(h + ":" + m).Some?
    ensures TimeToMinutes(h + ":" + m).value == DigitsValue(h) * 60 + DigitsValue(m)
  {
    ClockValues(h, m, DigitsValue(h), DigitsValue(m), DigitsValue(h) * 60 + DigitsValue(m));
  }

  lemma {:induction false} ClockParts(h: string, m: string)
    requires AllDigits(h) && AllDigits(m)
    ensures SplitOn(h + ":" + m, ":") == [h, m]
    ensures ToNumber(h) == Some(DigitsValue(h)) && ToNumber(m) == Some(DigitsValue(m))
  {
    DigitsLack(h, ':');
    DigitsLack(m, ':');
    SplitClock(h, m);
    ReadsDigits(h);
    ReadsDigits(m);
  }

  lemma {:induction false} DigitsLack(s: string, c: char)
    requires AllDigits(s) && !IsDigit(c)
    ensures Lacks(s, c)
  {
  }

  lemma {:induction false} TimeFromParts(s: string, h: string, m: string, hours: nat, mins: nat, total: nat)
    requires SplitOn(s, ":") == [h, m]
    requires ToNumber(h) == Some(hours) && ToNumber(m) == Some(mins) && hours * 60 + mins == total
    ensures TimeToMinutes(s) == Some(total)
  {
  }

  lemma {:induction false} ReadsDigits(s: string)
    requires AllDigits(s)
    ensures ToNumber(s) == Some(DigitsValue(s))
  {
    DigitsTrimmed(s);
  }

  lemma {:induction false} SplitClock(h: string, m: string)
    requires Lacks(h, ':') && Lacks(m, ':')
    ensures SplitOn(h + ":" + m, ":") == [h, m]
  {
    assert Join([h, m], ":") == h + ":" + Join([m], ":");
    SplitJoin([h, m], ":", 0);
  }

  /** Every time the picker writes reads back as the same number of minutes. */
  lemma {:induction false} ClockRoundTrip(minutes: nat)
    ensures TimeToMinutes(MinutesToTime(minutes)) == Some(minutes)
  {
    var h := PadTwo(NatToString(minutes / 60));
    var m := PadTwo(NatToString(minutes % 60));
    PadTwoValue(NatToString(minutes / 60));
    NatToStringValue(minutes / 60);
    TwoDigits(minutes % 60);
    assert MinutesToTime(minutes) == h + ":" + m;
    ClockValues(h, m, minutes / 60, minutes % 60, minutes);
  }

  lemma {:induction false} ClockValues(h: string, m: string, hours: nat, mins: nat, total: nat)
    requires AllDigits(h) && AllDigits(m)
    requires DigitsValue(h) == hours && DigitsValue(m) == mins && hours * 60 + mins == total
    ensures TimeToMinutes(h + ":" + m) == Some(total)
  {
    ClockParts(h, m);
    TimeFromParts(h + ":" + m, h, m, hours, mins, total);
  }

  // ---------------------------------------------------------------------------
  // Slots
  // ---------------------------------------------------------------------------

  const SlotStep := 30
  const MinutesPerDay := 1440
  const LookAhead := 30
  const DefaultLeadHours := 24

  /** The candidate times of one interval: `start`, `start + 30`, … while
      below `end`. */
  function Candidates(start: nat, end: nat): (r: seq<nat>)
    ensures forall i :: 0 <= i < |r| ==> r[i] == start + SlotStep * i && r[i] < end
    ensures start + SlotStep * |r| >= end
    decreases end - start
  {
    if start < end then [start] + Candidates(start + SlotStep, end) else []
  }

  /** A time is a candidate exactly when it lies in `[start, end)` a whole
      number of steps after `start`; there is none when `end <= start`. */
  lemma {:induction false} CandidatesIff(start: nat, end: nat, t: nat)
    ensures t in Candidates(start, end) <==> start <= t < end && (t - start) % SlotStep == 0
  {
    var r := Candidates(start, end);
    if start <= t < end && (t - start) % SlotStep == 0 {
      var i := (t - start) / SlotStep;
      assert t == start + SlotStep * i;
      assert r[i] == t;
    }
  }

  /** A time interval of the hours text; NaN bounds are None. */
  datatype Interval = Interval(start: Option<nat>, end: Option<nat>)

  /** The candidate times of an interval: none when a bound is NaN, since
      every comparison with NaN is false. */
  function IntervalTimes(iv: Interval): seq<nat> {
    if iv.start.Some? && iv.end.Some? then Candidates(iv.start.value, iv.end.value) else []
  }

  /** The moment the slots are computed: today's weekday (0 is Sunday) and
      the milliseconds since local midnight. */
  datatype Now = Now(weekday: nat, millis: nat)

  /** `minLeadTimeHours = 24`: None stands for an absent (undefined) prop,
      the only case the default covers. A `null` prop is not modelled; in
      JavaScript it takes no default and acts as a lead time of 0. */
  function LeadHours(minLeadTimeHours: Option<int>): int {
    minLeadTimeHours.GetOr(DefaultLeadHours)
  }

  /** `slotDateTime > minTime`: local midnight of day `offset` plus `minutes`
      is strictly after now plus the lead time. */
  predicate AfterLead(now: Now, lead: int, offset: nat, minutes: nat) {
    (offset * MinutesPerDay + minutes) * 60000 > now.millis + lead * 3600000
  }

  function Kept(now: Now, lead: int, offset: nat): nat -> bool {
    (t: nat) => AfterLead(now, lead, offset, t)
  }

  /** The times offered on day `offset`: the kept candidates of each
      interval, interval by interval. */
  function DayTimes(ivs: seq<Interval>, now: Now, lead: int, offset: nat): (r: seq<nat>)
    ensures forall i :: 0 <= i < |r| ==> AfterLead(now, lead, offset, r[i])
  {
    if |ivs| == 0 then []
    else Filter(IntervalTimes(ivs[0]), Kept(now, lead, offset)) + DayTimes(ivs[1..], now, lead, offset)
  }

  /** A time is offered on a day exactly when it is after the lead time and
      a candidate of some interval. */
  lemma {:induction false} DayTimesIff(ivs: seq<Interval>, now: Now, lead: int, offset: nat, t: nat)
    ensures t in DayTimes(ivs, now, lead, offset) <==>
      AfterLead(now, lead, offset, t) && exists k :: 0 <= k < |ivs| && t in IntervalTimes(ivs[k])
    decreases |ivs|
  {
    if |ivs| > 0 {
      DayTimesIff(ivs[1..], now, lead, offset, t);
      FilterMembers(IntervalTimes(ivs[0]), Kept(now, lead, offset), t);
      if exists k :: 0 <= k < |ivs| && t in IntervalTimes(ivs[k]) {
        var k :| 0 <= k < |ivs| && t in IntervalTimes(ivs[k]);
        if k > 0 {
          assert ivs[1..][k - 1] == ivs[k];
        }
      }
      if exists k :: 0 <= k < |ivs[1..]| && t in IntervalTimes(ivs[1..][k]) {
        var k :| 0 <= k < |ivs[1..]| && t in IntervalTimes(ivs[1..][k]);
        assert ivs[k + 1] == ivs[1..][k];
      }
    }
  }

  predicate Ascending(xs: seq<nat>) {
    forall i, j :: 0 <= i < j < |xs| ==> xs[i] < xs[j]
  }

  lemma {:induction false} FilterAscending(xs: seq<nat>, p: nat -> bool)
    requires Ascending(xs)
    ensures Ascending(Filter(xs, p))
    decreases |xs|
  {
    if |xs| > 0 {
      var rest := Filter(xs[1..], p);
      FilterAscending(xs[1..], p);
      forall j | 0 <= j < |rest|
        ensures xs[0] < rest[j]
      {
        FilterMembers(xs[1..], p, rest[j]);
        var i :| 0 <= i < |xs[1..]| && xs[1..][i] == rest[j];
        assert xs[i + 1] == rest[j];
      }
    }
  }

  /** Within one interval the offered times ascend in steps of 30 minutes. */
  lemma {:induction false} IntervalBlockAscends(iv: Interval, now: Now, lead: int, offset: nat)
    ensures Ascending(Filter(IntervalTimes(iv), Kept(now, lead, offset)))
  {
    FilterAscending(IntervalTimes(iv), Kept(now, lead, offset));
  }

  /** The weekday `offset` days from today. */
  function Weekday(now: Now, offset: nat): nat {
    (now.weekday + offset) % 7
  }

  /** Day `offset` is a working day with at least one offered time. */
  predicate OpenDay(working: set<nat>, ivs: seq<Interval>, now: Now, lead: int, offset: nat) {
    Weekday(now, offset) in working && DayTimes(ivs, now, lead, offset) != []
  }

  /** The day offsets from `offset` on, below 30, that pass `open`, in
      increasing order: the loop over the next 30 days. */
  function DaysFrom(open: nat -> bool, offset: nat): (r: seq<nat>)
    requires offset <= LookAhead
    ensures |r| <= LookAhead - offset
    ensures forall i :: 0 <= i < |r| ==> offset <= r[i] < LookAhead && open(r[i])
    ensures forall i, j :: 0 <= i < j < |r| ==> r[i] < r[j]
    decreases LookAhead - offset
  {
    if offset == LookAhead then []
    else (if open(offset) then [offset] else []) + DaysFrom(open, offset + 1)
  }

  /** Day `d` is among them exactly when it is in range and passes `open`. */
  lemma {:induction false} DaysFromIff(open: nat -> bool, offset: nat, d: nat)
    requires offset <= LookAhead
    ensures d in DaysFrom(open, offset) <==> offset <= d < LookAhead && open(d)
    decreases LookAhead - offset
  {
    if offset < LookAhead {
      var rest := DaysFrom(open, offset + 1);
      DaysFromIff(open, offset + 1, d);
      if open(offset) {
        assert DaysFrom(open, offset) == [offset] + rest;
      } else {
        assert DaysFrom(open, offset) == rest;
      }
    }
  }

  /** The day offsets from `offset` on, below 30, that are working days with
      at least one offered time, in increasing order. */
  function OpenDaysFrom(working: set<nat>, ivs: seq<Interval>, now: Now, lead: int, offset: nat): (r: seq<nat>)
    requires offset <= LookAhead
    ensures |r| <= LookAhead - offset
    ensures forall i :: 0 <= i < |r| ==> offset <= r[i] < LookAhead
    ensures forall i, j :: 0 <= i < j < |r| ==> r[i] < r[j]
    ensures forall i :: 0 <= i < |r| ==> OpenDay(working, ivs, now, lead, r[i])
  {
    DaysFrom((d: nat) => OpenDay(working, ivs, now, lead, d), offset)
  }

  /** Day `d` is listed exactly when it is within the 30 days from today, a
      working day, and has an offered time. */
  lemma {:induction false} OpenDayIff(working: set<nat>, ivs: seq<Interval>, now: Now, lead: int, offset: nat, d: nat)
    requires offset <= LookAhead
    ensures d in OpenDaysFrom(working, ivs, now, lead, offset) <==>
      offset <= d < LookAhead && OpenDay(working, ivs, now, lead, d)
  {
    DaysFromIff((d: nat) => OpenDay(working, ivs, now, lead, d), offset, d);
  }

  /** One day of the picker: its date text and its times. */
  datatype DaySlots = DaySlots(date: string, times: seq<string>)

  function DaySlotsOf(ivs: seq<Interval>, now: Now, lead: int, dateText: nat -> string): nat -> DaySlots {
    (offset: nat) => DaySlots(dateText(offset), Map(DayTimes(ivs, now, lead, offset), MinutesToTime))
  }

  /** The slots of the next 30 days for parsed working days and intervals. */
  function Slots(working: set<nat>, ivs: seq<Interval>, now: Now, lead: int, dateText: nat -> string): (r: seq<DaySlots>)
    ensures |r| <= LookAhead
    ensures forall i :: 0 <= i < |r| ==> |r[i].times| > 0
  {
    Map(OpenDaysFrom(working, ivs, now, lead, 0), DaySlotsOf(ivs, now, lead, dateText))
  }

  /** The `i`-th listed day is the `i`-th open day offset, with its offered
      times written as clock text. */
  lemma {:induction false} SlotsAreOpenDays(working: set<nat>, ivs: seq<Interval>, now: Now, lead: int,
                         dateText: nat -> string, i: nat)
    ensures |Slots(working, ivs, now, lead, dateText)| == |OpenDaysFrom(working, ivs, now, lead, 0)|
    ensures i < |Slots(working, ivs, now, lead, dateText)| ==>
      var d := OpenDaysFrom(working, ivs, now, lead, 0)[i];
      Slots(working, ivs, now, lead, dateText)[i]
        == DaySlots(dateText(d), Map(DayTimes(ivs, now, lead, d), MinutesToTime))
  {
  }

  // ---------------------------------------------------------------------------
  // Opening days
  // ---------------------------------------------------------------------------

  /** The three-letter day names, Sunday first: a name's position is the
      weekday it stands for. */
  const DayNames: seq<string> := ["dom", "seg", "ter", "qua", "qui", "sex", "sab"]

  /** `dayNames.indexOf(name)`: the weekday a three-letter name stands for,
      -1 for any other text. */
  function DayIndex(name: string): (r: int)
    ensures -1 <= r < 7
    ensures 0 <= r ==> DayNames[r] == name
    ensures r == -1 <==> name !in DayNames
    ensures 0 <= r ==> |name| == 3 && forall i :: 0 <= i < 3 ==> 'a' <= name[i] <= 'z'
  {
    if name == "dom" then 0
    else if name == "seg" then 1
    else if name == "ter" then 2
    else if name == "qua" then 3
    else if name == "qui" then 4
    else if name == "sex" then 5
    else if name == "sab" then 6
    else -1
  }

  /** The weekdays from `first` to `last`, wrapping past Saturday when
      `last` comes before `first`. */
  function DayRange(first: nat, last: nat): (r: set<nat>)
    requires first < 7 && last < 7
    ensures first <= last ==> forall d: nat :: d in r <==> first <= d <= last
    ensures last < first ==> forall d: nat :: d in r <==> first <= d < 7 || d <= last
  {
    if first <= last then Span(first, last) else Span(first, 6) + Span(0, last)
  }

  /** The numbers from `lo` to `hi`, both included. */
  function Span(lo: nat, hi: nat): (r: set<nat>)
    ensures forall d :: d in r <==> lo <= d <= hi
    decreases hi + 1 - lo
  {
    if lo > hi then {} else {lo} + Span(lo + 1, hi)
  }

  /** `substring(0, 3)`. */
  function Prefix3(s: string): (r: string)
    ensures |r| == if |s| < 3 then |s| else 3
    ensures r <= s
  {
    if |s| <= 3 then s else s[..3]
  }

  /** The word that joins the two ends of a range of days. */
  const RangeWord := " a "

  /** The weekdays one comma-separated part names: a range `first a last`
      when the part contains the range word, otherwise a single day; each
      end is trimmed and cut to its first three letters. */
  function PartDays(part: string): (r: set<nat>)
    ensures forall d :: d in r ==> d < 7
  {
    if Contains(part, RangeWord) then
      var ends := SplitOn(part, RangeWord);
      var first := DayIndex(Prefix3(Trim(ends[0])));
      var last := DayIndex(Prefix3(Trim(ends[1])));
      if first >= 0 && last >= 0 then DayRange(first, last) else {}
    else
      var day := DayIndex(Prefix3(Trim(part)));
      if day >= 0 then {day} else {}
  }

  /** The working days every part names together. */
  function DaysOfParts(parts: seq<string>): (r: set<nat>)
    ensures forall d :: d in r ==> d < 7
  {
    assert forall d :: d in UnionOf(parts, PartDays) ==> d < 7 by {
      forall d | d in UnionOf(parts, PartDays)
        ensures d < 7
      {
        var i := UnionWitness(parts, PartDays, d);
      }
    }
    UnionOf(parts, PartDays)
  }

  /** A weekday is a working day exactly when some part names it. */
  lemma {:induction false} DaysOfPartsIff(parts: seq<string>, d: nat)
    ensures d in DaysOfParts(parts) <==> exists i :: 0 <= i < |parts| && d in PartDays(parts[i])
  {
    UnionOfIff(parts, PartDays, d);
  }

  /** The combining diacritical marks U+0300 to U+036F. */
  predicate IsMark(c: char) {
    '\U{0300}' <= c <= '\U{036F}'
  }

  /** The base letter of a lower-case Latin-1 letter, as left by the
      canonical decomposition once its combining mark is removed. */
  function BaseLetter(c: char): (r: char)
    ensures c < '\U{0080}' ==> r == c
  {
    if '\U{00E0}' <= c <= '\U{00E5}' then 'a'
    else if c == '\U{00E7}' then 'c'
    else if '\U{00E8}' <= c <= '\U{00EB}' then 'e'
    else if '\U{00EC}' <= c <= '\U{00EF}' then 'i'
    else if c == '\U{00F1}' then 'n'
    else if '\U{00F2}' <= c <= '\U{00F6}' then 'o'
    else if '\U{00F9}' <= c <= '\U{00FC}' then 'u'
    else if c == '\U{00FD}' || c == '\U{00FF}' then 'y'
    else c
  }

  /** `normalize('NFD').replace(/[̀-ͯ]/g, '')` on lower-case
      text: accents are dropped from the letters they sit on. */
  function StripMarks(s: string): (r: string)
    ensures |r| <= |s|
  {
    if |s| == 0 then ""
    else (if IsMark(s[0]) then "" else [BaseLetter(s[0])]) + StripMarks(s[1..])
  }

  /** Unaccented ASCII text is left as it is. */
  lemma {:induction false} StripMarksOfAscii(s: string)
    requires forall i :: 0 <= i < |s| ==> s[i] < '\U{0080}'
    ensures StripMarks(s) == s
  {
    if |s| > 0 {
      StripMarksOfAscii(s[1..]);
    }
  }

  /** The pattern `\s+e\s+`: the conjunction "e" between spaces. */
  function SpacedE(t: string): (n: nat)
    ensures n <= |t|
  {
    Spaced(t, 'e')
  }

  /** The pattern `\s*a\s+` the source uses for the range word: it also
      matches the final "a" of a word followed by a space. */
  function LooseA(t: string): (n: nat)
    ensures n <= |t|
  {
    var k := SpaceRun(t);
    if k < |t| && t[k] == 'a' then
      var k2 := SpaceRun(t[k + 1..]);
      if k2 > 0 then k + 1 + k2 else 0
    else 0
  }

  /** The pattern `\s+a\s+`: the range word between spaces. */
  function SpacedA(t: string): (n: nat)
    ensures n <= |t|
  {
    Spaced(t, 'a')
  }

  /** The opening days lower-cased, unaccented, "e" turned into a comma,
      the range word rewritten with `rangeMatch`, whitespace collapsed and
      trimmed. */
  function NormalizeDaysWith(operatingDays: string, rangeMatch: string -> nat): string
    requires forall t :: rangeMatch(t) <= |t|
  {
    var folded := StripMarks(ToLower(operatingDays));
    var listed := ReplaceMatches(folded, SpacedE, ",");
    Trim(CollapseSpaces(ReplaceMatches(listed, rangeMatch, RangeWord)))
  }

  /** The working days as the source reads them, with `\s*a\s+`. */
  function WorkingDaysAsWritten(operatingDays: string): (r: set<nat>)
    ensures forall d :: d in r ==> d < 7
  {
    DaysOfParts(SplitOn(NormalizeDaysWith(operatingDays, LooseA), ","))
  }

  /** The working days with the range word required to stand between spaces. */
  function WorkingDays(operatingDays: string): (r: set<nat>)
    ensures forall d :: d in r ==> d < 7
  {
    DaysOfParts(SplitOn(NormalizeDaysWith(operatingDays, SpacedA), ","))
  }

  // ---------------------------------------------------------------------------
  // Opening hours
  // ---------------------------------------------------------------------------

  /** The pattern `as|às`. */
  function Connective(t: string): (n: nat)
    ensures n <= |t|
    ensures n > 0 ==> t[0] == 'a' || t[0] == '\U{00E0}'
  {
    if |t| >= 2 && t[1] == 's' && (t[0] == 'a' || t[0] == '\U{00E0}') then 2 else 0
  }

  /** The characters between intervals (`/[,e]/`) and between the two ends
      of an interval (`/[-aate]/`). */
  const HourSeparators: set<char> := {',', 'e'}
  const BoundSeparators: set<char> := {'-', 'a', 't', 'e'}

  /** `filter(Boolean)` on strings. */
  predicate NonEmpty(s: string) {
    s != ""
  }

  /** The opening hours lower-cased, every "h" made a colon, whitespace
      removed and the connective replaced by `connective`. */
  function HoursTextWith(operatingHours: string, connective: string): string {
    var colons := ReplaceChar(ToLower(operatingHours), 'h', ":");
    ReplaceMatches(RemoveSpaces(colons), Connective, connective)
  }

  /** One part of the hours: an interval from its first two non-empty pieces,
      nothing when it has fewer. */
  function PartInterval(part: string): (r: seq<Interval>)
    ensures |r| <= 1
    ensures |r| == 1 <==> |Filter(SplitAny(part, BoundSeparators), NonEmpty)| >= 2
  {
    var bounds := Filter(SplitAny(part, BoundSeparators), NonEmpty);
    if |bounds| >= 2 then [Interval(TimeToMinutes(bounds[0]), TimeToMinutes(bounds[1]))] else []
  }

  function IntervalsOfParts(parts: seq<string>): (r: seq<Interval>)
    ensures |r| <= |parts|
  {
    if |parts| == 0 then [] else PartInterval(parts[0]) + IntervalsOfParts(parts[1..])
  }

  /** The intervals as the source reads them: the connective is removed,
      which glues the two ends of "18h às 22h" together. */
  function IntervalsAsWritten(operatingHours: string): (r: seq<Interval>) {
    IntervalsOfParts(SplitAny(HoursTextWith(operatingHours, ""), HourSeparators))
  }

  /** The intervals with the connective read as the dash between two ends. */
  function Intervals(operatingHours: string): (r: seq<Interval>) {
    IntervalsOfParts(SplitAny(HoursTextWith(operatingHours, "-"), HourSeparators))
  }

  // ---------------------------------------------------------------------------
  // The picker's slots
  // ---------------------------------------------------------------------------

  /** `!value` for an optional text: missing or empty. */
  predicate Absent(s: Option<string>) {
    s.None? || s.value == ""
  }

  /** `generateAvailableSlots` with the corrected readers of days and hours. */
  function GenerateAvailableSlots(operatingDays: Option<string>, operatingHours: Option<string>,
                                  minLeadTimeHours: Option<int>, now: Now, dateText: nat -> string): (r: seq<DaySlots>)
    ensures Absent(operatingDays) || Absent(operatingHours) ==> r == []
    ensures |r| <= LookAhead
    ensures forall i :: 0 <= i < |r| ==> |r[i].times| > 0
    ensures !Absent(operatingDays) && !Absent(operatingHours) ==>
      r == Slots(WorkingDays(operatingDays.value), Intervals(operatingHours.value),
                 now, LeadHours(minLeadTimeHours), dateText)
  {
    if Absent(operatingDays) || Absent(operatingHours) then []
    else Slots(WorkingDays(operatingDays.value), Intervals(operatingHours.value),
               now, LeadHours(minLeadTimeHours), dateText)
  }

  /** `generateAvailableSlots` as written. */
  function GenerateAvailableSlotsAsWritten(operatingDays: Option<string>, operatingHours: Option<string>,
                                           minLeadTimeHours: Option<int>, now: Now, dateText: nat -> string): (r: seq<DaySlots>)
    ensures Absent(operatingDays) || Absent(operatingHours) ==> r == []
    ensures |r| <= LookAhead
    ensures forall i :: 0 <= i < |r| ==> |r[i].times| > 0
  {
    if Absent(operatingDays) || Absent(operatingHours) then []
    else Slots(WorkingDaysAsWritten(operatingDays.value), IntervalsAsWritten(operatingHours.value),
               now, LeadHours(minLeadTimeHours), dateText)
  }

  // ---------------------------------------------------------------------------
  // How ranges of days are read
  // ---------------------------------------------------------------------------

  /** Lower-case ASCII letters, at least one. */
  predicate LowerWord(s: string) {
    |s| > 0 && forall i :: 0 <= i < |s| ==> 'a' <= s[i] <= 'z'
  }

  /** Lower-case ASCII letters and spaces. */
  predicate Plain(s: string) {
    forall i :: 0 <= i < |s| ==> 'a' <= s[i] <= 'z' || s[i] == ' '
  }

  /** Plain text is already lower-case and unaccented. */
  lemma {:induction false} PlainFolds(s: string)
    requires Plain(s)
    ensures StripMarks(ToLower(s)) == s
  {
    ToLowerOfLower(s);
    StripMarksOfAscii(s);
  }

  /** A single space before a word starts no `\s+c\s+` match. */
  lemma {:induction false} SpacedBeforeWord(t: string, c: char)
    requires |t| >= 2 && IsSpace(t[0]) && !IsSpace(t[1])
    requires t[1] == c ==> |t| == 2 || !IsSpace(t[2])
    ensures Spaced(t, c) == 0
  {
    assert t[1..][0] == t[1];
    if t[1] == c && |t| > 2 {
      assert t[2..][0] == t[2];
    }
  }

  /** Inside a word `\s*a\s+` matches nowhere. */
  lemma {:induction false} LooseAInWord(t: string)
    requires |t| >= 1 && !IsSpace(t[0]) && (|t| == 1 || !IsSpace(t[1]))
    ensures LooseA(t) == 0
  {
    if |t| > 1 {
      assert t[1..][0] == t[1];
    }
  }

  /** No `\s+c\s+` match in words joined by the range word. */
  lemma {:induction false} RangeHasNoSpacedE(x: string, y: string)
    requires LowerWord(x) && LowerWord(y)
    ensures ReplaceMatches(x + RangeWord + y, SpacedE, ",") == x + RangeWord + y
  {
    var s := x + RangeWord + y;
    forall i | 0 <= i < |s|
      ensures SpacedE(s[i..]) == 0
    {
      var t := s[i..];
      if i == |x| || i == |x| + 2 {
        SpacedBeforeWord(t, 'e');
      }
    }
    ReplaceMatchesNone(s, SpacedE, ",");
  }

  /** `\s*a\s+` at an "a" followed by one space and a word. */
  lemma {:induction false} LooseAAt(rest: string)
    requires |rest| > 0 && !IsSpace(rest[0])
    ensures ReplaceMatches("a " + rest, LooseA, RangeWord) == RangeWord + ReplaceMatches(rest, LooseA, RangeWord)
  {
    var b := "a " + rest;
    assert b[1..] == " " + rest;
    SpaceRunOf(" ", rest);
    assert b[2..] == rest;
  }

  /** `\s*a\s+` matches nowhere in a word. */
  lemma {:induction false} LooseANone(w: string)
    requires LowerWord(w)
    ensures ReplaceMatches(w, LooseA, RangeWord) == w
  {
    forall i | 0 <= i < |w|
      ensures LooseA(w[i..]) == 0
    {
      LooseAInWord(w[i..]);
    }
    ReplaceMatchesNone(w, LooseA, RangeWord);
  }

  /** `\s*a\s+` matches at no position of a word followed by a letter. */
  lemma {:induction false} LooseAInPrefix(u: string, b: string)
    requires LowerWord(u) && |b| > 0 && 'a' <= b[0] <= 'z'
    ensures forall i :: 0 <= i < |u| ==> LooseA((u + b)[i..]) == 0
  {
    forall i | 0 <= i < |u|
      ensures LooseA((u + b)[i..]) == 0
    {
      var t := (u + b)[i..];
      assert t[0] == u[i];
      assert t[1] == if i + 1 < |u| then u[i + 1] else b[0];
      LooseAInWord(t);
    }
  }

  /** `\s*a\s+` on `u + "a a " + y`: both the final "a" of the first word and
      the range word become " a ". */
  lemma {:induction false} LooseRangeWord(u: string, y: string)
    requires LowerWord(u) && LowerWord(y)
    ensures ReplaceMatches(u + "a" + RangeWord + y, LooseA, RangeWord) == u + (RangeWord + (RangeWord + y))
  {
    var b := "a a " + y;
    assert u + "a" + RangeWord + y == u + b;
    LooseAInPrefix(u, b);
    ReplaceMatchesSkip(u, b, LooseA, RangeWord);
    LooseTail(y);
  }

  lemma {:induction false} LooseTail(y: string)
    requires LowerWord(y)
    ensures ReplaceMatches("a a " + y, LooseA, RangeWord) == RangeWord + (RangeWord + y)
  {
    var c := "a " + y;
    assert "a a " + y == "a " + c;
    LooseAAt(c);
    LooseAAt(y);
    LooseANone(y);
  }

  /** `\s+a\s+` on the range word followed by a word. */
  lemma {:induction false} SpacedAAt(rest: string)
    requires |rest| > 0 && !IsSpace(rest[0])
    ensures ReplaceMatches(RangeWord + rest, SpacedA, RangeWord) == RangeWord + ReplaceMatches(rest, SpacedA, RangeWord)
  {
    var b := RangeWord + rest;
    assert b == " " + ("a " + rest);
    SpaceRunOf(" ", "a " + rest);
    assert b[2..] == " " + rest;
    SpaceRunOf(" ", rest);
    assert SpacedA(b) == 3;
    assert b[3..] == rest;
  }

  /** `\s+a\s+` matches at no position of a word. */
  lemma {:induction false} SpacedAInWord(x: string, b: string)
    requires LowerWord(x)
    ensures forall i :: 0 <= i < |x| ==> SpacedA((x + b)[i..]) == 0
  {
    forall i | 0 <= i < |x|
      ensures SpacedA((x + b)[i..]) == 0
    {
      assert (x + b)[i..][0] == x[i];
    }
  }

  /** `\s+a\s+` on `x + " a " + y` matches only the range word. */
  lemma {:induction false} SpacedRangeWord(x: string, y: string)
    requires LowerWord(x) && LowerWord(y)
    ensures ReplaceMatches(x + RangeWord + y, SpacedA, RangeWord) == x + RangeWord + y
  {
    var b := RangeWord + y;
    assert x + RangeWord + y == x + b;
    SpacedASkipsWord(x, b);
    SpacedAKeepsTail(y);
  }

  lemma {:induction false} SpacedASkipsWord(x: string, b: string)
    requires LowerWord(x)
    ensures ReplaceMatches(x + b, SpacedA, RangeWord) == x + ReplaceMatches(b, SpacedA, RangeWord)
  {
    SpacedAInWord(x, b);
    ReplaceMatchesSkip(x, b, SpacedA, RangeWord);
  }

  lemma {:induction false} SpacedAKeepsTail(y: string)
    requires LowerWord(y)
    ensures ReplaceMatches(RangeWord + y, SpacedA, RangeWord) == RangeWord + y
  {
    SpacedAAt(y);
    SpacedAInWord(y, "");
    assert y + "" == y;
    ReplaceMatchesNone(y, SpacedA, RangeWord);
  }

  /** Two words joined by the range word are normalized as they are. */
  lemma {:induction false} CollapseRange(x: string, y: string)
    requires LowerWord(x) && LowerWord(y)
    ensures Trim(CollapseSpaces(x + RangeWord + y)) == x + RangeWord + y
  {
    var r1 := "a" + (" " + y);
    CollapseNoSpaces(y);
    CollapseAfterWord("a", " ", y);
    var r2 := x + (" " + r1);
    CollapseAfterWord(x, " ", r1);
    assert x + RangeWord + y == r2;
    TrimOfTrimmed(x + RangeWord + y);
  }

  /** `u + " a  a " + y` collapses to `u + " a a " + y`. */
  lemma {:induction false} CollapseDoubledRange(u: string, y: string)
    requires LowerWord(u) && LowerWord(y)
    ensures Trim(CollapseSpaces(u + (RangeWord + (RangeWord + y)))) == u + RangeWord + ("a " + y)
  {
    var r1 := "a" + (" " + y);
    CollapseNoSpaces(y);
    CollapseAfterWord("a", " ", y);
    var r2 := "a" + ("  " + r1);
    CollapseAfterWord("a", "  ", r1);
    assert RangeWord + (RangeWord + y) == " " + r2;
    CollapseAfterWord(u, " ", r2);
    DoubledShape(u, y);
  }

  lemma {:induction false} DoubledShape(u: string, y: string)
    requires LowerWord(u) && LowerWord(y)
    ensures u + (" " + ("a" + (" " + ("a" + (" " + y))))) == u + RangeWord + ("a " + y)
    ensures Trim(u + RangeWord + ("a " + y)) == u + RangeWord + ("a " + y)
  {
    DoubledJoin(y);
    DoubledTrimmed(u, "a " + y);
  }

  lemma {:induction false} DoubledJoin(y: string)
    ensures " " + ("a" + (" " + ("a" + (" " + y)))) == RangeWord + ("a " + y)
  {
  }

  lemma {:induction false} DoubledTrimmed(u: string, b: string)
    requires LowerWord(u) && |b| > 0 && !IsSpace(b[|b| - 1])
    ensures Trim(u + RangeWord + b) == u + RangeWord + b
  {
    var s := u + RangeWord + b;
    assert s[0] == u[0] && s[|s| - 1] == b[|b| - 1];
    TrimOfTrimmed(s);
  }

  /** A text whose only space is its second character has no range word. */
  lemma {:induction false} NoRangeWord(r: string)
    requires forall i :: 0 <= i < |r| && r[i] == ' ' ==> i == 1
    ensures SplitOn(r, RangeWord) == [r]
  {
    assert RangeWord[0] == ' ' && RangeWord[2] == ' ';
    forall j | 0 <= j <= |r|
      ensures !OccursAt(r, RangeWord, j)
    {
    }
    SplitOnAbsent(r, RangeWord);
  }

  /** A word, the range word and the rest split at the range word. */
  lemma {:induction false} SplitAtRange(x: string, rest: string)
    requires LowerWord(x)
    ensures IndexOf(x + RangeWord + rest, RangeWord) == |x|
    ensures SplitOn(x + RangeWord + rest, RangeWord) == [x] + SplitOn(rest, RangeWord)
  {
    var s := x + RangeWord + rest;
    assert OccursAt(s, RangeWord, |x|);
    forall j | 0 <= j < |x|
      ensures !OccursAt(s, RangeWord, j)
    {
      assert s[j] == x[j] && RangeWord[0] == ' ';
    }
    IndexOfAt(s, RangeWord, |x|);
    assert s[..|x|] == x && s[|x| + 3..] == rest;
  }

  /** A text without a comma is one part. */
  lemma {:induction false} OnePart(s: string)
    requires Lacks(s, ',')
    ensures SplitOn(s, ",") == [s]
  {
    AbsentChar(s, ',');
    SplitOnAbsent(s, ",");
  }

  /** Words joined by the range word are plain text. */
  lemma {:induction false} RangePlain(x: string, y: string)
    requires LowerWord(x) && LowerWord(y)
    ensures Plain(x + RangeWord + y)
  {
    var s := x + RangeWord + y;
    forall i | 0 <= i < |s|
      ensures 'a' <= s[i] <= 'z' || s[i] == ' '
    {
      if i < |x| {
        assert s[i] == x[i];
      } else if i >= |x| + 3 {
        assert s[i] == y[i - |x| - 3];
      }
    }
  }

  lemma {:induction false} BrokenRangePlain(u: string, y: string)
    requires LowerWord(u) && LowerWord(y)
    ensures Plain(u + RangeWord + ("a " + y))
  {
    var s := u + RangeWord + ("a " + y);
    forall i | 0 <= i < |s|
      ensures 'a' <= s[i] <= 'z' || s[i] == ' '
    {
      if i < |u| {
        assert s[i] == u[i];
      } else if i >= |u| + 5 {
        assert s[i] == y[i - |u| - 5];
      }
    }
  }

  /** As written, the first day's final "a" becomes a second range word. */
  lemma {:induction false} NormalizedAsWritten(u: string, y: string)
    requires LowerWord(u) && LowerWord(y)
    ensures NormalizeDaysWith(u + "a" + RangeWord + y, LooseA) == u + RangeWord + ("a " + y)
  {
    var x := u + "a";
    var s := x + RangeWord + y;
    RangePlain(x, y);
    PlainFolds(s);
    RangeHasNoSpacedE(x, y);
    LooseRangeWord(u, y);
    CollapseDoubledRange(u, y);
  }

  /** The days a range part names, given its two ends. */
  lemma {:induction false} PartDaysOfEnds(part: string, a: string, b: string, first: int, last: int)
    requires Contains(part, RangeWord) && SplitOn(part, RangeWord) == [a, b]
    requires first == DayIndex(Prefix3(Trim(a))) && last == DayIndex(Prefix3(Trim(b)))
    ensures PartDays(part) == if first >= 0 && last >= 0 then DayRange(first, last) else {}
  {
  }

  /** Text with a space in second place is no day name. */
  lemma {:induction false} SpacedNoDay(name: string)
    requires |name| > 1 && name[1] == ' '
    ensures DayIndex(name) == -1
  {
  }

  /** A range whose second end starts with "a " names no day. */
  lemma {:induction false} BrokenRangeNamesNothing(u: string, y: string)
    requires LowerWord(u) && LowerWord(y)
    ensures PartDays(u + RangeWord + ("a " + y)) == {}
  {
    var b := "a " + y;
    SplitAtRange(u, b);
    BrokenEnd(y);
    PartDaysOfEnds(u + RangeWord + b, u, b, DayIndex(Prefix3(Trim(u))), -1);
  }

  /** "a " followed by a word holds no range word and names no day. */
  lemma {:induction false} BrokenEnd(y: string)
    requires LowerWord(y)
    ensures SplitOn("a " + y, RangeWord) == ["a " + y]
    ensures DayIndex(Prefix3(Trim("a " + y))) == -1
  {
    var b := "a " + y;
    forall i | 0 <= i < |b| && i != 1
      ensures b[i] != ' '
    {
      if i > 1 {
        assert b[i] == y[i - 2];
      }
    }
    NoRangeWord(b);
    TrimOfTrimmed(b);
    assert Prefix3(b)[1] == ' ';
    SpacedNoDay(Prefix3(b));
  }

  /** As written, `\s*a\s+` also matches the final "a" of the first day
      ("segunda a sexta" becomes "segund a a sexta"), so a range whose first
      day name ends in "a" names no day at all. */
  lemma {:induction false} RangeAfterFinalAAsWritten(u: string, y: string)
    requires LowerWord(u) && LowerWord(y)
    ensures WorkingDaysAsWritten(u + "a" + RangeWord + y) == {}
  {
    var n := u + RangeWord + ("a " + y);
    NormalizedAsWritten(u, y);
    BrokenRangePlain(u, y);
    NoComma(n);
    BrokenRangeNamesNothing(u, y);
    DaysOfOnePart(n);
  }

  lemma {:induction false} DaysOfOnePart(part: string)
    ensures DaysOfParts([part]) == PartDays(part)
  {
    assert [part][1..] == [];
    assert UnionOf([part], PartDays) == PartDays(part) + UnionOf([], PartDays);
  }

  /** Plain text is one comma-separated part. */
  lemma {:induction false} NoComma(s: string)
    requires Plain(s)
    ensures SplitOn(s, ",") == [s]
  {
    assert Lacks(s, ',');
    OnePart(s);
  }

  /** With the range word required between spaces, two words joined by it
      are already normal. */
  lemma {:induction false} NormalizedRange(x: string, y: string)
    requires LowerWord(x) && LowerWord(y)
    ensures NormalizeDaysWith(x + RangeWord + y, SpacedA) == x + RangeWord + y
  {
    var s := x + RangeWord + y;
    RangePlain(x, y);
    PlainFolds(s);
    RangeHasNoSpacedE(x, y);
    SpacedRangeWord(x, y);
    CollapseRange(x, y);
  }

  /** Two words around the range word split into the two words. */
  lemma {:induction false} RangeSplit(x: string, y: string)
    requires LowerWord(x) && LowerWord(y)
    ensures Contains(x + RangeWord + y, RangeWord)
    ensures SplitOn(x + RangeWord + y, RangeWord) == [x, y]
  {
    SplitAtRange(x, y);
    NoRangeWord(y);
  }

  /** A range of two words names the days from the first to the second. */
  lemma {:induction false} RangeNamesSpan(x: string, y: string)
    requires LowerWord(x) && LowerWord(y)
    ensures var first, last := DayIndex(Prefix3(x)), DayIndex(Prefix3(y));
      PartDays(x + RangeWord + y) == if first >= 0 && last >= 0 then DayRange(first, last) else {}
  {
    RangeSplit(x, y);
    TrimOfTrimmed(x);
    TrimOfTrimmed(y);
    PartDaysOfEnds(x + RangeWord + y, x, y, DayIndex(Prefix3(x)), DayIndex(Prefix3(y)));
  }

  /** With the range word required between spaces, two lower-case words
      joined by it name the days from the first to the second. */
  lemma {:induction false} RangeOfWords(x: string, y: string)
    requires LowerWord(x) && LowerWord(y)
    ensures var first, last := DayIndex(Prefix3(x)), DayIndex(Prefix3(y));
      WorkingDays(x + RangeWord + y) == if first >= 0 && last >= 0 then DayRange(first, last) else {}
  {
    var s := x + RangeWord + y;
    NormalizedRange(x, y);
    RangePlain(x, y);
    NoComma(s);
    RangeNamesSpan(x, y);
    DaysOfOnePart(s);
  }

  /** "segunda a sexta" seen as a word ending in "a" and as two words. */
  lemma {:induction false} MondayToFridayText(days: string)
    requires days == "segunda a sexta"
    ensures days == "segund" + "a" + RangeWord + "sexta"
    ensures days == "segunda" + RangeWord + "sexta"
    ensures LowerWord("segund") && LowerWord("segunda") && LowerWord("sexta")
  {
  }

  /** "segunda a sexta" (Monday to Friday) names no day as written. */
  lemma {:induction false} MondayToFridayAsWritten(days: string)
    requires days == "segunda a sexta"
    ensures WorkingDaysAsWritten(days) == {}
  {
    MondayToFridayText(days);
    RangeAfterFinalAAsWritten("segund", "sexta");
  }

  /** "segunda a sexta" names Monday to Friday once the range word must
      stand between spaces. */
  lemma {:induction false} MondayToFriday(days: string)
    requires days == "segunda a sexta"
    ensures WorkingDays(days) == {1, 2, 3, 4, 5}
  {
    MondayToFridayText(days);
    RangeOfWords("segunda", "sexta");
    MondayToFridayIndices();
  }

  lemma {:induction false} MondayToFridayIndices()
    ensures DayIndex(Prefix3("segunda")) == 1 && DayIndex(Prefix3("sexta")) == 5
    ensures DayRange(1, 5) == {1, 2, 3, 4, 5}
  {
    assert Prefix3("segunda") == "seg" && Prefix3("sexta") == "sex";
  }
  // ---------------------------------------------------------------------------
  // How "18h às 22h" is read
  // ---------------------------------------------------------------------------

  /** The connective " às " between the two ends of an interval. */
  const AsWord := " \U{00E0}s "

  /** Hours written "HHh às HHh". */
  function HoursText(a: string, b: string): string {
    a + ("h" + (AsWord + (b + "h")))
  }

  /** The hours text is already lower-case. */
  lemma {:induction false} HoursLower(a: string, b: string)
    requires AllDigits(a) && AllDigits(b)
    ensures ToLower(HoursText(a, b)) == HoursText(a, b)
  {
    var s := HoursText(a, b);
    forall i | 0 <= i < |s|
      ensures !('A' <= s[i] <= 'Z') && !('\U{00C0}' <= s[i] <= '\U{00DE}')
    {
      if i < |a| {
        assert s[i] == a[i];
      } else if i >= |a| + 5 && i < |a| + 5 + |b| {
        assert s[i] == b[i - |a| - 5];
      }
    }
    ToLowerOfLower(s);
  }

  /** Digits and colons: the text between and around the connective. */
  predicate ClockChars(s: string) {
    forall i :: 0 <= i < |s| ==> IsDigit(s[i]) || s[i] == ':'
  }

  lemma {:induction false} ClockCharsOf(a: string)
    requires AllDigits(a)
    ensures ClockChars(a + ":")
  {
  }

  /** Every "h" becomes a colon. */
  lemma {:induction false} HoursColons(a: string, b: string)
    requires AllDigits(a) && AllDigits(b)
    ensures ReplaceChar(HoursText(a, b), 'h', ":") == (a + ":") + (AsWord + (b + ":"))
  {
    DigitsLack(a, 'h');
    DigitsLack(b, 'h');
    assert Lacks(AsWord, 'h');
    ReplaceCharAppend(b, "h", 'h', ":");
    ReplaceCharAppend(AsWord, b + "h", 'h', ":");
    ReplaceCharAppend("h", AsWord + (b + "h"), 'h', ":");
    ReplaceCharAppend(a, "h" + (AsWord + (b + "h")), 'h', ":");
    assert ReplaceChar("h", 'h', ":") == ":";
    assert a + (":" + (AsWord + (b + ":"))) == (a + ":") + (AsWord + (b + ":"));
  }

  /** `Keep` on a middle piece between two pieces that are kept whole. */
  lemma {:induction false} KeepBetween(x: string, mid: string, y: string, keep: char -> bool)
    requires forall i :: 0 <= i < |x| ==> keep(x[i])
    requires forall i :: 0 <= i < |y| ==> keep(y[i])
    ensures Keep(x + (mid + y), keep) == x + (Keep(mid, keep) + y)
  {
    KeepAppend(x, mid + y, keep);
    KeepAppend(mid, y, keep);
    KeepAll(x, keep);
    KeepAll(y, keep);
  }

  lemma {:induction false} KeepAsWord()
    ensures Keep(AsWord, NotSpace) == "\U{00E0}s"
  {
    var w := "\U{00E0}s";
    assert AsWord == " " + (w + " ");
    KeepBetween("", " ", "", NotSpace);
    assert Keep(" ", NotSpace) == "";
    KeepAll(w, NotSpace);
    KeepAppend(w, " ", NotSpace);
    KeepAppend(" ", w + " ", NotSpace);
  }

  /** Removing whitespace leaves "às" between the colons. */
  lemma {:induction false} HoursNoSpaces(a: string, b: string)
    requires AllDigits(a) && AllDigits(b)
    ensures RemoveSpaces((a + ":") + (AsWord + (b + ":"))) == (a + ":") + ("\U{00E0}s" + (b + ":"))
  {
    ClockCharsOf(a);
    ClockCharsOf(b);
    KeepBetween(a + ":", AsWord, b + ":", NotSpace);
    KeepAsWord();
  }

  /** The connective matches nowhere in digits and colons. */
  lemma {:induction false} NoConnective(x: string, tail: string)
    requires ClockChars(x)
    ensures forall i :: 0 <= i < |x| ==> Connective((x + tail)[i..]) == 0
  {
    forall i | 0 <= i < |x|
      ensures Connective((x + tail)[i..]) == 0
    {
      assert (x + tail)[i..][0] == x[i];
    }
  }

  /** The connective "às" is replaced by `rep`. */
  lemma {:induction false} HoursConnective(a: string, b: string, rep: string)
    requires AllDigits(a) && AllDigits(b)
    ensures ReplaceMatches((a + ":") + ("\U{00E0}s" + (b + ":")), Connective, rep) == (a + ":") + (rep + (b + ":"))
  {
    var x, y := a + ":", b + ":";
    var tail := "\U{00E0}s" + y;
    ClockCharsOf(a);
    ClockCharsOf(b);
    NoConnective(x, tail);
    ReplaceMatchesSkip(x, tail, Connective, rep);
    assert Connective(tail) == 2 && tail[2..] == y;
    NoConnective(y, "");
    assert y + "" == y;
    ReplaceMatchesNone(y, Connective, rep);
  }

  /** The normalized hours of "HHh às HHh": the two ends joined by `rep`. */
  lemma {:induction false} HoursTextOf(a: string, b: string, rep: string)
    requires AllDigits(a) && AllDigits(b)
    ensures HoursTextWith(HoursText(a, b), rep) == (a + ":") + (rep + (b + ":"))
  {
    HoursLower(a, b);
    HoursColons(a, b);
    HoursNoSpaces(a, b);
    HoursConnective(a, b, rep);
  }

  /** As written, "às" is removed and the two ends are glued together, so
      "HHh às HHh" yields no interval. */
  lemma {:induction false} ConnectiveAsWritten(a: string, b: string)
    requires AllDigits(a) && AllDigits(b)
    ensures IntervalsAsWritten(HoursText(a, b)) == []
  {
    var n := (a + ":") + ("" + (b + ":"));
    HoursTextOf(a, b, "");
    forall i | 0 <= i < |n|
      ensures n[i] !in HourSeparators && n[i] !in BoundSeparators
    {
      assert IsDigit(n[i]) || n[i] == ':';
    }
    SplitAnyNone(n, HourSeparators);
    SplitAnyNone(n, BoundSeparators);
    assert Filter([n], NonEmpty) == [n];
    assert IntervalsOfParts([n]) == PartInterval(n) + IntervalsOfParts([]);
  }

  /** With "às" read as the dash between the ends, "HHh às HHh" is the
      interval between those two hours. */
  lemma {:induction false} ConnectiveAsDash(a: string, b: string)
    requires AllDigits(a) && AllDigits(b)
    ensures Intervals(HoursText(a, b)) == [Interval(Some(DigitsValue(a) * 60), Some(DigitsValue(b) * 60))]
  {
    var n := (a + ":") + ("-" + (b + ":"));
    HoursTextOf(a, b, "-");
    forall i | 0 <= i < |n|
      ensures n[i] !in HourSeparators
    {
      assert IsDigit(n[i]) || n[i] == ':' || n[i] == '-';
    }
    SplitAnyNone(n, HourSeparators);
    EndsOfDash(a, b);
    assert IntervalsOfParts([n]) == PartInterval(n) + IntervalsOfParts([]);
  }

  /** "HH:-HH:" splits into its two ends, each read as whole hours. */
  lemma {:induction false} EndsOfDash(a: string, b: string)
    requires AllDigits(a) && AllDigits(b)
    ensures PartInterval((a + ":") + ("-" + (b + ":")))
         == [Interval(Some(DigitsValue(a) * 60), Some(DigitsValue(b) * 60))]
  {
    var x, y := a + ":", b + ":";
    assert x + ("-" + y) == x + ['-'] + y;
    forall i | 0 <= i < |x|
      ensures x[i] !in BoundSeparators
    {
      assert IsDigit(x[i]) || x[i] == ':';
    }
    forall i | 0 <= i < |y|
      ensures y[i] !in BoundSeparators
    {
      assert IsDigit(y[i]) || y[i] == ':';
    }
    SplitAnyAt(x, '-', y, BoundSeparators);
    SplitAnyNone(y, BoundSeparators);
    assert Filter([x, y], NonEmpty) == [x, y];
    WholeHours(a);
    WholeHours(b);
  }

  /** "HH:" reads as HH whole hours. */
  lemma {:induction false} WholeHours(h: string)
    requires AllDigits(h)
    ensures TimeToMinutes(h + ":") == Some(DigitsValue(h) * 60)
  {
    assert h + ":" + "" == h + ":";
    assert DigitsValue("") == 0;
    ClockValues(h, "", DigitsValue(h), 0, DigitsValue(h) * 60);
  }

  /** "18h às 22h" yields no interval as written and 18:00 to 22:00 once
      "às" is read as a dash. */
  lemma {:induction false} SixToTen(a: string, b: string)
    requires a == "18" && b == "22"
    ensures IntervalsAsWritten(HoursText(a, b)) == []
    ensures Intervals(HoursText(a, b)) == [Interval(Some(1080), Some(1320))]
  {
    SixToTenText(a, b);
    ConnectiveAsWritten(a, b);
    ConnectiveAsDash(a, b);
  }

  lemma {:induction false} SixToTenText(a: string, b: string)
    requires a == "18" && b == "22"
    ensures AllDigits(a) && AllDigits(b) && DigitsValue(a) == 18 && DigitsValue(b) == 22
  {
    assert AllDigits(a) && AllDigits(b);
    DigitsValueTwo(a);
    DigitsValueTwo(b);
  }
}

=== FILE: header.dfy ===
/** The storefront's header (src/components/Header.jsx): whether the store is
    open now, read from the tenant's free-text working days and hours, and
    the banner images that rotate behind it. The current weekday and the
    minutes since midnight are parameters. */
module Header {
  import opened Text
  import opened Js
  import DateTimePicker

  /** What `checkIsOpen` returns. */
  datatype Status = Status(isOpen: bool, statusText: string)

  const Closed := Status(false, "Fechado")

  /** The day names the header understands, each with its `getDay()` number. */
  const DayMap: map<string, nat> := map[
    "dom" := 0, "domingo" := 0,
    "seg" := 1, "segunda" := 1,
    "ter" := 2, "ter\U{00E7}a" := 2, "terca" := 2,
    "qua" := 3, "quarta" := 3,
    "qui" := 4, "quinta" := 4,
    "sex" := 5, "sexta" := 5,
    "sab" := 6, "s\U{00E1}bado" := 6, "sabado" := 6]

  lemma {:induction false} DayNumbers()
    ensures forall name :: name in DayMap ==> DayMap[name] < 7
  {
  }

  // ---------------------------------------------------------------------------
  // Working days
  // ---------------------------------------------------------------------------

  /** The pattern `a\s+`. */
  function ASpaces(t: string): (n: nat)
    ensures n <= |t|
    ensures n > 0 ==> t[0] == 'a' && n >= 2
  {
    if |t| > 0 && t[0] == 'a' && SpaceRun(t[1..]) > 0 then 1 + SpaceRun(t[1..]) else 0
  }

  /** The pattern `\s+e\s+`. */
  function SpacedE(t: string): (n: nat)
    ensures n <= |t|
    ensures n > 0 ==> IsSpace(t[0])
  {
    Spaced(t, 'e')
  }

  /** The steps after the list separators became commas: `a` followed by
      whitespace becomes `a `, whitespace runs collapse, the ends are trimmed. */
  function CommasToDays(listed: string): string {
    Trim(CollapseSpaces(ReplaceMatches(listed, ASpaces, "a ")))
  }

  /** The normalised days text as written: every `e` becomes a comma. */
  function NormalizeDaysAsWritten(days: string): string {
    CommasToDays(ReplaceChar(ToLower(days), 'e', ","))
  }

  /** The normalised days text when only the word `e` between spaces separates days. */
  function NormalizeDays(days: string): string {
    CommasToDays(ReplaceMatches(ToLower(days), SpacedE, ","))
  }

  /** Length of the run of `\w` characters at the start of `s`. */
  function WordRun(s: string): (n: nat)
    ensures n <= |s|
    ensures forall i :: 0 <= i < n ==> IsWordChar(s[i])
    ensures n < |s| ==> !IsWordChar(s[n])
  {
    if |s| > 0 && IsWordChar(s[0]) then 1 + WordRun(s[1..]) else 0
  }

  /** The rest of the range pattern once `(\w+)` has taken `s[i..j]`:
      whitespace, `a`, whitespace and a second `(\w+)` as long as it goes.
      With `spaced` both runs of whitespace must be non-empty (`\s+`),
      otherwise they may be empty (`\s*`, as written). */
  function RangeAfter(s: string, i: nat, j: nat, spaced: bool): Option<(string, string)>
    requires i < j <= |s|
  {
    var t := s[j..];
    var k := SpaceRun(t);
    if k < |t| && t[k] == 'a' && (spaced ==> k > 0) then
      var u := t[k + 1..];
      var l := SpaceRun(u);
      var w := WordRun(u[l..]);
      if w > 0 && (spaced ==> l > 0) then Some((s[i..j], u[l..][..w])) else None
    else None
  }

  /** The first `(\w+)` at `i` gives characters back, one at a time from `j`
      down, until the rest of the pattern matches. */
  function RangeFrom(s: string, i: nat, j: nat, spaced: bool): Option<(string, string)>
    requires i <= j <= |s|
    decreases j
  {
    if j == i then None
    else
      var m := RangeAfter(s, i, j, spaced);
      if m.Some? then m else RangeFrom(s, i, j - 1, spaced)
  }

  /** The leftmost match of the range pattern at or after `i`. */
  function RangeMatchFrom(s: string, i: nat, spaced: bool): Option<(string, string)>
    requires i <= |s|
    decreases |s| - i
  {
    if i == |s| then None
    else
      var m := RangeFrom(s, i, i + WordRun(s[i..]), spaced);
      if m.Some? then m else RangeMatchFrom(s, i + 1, spaced)
  }

  /** `for (let d = start; d <= end; d++)`: the days from `first` to `last`,
      none when `last` comes first (no wrap past Saturday). */
  function Range(first: nat, last: nat): (r: seq<nat>)
    ensures |r| == if first <= last then last - first + 1 else 0
    ensures forall k :: 0 <= k < |r| ==> r[k] == first + k
    decreases last + 1 - first
  {
    if first > last then [] else [first] + Range(first + 1, last)
  }

  /** The days one comma-separated part names: a matched range whose two
      names are both known, or else the trimmed part as a single name. */
  function PartDays(part: string, spaced: bool): (r: seq<nat>)
    ensures forall k :: 0 <= k < |r| ==> r[k] < 7
  {
    DayNumbers();
    match RangeMatchFrom(part, 0, spaced)
    case Some((g1, g2)) =>
      if g1 in DayMap && g2 in DayMap then Range(DayMap[g1], DayMap[g2]) else []
    case None =>
      var t := Trim(part);
      if t in DayMap then [DayMap[t]] else []
  }

  function DaysOfParts(parts: seq<string>, spaced: bool): (r: seq<nat>)
    ensures forall k :: 0 <= k < |r| ==> r[k] < 7
  {
    if |parts| == 0 then [] else PartDays(parts[0], spaced) + DaysOfParts(parts[1..], spaced)
  }

  /** A day is listed exactly when one of the parts names it. */
  lemma {:induction false} DaysOfPartsIff(parts: seq<string>, spaced: bool, d: nat)
    ensures d in DaysOfParts(parts, spaced) <==> exists k :: 0 <= k < |parts| && d in PartDays(parts[k], spaced)
  {
    if |parts| > 0 {
      DaysOfPartsIff(parts[1..], spaced, d);
      if d in DaysOfParts(parts[1..], spaced) {
        var k :| 0 <= k < |parts[1..]| && d in PartDays(parts[1..][k], spaced);
        assert d in PartDays(parts[k + 1], spaced);
      }
      if exists k :: 0 <= k < |parts| && d in PartDays(parts[k], spaced) {
        var k :| 0 <= k < |parts| && d in PartDays(parts[k], spaced);
        if k > 0 {
          assert parts[1..][k - 1] == parts[k];
        }
      }
    }
  }

  /** The working days as written. */
  function WorkingDaysAsWritten(days: string): (r: seq<nat>)
    ensures forall k :: 0 <= k < |r| ==> r[k] < 7
  {
    DaysOfParts(SplitOn(NormalizeDaysAsWritten(days), ","), false)
  }

  /** The working days with `e` read as a word and `a` as a word between spaces. */
  function WorkingDays(days: string): (r: seq<nat>)
    ensures forall k :: 0 <= k < |r| ==> r[k] < 7
  {
    DaysOfParts(SplitOn(NormalizeDays(days), ","), true)
  }

  // ---------------------------------------------------------------------------
  // Opening hours
  // ---------------------------------------------------------------------------

  const EnDash := '\U{2013}'

  /** The characters `[\d:\-–a\s]` keeps. */
  predicate HourChar(c: char) {
    IsDigit(c) || c == ':' || c == '-' || c == EnDash || c == 'a' || IsSpace(c)
  }

  /** The pattern `as|às|a`, its alternatives tried in that order. */
  function ToWord(t: string): (n: nat)
    ensures n <= |t|
    ensures n > 0 ==> t[0] == 'a' || t[0] == '\U{00E0}'
  {
    if |t| >= 2 && t[0] == 'a' && t[1] == 's' then 2
    else if |t| >= 2 && t[0] == '\U{00E0}' && t[1] == 's' then 2
    else if |t| >= 1 && t[0] == 'a' then 1
    else 0
  }

  /** The normalised hours as written: foreign characters go first, then
      the connectives become dashes, then whitespace goes and en dashes
      become dashes. */
  function NormalizeHoursAsWritten(hours: string): string {
    var kept := Keep(ToLower(hours), HourChar);
    ReplaceChar(RemoveSpaces(ReplaceMatches(kept, ToWord, "-")), EnDash, "-")
  }

  /** The normalised hours with the connectives turned into dashes before
      the foreign characters (among them the `à` and `s` of `às`) go. */
  function NormalizeHours(hours: string): string {
    var dashed := ReplaceMatches(ToLower(hours), ToWord, "-");
    ReplaceChar(RemoveSpaces(Keep(dashed, HourChar)), EnDash, "-")
  }

  predicate TimeChar(c: char) {
    IsDigit(c) || c == ':' || c == '.'
  }

  /** Length of the run of digits, colons and points at the start of `s`. */
  function TimeRun(s: string): (n: nat)
    ensures n <= |s|
    ensures forall i :: 0 <= i < n ==> TimeChar(s[i])
    ensures n < |s| ==> !TimeChar(s[n])
  {
    if |s| > 0 && TimeChar(s[0]) then 1 + TimeRun(s[1..]) else 0
  }

  function UpToTwo(n: nat): (r: nat)
    ensures r <= n && r <= 2
  {
    if n < 2 then n else 2
  }

  /** Length of the greedy match of `\d{1,2}[:.]?\d{0,2}` at the start of
      `s`, 0 when there is none. */
  function TimeMatch(s: string): (n: nat)
    ensures n <= TimeRun(s)
    ensures n > 0 ==> IsDigit(s[0])
  {
    var a := UpToTwo(|LeadingDigits(s)|);
    if a == 0 then 0
    else
      var b := if a < |s| && (s[a] == ':' || s[a] == '.') then 1 else 0;
      var c := UpToTwo(|LeadingDigits(s[a + b..])|);
      assert TimeRun(s) >= a + b + c by {
        TimeRunCovers(s, a + b + c);
      }
      a + b + c
  }

  /** Every prefix of time characters is inside the time run. */
  lemma {:induction false} TimeRunCovers(s: string, n: nat)
    requires n <= |s| && forall i :: 0 <= i < n ==> TimeChar(s[i])
    ensures TimeRun(s) >= n
  {
    if n > 0 {
      TimeRunCovers(s[1..], n - 1);
    }
  }

  /** The match of `(\d{1,2}[:.]?\d{0,2})\s*-\s*(\d{1,2}[:.]?\d{0,2})` at
      `i`. The first group must end where the run of time characters ends,
      since only whitespace or the dash may follow it, and the second group
      is as long as it goes. */
  function HoursMatchAt(s: string, i: nat): Option<(string, string)>
    requires i <= |s|
  {
    var t := s[i..];
    var e := TimeRun(t);
    var u := t[e..];
    var k := SpaceRun(u);
    if 0 < TimeMatch(t) == e && k < |u| && u[k] == '-' then
      var v := u[k + 1..];
      var w := v[SpaceRun(v)..];
      var g := TimeMatch(w);
      if g > 0 then Some((t[..e], w[..g])) else None
    else None
  }

  /** The leftmost match at or after `i`. */
  function HoursMatchFrom(s: string, i: nat): Option<(string, string)>
    requires i <= |s|
    decreases |s| - i
  {
    if i == |s| then None
    else
      var m := HoursMatchAt(s, i);
      if m.Some? then m else HoursMatchFrom(s, i + 1)
  }

  /** `parseTime`: the first point becomes a colon, the text is split at
      colons, hours and minutes are `Number`s, and NaN counts as 0. */
  function ParseTime(t: string): nat {
    var parts := SplitOn(ReplaceFirst(t, ".", ":"), ":");
    var h := ToNumber(parts[0]).GetOr(0);
    var m := if |parts| > 1 then ToNumber(parts[1]).GetOr(0) else 0;
    h * 60 + m
  }

  /** Digits, a colon and digits read as that many hours and minutes. */
  lemma {:induction false} ParseTimeClock(h: string, m: string)
    requires AllDigits(h) && AllDigits(m)
    ensures ParseTime(h + ":" + m) == DigitsValue(h) * 60 + DigitsValue(m)
  {
    NoPoint(h, m);
    DateTimePicker.DigitsLack(h, ':');
    DateTimePicker.DigitsLack(m, ':');
    DateTimePicker.SplitClock(h, m);
    DateTimePicker.ReadsDigits(h);
    DateTimePicker.ReadsDigits(m);
  }

  lemma {:induction false} NoPoint(h: string, m: string)
    requires AllDigits(h) && AllDigits(m)
    ensures ReplaceFirst(h + ":" + m, ".", ":") == h + ":" + m
  {
    var s := h + ":" + m;
    assert Lacks(s, '.') by {
      assert forall i :: 0 <= i < |s| ==> s[i] == ':' || IsDigit(s[i]);
    }
    AbsentChar(s, '.');
  }

  /** Digits alone read as whole hours: the missing minutes are NaN, so 0. */
  lemma {:induction false} ParseTimeHours(h: string)
    requires AllDigits(h)
    ensures ParseTime(h) == DigitsValue(h) * 60
  {
    assert Lacks(h, '.') && Lacks(h, ':') by {
      assert forall i :: 0 <= i < |h| ==> IsDigit(h[i]);
    }
    AbsentChar(h, '.');
    AbsentChar(h, ':');
    SplitOnAbsent(h, ":");
    TrimOfTrimmed(h);
  }

  /** A point between hours and minutes reads like a colon. */
  lemma {:induction false} ParseTimePoint(h: string, m: string)
    requires AllDigits(h) && AllDigits(m)
    ensures ParseTime(h + "." + m) == ParseTime(h + ":" + m)
  {
    PointReplaced(h, m);
    NoPoint(h, m);
  }

  lemma {:induction false} PointReplaced(h: string, m: string)
    requires AllDigits(h) && AllDigits(m)
    ensures ReplaceFirst(h + "." + m, ".", ":") == h + ":" + m
  {
    var s := h + "." + m;
    assert "."[0] == '.';
    assert OccursAt(s, ".", |h|);
    forall j | 0 <= j < |h|
      ensures !OccursAt(s, ".", j)
    {
      assert s[j] == h[j];
    }
    IndexOfAt(s, ".", |h|);
    assert s[..|h|] == h && s[|h| + 1..] == m;
  }

  // ---------------------------------------------------------------------------
  // checkIsOpen
  // ---------------------------------------------------------------------------

  /** The verdict once the working days and the hours match are known: open
      on a working day inside the hours, both ends included. */
  function Verdict(working: seq<nat>, bounds: Option<(string, string)>, weekday: nat, minutes: nat): Status {
    if weekday !in working || bounds.None? then Closed
    else
      var open := ParseTime(bounds.value.0) <= minutes <= ParseTime(bounds.value.1);
      Status(open, if open then "Aberto" else "Fechado")
  }

  lemma {:induction false} VerdictOpen(working: seq<nat>, bounds: Option<(string, string)>, weekday: nat, minutes: nat)
    requires bounds.Some?
    ensures Verdict(working, bounds, weekday, minutes).isOpen <==>
      weekday in working && ParseTime(bounds.value.0) <= minutes <= ParseTime(bounds.value.1)
  {
  }

  /** `checkIsOpen` as written. */
  function CheckIsOpenAsWritten(days: Option<string>, hours: Option<string>, weekday: nat, minutes: nat): (r: Status)
    ensures DateTimePicker.Absent(days) || DateTimePicker.Absent(hours) ==> r == Closed
    ensures r.statusText == (if r.isOpen then "Aberto" else "Fechado")
    ensures r.isOpen ==> weekday in WorkingDaysAsWritten(days.value)
    ensures r.isOpen ==> HoursMatchFrom(NormalizeHoursAsWritten(hours.value), 0).Some?
  {
    if DateTimePicker.Absent(days) || DateTimePicker.Absent(hours) then Closed
    else
      Verdict(WorkingDaysAsWritten(days.value), HoursMatchFrom(NormalizeHoursAsWritten(hours.value), 0),
              weekday, minutes)
  }

  /** `checkIsOpen` with the corrected readers of days and hours. */
  function CheckIsOpen(days: Option<string>, hours: Option<string>, weekday: nat, minutes: nat): (r: Status)
    ensures DateTimePicker.Absent(days) || DateTimePicker.Absent(hours) ==> r == Closed
    ensures r.statusText == (if r.isOpen then "Aberto" else "Fechado")
    ensures r.isOpen ==> weekday in WorkingDays(days.value)
    ensures r.isOpen ==> HoursMatchFrom(NormalizeHours(hours.value), 0).Some?
  {
    if DateTimePicker.Absent(days) || DateTimePicker.Absent(hours) then Closed
    else
      Verdict(WorkingDays(days.value), HoursMatchFrom(NormalizeHours(hours.value), 0), weekday, minutes)
  }

  /** With both texts given and the hours matched, the store is open exactly
      on a working day from the start time to the end time, both included. */
  lemma {:induction false} OpenWithin(days: string, hours: string, weekday: nat, minutes: nat)
    requires days != "" && hours != ""
    requires HoursMatchFrom(NormalizeHours(hours), 0).Some?
    ensures var bounds := HoursMatchFrom(NormalizeHours(hours), 0).value;
      CheckIsOpen(Some(days), Some(hours), weekday, minutes).isOpen <==>
        weekday in WorkingDays(days) && ParseTime(bounds.0) <= minutes <= ParseTime(bounds.1)
  {
    var working, bounds := WorkingDays(days), HoursMatchFrom(NormalizeHours(hours), 0);
    assert !DateTimePicker.Absent(Some(days)) && !DateTimePicker.Absent(Some(hours));
    assert CheckIsOpen(Some(days), Some(hours), weekday, minutes) == Verdict(working, bounds, weekday, minutes);
    VerdictOpen(working, bounds, weekday, minutes);
  }

  /** As written, likewise with the readers as written. */
  lemma {:induction false} OpenWithinAsWritten(days: string, hours: string, weekday: nat, minutes: nat)
    requires days != "" && hours != ""
    requires HoursMatchFrom(NormalizeHoursAsWritten(hours), 0).Some?
    ensures var bounds := HoursMatchFrom(NormalizeHoursAsWritten(hours), 0).value;
      CheckIsOpenAsWritten(Some(days), Some(hours), weekday, minutes).isOpen <==>
        weekday in WorkingDaysAsWritten(days) && ParseTime(bounds.0) <= minutes <= ParseTime(bounds.1)
  {
    var working, bounds := WorkingDaysAsWritten(days), HoursMatchFrom(NormalizeHoursAsWritten(hours), 0);
    assert !DateTimePicker.Absent(Some(days)) && !DateTimePicker.Absent(Some(hours));
    assert CheckIsOpenAsWritten(Some(days), Some(hours), weekday, minutes) == Verdict(working, bounds, weekday, minutes);
    VerdictOpen(working, bounds, weekday, minutes);
  }

  // ---------------------------------------------------------------------------
  // Banner images
  // ---------------------------------------------------------------------------

  const ImageFields := ["URL Imagem 1", "URL Imagem 2", "URL Imagem 3"]

  /** What one field contributes: its value when present and not blank. */
  function ImageOf(c: Record, f: string): seq<string> {
    if f in c && !IsBlank(c[f]) then [c[f]] else []
  }

  /** The values of `fields` that are present and not blank, in order. */
  function ImagesOf(c: Record, fields: seq<string>): (r: seq<string>)
    ensures |r| <= |fields|
    ensures forall k :: 0 <= k < |r| ==> !IsBlank(r[k])
  {
    if |fields| == 0 then [] else ImageOf(c, fields[0]) + ImagesOf(c, fields[1..])
  }

  /** The banner images: the three image fields that hold a non-blank URL. */
  function Images(c: Record): (r: seq<string>)
    ensures |r| <= 3
  {
    ImagesOf(c, ImageFields)
  }

  /** One field gives its URL when it holds a non-blank one, and nothing otherwise. */
  lemma {:induction false} ImagesOfOne(c: Record, f: string)
    ensures ImagesOf(c, [f]) == if f in c && !IsBlank(c[f]) then [c[f]] else []
  {
    assert [f][1..] == [];
  }

  /** The images of consecutive fields follow one another in field order,
      repeats kept: each field contributes on its own. */
  lemma {:induction false} ImagesOfAppend(c: Record, xs: seq<string>, ys: seq<string>)
    ensures ImagesOf(c, xs + ys) == ImagesOf(c, xs) + ImagesOf(c, ys)
    decreases |xs|
  {
    if |xs| > 0 {
      assert (xs + ys)[0] == xs[0] && (xs + ys)[1..] == xs[1..] + ys;
      assert ImagesOf(c, xs + ys) == ImageOf(c, xs[0]) + ImagesOf(c, xs[1..] + ys);
      ImagesOfAppend(c, xs[1..], ys);
    } else {
      assert xs + ys == ys;
    }
  }

  /** The banners are the three image fields in order, each contributing its
      URL when it is not blank, so a URL in two fields is shown twice. */
  lemma {:induction false} ImagesInFieldOrder(c: Record)
    ensures Images(c) == ImagesOf(c, [ImageFields[0]]) + ImagesOf(c, [ImageFields[1]]) + ImagesOf(c, [ImageFields[2]])
  {
    var f := ImageFields;
    assert f == [f[0]] + [f[1]] + [f[2]];
    ImagesOfAppend(c, [f[0]] + [f[1]], [f[2]]);
    ImagesOfAppend(c, [f[0]], [f[1]]);
  }

  /** A URL is shown exactly when one of the fields holds it and it is not blank. */
  lemma {:induction false} ImagesOfIff(c: Record, fields: seq<string>, url: string)
    ensures url in ImagesOf(c, fields) <==>
      !IsBlank(url) && exists k :: 0 <= k < |fields| && fields[k] in c && c[fields[k]] == url
  {
    if |fields| > 0 {
      ImagesOfIff(c, fields[1..], url);
      if exists k :: 0 <= k < |fields| && fields[k] in c && c[fields[k]] == url {
        var k :| 0 <= k < |fields| && fields[k] in c && c[fields[k]] == url;
        if k > 0 {
          assert fields[1..][k - 1] == fields[k];
        }
      }
      if exists k :: 0 <= k < |fields[1..]| && fields[1..][k] in c && c[fields[1..][k]] == url {
        var k :| 0 <= k < |fields[1..]| && fields[1..][k] in c && c[fields[1..][k]] == url;
        assert fields[k + 1] == fields[1..][k];
      }
    }
  }

  /** With all three fields filled, all three images show, in field order. */
  lemma {:induction false} AllImages(c: Record)
    requires forall k :: 0 <= k < 3 ==> ImageFields[k] in c && !IsBlank(c[ImageFields[k]])
    ensures Images(c) == [c[ImageFields[0]], c[ImageFields[1]], c[ImageFields[2]]]
  {
    var f := ImageFields;
    assert ImagesOf(c, f[2..]) == [c[f[2]]] by {
      assert f[2..][1..] == [];
    }
    assert ImagesOf(c, f[1..]) == [c[f[1]]] + ImagesOf(c, f[2..]) by {
      assert f[1..][1..] == f[2..];
    }
  }

  /** The banner shown after the five-second timer fires: the next one,
      wrapping round, when there is more than one image. */
  function NextIndex(index: nat, count: nat): (r: nat)
    ensures count > 1 ==> r < count
    ensures count > 1 && index + 1 < count ==> r == index + 1
    ensures count > 1 && index + 1 == count ==> r == 0
    ensures count <= 1 ==> r == index
  {
    if count > 1 then (index + 1) % count else index
  }

  /** The banner shown after `ticks` timer firings. */
  function AfterTicks(index: nat, count: nat, ticks: nat): nat {
    if ticks == 0 then index else NextIndex(AfterTicks(index, count, ticks - 1), count)
  }

  /** The banners cycle: after `ticks` firings the index has moved on by
      `ticks`, modulo the number of images. */
  lemma {:induction false} TicksCycle(index: nat, count: nat, ticks: nat)
    requires 1 < count && index < count
    ensures AfterTicks(index, count, ticks) == (index + ticks) % count
  {
    if ticks == 0 {
      ModUnique(index, count, 0, index);
    } else {
      TicksCycle(index, count, ticks - 1);
      var a := index + ticks - 1;
      var p := a % count;
      assert a == a / count * count + p;
      if p + 1 < count {
        ModUnique(a + 1, count, a / count, p + 1);
      } else {
        assert a + 1 == (a / count + 1) * count;
        ModUnique(a + 1, count, a / count + 1, 0);
      }
    }
  }

  /** The remainder is the only one below the divisor. */
  lemma {:induction false} ModUnique(a: int, count: int, q: int, r: int)
    requires count > 0 && 0 <= r < count && a == q * count + r
    ensures a % count == r
  {
    var q', r' := a / count, a % count;
    assert a == q' * count + r';
    assert (q - q') * count == r' - r;
    if q > q' {
      AtLeastOnce(q - q', count);
    } else if q < q' {
      AtLeastOnce(q' - q, count);
    }
  }

  lemma {:induction false} AtLeastOnce(k: int, count: int)
    requires k >= 1 && count > 0
    ensures k * count >= count
  {
  }

  /** Every banner comes round, starting from the first. */
  lemma {:induction false} EveryBannerShown(count: nat, target: nat)
    requires 1 < count && target < count
    ensures AfterTicks(0, count, target) == target
  {
    TicksCycle(0, count, target);
    ModUnique(0 + target, count, 0, target);
  }

  // ---------------------------------------------------------------------------
  // Reading day lists: single names, ranges, and what the writing breaks
  // ---------------------------------------------------------------------------

  predicate NoSpaces(s: string) {
    forall i :: 0 <= i < |s| ==> !IsSpace(s[i])
  }

  /** Every whitespace character is a plain space between two other characters. */
  predicate SingleSpaced(s: string) {
    forall i :: 0 <= i < |s| && IsSpace(s[i]) ==>
      s[i] == ' ' && 0 < i < |s| - 1 && !IsSpace(s[i + 1])
  }

  lemma {:induction false} NoSpacesJoin(a: string, b: string)
    requires NoSpaces(a) && NoSpaces(b)
    ensures NoSpaces(a + b)
  {
    forall i | 0 <= i < |a + b|
      ensures !IsSpace((a + b)[i])
    {
      if i < |a| {
        assert (a + b)[i] == a[i];
      } else {
        assert (a + b)[i] == b[i - |a|];
      }
    }
  }

  /** Without whitespace, `a\s+` never matches. */
  lemma {:induction false} NoASpaces(s: string)
    requires NoSpaces(s)
    ensures ReplaceMatches(s, ASpaces, "a ") == s
  {
    forall i | 0 <= i < |s|
      ensures ASpaces(s[i..]) == 0
    {
      if i + 1 < |s| {
        assert s[i..][1..][0] == s[i + 1];
      }
    }
    ReplaceMatchesNone(s, ASpaces, "a ");
  }

  /** Without whitespace, `\s+e\s+` never matches. */
  lemma {:induction false} NoSpacedE(s: string)
    requires NoSpaces(s)
    ensures ReplaceMatches(s, SpacedE, ",") == s
  {
    forall i | 0 <= i < |s|
      ensures SpacedE(s[i..]) == 0
    {
      assert s[i..][0] == s[i];
    }
    ReplaceMatchesNone(s, SpacedE, ",");
  }

  lemma {:induction false} CommasToDaysPlain(s: string)
    requires NoSpaces(s)
    ensures CommasToDays(s) == s
  {
    NoASpaces(s);
    CollapseNoSpaces(s);
    TrimOfTrimmed(s);
  }

  /** Single spaces survive the normalisation: `a ` stays `a `, a lone space stays. */
  lemma {:induction false} CommasToDaysSingle(s: string)
    requires SingleSpaced(s)
    ensures CommasToDays(s) == s
  {
    forall i | 0 <= i < |s|
      ensures ASpaces(s[i..]) == 0 || s[i..][..ASpaces(s[i..])] == "a "
    {
      if ASpaces(s[i..]) > 0 {
        assert s[i..][1..][0] == s[i + 1];
        assert s[i + 1] == ' ' && !IsSpace(s[i + 2]);
        assert s[i..][1..][1..][0] == s[i + 2];
        assert ASpaces(s[i..]) == 2;
      }
    }
    ReplaceMatchesSelf(s, ASpaces, "a ");
    forall i | 0 <= i < |s|
      ensures SpacesMatch(s[i..]) == 0 || s[i..][..SpacesMatch(s[i..])] == " "
    {
      if SpacesMatch(s[i..]) > 0 {
        assert s[i..][0] == s[i];
        assert s[i..][1..][0] == s[i + 1];
        assert SpacesMatch(s[i..]) == 1;
      }
    }
    ReplaceMatchesSelf(s, SpacesMatch, " ");
    if |s| > 0 {
      assert !IsSpace(s[0]) && !IsSpace(s[|s| - 1]);
    }
    TrimOfTrimmed(s);
  }

  /** Without whitespace the range pattern with `\s+` finds nothing. */
  lemma {:induction false} UnspacedFrom(s: string, i: nat, j: nat)
    requires NoSpaces(s) && i <= j <= |s|
    ensures RangeFrom(s, i, j, true) == None
    decreases j
  {
    if j > i {
      assert SpaceRun(s[j..]) == 0 by {
        if j < |s| {
          assert s[j..][0] == s[j];
        }
      }
      UnspacedFrom(s, i, j - 1);
    }
  }

  lemma {:induction false} UnspacedMatch(s: string, i: nat)
    requires NoSpaces(s) && i <= |s|
    ensures RangeMatchFrom(s, i, true) == None
    decreases |s| - i
  {
    if i < |s| {
      UnspacedFrom(s, i, i + WordRun(s[i..]));
      UnspacedMatch(s, i + 1);
    }
  }

  /** Text without an `a` holds no range. */
  lemma {:induction false} NoAFrom(s: string, i: nat, j: nat, spaced: bool)
    requires Lacks(s, 'a') && i <= j <= |s|
    ensures RangeFrom(s, i, j, spaced) == None
    decreases j
  {
    if j != i {
      NoAFrom(s, i, j - 1, spaced);
    }
  }

  lemma {:induction false} NoAMatch(s: string, i: nat, spaced: bool)
    requires Lacks(s, 'a') && i <= |s|
    ensures RangeMatchFrom(s, i, spaced) == None
    decreases |s| - i
  {
    if i != |s| {
      NoAFrom(s, i, i + WordRun(s[i..]), spaced);
      NoAMatch(s, i + 1, spaced);
    }
  }

  /** Backing off past group ends that do not match changes nothing. */
  lemma {:induction false} RangeFromDown(s: string, i: nat, j: nat, m: nat, spaced: bool)
    requires i <= m <= j <= |s|
    requires forall j' :: m < j' <= j ==> RangeAfter(s, i, j', spaced) == None
    ensures RangeFrom(s, i, j, spaced) == RangeFrom(s, i, m, spaced)
    decreases j
  {
    if j != m {
      RangeFromDown(s, i, j - 1, m, spaced);
      RangeFromStep(s, i, j, spaced);
    }
  }

  lemma {:induction false} RangeFromStep(s: string, i: nat, j: nat, spaced: bool)
    requires i < j <= |s| && RangeAfter(s, i, j, spaced) == None
    ensures RangeFrom(s, i, j, spaced) == RangeFrom(s, i, j - 1, spaced)
  {
  }

  lemma {:induction false} WordRunOf(w: string, rest: string)
    requires forall i :: 0 <= i < |w| ==> IsWordChar(w[i])
    requires |rest| > 0 ==> !IsWordChar(rest[0])
    ensures WordRun(w + rest) == |w|
    decreases |w|
  {
    if |w| == 0 {
      assert w + rest == rest;
    } else {
      assert (w + rest)[1..] == w[1..] + rest;
      WordRunOf(w[1..], rest);
    }
  }

  /** A lower-case word has no whitespace and is left alone by `toLowerCase`. */
  lemma {:induction false} LowerWordPlain(w: string)
    requires DateTimePicker.LowerWord(w)
    ensures NoSpaces(w) && ToLower(w) == w && Trim(w) == w
    ensures forall i :: 0 <= i < |w| ==> IsWordChar(w[i])
  {
    ToLowerOfLower(w);
    LowerWordTrimmed(w);
    LowerWordChars(w);
  }

  lemma {:induction false} LowerWordTrimmed(w: string)
    requires DateTimePicker.LowerWord(w)
    ensures Trim(w) == w
  {
    TrimOfTrimmed(w);
  }

  lemma {:induction false} LowerWordChars(w: string)
    requires DateTimePicker.LowerWord(w)
    ensures NoSpaces(w) && forall i :: 0 <= i < |w| ==> IsWordChar(w[i])
  {
  }

  /** A day list of one name with no `,` splits into that name. */
  lemma {:induction false} OnePart(s: string, spaced: bool)
    requires Lacks(s, ',')
    ensures DaysOfParts(SplitOn(s, ","), spaced) == PartDays(s, spaced)
  {
    AbsentChar(s, ',');
    SplitOnAbsent(s, ",");
    assert [s][1..] == [];
  }

  /** A lower-case word goes through the corrected normalisation unchanged. */
  lemma {:induction false} WordKept(w: string)
    requires DateTimePicker.LowerWord(w)
    ensures NormalizeDays(w) == w && Lacks(w, ',')
  {
    LowerWordPlain(w);
    NoSpacedE(w);
    CommasToDaysPlain(w);
  }

  /** A lower-case word without `e` goes through the normalisation as written unchanged. */
  lemma {:induction false} WordKeptAsWritten(w: string)
    requires DateTimePicker.LowerWord(w) && Lacks(w, 'e')
    ensures NormalizeDaysAsWritten(w) == w && Lacks(w, ',')
  {
    LowerWordPlain(w);
    CommasToDaysPlain(w);
  }

  /** A part the range pattern does not match is read as one trimmed name. */
  lemma {:induction false} SinglePart(w: string, spaced: bool)
    requires RangeMatchFrom(w, 0, spaced) == None && Trim(w) == w
    ensures PartDays(w, spaced) == if w in DayMap then [DayMap[w]] else []
  {
  }

  /** Corrected reading: a single known name is that day. */
  lemma {:induction false} SingleDay(w: string)
    requires DateTimePicker.LowerWord(w) && w in DayMap
    ensures WorkingDays(w) == [DayMap[w]]
  {
    WordKept(w);
    LowerWordPlain(w);
    OnePart(w, true);
    UnspacedMatch(w, 0);
    SinglePart(w, true);
  }

  /** Corrected reading: two known names around the word `a` are the days
      from the first to the second. */
  lemma {:induction false} RangeOfDays(x: string, y: string)
    requires DateTimePicker.LowerWord(x) && DateTimePicker.LowerWord(y)
    requires x in DayMap && y in DayMap
    ensures WorkingDays(x + (" a " + y)) == Range(DayMap[x], DayMap[y])
  {
    var s := x + (" a " + y);
    RangeTextKept(x, y);
    OnePart(s, true);
    RangeTextMatch(x, y);
  }

  /** The text `x a y` goes through the corrected normalisation unchanged. */
  lemma {:induction false} RangeTextKept(x: string, y: string)
    requires DateTimePicker.LowerWord(x) && DateTimePicker.LowerWord(y)
    ensures NormalizeDays(x + (" a " + y)) == x + (" a " + y)
    ensures Lacks(x + (" a " + y), ',')
  {
    var s := x + (" a " + y);
    RangeTextLower(x, y);
    RangeTextNoE(x, y);
    RangeTextSingle(x, y);
    CommasToDaysSingle(s);
  }

  lemma {:induction false} RangeTextLower(x: string, y: string)
    requires DateTimePicker.LowerWord(x) && DateTimePicker.LowerWord(y)
    ensures ToLower(x + (" a " + y)) == x + (" a " + y)
  {
    ToLowerOfLower(x + (" a " + y));
  }

  lemma {:induction false} RangeTextSingle(x: string, y: string)
    requires DateTimePicker.LowerWord(x) && DateTimePicker.LowerWord(y)
    ensures SingleSpaced(x + (" a " + y)) && Lacks(x + (" a " + y), ',')
  {
  }

  /** The word `a` between the names is no `e` between spaces. */
  lemma {:induction false} RangeTextNoE(x: string, y: string)
    requires DateTimePicker.LowerWord(x) && DateTimePicker.LowerWord(y)
    ensures ReplaceMatches(x + (" a " + y), SpacedE, ",") == x + (" a " + y)
  {
    var s := x + (" a " + y);
    forall i | 0 <= i < |s|
      ensures SpacedE(s[i..]) == 0
    {
      RangeTextNoEAt(x, y, i);
    }
    ReplaceMatchesNone(s, SpacedE, ",");
  }

  lemma {:induction false} RangeTextNoEAt(x: string, y: string, i: nat)
    requires DateTimePicker.LowerWord(x) && DateTimePicker.LowerWord(y)
    requires i < |x| + 3 + |y|
    ensures SpacedE((x + (" a " + y))[i..]) == 0
  {
    var t := (x + (" a " + y))[i..];
    if i < |x| {
      assert t[0] == x[i];
    } else if i == |x| {
      assert t[1] == 'a';
    } else if i == |x| + 1 {
      assert t[0] == 'a';
    } else if i == |x| + 2 {
      RangeTextNoEAfterA(y, t);
    } else {
      assert t[0] == y[i - |x| - 3];
    }
  }

  /** The tail " y" after the word `a`. */
  lemma {:induction false} RangeTextNoEAfterA(y: string, t: string)
    requires DateTimePicker.LowerWord(y) && t == " " + y
    ensures SpacedE(t) == 0
  {
    assert t[1] == y[0];
    if |y| > 1 {
      assert t[2..][0] == y[1];
    }
  }

  /** The spaced range pattern takes the two names of `x a y`. */
  lemma {:induction false} RangeTextMatch(x: string, y: string)
    requires DateTimePicker.LowerWord(x) && DateTimePicker.LowerWord(y)
    ensures RangeMatchFrom(x + (" a " + y), 0, true) == Some((x, y))
  {
    var s := x + (" a " + y);
    LowerWordPlain(x);
    assert s[0..] == s;
    WordRunOf(x, " a " + y);
    RangeAfterOf(x, y);
  }

  /** After the first name of `x a y`, the rest of the spaced pattern takes `y`. */
  lemma {:induction false} RangeAfterOf(x: string, y: string)
    requires DateTimePicker.LowerWord(x) && DateTimePicker.LowerWord(y)
    ensures RangeAfter(x + (" a " + y), 0, |x|, true) == Some((x, y))
  {
    var s := x + (" a " + y);
    assert s[|x|..] == " a " + y;
    assert s[0..|x|] == x;
    RangeTail(y);
  }

  /** The spaced `a` and a word after it: one space, the `a`, one space and the word. */
  lemma {:induction false} RangeTail(y: string)
    requires DateTimePicker.LowerWord(y)
    ensures var t := " a " + y;
      SpaceRun(t) == 1 && t[1] == 'a' &&
      SpaceRun(t[2..]) == 1 && WordRun(t[2..][1..]) == |y| && t[2..][1..][..|y|] == y
  {
    var t := " a " + y;
    LowerWordPlain(y);
    assert t == " " + ("a " + y);
    SpaceRunOf(" ", "a " + y);
    ConcatAssoc(" a", " ", y);
    assert " a" + " " == " a ";
    var u := t[2..];
    assert u == " " + y;
    SpaceRunOf(" ", y);
    assert u[1..] == y;
    assert y + "" == y;
    WordRunOf(y, "");
    assert y[..|y|] == y;
  }

  /** As written: a word with an `e` between two fragments that are no day
      names is cut at the `e` into two unknown names, so nothing is listed
      ("seg", "ter" and "sex" among them). */
  lemma {:induction false} SplitAtEAsWritten(x: string, y: string)
    requires DateTimePicker.LowerWord(x) && DateTimePicker.LowerWord(y)
    requires Lacks(x, 'e') && Lacks(y, 'e') && Lacks(x, 'a') && Lacks(y, 'a')
    requires x !in DayMap && y !in DayMap
    ensures WorkingDaysAsWritten(x + ("e" + y)) == []
  {
    EBecomesComma(x, y);
    LowerWordPlain(x);
    LowerWordPlain(y);
    TwoParts(x, y);
    UnknownWord(x);
    UnknownWord(y);
    DaysOfTwoParts(x, y, false);
  }

  /** A word without `a` that is no day name names no day. */
  lemma {:induction false} UnknownWord(w: string)
    requires DateTimePicker.LowerWord(w) && Lacks(w, 'a') && w !in DayMap
    ensures PartDays(w, false) == []
  {
    LowerWordPlain(w);
    NoAMatch(w, 0, false);
    SinglePart(w, false);
  }

  lemma {:induction false} DaysOfTwoParts(x: string, y: string, spaced: bool)
    ensures DaysOfParts([x, y], spaced) == PartDays(x, spaced) + PartDays(y, spaced)
  {
    assert [x, y][1..] == [y];
    assert [y][1..] == [];
    assert DaysOfParts([y], spaced) == PartDays(y, spaced) + DaysOfParts([], spaced);
    assert PartDays(y, spaced) + [] == PartDays(y, spaced);
  }

  /** As written, the `e` inside a word becomes a comma. */
  lemma {:induction false} EBecomesComma(x: string, y: string)
    requires DateTimePicker.LowerWord(x) && DateTimePicker.LowerWord(y)
    requires Lacks(x, 'e') && Lacks(y, 'e')
    ensures NormalizeDaysAsWritten(x + ("e" + y)) == x + ("," + y)
  {
    JoinedLower(x, "e" + y);
    ReplaceE(x, y);
    CommaJoined(x, y);
  }

  lemma {:induction false} JoinedLower(x: string, rest: string)
    requires DateTimePicker.LowerWord(x) && DateTimePicker.LowerWord(rest)
    ensures ToLower(x + rest) == x + rest
  {
    assert DateTimePicker.LowerWord(x + rest);
    LowerWordPlain(x + rest);
  }

  lemma {:induction false} CommaJoined(x: string, y: string)
    requires DateTimePicker.LowerWord(x) && DateTimePicker.LowerWord(y)
    ensures CommasToDays(x + ("," + y)) == x + ("," + y)
  {
    LowerWordPlain(x);
    LowerWordPlain(y);
    NoSpacesJoin(",", y);
    NoSpacesJoin(x, "," + y);
    CommasToDaysPlain(x + ("," + y));
  }

  lemma {:induction false} ReplaceE(x: string, y: string)
    requires Lacks(x, 'e') && Lacks(y, 'e')
    ensures ReplaceChar(x + ("e" + y), 'e', ",") == x + ("," + y)
  {
    ReplaceCharAppend(x, "e" + y, 'e', ",");
    ReplaceCharAppend("e", y, 'e', ",");
    assert ReplaceChar("e", 'e', ",") == ",";
  }

  lemma {:induction false} TwoParts(x: string, y: string)
    requires Lacks(x, ',') && Lacks(y, ',')
    ensures SplitOn(x + ("," + y), ",") == [x, y]
  {
    assert Join([x, y], ",") == x + ("," + y);
    assert MarkedSeparator(",", 0);
    SplitJoin([x, y], ",", 0);
  }

  /** As written: a word with an inner `a` is taken for a range around it,
      so a name like "sab" lists nothing. */
  lemma {:induction false} InnerAAsWritten(x: string, y: string)
    requires DateTimePicker.LowerWord(x) && DateTimePicker.LowerWord(y)
    requires Lacks(x, 'e') && Lacks(y, 'e') && Lacks(y, 'a')
    requires !(x in DayMap && y in DayMap)
    ensures WorkingDaysAsWritten(x + ("a" + y)) == []
  {
    var s := x + ("a" + y);
    assert DateTimePicker.LowerWord(s) && Lacks(s, 'e');
    WordKeptAsWritten(s);
    OnePart(s, false);
    InnerAMatch(x, y);
  }

  /** The unspaced range pattern on `xay` backs off to the last `a`. */
  lemma {:induction false} InnerAMatch(x: string, y: string)
    requires DateTimePicker.LowerWord(x) && DateTimePicker.LowerWord(y) && Lacks(y, 'a')
    ensures RangeMatchFrom(x + ("a" + y), 0, false) == Some((x, y))
  {
    var s := x + ("a" + y);
    assert DateTimePicker.LowerWord(s);
    LowerWordPlain(s);
    assert s[0..] == s && s + "" == s;
    WordRunOf(s, "");
    InnerABackOff(x, y);
    InnerAAfter(x, y);
  }

  /** No end of the first group inside `y` lets the rest match. */
  lemma {:induction false} InnerABackOff(x: string, y: string)
    requires DateTimePicker.LowerWord(x) && DateTimePicker.LowerWord(y) && Lacks(y, 'a')
    ensures RangeFrom(x + ("a" + y), 0, |x + ("a" + y)|, false) == RangeFrom(x + ("a" + y), 0, |x|, false)
  {
    var s := x + ("a" + y);
    forall j' | |x| < j' <= |s|
      ensures RangeAfter(s, 0, j', false) == None
    {
      if j' < |s| {
        assert s[j'] == y[j' - |x| - 1];
      }
      NoRangeAt(s, j');
    }
    RangeFromDown(s, 0, |s|, |x|, false);
  }

  /** A group ending right before a letter other than `a`, or at the end, is no match. */
  lemma {:induction false} NoRangeAt(s: string, j: nat)
    requires 0 < j <= |s|
    requires j < |s| ==> 'b' <= s[j] <= 'z'
    ensures RangeAfter(s, 0, j, false) == None
  {
    if j < |s| {
      assert s[j..][0] == s[j];
    }
  }

  /** Ending the first group right before the last `a` matches, with `y` as the second. */
  lemma {:induction false} InnerAAfter(x: string, y: string)
    requires DateTimePicker.LowerWord(x) && DateTimePicker.LowerWord(y)
    ensures RangeAfter(x + ("a" + y), 0, |x|, false) == Some((x, y))
  {
    var s := x + ("a" + y);
    LowerWordPlain(y);
    var t := s[|x|..];
    assert t == "a" + y;
    assert t[1..] == y && y + "" == y;
    WordRunOf(y, "");
    assert y[0..] == y && y[..|y|] == y;
  }

  /** "seg" as written: no working day, so the store always shows closed. */
  lemma {:induction false} MondayAsWritten(days: string, hours: Option<string>, weekday: nat, minutes: nat)
    requires days == "seg"
    ensures WorkingDaysAsWritten(days) == []
    ensures CheckIsOpenAsWritten(Some(days), hours, weekday, minutes) == Closed
  {
    MondayText(days);
    SplitAtEAsWritten("s", "g");
  }

  lemma {:induction false} MondayText(days: string)
    requires days == "seg"
    ensures days == "s" + ("e" + "g") && days in DayMap && DayMap[days] == 1
    ensures DateTimePicker.LowerWord(days) && DateTimePicker.LowerWord("s") && DateTimePicker.LowerWord("g")
    ensures "s" !in DayMap && "g" !in DayMap
    ensures Lacks("s", 'e') && Lacks("g", 'e') && Lacks("s", 'a') && Lacks("g", 'a')
  {
  }

  /** "seg" in the corrected reading: Monday. */
  lemma {:induction false} Monday(days: string)
    requires days == "seg"
    ensures WorkingDays(days) == [1]
  {
    MondayText(days);
    SingleDay(days);
  }

  /** "sab" as written: no working day. */
  lemma {:induction false} SaturdayAsWritten(days: string, hours: Option<string>, weekday: nat, minutes: nat)
    requires days == "sab"
    ensures WorkingDaysAsWritten(days) == []
    ensures CheckIsOpenAsWritten(Some(days), hours, weekday, minutes) == Closed
  {
    SaturdayText(days);
    InnerAAsWritten("s", "b");
  }

  lemma {:induction false} SaturdayText(days: string)
    requires days == "sab"
    ensures days == "s" + ("a" + "b") && days in DayMap && DayMap[days] == 6
    ensures DateTimePicker.LowerWord(days) && DateTimePicker.LowerWord("s") && DateTimePicker.LowerWord("b")
    ensures "s" !in DayMap
    ensures Lacks("s", 'e') && Lacks("b", 'e') && Lacks("b", 'a')
  {
  }

  /** "sab" in the corrected reading: Saturday. */
  lemma {:induction false} Saturday(days: string)
    requires days == "sab"
    ensures WorkingDays(days) == [6]
  {
    SaturdayText(days);
    SingleDay(days);
  }

  /** "seg a sex" in the corrected reading: Monday to Friday. */
  lemma {:induction false} MondayToFriday(days: string)
    requires days == "seg a sex"
    ensures WorkingDays(days) == [1, 2, 3, 4, 5]
  {
    MondayToFridayText(days);
    RangeOfDays("seg", "sex");
  }

  lemma {:induction false} MondayToFridayText(days: string)
    requires days == "seg a sex"
    ensures days == "seg" + (" a " + "sex")
    ensures DateTimePicker.LowerWord("seg") && DateTimePicker.LowerWord("sex")
    ensures "seg" in DayMap && "sex" in DayMap && DayMap["seg"] == 1 && DayMap["sex"] == 5
    ensures Range(1, 5) == [1, 2, 3, 4, 5]
  {
  }

  // ---------------------------------------------------------------------------
  // Reading "HHh às HHh"
  // ---------------------------------------------------------------------------

  /** Text without `a` or `à` holds no connective. */
  lemma {:induction false} NoConnective(s: string)
    requires forall i :: 0 <= i < |s| ==> s[i] != 'a' && s[i] != '\U{00E0}'
    ensures ReplaceMatches(s, ToWord, "-") == s
  {
    forall i | 0 <= i < |s|
      ensures ToWord(s[i..]) == 0
    {
      assert s[i..][0] == s[i];
    }
    ReplaceMatchesNone(s, ToWord, "-");
  }

  /** As written, the letters go first: the `à`, the `s` and the `h`s. */
  lemma {:induction false} KeptAsWritten(a: string, b: string)
    requires AllDigits(a) && AllDigits(b)
    ensures Keep(DateTimePicker.HoursText(a, b), HourChar) == a + ("  " + b)
  {
    KeepAppend(a, "h" + (DateTimePicker.AsWord + (b + "h")), HourChar);
    KeepAll(a, HourChar);
    KeptAfterFirst(b);
  }

  lemma {:induction false} KeptAfterFirst(b: string)
    requires AllDigits(b)
    ensures Keep("h" + (DateTimePicker.AsWord + (b + "h")), HourChar) == "  " + b
  {
    KeepAppend("h", DateTimePicker.AsWord + (b + "h"), HourChar);
    assert Keep("h", HourChar) == "";
    KeptConnective(b);
    assert "" + ("  " + b) == "  " + b;
  }

  lemma {:induction false} KeptConnective(b: string)
    requires AllDigits(b)
    ensures Keep(DateTimePicker.AsWord + (b + "h"), HourChar) == "  " + b
  {
    KeepAppend(DateTimePicker.AsWord, b + "h", HourChar);
    assert Keep(DateTimePicker.AsWord, HourChar) == "  ";
    KeptLast(b);
  }

  lemma {:induction false} KeptLast(b: string)
    requires AllDigits(b)
    ensures Keep(b + "h", HourChar) == b
  {
    KeepAppend(b, "h", HourChar);
    KeepAll(b, HourChar);
    assert Keep("h", HourChar) == "";
    assert b + "" == b;
  }

  /** Two digit runs with only spaces between them lose the spaces. */
  lemma {:induction false} DigitsJoined(a: string, b: string)
    requires AllDigits(a) && AllDigits(b)
    ensures RemoveSpaces(a + ("  " + b)) == a + b
  {
    KeepAppend(a, "  " + b, NotSpace);
    KeepAppend("  ", b, NotSpace);
    KeepAll(a, NotSpace);
    KeepAll(b, NotSpace);
    assert Keep("  ", NotSpace) == "";
    assert "" + b == b;
  }

  /** As written, "HHh às HHh" normalises to the two numbers run together. */
  lemma {:induction false} HoursGlued(a: string, b: string)
    requires AllDigits(a) && AllDigits(b)
    ensures NormalizeHoursAsWritten(DateTimePicker.HoursText(a, b)) == a + b
    ensures Lacks(a + b, '-')
  {
    DateTimePicker.HoursLower(a, b);
    KeptAsWritten(a, b);
    var kept := a + ("  " + b);
    assert forall i :: 0 <= i < |kept| ==> IsDigit(kept[i]) || kept[i] == ' ';
    NoConnective(kept);
    DigitsJoined(a, b);
    assert forall i :: 0 <= i < |a + b| ==> IsDigit((a + b)[i]);
  }

  /** Without a dash the hours pattern matches nowhere. */
  lemma {:induction false} NoDashNoMatch(s: string, i: nat)
    requires Lacks(s, '-') && i <= |s|
    ensures HoursMatchFrom(s, i) == None
    decreases |s| - i
  {
    if i < |s| {
      NoDashNoMatch(s, i + 1);
    }
  }

  /** As written, hours given as "HHh às HHh" never match, so the store
      always shows closed. */
  lemma {:induction false} ConnectiveDroppedAsWritten(days: Option<string>, a: string, b: string, weekday: nat, minutes: nat)
    requires AllDigits(a) && AllDigits(b)
    ensures CheckIsOpenAsWritten(days, Some(DateTimePicker.HoursText(a, b)), weekday, minutes) == Closed
  {
    HoursGlued(a, b);
    NoDashNoMatch(a + b, 0);
  }

  /** With the connective replaced first, ` às ` becomes ` - `. */
  lemma {:induction false} ConnectiveDashed(a: string, b: string)
    requires AllDigits(a) && AllDigits(b)
    ensures ReplaceMatches(DateTimePicker.HoursText(a, b), ToWord, "-") == (a + "h ") + ("- " + (b + "h"))
  {
    var q := "\U{00E0}s" + (" " + (b + "h"));
    HoursTextAround(a, b);
    BeforeConnective(a, q);
    AtConnective(b);
  }

  lemma {:induction false} HoursTextAround(a: string, b: string)
    ensures DateTimePicker.HoursText(a, b) == (a + "h ") + ("\U{00E0}s" + (" " + (b + "h")))
  {
  }

  /** Nothing before ` às ` is a connective. */
  lemma {:induction false} BeforeConnective(a: string, q: string)
    requires AllDigits(a)
    ensures ReplaceMatches((a + "h ") + q, ToWord, "-") == (a + "h ") + ReplaceMatches(q, ToWord, "-")
  {
    var p := a + "h ";
    forall i | 0 <= i < |p|
      ensures ToWord((p + q)[i..]) == 0
    {
      assert (p + q)[i..][0] == p[i];
    }
    ReplaceMatchesSkip(p, q, ToWord, "-");
  }

  /** `às` becomes the dash, and nothing after it is a connective. */
  lemma {:induction false} AtConnective(b: string)
    requires AllDigits(b)
    ensures ReplaceMatches("\U{00E0}s" + (" " + (b + "h")), ToWord, "-") == "- " + (b + "h")
  {
    var q := "\U{00E0}s" + (" " + (b + "h"));
    var tail := " " + (b + "h");
    assert q[2..] == tail;
    NoConnectiveAfter(b);
    assert "-" + tail == "- " + (b + "h");
  }

  lemma {:induction false} NoConnectiveAfter(b: string)
    requires AllDigits(b)
    ensures ReplaceMatches(" " + (b + "h"), ToWord, "-") == " " + (b + "h")
  {
    var tail := " " + (b + "h");
    assert forall i :: 0 <= i < |tail| ==> tail[i] == ' ' || tail[i] == 'h' || IsDigit(tail[i]);
    NoConnective(tail);
  }

  /** Then the letters go and the dash stays. */
  lemma {:induction false} KeptDashed(a: string, b: string)
    requires AllDigits(a) && AllDigits(b)
    ensures Keep((a + "h ") + ("- " + (b + "h")), HourChar) == (a + " ") + ("- " + b)
  {
    KeepAppend(a + "h ", "- " + (b + "h"), HourChar);
    KeptBeforeDash(a);
    KeptAfterDash(b);
  }

  lemma {:induction false} KeptBeforeDash(a: string)
    requires AllDigits(a)
    ensures Keep(a + "h ", HourChar) == a + " "
  {
    KeepAppend(a, "h ", HourChar);
    KeepAll(a, HourChar);
    assert Keep("h ", HourChar) == " ";
  }

  lemma {:induction false} KeptAfterDash(b: string)
    requires AllDigits(b)
    ensures Keep("- " + (b + "h"), HourChar) == "- " + b
  {
    KeepAppend("- ", b + "h", HourChar);
    assert Keep("- ", HourChar) == "- ";
    KeptLast(b);
  }

  /** And the spaces around the dash go. */
  lemma {:induction false} DashJoined(a: string, b: string)
    requires AllDigits(a) && AllDigits(b)
    ensures RemoveSpaces((a + " ") + ("- " + b)) == a + ("-" + b)
  {
    KeepAppend(a + " ", "- " + b, NotSpace);
    SpaceAfterDropped(a);
    SpaceBeforeDropped(b);
  }

  lemma {:induction false} SpaceAfterDropped(a: string)
    requires AllDigits(a)
    ensures Keep(a + " ", NotSpace) == a
  {
    KeepAppend(a, " ", NotSpace);
    KeepAll(a, NotSpace);
    assert Keep(" ", NotSpace) == "";
    assert a + "" == a;
  }

  lemma {:induction false} SpaceBeforeDropped(b: string)
    requires AllDigits(b)
    ensures Keep("- " + b, NotSpace) == "-" + b
  {
    KeepAppend("- ", b, NotSpace);
    KeepAll(b, NotSpace);
    assert Keep("- ", NotSpace) == "-";
  }

  /** With the connective replaced first, "HHh às HHh" normalises to "HH-HH". */
  lemma {:induction false} HoursDashed(a: string, b: string)
    requires AllDigits(a) && AllDigits(b)
    ensures NormalizeHours(DateTimePicker.HoursText(a, b)) == a + ("-" + b)
  {
    DateTimePicker.HoursLower(a, b);
    ConnectiveDashed(a, b);
    KeptDashed(a, b);
    DashJoined(a, b);
    var r := a + ("-" + b);
    assert Lacks(r, EnDash) by {
      assert forall i :: 0 <= i < |r| ==> IsDigit(r[i]) || r[i] == '-';
    }
  }

  lemma {:induction false} TimeRunOf(ds: string, rest: string)
    requires forall i :: 0 <= i < |ds| ==> TimeChar(ds[i])
    requires |rest| > 0 ==> !TimeChar(rest[0])
    ensures TimeRun(ds + rest) == |ds|
    decreases |ds|
  {
    if |ds| == 0 {
      assert ds + rest == rest;
    } else {
      assert (ds + rest)[1..] == ds[1..] + rest;
      TimeRunOf(ds[1..], rest);
    }
  }

  /** One or two digits match the time pattern whole. */
  lemma {:induction false} ShortNumberMatches(d: string, rest: string)
    requires AllDigits(d) && 1 <= |d| <= 2
    requires |rest| > 0 ==> !TimeChar(rest[0])
    ensures TimeMatch(d + rest) == |d| && TimeRun(d + rest) == |d|
  {
    TimeRunOf(d, rest);
    LeadingDigitsOf(d, rest);
    var s := d + rest;
    assert s[|d|..] == rest;
    if |rest| > 0 {
      assert LeadingDigits(rest) == "";
    }
  }

  /** "HH-HH" matches with the two numbers as the groups. */
  lemma {:induction false} DashMatch(a: string, b: string)
    requires AllDigits(a) && AllDigits(b) && 1 <= |a| <= 2 && 1 <= |b| <= 2
    ensures HoursMatchFrom(a + ("-" + b), 0) == Some((a, b))
  {
    DashMatchAt(a, b);
  }

  lemma {:induction false} DashMatchAt(a: string, b: string)
    requires AllDigits(a) && AllDigits(b) && 1 <= |a| <= 2 && 1 <= |b| <= 2
    ensures HoursMatchAt(a + ("-" + b), 0) == Some((a, b))
  {
    var s := a + ("-" + b);
    assert s[0..] == s;
    ShortNumberMatches(a, "-" + b);
    assert s[|a|..] == "-" + b && s[..|a|] == a;
    DashTail(b);
  }

  lemma {:induction false} DashTail(b: string)
    requires AllDigits(b) && 1 <= |b| <= 2
    ensures SpaceRun("-" + b) == 0 && ("-" + b)[0] == '-' && ("-" + b)[1..] == b
    ensures SpaceRun(b) == 0 && b[0..] == b && TimeMatch(b) == |b| && b[..|b|] == b
  {
    assert b + "" == b;
    ShortNumberMatches(b, "");
  }

  /** With the connective replaced first, "HHh às HHh" yields its two numbers as the bounds. */
  lemma {:induction false} DashedBounds(a: string, b: string)
    requires AllDigits(a) && AllDigits(b) && 1 <= |a| <= 2 && 1 <= |b| <= 2
    ensures HoursMatchFrom(NormalizeHours(DateTimePicker.HoursText(a, b)), 0) == Some((a, b))
  {
    HoursDashed(a, b);
    DashMatch(a, b);
  }

  /** With the connective replaced first, hours given as "HHh às HHh" are
      read as the interval between those whole hours, ends included. */
  lemma {:induction false} ConnectiveAsDash(days: string, a: string, b: string, weekday: nat, minutes: nat)
    requires days != ""
    requires AllDigits(a) && AllDigits(b) && 1 <= |a| <= 2 && 1 <= |b| <= 2
    ensures CheckIsOpen(Some(days), Some(DateTimePicker.HoursText(a, b)), weekday, minutes).isOpen <==>
      weekday in WorkingDays(days) && DigitsValue(a) * 60 <= minutes <= DigitsValue(b) * 60
  {
    var h := DateTimePicker.HoursText(a, b);
    DashedBounds(a, b);
    OpenWithin(days, h, weekday, minutes);
    ParseTimeHours(a);
    ParseTimeHours(b);
  }
}

=== FILE: js.dfy ===
/** The JavaScript value semantics the storefront leans on: optional values
    (`undefined`), string-valued records as spreadsheet rows become, the
    coercions `Number()`, `parseInt(_, 10)` and `parseFloat` over a decimal
    grammar, and plain objects whose key order puts integer-like keys first. */
module Js {
  import opened Text
  import opened Seqs

  datatype Option<T> = None | Some(value: T) {
    function GetOr(default: T): T {
      match this
      case Some(v) => v
      case None => default
    }
  }

  /** An object built from a spreadsheet row: every present field is a string. */
  type Record = map<string, string>

  /** A JavaScript value as the currency parsers see it. */
  datatype Value = Num(n: real) | Str(s: string) | Undefined

  /** `record[key]`. */
  function Field(r: Record, key: string): (v: Value)
    ensures v.Undefined? <==> key !in r
  {
    if key in r then Str(r[key]) else Undefined
  }

  /** `record[key]` as an optional string. */
  function Get(r: Record, key: string): (v: Option<string>)
    ensures v.Some? <==> key in r
  {
    if key in r then Some(r[key]) else None
  }

  /** `${record[key]}` in a template literal. */
  function Show(r: Record, key: string): string {
    if key in r then r[key] else "undefined"
  }

  /** `record[key] || fallback`: a missing or empty field gives the fallback. */
  function OrElse(r: Record, key: string, fallback: string): (v: string)
    ensures key in r && r[key] != "" ==> v == r[key]
    ensures key !in r || r[key] == "" ==> v == fallback
  {
    if key in r && r[key] != "" then r[key] else fallback
  }

  // ---------------------------------------------------------------------------
  // Numbers
  // ---------------------------------------------------------------------------

  /** `Number(s)` on blank and digit text: blank is 0, a run of digits
      (around whitespace) is its value, and anything else is None, read as
      NaN. JavaScript also reads signed, decimal and exponent text
      (`Number("18.5")` is 18.5); this function treats such text as NaN. */
  function ToNumber(s: string): (r: Option<nat>)
    ensures AllDigits(Trim(s)) <==> r.Some?
  {
    var t := Trim(s);
    if AllDigits(t) then Some(DigitsValue(t)) else None
  }

  /** Text after an optional leading sign. */
  function Unsigned(t: string): (u: string)
    ensures |t| > 0 && (t[0] == '-' || t[0] == '+') ==> u == t[1..]
    ensures |t| == 0 || (t[0] != '-' && t[0] != '+') ==> u == t
  {
    if |t| > 0 && (t[0] == '-' || t[0] == '+') then t[1..] else t
  }

  predicate Negative(t: string) {
    |t| > 0 && t[0] == '-'
  }

  /** An optional sign and the longest run of digits after it; None without digits. */
  function SignedDigits(t: string): (r: Option<int>)
    ensures r.Some? <==> |LeadingDigits(Unsigned(t))| > 0
  {
    var ds := LeadingDigits(Unsigned(t));
    if |ds| == 0 then None
    else Some(if Negative(t) then -(DigitsValue(ds) as int) else DigitsValue(ds))
  }

  /** `parseInt(s, 10)`: leading whitespace, an optional sign, then the
      longest run of digits; NaN (None) when there are no digits. */
  function ParseInt(s: string): (r: Option<int>)
    ensures r.Some? <==> |LeadingDigits(Unsigned(TrimStart(s)))| > 0
  {
    SignedDigits(TrimStart(s))
  }

  /** `10^e` for an integer exponent. */
  function Scale(e: int): (r: real)
    ensures r > 0.0
  {
    if e >= 0 then Pow10(e) as real else 1.0 / (Pow10(-e) as real)
  }

  /** The exponent part `[eE][+-]?\d+` at the start of `s`, or 0 when there is none. */
  function ExponentOf(s: string): int {
    if |s| == 0 || (s[0] != 'e' && s[0] != 'E') then 0
    else SignedDigits(s[1..]).GetOr(0)
  }

  /** The unsigned numeral at the start of `u`: digits, an optional point
      and fraction digits, an optional exponent. None when no digit is read. */
  function Magnitude(u: string): (r: Option<real>)
  {
    var whole := LeadingDigits(u);
    var rest := u[|whole|..];
    var point := |rest| > 0 && rest[0] == '.';
    var frac := if point then LeadingDigits(rest[1..]) else "";
    if |whole| + |frac| == 0 then None
    else
      var after := if point then rest[1 + |frac|..] else rest;
      Some(Numeral(whole, frac, ExponentOf(after)))
  }

  /** The value of `whole.frac` times `10^e`. */
  function Numeral(whole: string, frac: string, e: int): real
    requires AllDigits(whole) && AllDigits(frac)
  {
    (DigitsValue(whole) as real + DigitsValue(frac) as real / Pow10(|frac|) as real) * Scale(e)
  }

  /** `parseFloat(s)` on decimal text: leading whitespace, an optional sign,
      then the numeral; whatever follows is ignored. NaN (None) when no
      digit is read. */
  function ParseFloat(s: string): (r: Option<real>)
    ensures r.Some? <==> Magnitude(Unsigned(TrimStart(s))).Some?
  {
    var t := TrimStart(s);
    match Magnitude(Unsigned(t))
    case None => None
    case Some(m) => Some(if Negative(t) then -m else m)
  }

  /** Two-decimal text `W.FF` of an amount in hundredths, as a spreadsheet
      writes a price once its decimal comma has become a point. */
  function DecimalText(hundredths: nat): string {
    NatToString(hundredths / 100) + "." + PadTwo(NatToString(hundredths % 100))
  }

  lemma {:induction false} TwoDigits(n: nat)
    requires n < 100
    ensures |PadTwo(NatToString(n))| == 2 && AllDigits(PadTwo(NatToString(n)))
    ensures DigitsValue(PadTwo(NatToString(n))) == n
  {
    NatToStringValue(n);
    PadTwoValue(NatToString(n));
    if n >= 10 {
      assert |NatToString(n)| == 2 by {
        assert NatToString(n) == NatToString(n / 10) + [DigitChar(n % 10)];
      }
    }
  }

  /** Text a number parse stops at: nothing that could continue a numeral. */
  predicate EndsNumeral(tail: string) {
    |tail| > 0 ==> !IsDigit(tail[0]) && tail[0] != '.' && tail[0] != 'e' && tail[0] != 'E'
  }

  /** Text a number parse stops at once a fraction has been read: a second
      point ends the numeral too. */
  predicate EndsFraction(tail: string) {
    |tail| > 0 ==> !IsDigit(tail[0]) && tail[0] != 'e' && tail[0] != 'E'
  }

  lemma {:induction false} NumeralUnscaled(whole: string, frac: string)
    requires AllDigits(whole) && AllDigits(frac)
    ensures Numeral(whole, frac, 0) == DigitsValue(whole) as real + DigitsValue(frac) as real / Pow10(|frac|) as real
  {
    assert Scale(0) == 1.0;
  }

  lemma {:induction false} NumeralWhole(whole: string)
    requires AllDigits(whole)
    ensures Numeral(whole, "", 0) == DigitsValue(whole) as real
  {
    NumeralUnscaled(whole, "");
    var x := DigitsValue(whole) as real;
    var z := DigitsValue("") as real;
    var p := Pow10(|""|) as real;
    assert z == 0.0 && p == 1.0;
    assert z / p == 0.0;
  }

  /** A numeral that starts with a digit is read without sign or whitespace. */
  lemma {:induction false} ParseFloatOfDigitStart(s: string)
    requires |s| > 0 && IsDigit(s[0])
    ensures ParseFloat(s) == Magnitude(s)
  {
    assert SpaceRun(s) == 0;
    assert TrimStart(s) == s;
    assert Unsigned(s) == s && !Negative(s);
  }

  /** `parseFloat` of digits, a point and digits, followed by text that ends the numeral. */
  lemma {:induction false} ParseFloatPointed(w: string, f: string, tail: string)
    requires |w| >= 1 && AllDigits(w) && AllDigits(f) && EndsFraction(tail)
    ensures ParseFloat(w + "." + f + tail) == Some(Numeral(w, f, 0))
  {
    var ft := f + tail;
    var rest := ['.'] + ft;
    var s := w + rest;
    assert w + "." + f + tail == s;
    ParseFloatOfDigitStart(s);
    LeadingDigitsOf(w, rest);
    assert s[|w|..] == rest;
    assert rest[1..] == ft;
    LeadingDigitsOf(f, tail);
    assert rest[1 + |f|..] == tail;
    assert ExponentOf(tail) == 0;
  }

  /** `parseFloat` of digits followed by text that ends the numeral. */
  lemma {:induction false} ParseFloatWhole(w: string, tail: string)
    requires |w| >= 1 && AllDigits(w) && EndsNumeral(tail)
    ensures ParseFloat(w + tail) == Some(DigitsValue(w) as real)
  {
    var s := w + tail;
    ParseFloatOfDigitStart(s);
    LeadingDigitsOf(w, tail);
    assert s[|w|..] == tail;
    assert ExponentOf(tail) == 0;
    assert Magnitude(s) == Some(Numeral(w, "", 0));
    NumeralWhole(w);
  }

  lemma {:induction false} HundredthsSplit(h: nat)
    ensures (h / 100) as real + (h % 100) as real / 100.0 == h as real / 100.0
  {
    var q, r := h / 100, h % 100;
    assert h == q * 100 + r;
    assert h as real == q as real * 100.0 + r as real;
    assert (q as real * 100.0) / 100.0 == q as real;
  }

  /** The whole part and the two decimals of an amount in hundredths make up its value. */
  lemma {:induction false} HundredthsNumeral(hundredths: nat)
    ensures Numeral(NatToString(hundredths / 100), PadTwo(NatToString(hundredths % 100)), 0)
         == hundredths as real / 100.0
  {
    var w := NatToString(hundredths / 100);
    var f := PadTwo(NatToString(hundredths % 100));
    TwoDigits(hundredths % 100);
    NatToStringValue(hundredths / 100);
    NumeralUnscaled(w, f);
    assert Pow10(|f|) == 100;
    HundredthsSplit(hundredths);
  }

  /** `parseFloat` reads two-decimal text back to the amount it writes. */
  lemma {:induction false} ParseFloatDecimalText(hundredths: nat, tail: string)
    requires EndsNumeral(tail)
    ensures ParseFloat(DecimalText(hundredths) + tail) == Some(hundredths as real / 100.0)
  {
    var w := NatToString(hundredths / 100);
    var f := PadTwo(NatToString(hundredths % 100));
    DecimalTextParts(hundredths);
    HundredthsNumeral(hundredths);
    ParseFloatPointedValue(w, f, tail, hundredths as real / 100.0);
  }

  lemma {:induction false} DecimalTextParts(hundredths: nat)
    ensures var w, f := NatToString(hundredths / 100), PadTwo(NatToString(hundredths % 100));
      |w| >= 1 && AllDigits(w) && AllDigits(f) && DecimalText(hundredths) == w + "." + f
  {
    TwoDigits(hundredths % 100);
  }

  /** Two-decimal text is digits around one point: no currency sign, no
      comma, no surrounding space. */
  lemma {:induction false} DecimalTextPlain(hundredths: nat)
    ensures var s := DecimalText(hundredths);
      ReplaceFirst(s, "R$", "") == s && Trim(s) == s && Lacks(s, ',')
  {
    var s := DecimalText(hundredths);
    DecimalTextParts(hundredths);
    assert forall j :: 0 <= j < |s| ==> IsDigit(s[j]) || s[j] == '.';
    ReplaceFirstAbsent(s, "R$", "");
    TrimOfTrimmed(s);
  }

  lemma {:induction false} ParseFloatPointedWhole(w: string, f: string, v: real)
    requires |w| >= 1 && AllDigits(w) && AllDigits(f)
    requires Numeral(w, f, 0) == v
    ensures ParseFloat(w + "." + f) == Some(v)
  {
    var s := w + "." + f;
    assert s + "" == s;
    ParseFloatPointed(w, f, "");
  }

  lemma {:induction false} ParseFloatPointedValue(w: string, f: string, tail: string, v: real)
    requires |w| >= 1 && AllDigits(w) && AllDigits(f) && EndsFraction(tail)
    requires Numeral(w, f, 0) == v
    ensures ParseFloat(w + "." + f + tail) == Some(v)
  {
    ParseFloatPointed(w, f, tail);
  }

  // ---------------------------------------------------------------------------
  // Plain objects with JavaScript key order
  // ---------------------------------------------------------------------------

  /** A plain JavaScript object: its entries in insertion order. */
  datatype Obj<V> = Obj(entries: seq<(string, V)>)

  function KeysOf<V>(es: seq<(string, V)>): (r: seq<string>)
    ensures |r| == |es| && forall i :: 0 <= i < |es| ==> r[i] == es[i].0
  {
    if |es| == 0 then [] else [es[0].0] + KeysOf(es[1..])
  }

  function ValuesOf<V>(es: seq<(string, V)>): (r: seq<V>)
    ensures |r| == |es| && forall i :: 0 <= i < |es| ==> r[i] == es[i].1
  {
    if |es| == 0 then [] else [es[0].1] + ValuesOf(es[1..])
  }

  /** No key occurs twice, as in every JavaScript object. */
  predicate DistinctKeys<V>(es: seq<(string, V)>) {
    forall i, j :: 0 <= i < j < |es| ==> es[i].0 != es[j].0
  }

  predicate HasKey<V>(es: seq<(string, V)>, k: string) {
    exists i :: 0 <= i < |es| && es[i].0 == k
  }

  /** The position of key `k`, or -1 when the object has no such key. */
  function KeyIndex<V>(es: seq<(string, V)>, k: string): (i: int)
    ensures -1 <= i < |es|
    ensures i >= 0 ==> es[i].0 == k && forall j :: 0 <= j < i ==> es[j].0 != k
    ensures i < 0 <==> !HasKey(es, k)
  {
    if |es| == 0 then -1
    else if es[0].0 == k then 0
    else
      var j := KeyIndex(es[1..], k);
      if j < 0 then
        assert !HasKey(es, k) by {
          forall i | 0 <= i < |es| ensures es[i].0 != k {
            if i > 0 { assert es[i] == es[1..][i - 1]; }
          }
        }
        -1
      else j + 1
  }

  /** `obj[k]`. */
  function Lookup<V>(o: Obj<V>, k: string): (r: Option<V>)
    ensures r.None? <==> !HasKey(o.entries, k)
    ensures DistinctKeys(o.entries) ==>
      forall i :: 0 <= i < |o.entries| && o.entries[i].0 == k ==> r == Some(o.entries[i].1)
  {
    var i := KeyIndex(o.entries, k);
    if i < 0 then None else Some(o.entries[i].1)
  }

  /** `{...obj, [k]: v}`: an existing key keeps its place, a new one goes last. */
  function Put<V>(o: Obj<V>, k: string, v: V): (r: Obj<V>)
    ensures !HasKey(o.entries, k) ==> r.entries == o.entries + [(k, v)]
    ensures HasKey(o.entries, k) ==> |r.entries| == |o.entries|
    ensures HasKey(o.entries, k) ==> forall i :: 0 <= i < |o.entries| ==>
      r.entries[i] == if i == KeyIndex(o.entries, k) then (k, v) else o.entries[i]
  {
    var i := KeyIndex(o.entries, k);
    if i < 0 then Obj(o.entries + [(k, v)]) else Obj(o.entries[i := (k, v)])
  }

  /** Putting keeps the keys distinct and the key order, adding a new key last. */
  lemma {:induction false} PutKeys<V>(o: Obj<V>, k: string, v: V)
    requires DistinctKeys(o.entries)
    ensures DistinctKeys(Put(o, k, v).entries)
    ensures KeysOf(Put(o, k, v).entries)
         == if HasKey(o.entries, k) then KeysOf(o.entries) else KeysOf(o.entries) + [k]
  {
    var r := Put(o, k, v);
    if HasKey(o.entries, k) {
      assert forall i :: 0 <= i < |o.entries| ==> r.entries[i].0 == o.entries[i].0;
    }
  }

  /** Entries under any key but `k`. */
  function Other<V>(k: string): ((string, V)) -> bool {
    (e: (string, V)) => e.0 != k
  }

  /** `const {[k]: _, ...rest} = obj`: the object without `k`, order kept. */
  function Delete<V>(o: Obj<V>, k: string): (r: Obj<V>)
    ensures r.entries == Filter(o.entries, Other(k))
    ensures !HasKey(r.entries, k)
  {
    Obj(Filter(o.entries, Other(k)))
  }

  /** The entries left after deleting `k` are the old entries under other keys. */
  lemma {:induction false} DeleteMembers<V>(o: Obj<V>, k: string, e: (string, V))
    ensures e in Delete(o, k).entries <==> e in o.entries && e.0 != k
  {
    FilterMembers(o.entries, Other(k), e);
  }

  lemma {:induction false} LookupPut<V>(o: Obj<V>, k: string, v: V, k': string)
    requires DistinctKeys(o.entries)
    ensures Lookup(Put(o, k, v), k') == if k' == k then Some(v) else Lookup(o, k')
  {
    PutKeys(o, k, v);
    var r := Put(o, k, v);
    var i := KeyIndex(o.entries, k);
    if k' == k {
      if i < 0 {
        assert r.entries[|o.entries|].0 == k;
      } else {
        assert r.entries[i] == (k, v);
      }
    } else if HasKey(o.entries, k') {
      var j :| 0 <= j < |o.entries| && o.entries[j].0 == k';
      assert r.entries[j] == o.entries[j];
    }
  }

  lemma {:induction false} DeleteKeepsDistinct<V>(es: seq<(string, V)>, k: string)
    requires DistinctKeys(es)
    ensures DistinctKeys(Filter(es, Other(k)))
    decreases |es|
  {
    if |es| > 0 {
      var p: ((string, V)) -> bool := Other(k);
      DeleteKeepsDistinct(es[1..], k);
      var tail := Filter(es[1..], p);
      forall j | 0 <= j < |tail|
        ensures tail[j].0 != es[0].0
      {
        FilterMembers(es[1..], p, tail[j]);
      }
    }
  }

  lemma {:induction false} LookupDelete<V>(o: Obj<V>, k: string, k': string)
    requires DistinctKeys(o.entries)
    ensures DistinctKeys(Delete(o, k).entries)
    ensures Lookup(Delete(o, k), k') == if k' == k then None else Lookup(o, k')
  {
    DeleteKeepsDistinct(o.entries, k);
    var d := Delete(o, k);
    if k' != k {
      if HasKey(o.entries, k') {
        var i :| 0 <= i < |o.entries| && o.entries[i].0 == k';
        DeleteMembers(o, k, o.entries[i]);
        var j :| 0 <= j < |d.entries| && d.entries[j] == o.entries[i];
      } else if HasKey(d.entries, k') {
        var j :| 0 <= j < |d.entries| && d.entries[j].0 == k';
        DeleteMembers(o, k, d.entries[j]);
        assert false;
      }
    }
  }

  /** Deleting a present key removes exactly its entry. */
  lemma {:induction false} DeleteAt<V>(o: Obj<V>, k: string)
    requires DistinctKeys(o.entries) && HasKey(o.entries, k)
    ensures var i := KeyIndex(o.entries, k);
      Delete(o, k).entries == o.entries[..i] + o.entries[i + 1..]
  {
    var es := o.entries;
    var i := KeyIndex(es, k);
    var p: ((string, V)) -> bool := Other(k);
    var a, e, b := es[..i], es[i], es[i + 1..];
    assert es == a + [e] + b;
    forall j | 0 <= j < |a| ensures p(a[j]) {
      assert a[j] == es[j];
    }
    forall j | 0 <= j < |b| ensures p(b[j]) {
      assert b[j] == es[i + 1 + j];
    }
    FilterDropOne(a, e, b, p);
    assert Delete(o, k).entries == Filter(es, p);
  }

  /** A canonical array-index string: "0" or digits without a leading zero,
      below 2^32 - 1. JavaScript lists such keys first, in numeric order. */
  predicate IsArrayIndex(k: string) {
    |k| >= 1 && AllDigits(k) && (k[0] != '0' || k == "0") && DigitsValue(k) < 4294967295
  }

  function IndexValue(k: string): nat {
    if AllDigits(k) then DigitsValue(k) else 0
  }

  predicate SortedByIndex<V>(es: seq<(string, V)>) {
    forall i, j :: 0 <= i < j < |es| ==> IndexValue(es[i].0) <= IndexValue(es[j].0)
  }

  /** Insertion of an entry into entries sorted by numeric key. */
  function InsertByIndex<V>(e: (string, V), es: seq<(string, V)>): (r: seq<(string, V)>)
    ensures |r| == |es| + 1
  {
    if |es| == 0 || IndexValue(e.0) <= IndexValue(es[0].0) then [e] + es
    else [es[0]] + InsertByIndex(e, es[1..])
  }

  function SortByIndex<V>(es: seq<(string, V)>): (r: seq<(string, V)>)
    ensures |r| == |es|
  {
    if |es| == 0 then [] else InsertByIndex(es[0], SortByIndex(es[1..]))
  }

  lemma {:induction false} InsertPermutes<V>(e: (string, V), es: seq<(string, V)>)
    ensures multiset(InsertByIndex(e, es)) == multiset{e} + multiset(es)
    decreases |es|
  {
    if |es| > 0 && IndexValue(e.0) > IndexValue(es[0].0) {
      InsertPermutes(e, es[1..]);
      assert es == [es[0]] + es[1..];
    }
  }

  lemma {:induction false} InsertSorted<V>(e: (string, V), es: seq<(string, V)>)
    requires SortedByIndex(es)
    ensures SortedByIndex(InsertByIndex(e, es))
    ensures forall i :: 0 <= i < |InsertByIndex(e, es)| ==>
      IndexValue(InsertByIndex(e, es)[i].0) >= IndexValue(e.0)
         || (|es| > 0 && IndexValue(InsertByIndex(e, es)[i].0) >= IndexValue(es[0].0))
    decreases |es|
  {
    if |es| > 0 && IndexValue(e.0) > IndexValue(es[0].0) {
      InsertSorted(e, es[1..]);
      var rest := InsertByIndex(e, es[1..]);
      forall i | 0 <= i < |rest|
        ensures IndexValue(es[0].0) <= IndexValue(rest[i].0)
      {
        if IndexValue(rest[i].0) < IndexValue(e.0) {
          assert IndexValue(rest[i].0) >= IndexValue(es[1..][0].0);
        }
      }
    }
  }

  lemma {:induction false} SortPermutesAndSorts<V>(es: seq<(string, V)>)
    ensures multiset(SortByIndex(es)) == multiset(es)
    ensures SortedByIndex(SortByIndex(es))
    decreases |es|
  {
    if |es| > 0 {
      SortPermutesAndSorts(es[1..]);
      InsertPermutes(es[0], SortByIndex(es[1..]));
      InsertSorted(es[0], SortByIndex(es[1..]));
      assert es == [es[0]] + es[1..];
    }
  }

  predicate IsIndexEntry<V>(e: (string, V)) {
    IsArrayIndex(e.0)
  }

  predicate IsPlainEntry<V>(e: (string, V)) {
    !IsArrayIndex(e.0)
  }

  /** The entries whose keys are array indices, in insertion order. */
  function IndexEntries<V>(o: Obj<V>): seq<(string, V)> {
    Filter(o.entries, IsIndexEntry)
  }

  /** The entries with any other key, in insertion order. */
  function PlainEntries<V>(o: Obj<V>): seq<(string, V)> {
    Filter(o.entries, IsPlainEntry)
  }

  /** The entries in the order `Object.keys` and `Object.values` list them:
      array-index keys ascending, then the other keys in insertion order. */
  function OrderedEntries<V>(o: Obj<V>): seq<(string, V)> {
    SortByIndex(IndexEntries(o)) + PlainEntries(o)
  }

  /** `Object.keys(obj)`. */
  function OwnKeys<V>(o: Obj<V>): seq<string> {
    KeysOf(OrderedEntries(o))
  }

  /** `Object.values(obj)`. */
  function Values<V>(o: Obj<V>): seq<V> {
    ValuesOf(OrderedEntries(o))
  }

  /** The listing order holds every entry once, lists the array-index keys
      first in ascending order, and the other keys in insertion order. */
  lemma {:induction false} OrderedEntriesShape<V>(o: Obj<V>)
    ensures multiset(OrderedEntries(o)) == multiset(o.entries)
    ensures |OrderedEntries(o)| == |o.entries|
    ensures var n := |IndexEntries(o)|;
      SortedByIndex(OrderedEntries(o)[..n])
      && (forall i :: 0 <= i < n ==> IsArrayIndex(OrderedEntries(o)[i].0))
      && OrderedEntries(o)[n..] == PlainEntries(o)
  {
    var a := IndexEntries(o);
    SortPermutesAndSorts(a);
    FilterPartition(o.entries, IsIndexEntry, IsPlainEntry);
    var s := SortByIndex(a);
    assert OrderedEntries(o)[..|a|] == s;
    assert OrderedEntries(o)[|a|..] == PlainEntries(o);
    forall i | 0 <= i < |a|
      ensures IsArrayIndex(s[i].0)
    {
      assert s[i] in multiset(a);
    }
  }

  /** Without array-index keys, `Object.keys` is the insertion order. */
  lemma {:induction false} OwnKeysInsertionOrder<V>(o: Obj<V>)
    requires forall i :: 0 <= i < |o.entries| ==> !IsArrayIndex(o.entries[i].0)
    ensures OwnKeys(o) == KeysOf(o.entries)
  {
    FilterAll(o.entries, IsPlainEntry);
    FilterNone(o.entries, IsIndexEntry);
  }

  lemma {:induction false} ValuesOfPermutation<V>(a: seq<(string, V)>, b: seq<(string, V)>)
    requires multiset(a) == multiset(b)
    ensures multiset(ValuesOf(a)) == multiset(ValuesOf(b))
    decreases |a|
  {
    if |a| == 0 {
      assert |b| == |multiset(b)| == 0;
    } else {
      var j := MatchFirst(a, b);
      ValuesOfPermutation(a[1..], b[..j] + b[j + 1..]);
      ValuesOfRemoveAt(b, j);
      assert ValuesOf(a) == [a[0].1] + ValuesOf(a[1..]);
    }
  }



  lemma {:induction false} ValuesOfRemoveAt<V>(b: seq<(string, V)>, j: nat)
    requires j < |b|
    ensures multiset(ValuesOf(b)) == multiset(ValuesOf(b[..j] + b[j + 1..])) + multiset{b[j].1}
  {
    ValuesOfSplit(b, j);
    ValuesOfAppend(b[..j], b[j + 1..]);
    MultisetMiddle(ValuesOf(b[..j]), b[j].1, ValuesOf(b[j + 1..]));
  }

  lemma {:induction false} ValuesOfSplit<V>(b: seq<(string, V)>, j: nat)
    requires j < |b|
    ensures ValuesOf(b) == ValuesOf(b[..j]) + ([b[j].1] + ValuesOf(b[j + 1..]))
  {
    assert b == b[..j] + ([b[j]] + b[j + 1..]);
    ValuesOfAppend(b[..j], [b[j]] + b[j + 1..]);
    ValuesOfAppend([b[j]], b[j + 1..]);
    assert ValuesOf([b[j]]) == [b[j].1];
  }

  lemma {:induction false} ValuesOfAppend<V>(a: seq<(string, V)>, b: seq<(string, V)>)
    ensures ValuesOf(a + b) == ValuesOf(a) + ValuesOf(b)
  {
    assert ValuesOf(a + b) == ValuesOf(a) + ValuesOf(b);
  }

  /** `Object.values` lists the same values as the insertion order, only
      possibly in another order. */
  lemma {:induction false} ValuesArePermutation<V>(o: Obj<V>)
    ensures multiset(Values(o)) == multiset(ValuesOf(o.entries))
  {
    OrderedEntriesShape(o);
    ValuesOfPermutation(OrderedEntries(o), o.entries);
  }

  /** Hence a sum over `Object.values` is the sum over the entries. */
  lemma {:induction false} SumValues<V>(o: Obj<V>, f: V -> int)
    ensures Sum(Values(o), f) == Sum(ValuesOf(o.entries), f)
  {
    ValuesArePermutation(o);
    SumPermutation(Values(o), ValuesOf(o.entries), f);
  }

  lemma {:induction false} SumRealValues<V>(o: Obj<V>, f: V -> real)
    ensures SumReal(Values(o), f) == SumReal(ValuesOf(o.entries), f)
  {
    ValuesArePermutation(o);
    SumRealPermutation(Values(o), ValuesOf(o.entries), f);
  }

  /** Deleting a present key removes its value from the values in insertion order. */
  lemma {:induction false} ValuesDeleteAt<V>(o: Obj<V>, k: string)
    requires DistinctKeys(o.entries) && HasKey(o.entries, k)
    ensures var i := KeyIndex(o.entries, k);
      ValuesOf(Delete(o, k).entries) == ValuesOf(o.entries)[..i] + ValuesOf(o.entries)[i + 1..]
  {
    DeleteAt(o, k);
    var i := KeyIndex(o.entries, k);
    ValuesOfAppend(o.entries[..i], o.entries[i + 1..]);
    assert ValuesOf(o.entries[..i]) == ValuesOf(o.entries)[..i];
    assert ValuesOf(o.entries[i + 1..]) == ValuesOf(o.entries)[i + 1..];
  }

  /** Deleting a present key takes its value out of every sum over the values. */
  lemma {:induction false} SumDelete<V>(o: Obj<V>, k: string, f: V -> int)
    requires DistinctKeys(o.entries) && HasKey(o.entries, k)
    ensures Sum(Values(Delete(o, k)), f) == Sum(Values(o), f) - f(Lookup(o, k).value)
  {
    var i := KeyIndex(o.entries, k);
    SumValues(o, f);
    SumValues(Delete(o, k), f);
    ValuesDeleteAt(o, k);
    SumRemoveAt(ValuesOf(o.entries), i, f);
  }

  lemma {:induction false} SumRealDelete<V>(o: Obj<V>, k: string, f: V -> real)
    requires DistinctKeys(o.entries) && HasKey(o.entries, k)
    ensures SumReal(Values(Delete(o, k)), f) == SumReal(Values(o), f) - f(Lookup(o, k).value)
  {
    var i := KeyIndex(o.entries, k);
    SumRealValues(o, f);
    SumRealValues(Delete(o, k), f);
    ValuesDeleteAt(o, k);
    SumRealRemoveAt(ValuesOf(o.entries), i, f);
  }

  /** Putting a value replaces the old one, if any, in every sum over the values. */
  lemma {:induction false} SumPut<V>(o: Obj<V>, k: string, v: V, f: V -> int)
    requires DistinctKeys(o.entries)
    ensures Sum(Values(Put(o, k, v)), f)
         == Sum(Values(o), f) + f(v) - (if HasKey(o.entries, k) then f(Lookup(o, k).value) else 0)
  {
    SumValues(o, f);
    SumValues(Put(o, k, v), f);
    if HasKey(o.entries, k) {
      SumPutListed(o, k, v, f);
    } else {
      SumPutNew(o, k, v, f);
    }
  }

  /** `SumPut` with the change in the sum already worked out. */
  lemma {:induction false} SumPutBy<V>(o: Obj<V>, k: string, v: V, f: V -> int, change: int)
    requires DistinctKeys(o.entries)
    requires f(v) - (if HasKey(o.entries, k) then f(Lookup(o, k).value) else 0) == change
    ensures Sum(Values(Put(o, k, v)), f) == Sum(Values(o), f) + change
  {
    SumPut(o, k, v, f);
  }

  lemma {:induction false} SumPutNew<V>(o: Obj<V>, k: string, v: V, f: V -> int)
    requires !HasKey(o.entries, k)
    ensures Sum(ValuesOf(Put(o, k, v).entries), f) == Sum(ValuesOf(o.entries), f) + f(v)
  {
    ValuesOfAppend(o.entries, [(k, v)]);
    assert ValuesOf([(k, v)]) == [v];
    SumAppend(ValuesOf(o.entries), [v], f);
  }

  lemma {:induction false} SumPutListed<V>(o: Obj<V>, k: string, v: V, f: V -> int)
    requires HasKey(o.entries, k)
    ensures Sum(ValuesOf(Put(o, k, v).entries), f)
         == Sum(ValuesOf(o.entries), f) + f(v) - f(Lookup(o, k).value)
  {
    var j := KeyIndex(o.entries, k);
    assert ValuesOf(Put(o, k, v).entries) == ValuesOf(o.entries)[j := v];
    SumUpdate(ValuesOf(o.entries), j, v, f);
  }


  lemma {:induction false} SumRealPut<V>(o: Obj<V>, k: string, v: V, f: V -> real)
    requires DistinctKeys(o.entries)
    ensures SumReal(Values(Put(o, k, v)), f)
         == SumReal(Values(o), f) + f(v) - (if HasKey(o.entries, k) then f(Lookup(o, k).value) else 0.0)
  {
    SumRealValues(o, f);
    SumRealValues(Put(o, k, v), f);
    if HasKey(o.entries, k) {
      SumRealPutListed(o, k, v, f);
    } else {
      SumRealPutNew(o, k, v, f);
    }
  }

  /** `SumRealPut` with the change in the sum already worked out. */
  lemma {:induction false} SumRealPutBy<V>(o: Obj<V>, k: string, v: V, f: V -> real, change: real)
    requires DistinctKeys(o.entries)
    requires f(v) - (if HasKey(o.entries, k) then f(Lookup(o, k).value) else 0.0) == change
    ensures SumReal(Values(Put(o, k, v)), f) == SumReal(Values(o), f) + change
  {
    SumRealPut(o, k, v, f);
  }

  lemma {:induction false} SumRealPutNew<V>(o: Obj<V>, k: string, v: V, f: V -> real)
    requires !HasKey(o.entries, k)
    ensures SumReal(ValuesOf(Put(o, k, v).entries), f) == SumReal(ValuesOf(o.entries), f) + f(v)
  {
    ValuesOfAppend(o.entries, [(k, v)]);
    assert ValuesOf([(k, v)]) == [v];
    SumRealAppend(ValuesOf(o.entries), [v], f);
  }

  lemma {:induction false} SumRealPutListed<V>(o: Obj<V>, k: string, v: V, f: V -> real)
    requires DistinctKeys(o.entries) && HasKey(o.entries, k)
    ensures SumReal(ValuesOf(Put(o, k, v).entries), f)
         == SumReal(ValuesOf(o.entries), f) + f(v) - f(Lookup(o, k).value)
  {
    var j := KeyIndex(o.entries, k);
    assert ValuesOf(Put(o, k, v).entries) == ValuesOf(o.entries)[j := v];
    SumRealUpdate(ValuesOf(o.entries), j, v, f);
  }


  /** `Object.values` has one value per entry: each listed value is some
      entry's value and each entry's value is listed. */
  lemma {:induction false} ValuesMatchEntries<V>(o: Obj<V>)
    ensures |Values(o)| == |o.entries|
    ensures forall i :: 0 <= i < |Values(o)| ==> exists e :: 0 <= e < |o.entries| && o.entries[e].1 == Values(o)[i]
    ensures forall e :: 0 <= e < |o.entries| ==> o.entries[e].1 in Values(o)
  {
    var vs := Values(o);
    ValuesCount(o);
    forall i | 0 <= i < |vs|
      ensures exists e :: 0 <= e < |o.entries| && o.entries[e].1 == vs[i]
    {
      var e := EntryOfValue(o, i);
    }
    forall e | 0 <= e < |o.entries|
      ensures o.entries[e].1 in vs
    {
      var i := ValueOfEntry(o, e);
    }
  }

  /** The entry a given value of `Object.values` comes from. */
  lemma {:induction false} EntryOfValue<V>(o: Obj<V>, i: nat) returns (e: nat)
    requires i < |Values(o)|
    ensures e < |o.entries| && o.entries[e].1 == Values(o)[i]
  {
    var vs := Values(o);
    ValuesArePermutation(o);
    assert vs[i] in multiset(ValuesOf(o.entries));
    e :| 0 <= e < |o.entries| && ValuesOf(o.entries)[e] == vs[i];
  }

  /** The position in `Object.values` of a given entry's value. */
  lemma {:induction false} ValueOfEntry<V>(o: Obj<V>, e: nat) returns (i: nat)
    requires e < |o.entries|
    ensures i < |Values(o)| && Values(o)[i] == o.entries[e].1
  {
    ValuesArePermutation(o);
    assert ValuesOf(o.entries)[e] in multiset(Values(o));
    i :| 0 <= i < |Values(o)| && Values(o)[i] == ValuesOf(o.entries)[e];
  }

  /** `Object.values` has one value per entry. */
  lemma {:induction false} ValuesCount<V>(o: Obj<V>)
    ensures |Values(o)| == |o.entries|
  {
    ValuesArePermutation(o);
    assert |multiset(Values(o))| == |multiset(ValuesOf(o.entries))|;
  }

  /** `Object.keys` lists one key per entry, each of them a key of the object. */
  lemma {:induction false} OwnKeysAreKeys<V>(o: Obj<V>)
    ensures |OwnKeys(o)| == |o.entries|
    ensures forall i :: 0 <= i < |OwnKeys(o)| ==> OwnKeys(o)[i] in KeysOf(o.entries)
  {
    OrderedEntriesShape(o);
    forall i | 0 <= i < |OwnKeys(o)|
      ensures OwnKeys(o)[i] in KeysOf(o.entries)
    {
      OwnKeyListed(o, i);
    }
  }

  lemma {:induction false} OwnKeyListed<V>(o: Obj<V>, i: nat)
    requires i < |OrderedEntries(o)| && multiset(OrderedEntries(o)) == multiset(o.entries)
    ensures OwnKeys(o)[i] in KeysOf(o.entries)
  {
    var e := OrderedEntries(o)[i];
    assert e in multiset(o.entries);
    var j :| 0 <= j < |o.entries| && o.entries[j] == e;
    assert KeysOf(o.entries)[j] == e.0;
  }
}

=== FILE: menu_layout.dfy ===
/** The menu's category sections (src/components/MenuLayout.jsx): products
    grouped by their category into a plain object, the section order taken
    from the object's key order, and the category highlighted first. */
module MenuLayout {
  import opened Seqs
  import opened Js

  /** `product.Categoria` as an object key: a product without a category
      lands under the key "undefined". */
  function CategoryKey(p: Record): string {
    Show(p, "Categoria")
  }

  /** The products of category `c`, in input order. */
  function InCategory(ps: seq<Record>, c: string): (r: seq<Record>)
    ensures |r| <= |ps|
    ensures forall i :: 0 <= i < |r| ==> CategoryKey(r[i]) == c
  {
    if |ps| == 0 then []
    else
      var n := |ps| - 1;
      InCategory(ps[..n], c) + (if CategoryKey(ps[n]) == c then [ps[n]] else [])
  }

  /** The distinct categories in order of first appearance. */
  function FirstSeen(ps: seq<Record>): seq<string> {
    if |ps| == 0 then []
    else
      var n := |ps| - 1;
      var r := FirstSeen(ps[..n]);
      if CategoryKey(ps[n]) in r then r else r + [CategoryKey(ps[n])]
  }

  /** One step of the `reduce`: append the product to its category's list,
      creating the list when the category is new. */
  function AddProduct(o: Obj<seq<Record>>, p: Record): Obj<seq<Record>> {
    var k := CategoryKey(p);
    match Lookup(o, k)
    case None => Put(o, k, [p])
    case Some(list) => Put(o, k, list + [p])
  }

  /** `categories`: the grouping object built by `products.reduce`. */
  function Categories(ps: seq<Record>): Obj<seq<Record>> {
    if |ps| == 0 then Obj([]) else AddProduct(Categories(ps[..|ps| - 1]), ps[|ps| - 1])
  }

  /** The object has one entry per category, in first-appearance order, each
      holding exactly that category's products in input order. */
  predicate GroupedBy(o: Obj<seq<Record>>, ps: seq<Record>) {
    DistinctKeys(o.entries)
    && KeysOf(o.entries) == FirstSeen(ps)
    && forall i :: 0 <= i < |o.entries| ==> o.entries[i].1 == InCategory(ps, o.entries[i].0)
  }

  lemma {:induction false} UnseenIsEmpty(ps: seq<Record>, c: string)
    requires c !in FirstSeen(ps)
    ensures InCategory(ps, c) == []
    decreases |ps|
  {
    if |ps| > 0 {
      var n := |ps| - 1;
      assert c !in FirstSeen(ps[..n]);
      UnseenIsEmpty(ps[..n], c);
    }
  }

  lemma {:induction false} SeenIsNonEmpty(ps: seq<Record>, c: string)
    requires c in FirstSeen(ps)
    ensures InCategory(ps, c) != []
    decreases |ps|
  {
    var n := |ps| - 1;
    if c in FirstSeen(ps[..n]) {
      SeenIsNonEmpty(ps[..n], c);
    }
  }

  lemma {:induction false} HasKeyIffListed<V>(es: seq<(string, V)>, k: string)
    ensures HasKey(es, k) <==> k in KeysOf(es)
  {
    if k in KeysOf(es) {
      var i :| 0 <= i < |KeysOf(es)| && KeysOf(es)[i] == k;
      assert es[i].0 == k;
    }
  }

  lemma {:induction false} CategoriesGrouped(ps: seq<Record>)
    ensures GroupedBy(Categories(ps), ps)
    decreases |ps|
  {
    if |ps| > 0 {
      var n := |ps| - 1;
      var qs, p := ps[..n], ps[n];
      assert ps == qs + [p];
      CategoriesGrouped(qs);
      assert Categories(ps) == AddProduct(Categories(qs), p);
      AddGrouped(Categories(qs), qs, p);
    }
  }

  /** One step of the `reduce` keeps the object grouped. */
  lemma {:induction false} AddGrouped(o: Obj<seq<Record>>, qs: seq<Record>, p: Record)
    requires GroupedBy(o, qs)
    ensures GroupedBy(AddProduct(o, p), qs + [p])
  {
    var k := CategoryKey(p);
    InCategoryStep(qs, p);
    FirstSeenStep(qs, p);
    HasKeyIffListed(o.entries, k);
    if HasKey(o.entries, k) {
      ListedCategoryStep(o, qs, p);
    } else {
      NewCategoryStep(o, qs, p);
    }
  }

  lemma {:induction false} InCategoryStep(qs: seq<Record>, p: Record)
    ensures forall c :: InCategory(qs + [p], c) == InCategory(qs, c) + (if CategoryKey(p) == c then [p] else [])
  {
    assert (qs + [p])[..|qs|] == qs;
  }

  lemma {:induction false} FirstSeenStep(qs: seq<Record>, p: Record)
    ensures FirstSeen(qs + [p])
         == if CategoryKey(p) in FirstSeen(qs) then FirstSeen(qs) else FirstSeen(qs) + [CategoryKey(p)]
  {
    assert (qs + [p])[..|qs|] == qs;
  }

  lemma {:induction false} NewCategoryStep(o: Obj<seq<Record>>, qs: seq<Record>, p: Record)
    requires GroupedBy(o, qs) && !HasKey(o.entries, CategoryKey(p))
    requires forall c :: InCategory(qs + [p], c) == InCategory(qs, c) + (if CategoryKey(p) == c then [p] else [])
    requires FirstSeen(qs + [p]) == FirstSeen(qs) + [CategoryKey(p)]
    ensures GroupedBy(AddProduct(o, p), qs + [p])
  {
    var k, ps := CategoryKey(p), qs + [p];
    var r := AddProduct(o, p);
    assert r == Put(o, k, [p]);
    PutKeys(o, k, [p]);
    assert k !in FirstSeen(qs);
    UnseenIsEmpty(qs, k);
    forall i | 0 <= i < |r.entries|
      ensures r.entries[i].1 == InCategory(ps, r.entries[i].0)
    {
      if i < |o.entries| {
        assert r.entries[i] == o.entries[i];
        assert o.entries[i].0 != k;
      }
    }
  }

  lemma {:induction false} ListedCategoryStep(o: Obj<seq<Record>>, qs: seq<Record>, p: Record)
    requires GroupedBy(o, qs) && HasKey(o.entries, CategoryKey(p))
    requires forall c :: InCategory(qs + [p], c) == InCategory(qs, c) + (if CategoryKey(p) == c then [p] else [])
    requires FirstSeen(qs + [p]) == FirstSeen(qs)
    ensures GroupedBy(AddProduct(o, p), qs + [p])
  {
    ListedIsPut(o, p);
    PutKeys(o, CategoryKey(p), Lookup(o, CategoryKey(p)).value + [p]);
    forall i | 0 <= i < |AddProduct(o, p).entries|
      ensures AddProduct(o, p).entries[i].1 == InCategory(qs + [p], AddProduct(o, p).entries[i].0)
    {
      ListedEntry(o, qs, p, i);
    }
  }

  lemma {:induction false} ListedIsPut(o: Obj<seq<Record>>, p: Record)
    requires HasKey(o.entries, CategoryKey(p))
    ensures Lookup(o, CategoryKey(p)).Some?
    ensures AddProduct(o, p) == Put(o, CategoryKey(p), Lookup(o, CategoryKey(p)).value + [p])
  {
  }

  /** Entry `i` after appending to a listed category. */
  lemma {:induction false} ListedEntry(o: Obj<seq<Record>>, qs: seq<Record>, p: Record, i: nat)
    requires GroupedBy(o, qs) && HasKey(o.entries, CategoryKey(p))
    requires forall c :: InCategory(qs + [p], c) == InCategory(qs, c) + (if CategoryKey(p) == c then [p] else [])
    requires i < |AddProduct(o, p).entries|
    ensures AddProduct(o, p).entries[i].1 == InCategory(qs + [p], AddProduct(o, p).entries[i].0)
  {
    ListedIsPut(o, p);
    if i != KeyIndex(o.entries, CategoryKey(p)) {
      assert o.entries[i].0 != CategoryKey(p);
    }
  }

  /** `categories[c]`: the list of a category that occurs holds exactly its
      products in input order; any other key is absent. */
  lemma {:induction false} CategoryContents(ps: seq<Record>, c: string)
    ensures c in FirstSeen(ps) ==> Lookup(Categories(ps), c) == Some(InCategory(ps, c))
    ensures c !in FirstSeen(ps) ==> Lookup(Categories(ps), c) == None
  {
    CategoriesGrouped(ps);
    var o := Categories(ps);
    HasKeyIffListed(o.entries, c);
    if c in FirstSeen(ps) {
      var i :| 0 <= i < |o.entries| && o.entries[i].0 == c;
    }
  }

  /** Every product is in the list of its own category. */
  lemma {:induction false} ProductInItsCategory(ps: seq<Record>, i: nat)
    requires i < |ps|
    ensures CategoryKey(ps[i]) in FirstSeen(ps)
    ensures ps[i] in InCategory(ps, CategoryKey(ps[i]))
    decreases |ps|
  {
    var n := |ps| - 1;
    var k := CategoryKey(ps[i]);
    LastStep(ps, k);
    if i < n {
      assert ps[..n][i] == ps[i];
      ProductInItsCategory(ps[..n], i);
    }
  }

  /** The last product only adds to what the others give. */
  lemma {:induction false} LastStep(ps: seq<Record>, k: string)
    requires |ps| > 0
    ensures var n := |ps| - 1;
      forall c :: c in FirstSeen(ps[..n]) ==> c in FirstSeen(ps)
    ensures var n := |ps| - 1;
      CategoryKey(ps[n]) in FirstSeen(ps)
    ensures var n := |ps| - 1;
      InCategory(ps, k) == InCategory(ps[..n], k) + (if CategoryKey(ps[n]) == k then [ps[n]] else [])
  {
  }

  function Count(list: seq<Record>): int {
    |list|
  }

  lemma {:induction false} CountsAddUp(ps: seq<Record>)
    ensures Sum(ValuesOf(Categories(ps).entries), Count) == |ps|
    decreases |ps|
  {
    if |ps| > 0 {
      var n := |ps| - 1;
      CountsAddUp(ps[..n]);
      AddCounts(Categories(ps[..n]), ps[n]);
    }
  }

  /** Adding a product adds one to the total size of the lists. */
  lemma {:induction false} AddCounts(o: Obj<seq<Record>>, p: Record)
    ensures Sum(ValuesOf(AddProduct(o, p).entries), Count) == Sum(ValuesOf(o.entries), Count) + 1
  {
    if !HasKey(o.entries, CategoryKey(p)) {
      NewCategoryCount(o, p);
    } else {
      ListedCategoryCount(o, p);
    }
  }

  lemma {:induction false} NewCategoryCount(o: Obj<seq<Record>>, p: Record)
    requires !HasKey(o.entries, CategoryKey(p))
    ensures Sum(ValuesOf(AddProduct(o, p).entries), Count) == Sum(ValuesOf(o.entries), Count) + 1
  {
    var r := AddProduct(o, p);
    assert r.entries == o.entries + [(CategoryKey(p), [p])];
    assert ValuesOf(r.entries) == ValuesOf(o.entries) + [[p]];
    SumAppend(ValuesOf(o.entries), [[p]], Count);
  }

  lemma {:induction false} ListedCategoryCount(o: Obj<seq<Record>>, p: Record)
    requires HasKey(o.entries, CategoryKey(p))
    ensures Sum(ValuesOf(AddProduct(o, p).entries), Count) == Sum(ValuesOf(o.entries), Count) + 1
  {
    var k := CategoryKey(p);
    var list := Lookup(o, k).value;
    assert AddProduct(o, p) == Put(o, k, list + [p]);
    SumPutListed(o, k, list + [p], Count);
  }

  /** The lists of all categories together are as long as the product list. */
  lemma {:induction false} CategorySizesSum(ps: seq<Record>)
    ensures Sum(Values(Categories(ps)), Count) == |ps|
  {
    SumValues(Categories(ps), Count);
    CountsAddUp(ps);
  }

  /** `Object.keys(categories)`. */
  function CategoryNames(ps: seq<Record>): seq<string> {
    OwnKeys(Categories(ps))
  }

  /** Section order: with no integer-like category name, the categories in
      order of first appearance. */
  lemma {:induction false} CategoryNamesOrder(ps: seq<Record>)
    requires forall i :: 0 <= i < |ps| ==> !IsArrayIndex(CategoryKey(ps[i]))
    ensures CategoryNames(ps) == FirstSeen(ps)
  {
    CategoriesGrouped(ps);
    var o := Categories(ps);
    forall i | 0 <= i < |o.entries|
      ensures !IsArrayIndex(o.entries[i].0)
    {
      assert KeysOf(o.entries)[i] in FirstSeen(ps);
      SeenIsNonEmpty(ps, o.entries[i].0);
      var l := InCategory(ps, o.entries[i].0);
      assert l[0] in InCategory(ps, o.entries[i].0);
      InCategoryFrom(ps, o.entries[i].0, l[0]);
    }
    OwnKeysInsertionOrder(o);
  }

  lemma {:induction false} InCategoryFrom(ps: seq<Record>, c: string, x: Record)
    requires x in InCategory(ps, c)
    ensures x in ps && CategoryKey(x) == c
    decreases |ps|
  {
    var n := |ps| - 1;
    if x in InCategory(ps[..n], c) {
      InCategoryFrom(ps[..n], c, x);
    }
  }

  /** The highlighted category once the names are known: the first name,
      or the initial '' when there are no products. */
  function ActiveCategory(ps: seq<Record>): (r: string) {
    var names := CategoryNames(ps);
    if |names| > 0 then names[0] else ""
  }

  /** Some product's category is highlighted exactly when there are products. */
  lemma {:induction false} ActiveCategoryIsACategory(ps: seq<Record>)
    ensures |ps| > 0 <==> |CategoryNames(ps)| > 0
    ensures |ps| > 0 ==> ActiveCategory(ps) in FirstSeen(ps)
  {
    CategoriesGrouped(ps);
    OwnKeysAreKeys(Categories(ps));
    if |ps| > 0 {
      ProductInItsCategory(ps, 0);
    }
  }
}

=== FILE: middleware.dfy ===
/** The edge middleware (middleware.js): it leaves API, source, tooling and
    file requests alone; for a store page it asks the API for the store's
    customizations and derives the page title, description and logo that it
    writes into the HTML. The API call is a parameter; the HTML rewriting
    itself is not modelled, only the values it writes. */
module Middleware {
  import opened Text
  import opened Js

  const DefaultSlug := "ruachdelivery"
  const DefaultLogo := "https://i.ibb.co/gZJHQ96G/Gemini-Generated-Image-9ttzu89ttzu89ttz.png"
  const DefaultName := "Card\U{00E1}pio Digital"

  /** True for the paths the middleware passes through untouched. */
  predicate Skip(pathname: string) {
    StartsWith(pathname, "/api/") || StartsWith(pathname, "/src/") || StartsWith(pathname, "/@vite/")
    || StartsWith(pathname, "/@react-refresh") || Contains(pathname, ".")
  }

  /** `pathname.replace(/^\/|\/$/g, '')`: the leading slash when present and then
      the trailing slash when present are removed; a lone "/" loses only one. */
  function StripSlashes(p: string): (r: string)
    ensures exists i, j :: (0 <= i <= j <= |p| && r == p[i..j]
      && (i == 1 <==> |p| > 0 && p[0] == '/') && i <= 1
      && (j == |p| - 1 || j == |p|) && (j < |p| ==> p[j] == '/')
      && (j == |p| - 1 <==> |p| > i && p[|p| - 1] == '/'))
  {
    var i := if |p| > 0 && p[0] == '/' then 1 else 0;
    var a := p[i..];
    var j := if |a| > 0 && a[|a| - 1] == '/' then |p| - 1 else |p|;
    assert a[..j - i] == p[i..j];
    a[..j - i]
  }

  /** The store slug of a page path; the root page is the default store. */
  function Slug(pathname: string): (r: string)
    ensures r != ""
    ensures StripSlashes(pathname) != "" ==> r == StripSlashes(pathname)
  {
    var s := StripSlashes(pathname);
    if s == "" then DefaultSlug else s
  }

  /** `/name` and `/name/` are the same store. */
  lemma {:induction false} SlugOfStorePath(name: string)
    requires |name| > 0 && name[0] != '/' && name[|name| - 1] != '/'
    ensures Slug("/" + name) == name
    ensures Slug("/" + name + "/") == name
  {
    assert ("/" + name)[1..] == name;
    assert ("/" + name + "/")[1..] == name + "/";
    assert (name + "/")[..|name|] == name;
  }

  /** The root path and the doubled slash both open the default store. */
  lemma {:induction false} SlugOfRoot()
    ensures Slug("") == DefaultSlug && Slug("/") == DefaultSlug && Slug("//") == DefaultSlug
  {
    assert "//"[1..] == "/";
  }

  /** What the API answered to `/api/index?slug=...`. */
  datatype ApiReply =
    | Unreachable
    | NotOk(status: int)
    | Ok(customizations: Option<map<string, string>>)

  /** The values written into the page head. */
  datatype Meta = Meta(logo: string, name: string, description: string, title: string)

  datatype Result = PassThrough | Rewrite(meta: Meta)

  /** `customizations?.[key] || fallback`. */
  function Setting(c: Option<map<string, string>>, key: string, fallback: string): (r: string)
    ensures r != "" || fallback == ""
    ensures c.Some? && key in c.value && c.value[key] != "" ==> r == c.value[key]
    ensures (c.None? || key !in c.value || c.value[key] == "") ==> r == fallback
  {
    if c.Some? && key in c.value && c.value[key] != "" then c.value[key] else fallback
  }

  function Description(name: string): string {
    "Confira o card\U{00E1}pio digital completo de " + name
      + "! Fa\U{00E7}a seu pedido online de forma r\U{00E1}pida e segura."
  }

  function MetaOf(c: Option<map<string, string>>): (m: Meta)
    ensures m.name != "" && m.logo != ""
    ensures m.title == m.name + " | " + DefaultName
  {
    var name := Setting(c, "Nome", DefaultName);
    Meta(Setting(c, "URL Logo", DefaultLogo), name, Description(name), name + " | " + DefaultName)
  }

  /** The middleware for one request. `api` answers for a slug; `htmlOk` says
      whether fetching and reading the page template completed without
      throwing. Its HTTP status is never looked at, so an error page that
      arrives is rewritten like the real one. */
  function Handle(pathname: string, api: string -> ApiReply, htmlOk: bool): (r: Result)
    ensures Skip(pathname) ==> r.PassThrough?
    ensures r.Rewrite? <==> !Skip(pathname) && api(Slug(pathname)).Ok? && htmlOk
    ensures r.Rewrite? ==> r.meta == MetaOf(api(Slug(pathname)).customizations)
  {
    if Skip(pathname) then PassThrough
    else
      match api(Slug(pathname))
      case Ok(c) => if htmlOk then Rewrite(MetaOf(c)) else PassThrough
      case _ => PassThrough
  }

  /** A store without a name or logo gets the directory's defaults. */
  lemma {:induction false} DefaultMeta(c: Option<map<string, string>>)
    requires c.None? || ("Nome" !in c.value && "URL Logo" !in c.value)
    ensures MetaOf(c).name == DefaultName && MetaOf(c).logo == DefaultLogo
    ensures MetaOf(c).title == DefaultName + " | " + DefaultName
  {
  }

  /** The description names the store between a fixed prefix and suffix. */
  lemma {:induction false} DescriptionNamesStore(c: Option<map<string, string>>)
    ensures var d := MetaOf(c).description;
      var prefix := "Confira o card\U{00E1}pio digital completo de ";
      StartsWith(d, prefix) && d[|prefix|..|prefix| + |MetaOf(c).name|] == MetaOf(c).name
  {
  }
}

=== FILE: orders.dfy ===
/** The shapes an order travels in, from the product dialog through the
    checkout to the order spreadsheet, and the pieces of its text encoding
    that more than one component shares: the payment-method labels and the
    one-line item summary. */
module Orders {
  import opened Text
  import opened Seqs
  import opened Js

  /** An add-on chosen for a cart item: the add-on's row and how many of it. */
  datatype ChosenOption = ChosenOption(fields: Record, quantity: int)

  /** A cart line as the product dialog emits it. */
  datatype CartItem = CartItem(product: Record, options: seq<ChosenOption>, mainQuantity: int, totalPrice: real)

  /** The order payload the checkout posts to the API. */
  datatype OrderData = OrderData(
    customerName: string,
    deliveryType: string,
    address: Option<string>,
    paymentMethod: string,
    observations: string,
    cart: seq<CartItem>,
    subtotal: real,
    deliveryFee: real,
    discount: real,
    coupon: Option<string>,
    total: real)

  /** `orderId`: `PED-` followed by the epoch milliseconds. */
  function OrderId(timestamp: int): string {
    "PED-" + IntToString(timestamp)
  }

  /** `orderData.x || ''` for an optional string. */
  function TextOr(s: Option<string>): string {
    if s.Some? then s.value else ""
  }

  /** The payment methods the checkout offers and their labels. */
  const PaymentMethods: map<string, string> := map[
    "credit" := "Cart\U{00E3}o de Cr\U{00E9}dito",
    "debit" := "Cart\U{00E3}o de D\U{00E9}bito",
    "pix" := "PIX",
    "cash" := "Dinheiro"]

  /** `paymentMethodMap[m] || m`: the label of a known method, an unknown
      method unchanged. */
  function PaymentLabel(m: string): (r: string)
    ensures m in PaymentMethods ==> r == PaymentMethods[m]
    ensures r != m <==> m in PaymentMethods
  {
    if m in PaymentMethods && PaymentMethods[m] != "" then PaymentMethods[m] else m
  }

  /** `${o.quantity}x ${o.Nome}`. */
  function OptionText(o: ChosenOption): string {
    IntToString(o.quantity) + "x " + Show(o.fields, "Nome")
  }

  /** One cart line: `Nx Name`, followed by ` (qx Opt, ...)` when it has add-ons. */
  function ItemText(item: CartItem): string {
    IntToString(item.mainQuantity) + "x " + Show(item.product, "Nome")
      + if |item.options| > 0 then " (" + Join(Map(item.options, OptionText), ", ") + ")" else ""
  }

  /** `itemsString`: the cart lines joined with " | ". */
  function ItemsString(cart: seq<CartItem>): string {
    Join(Map(cart, ItemText), " | ")
  }

  /** No product or add-on name contains a bar. */
  predicate BarFreeNames(cart: seq<CartItem>) {
    forall k :: 0 <= k < |cart| ==>
      (Lacks(Show(cart[k].product, "Nome"), '|')
       && forall j :: 0 <= j < |cart[k].options| ==> Lacks(Show(cart[k].options[j].fields, "Nome"), '|'))
  }

  lemma {:induction false} ItemTextLacksBar(item: CartItem)
    requires Lacks(Show(item.product, "Nome"), '|')
    requires forall j :: 0 <= j < |item.options| ==> Lacks(Show(item.options[j].fields, "Nome"), '|')
    ensures Lacks(ItemText(item), '|')
  {
    IntToStringLacks(item.mainQuantity, '|');
    var head := IntToString(item.mainQuantity) + "x " + Show(item.product, "Nome");
    LacksAppend(IntToString(item.mainQuantity), "x ", '|');
    LacksAppend(IntToString(item.mainQuantity) + "x ", Show(item.product, "Nome"), '|');
    if |item.options| > 0 {
      var texts := Map(item.options, OptionText);
      forall j | 0 <= j < |texts|
        ensures Lacks(texts[j], '|')
      {
        IntToStringLacks(item.options[j].quantity, '|');
        LacksAppend(IntToString(item.options[j].quantity), "x ", '|');
        LacksAppend(IntToString(item.options[j].quantity) + "x ", Show(item.options[j].fields, "Nome"), '|');
      }
      LacksJoin(texts, ", ", '|');
      LacksAppend(" (", Join(texts, ", "), '|');
      LacksAppend(" (" + Join(texts, ", "), ")", '|');
      LacksAppend(head, " (" + Join(texts, ", ") + ")", '|');
    } else {
      assert ItemText(item) == head + "";
    }
  }

  /** Splitting the items string on " | " recovers one summary per cart line,
      in cart order, as long as no name contains a bar. */
  lemma {:induction false} ItemsStringSplits(cart: seq<CartItem>)
    requires |cart| >= 1 && BarFreeNames(cart)
    ensures SplitOn(ItemsString(cart), " | ") == Map(cart, ItemText)
    ensures |SplitOn(ItemsString(cart), " | ")| == |cart|
  {
    var texts := Map(cart, ItemText);
    forall k | 0 <= k < |texts|
      ensures Lacks(texts[k], " | "[1])
    {
      ItemTextLacksBar(cart[k]);
    }
    SplitJoin(texts, " | ", 1);
  }
}

=== FILE: product_card.dfy ===
/** A product's card in the menu list (src/components/ProductCard.jsx): the
    prices read from the product row, the struck-through original price, the
    visibility of the price block and the label of the button. */
module ProductCard {
  import opened Text
  import opened Js
  import opened Currency

  const PriceField := "Pre\U{00E7}o"
  const DiscountField := "Desconto"
  const OrderField := "Encomenda"

  /** The text handed to `parseFloat`: the first `R$` removed, trimmed, every
      point removed and the first comma made the decimal point. */
  function Cleaned(s: string): string {
    ReplaceFirst(ReplaceChar(Trim(ReplaceFirst(s, "R$", "")), '.', ""), ",", ".")
  }

  /** This component's `parseCurrency`: numbers pass through, anything that
      is not a string is 0, text is cleaned and parsed, NaN becomes 0. */
  function ParseCurrency(v: Value): (r: real)
    ensures v.Num? ==> r == v.n
    ensures v.Undefined? ==> r == 0.0
    ensures v.Str? && ParseFloat(Cleaned(v.s)).None? ==> r == 0.0
  {
    match v
    case Num(n) => n
    case Undefined => 0.0
    case Str(s) => ParseFloat(Cleaned(s)).GetOr(0.0)
  }

  /** A price in the pt-BR currency format reads back as its amount. */
  lemma {:induction false} ReadsBrlText(amount: nat)
    ensures ParseCurrency(Str(BrlText(amount))) == amount as real / 100.0
  {
    var u := ReplaceChar(Grouped(amount / 100), '.', "");
    CleanedBrlText(amount);
    UngroupedValue(amount / 100);
    ParseFloatCents(u, amount);
  }

  /** The currency text without its symbol, spaces and group separators. */
  lemma {:induction false} StrippedBrlText(amount: nat)
    ensures ReplaceChar(Trim(ReplaceFirst(BrlText(amount), "R$", "")), '.', "")
         == ReplaceChar(Grouped(amount / 100), '.', "") + "," + Cents(amount)
  {
    var g, f := Grouped(amount / 100), Cents(amount);
    var t1 := Trim(ReplaceFirst(BrlText(amount), "R$", ""));
    assert t1 == g + ("," + f) by {
      BrlBody(amount);
    }
    CentsDigits(amount);
    RemoveCharKeepsTail(g, "," + f, '.');
    var u := ReplaceChar(g, '.', "");
    ConcatAssoc(u, ",", f);
  }

  lemma {:induction false} CleanedBrlText(amount: nat)
    ensures Cleaned(BrlText(amount))
         == ReplaceChar(Grouped(amount / 100), '.', "") + "." + Cents(amount)
  {
    StrippedBrlText(amount);
    UngroupedValue(amount / 100);
    ReplaceFirstComma(ReplaceChar(Grouped(amount / 100), '.', ""), Cents(amount));
  }

  /** A price written with a decimal point instead of a comma loses the
      point: "12.50" reads as 1250. */
  lemma {:induction false} DecimalPointDropped(amount: nat)
    ensures ParseCurrency(Str(DecimalText(amount))) == amount as real
  {
    var w, f := NatToString(amount / 100), Cents(amount);
    CleanedDecimalText(amount);
    CentsDigits(amount);
    NatToStringValue(amount / 100);
    DigitsValueAppend(w, f);
    assert Pow10(|f|) == 100;
    assert DigitsValue(w + f) == (amount / 100) * 100 + amount % 100;
    assert w + f + "" == w + f;
    ParseFloatWhole(w + f, "");
  }

  lemma {:induction false} CleanedDecimalText(amount: nat)
    ensures Cleaned(DecimalText(amount)) == NatToString(amount / 100) + Cents(amount)
  {
    var w, f := NatToString(amount / 100), Cents(amount);
    var s := DecimalText(amount);
    CentsDigits(amount);
    assert s == w + "." + f;
    DecimalTextPlain(amount);
    RemoveSeparator(w, f, '.');
    assert ReplaceChar(w, '.', "") == w;
    ReplaceFirstNoComma(w + f);
  }

  /** An empty price cell is 0. */
  lemma {:induction false} EmptyIsZero()
    ensures ParseCurrency(Str("")) == 0.0
  {
    assert ReplaceFirst("", "R$", "") == "";
    assert Cleaned("") == "";
  }

  /** What the card shows. */
  datatype Card = Card(
    originalPrice: real,
    discount: real,
    finalPrice: real,
    showsOriginal: bool,
    priceVisible: bool,
    buttonText: string)

  function View(product: Record): (c: Card)
    ensures c.originalPrice == ParseCurrency(Field(product, PriceField))
    ensures c.discount == ParseCurrency(Field(product, DiscountField))
    ensures c.finalPrice == c.originalPrice - c.discount
    ensures c.showsOriginal <==> c.discount > 0.0
    ensures c.priceVisible <==> c.originalPrice > 0.0
    ensures c.buttonText == "Encomendar" <==> Get(product, OrderField) == Some("Sim")
    ensures c.buttonText == "Adicionar" <==> Get(product, OrderField) != Some("Sim")
  {
    var original := ParseCurrency(Field(product, PriceField));
    var discount := ParseCurrency(Field(product, DiscountField));
    Card(original, discount, original - discount, discount > 0.0, original > 0.0,
         if Get(product, OrderField) == Some("Sim") then "Encomendar" else "Adicionar")
  }

  /** A product listed with a price and a discount in the currency format
      shows their difference, strikes the price through exactly when the
      discount is positive and hides the price block exactly when it is zero. */
  lemma {:induction false} ViewOfListedPrices(product: Record, price: nat, discount: nat)
    requires PriceField in product && product[PriceField] == BrlText(price)
    requires DiscountField in product && product[DiscountField] == BrlText(discount)
    ensures View(product).finalPrice == (price as real - discount as real) / 100.0
    ensures View(product).showsOriginal <==> discount > 0
    ensures View(product).priceVisible <==> price > 0
  {
    ReadsBrlText(price);
    ReadsBrlText(discount);
  }

  /** Without a discount cell the final price is the price and nothing is struck through. */
  lemma {:induction false} NoDiscountCell(product: Record)
    requires DiscountField !in product
    ensures View(product).finalPrice == View(product).originalPrice
    ensures !View(product).showsOriginal
  {
  }
}

=== FILE: product_modal.dfy ===
/** The product dialog (src/components/ProductModal.jsx): the add-on groups
    configured on the product row, the selection of add-ons as a small state
    machine (option id to a positive count, capped per group), the minimum
    checks that enable the confirm button, the price, the cart item it emits
    and the quantity stepper. */
module ProductModal {
  import opened Text
  import opened Seqs
  import opened Js
  import opened Currency
  import opened Orders
  import ProductCard

  const PriceField := "Pre\U{00E7}o"
  const DiscountField := "Desconto"
  const GroupsField := "Acompanhamentos"
  const GroupField := "Grupo"
  const StatusField := "Situa\U{00E7}\U{00E3}o"

  // ---------------------------------------------------------------------------
  // Prices
  // ---------------------------------------------------------------------------

  /** This component's `parseCurrency`: numbers pass through, anything that
      is not a string is 0, text loses the first `R$`, surrounding space and
      every point, its first comma becomes the decimal point, NaN becomes 0. */
  function ParseCurrency(v: Value): (r: real)
    ensures v.Num? ==> r == v.n
    ensures v.Undefined? ==> r == 0.0
  {
    match v
    case Num(n) => n
    case Undefined => 0.0
    case Str(s) =>
      var cleaned := ReplaceFirst(ReplaceChar(Trim(ReplaceFirst(s, "R$", "")), '.', ""), ",", ".");
      if ParseFloat(cleaned).None? then 0.0 else ParseFloat(cleaned).value
  }

  /** The dialog reads prices exactly as the product card does. */
  lemma {:induction false} SameAsCard(v: Value)
    ensures ParseCurrency(v) == ProductCard.ParseCurrency(v)
  {
  }

  /** A price in the pt-BR currency format reads back as its amount. */
  lemma {:induction false} ReadsBrlText(amount: nat)
    ensures ParseCurrency(Str(BrlText(amount))) == amount as real / 100.0
  {
    SameAsCard(Str(BrlText(amount)));
    ProductCard.ReadsBrlText(amount);
  }

  // ---------------------------------------------------------------------------
  // Add-on groups
  // ---------------------------------------------------------------------------

  datatype AddOnGroup = AddOnGroup(name: string, min: int, max: int, options: seq<Record>)

  /** `a.Grupo === name && a.Situação === 'Ativo'`. */
  predicate Offered(a: Record, name: string) {
    Get(a, GroupField) == Some(name) && Get(a, StatusField) == Some("Ativo")
  }

  /** The active add-ons of one group, in list order. */
  function OptionsOf(addOns: seq<Record>, name: string): seq<Record> {
    Filter(addOns, (a: Record) => Offered(a, name))
  }

  lemma {:induction false} OptionsOfMembers(addOns: seq<Record>, name: string, a: Record)
    ensures a in OptionsOf(addOns, name) <==> a in addOns && Offered(a, name)
  {
    FilterMembers(addOns, (a: Record) => Offered(a, name), a);
  }

  /** `list.split(',').map(m => parseInt(m.trim(), 10))`. */
  function ParseBounds(list: string): seq<Option<int>> {
    Map(SplitOn(list, ","), (t: string) => ParseInt(Trim(t)))
  }

  /** `bounds[i] || fallback`: a missing entry, NaN and 0 all give the fallback. */
  function BoundAt(bounds: seq<Option<int>>, i: nat, fallback: int): (b: int)
    ensures i < |bounds| && bounds[i].Some? && bounds[i].value != 0 ==> b == bounds[i].value
    ensures i >= |bounds| || bounds[i].None? || bounds[i].value == 0 ==> b == fallback
  {
    if i < |bounds| && bounds[i].Some? && bounds[i].value != 0 then bounds[i].value else fallback
  }

  /** The trimmed group names of the product. */
  function GroupNames(list: string): seq<string> {
    Map(SplitOn(list, ","), (t: string) => Trim(t))
  }

  /** The product names groups, add-ons are loaded, and the `min` and `max`
      lists exist; otherwise the groups are empty (the early return, or the
      `split` of a missing list throwing into the `catch`). */
  predicate Configured(product: Record, addOns: Option<seq<Record>>) {
    OrElse(product, GroupsField, "") != "" && addOns.Some? && "min" in product && "max" in product
  }

  /** The product's three comma-separated lists, split and read. */
  datatype Layout = Layout(names: seq<string>, mins: seq<Option<int>>, maxs: seq<Option<int>>)

  function LayoutOf(product: Record): Layout
    requires GroupsField in product && "min" in product && "max" in product
  {
    Layout(GroupNames(product[GroupsField]), ParseBounds(product["min"]), ParseBounds(product["max"]))
  }

  /** The `i`-th named group: minimum 0 and maximum 1 unless the lists say otherwise. */
  function GroupAt(l: Layout, addOns: seq<Record>, i: nat): AddOnGroup
    requires i < |l.names|
  {
    AddOnGroup(l.names[i], BoundAt(l.mins, i, 0), BoundAt(l.maxs, i, 1), OptionsOf(addOns, l.names[i]))
  }

  /** Every group the product names, in order, before empty groups are dropped. */
  function Candidates(l: Layout, addOns: seq<Record>): (r: seq<AddOnGroup>)
    ensures |r| == |l.names|
    ensures forall i :: 0 <= i < |r| ==> r[i] == GroupAt(l, addOns, i)
  {
    seq(|l.names|, i requires 0 <= i < |l.names| => GroupAt(l, addOns, i))
  }

  predicate HasOptions(g: AddOnGroup) {
    |g.options| > 0
  }

  /** The named groups that have at least one active add-on, in the order
      the product names them. */
  function Shown(l: Layout, addOns: seq<Record>): (r: seq<AddOnGroup>)
    ensures forall j :: 0 <= j < |r| ==> |r[j].options| > 0
  {
    Filter(Candidates(l, addOns), HasOptions)
  }

  /** `accompanimentGroups`. */
  function AccompanimentGroups(product: Record, addOns: Option<seq<Record>>): (r: seq<AddOnGroup>)
    ensures !Configured(product, addOns) ==> r == []
    ensures Configured(product, addOns) ==> r == Shown(LayoutOf(product), addOns.value)
  {
    if !Configured(product, addOns) then [] else Shown(LayoutOf(product), addOns.value)
  }

  /** The groups shown are exactly the named groups with an active add-on. */
  lemma {:induction false} ShownMembers(l: Layout, addOns: seq<Record>, g: AddOnGroup)
    ensures g in Shown(l, addOns) <==> g in Candidates(l, addOns) && |g.options| > 0
  {
    FilterMembers(Candidates(l, addOns), HasOptions, g);
  }

  /** Every option of a shown group is an active add-on of that group, and
      every active add-on of the group is among its options. */
  lemma {:induction false} GroupsOfferTheirOptions(l: Layout, addOns: seq<Record>, j: nat, a: Record)
    requires j < |Shown(l, addOns)|
    ensures var g := Shown(l, addOns)[j];
      a in g.options <==> a in addOns && Offered(a, g.name)
  {
    var g := Shown(l, addOns)[j];
    var c := Candidates(l, addOns);
    ShownMembers(l, addOns, g);
    var i :| 0 <= i < |c| && c[i] == g;
    assert g.options == OptionsOf(addOns, g.name);
    OptionsOfMembers(addOns, g.name, a);
  }

  /** Where the lists give no number, a group is optional and takes one add-on. */
  lemma {:induction false} DefaultBounds(l: Layout, addOns: seq<Record>, j: nat)
    requires forall i :: 0 <= i < |l.mins| ==> l.mins[i].None?
    requires forall i :: 0 <= i < |l.maxs| ==> l.maxs[i].None?
    requires j < |Shown(l, addOns)|
    ensures Shown(l, addOns)[j].min == 0 && Shown(l, addOns)[j].max == 1
  {
    var g := Shown(l, addOns)[j];
    var c := Candidates(l, addOns);
    ShownMembers(l, addOns, g);
    var i :| 0 <= i < |c| && c[i] == g;
  }

  /** An empty `min` or `max` cell gives no number. */
  lemma {:induction false} ParseBoundsEmpty()
    ensures ParseBounds("") == [None]
  {
    assert SplitOn("", ",") == [""];
    assert Trim("") == "" by {
      assert TrimStart("") == "";
    }
    assert ParseInt("") == None;
  }

  // ---------------------------------------------------------------------------
  // Selection
  // ---------------------------------------------------------------------------

  /** `{ data: option, quantity }`. */
  datatype Selected = Selected(data: Record, quantity: int)

  /** `selectedOptions`, keyed by option id. */
  type Selection = Obj<Selected>

  /** `option.ID` as an object key. */
  function OptionId(option: Record): string {
    Show(option, "ID")
  }

  predicate InGroup(s: Selected, name: string) {
    Get(s.data, GroupField) == Some(name)
  }

  /** What one selected add-on adds to the total of group `name`. */
  function Share(name: string): Selected -> int {
    (s: Selected) => if InGroup(s, name) then s.quantity else 0
  }

  /** Sum of the quantities of the selected add-ons of a group (the filter
      and reduce over `Object.values`). */
  function GroupTotal(sel: Selection, name: string): int {
    Sum(Values(sel), Share(name))
  }

  /** `prev[id]?.quantity || 0`. */
  function QuantityOf(sel: Selection, id: string): int {
    match Lookup(sel, id)
    case Some(s) => s.quantity
    case None => 0
  }

  /** A reachable selection: one entry per id, every count at least one. */
  predicate WellFormed(sel: Selection) {
    DistinctKeys(sel.entries) && forall i :: 0 <= i < |sel.entries| ==> sel.entries[i].1.quantity >= 1
  }

  /** `handleOptionAdd`: ignored once the group total has reached its
      maximum, otherwise one more of the option. */
  function Add(sel: Selection, group: AddOnGroup, option: Record): Selection {
    if GroupTotal(sel, group.name) >= group.max then sel
    else Put(sel, OptionId(option), Selected(option, QuantityOf(sel, OptionId(option)) + 1))
  }

  /** `handleOptionRemove`: a count of one (or an absent entry) is deleted,
      a larger count goes down by one. */
  function Remove(sel: Selection, option: Record): Selection {
    var id := OptionId(option);
    match Lookup(sel, id)
    case None => Delete(sel, id)
    case Some(s) => if s.quantity <= 1 then Delete(sel, id) else Put(sel, id, Selected(s.data, s.quantity - 1))
  }

  lemma {:induction false} QuantityOfWellFormed(sel: Selection, id: string)
    requires WellFormed(sel)
    ensures QuantityOf(sel, id) >= 0
    ensures Lookup(sel, id).Some? ==> QuantityOf(sel, id) >= 1
  {
    if Lookup(sel, id).Some? {
      var i := KeyIndex(sel.entries, id);
      assert sel.entries[i].0 == id;
    }
  }

  lemma {:induction false} PutWellFormed(sel: Selection, id: string, s: Selected)
    requires WellFormed(sel) && s.quantity >= 1
    ensures WellFormed(Put(sel, id, s))
  {
    PutKeys(sel, id, s);
  }

  lemma {:induction false} DeleteWellFormed(sel: Selection, id: string)
    requires WellFormed(sel)
    ensures WellFormed(Delete(sel, id))
  {
    DeleteKeepsDistinct(sel.entries, id);
    var r := Delete(sel, id);
    forall i | 0 <= i < |r.entries|
      ensures r.entries[i].1.quantity >= 1
    {
      assert r.entries[i] in r.entries;
      DeleteMembers(sel, id, r.entries[i]);
    }
  }

  /** Adding: at the cap nothing changes; below it the option's count goes
      up by exactly one and its data is the option; every other id is
      untouched; the selection stays well formed. */
  lemma {:induction false} AddEffect(sel: Selection, group: AddOnGroup, option: Record)
    requires WellFormed(sel)
    ensures WellFormed(Add(sel, group, option))
    ensures GroupTotal(sel, group.name) >= group.max ==> Add(sel, group, option) == sel
    ensures GroupTotal(sel, group.name) < group.max ==>
      Lookup(Add(sel, group, option), OptionId(option))
        == Some(Selected(option, QuantityOf(sel, OptionId(option)) + 1))
    ensures forall k :: k != OptionId(option) ==> Lookup(Add(sel, group, option), k) == Lookup(sel, k)
  {
    AddAtMaximum(sel, group, option);
    AddBelowMaximum(sel, group, option);
  }

  lemma {:induction false} AddAtMaximum(sel: Selection, group: AddOnGroup, option: Record)
    ensures GroupTotal(sel, group.name) >= group.max ==> Add(sel, group, option) == sel
  {
  }

  lemma {:induction false} AddBelowMaximum(sel: Selection, group: AddOnGroup, option: Record)
    requires WellFormed(sel)
    ensures GroupTotal(sel, group.name) < group.max ==>
      WellFormed(Add(sel, group, option))
      && Lookup(Add(sel, group, option), OptionId(option))
           == Some(Selected(option, QuantityOf(sel, OptionId(option)) + 1))
      && forall k :: k != OptionId(option) ==> Lookup(Add(sel, group, option), k) == Lookup(sel, k)
  {
    if GroupTotal(sel, group.name) < group.max {
      QuantityOfWellFormed(sel, OptionId(option));
      AddIsPut(sel, group, option);
      PutEffect(sel, OptionId(option), Selected(option, QuantityOf(sel, OptionId(option)) + 1));
    }
  }

  lemma {:induction false} PutEffect(sel: Selection, id: string, s: Selected)
    requires WellFormed(sel) && s.quantity >= 1
    ensures WellFormed(Put(sel, id, s))
    ensures forall k :: Lookup(Put(sel, id, s), k) == if k == id then Some(s) else Lookup(sel, k)
  {
    PutWellFormed(sel, id, s);
    forall k
      ensures Lookup(Put(sel, id, s), k) == if k == id then Some(s) else Lookup(sel, k)
    {
      LookupPut(sel, id, s, k);
    }
  }

  /** Removing: a count of at most one disappears, a larger count goes down
      by one keeping its data; every other id is untouched. */
  lemma {:induction false} RemoveEffect(sel: Selection, option: Record)
    requires WellFormed(sel)
    ensures WellFormed(Remove(sel, option))
    ensures QuantityOf(sel, OptionId(option)) <= 1 ==> Lookup(Remove(sel, option), OptionId(option)) == None
    ensures QuantityOf(sel, OptionId(option)) > 1 ==>
      Lookup(Remove(sel, option), OptionId(option))
        == Some(Selected(Lookup(sel, OptionId(option)).value.data, QuantityOf(sel, OptionId(option)) - 1))
    ensures forall k :: k != OptionId(option) ==> Lookup(Remove(sel, option), k) == Lookup(sel, k)
  {
    RemoveDropsEffect(sel, option);
    RemoveLowersEffect(sel, option);
  }

  lemma {:induction false} RemoveDropsEffect(sel: Selection, option: Record)
    requires WellFormed(sel)
    ensures QuantityOf(sel, OptionId(option)) <= 1 ==>
      WellFormed(Remove(sel, option))
      && Lookup(Remove(sel, option), OptionId(option)) == None
      && forall k :: k != OptionId(option) ==> Lookup(Remove(sel, option), k) == Lookup(sel, k)
  {
    if QuantityOf(sel, OptionId(option)) <= 1 {
      RemoveIsDelete(sel, option);
      DeleteEffect(sel, OptionId(option));
    }
  }

  lemma {:induction false} RemoveLowersEffect(sel: Selection, option: Record)
    requires WellFormed(sel)
    ensures QuantityOf(sel, OptionId(option)) > 1 ==>
      WellFormed(Remove(sel, option))
      && Lookup(Remove(sel, option), OptionId(option))
           == Some(Selected(Lookup(sel, OptionId(option)).value.data, QuantityOf(sel, OptionId(option)) - 1))
      && forall k :: k != OptionId(option) ==> Lookup(Remove(sel, option), k) == Lookup(sel, k)
  {
    if QuantityOf(sel, OptionId(option)) > 1 {
      RemoveIsLower(sel, option);
      PutEffect(sel, OptionId(option), Selected(Lookup(sel, OptionId(option)).value.data, QuantityOf(sel, OptionId(option)) - 1));
    }
  }

  lemma {:induction false} DeleteEffect(sel: Selection, id: string)
    requires WellFormed(sel)
    ensures WellFormed(Delete(sel, id))
    ensures forall k :: Lookup(Delete(sel, id), k) == if k == id then None else Lookup(sel, k)
  {
    DeleteWellFormed(sel, id);
    forall k
      ensures Lookup(Delete(sel, id), k) == if k == id then None else Lookup(sel, k)
    {
      LookupDelete(sel, id, k);
    }
  }

  // ---------------------------------------------------------------------------
  // Group totals under add and remove
  // ---------------------------------------------------------------------------

  /** Counting one more of an option raises the total of its own group by
      one and no other, when the id was free or held this very option. */
  lemma {:induction false} AddTotals(sel: Selection, group: AddOnGroup, option: Record, name: string)
    requires WellFormed(sel) && GroupTotal(sel, group.name) < group.max
    requires Lookup(sel, OptionId(option)).Some? ==> Lookup(sel, OptionId(option)).value.data == option
    ensures GroupTotal(Add(sel, group, option), name)
         == GroupTotal(sel, name) + (if Get(option, GroupField) == Some(name) then 1 else 0)
  {
    AddIsPut(sel, group, option);
    PutTotals(sel, option, name);
  }

  /** The group totals once one more of an option is put in. */
  lemma {:induction false} PutTotals(sel: Selection, option: Record, name: string)
    requires DistinctKeys(sel.entries)
    requires Lookup(sel, OptionId(option)).Some? ==> Lookup(sel, OptionId(option)).value.data == option
    ensures var id := OptionId(option);
      GroupTotal(Put(sel, id, Selected(option, QuantityOf(sel, id) + 1)), name)
        == GroupTotal(sel, name) + (if Get(option, GroupField) == Some(name) then 1 else 0)
  {
    PutShares(sel, option, name);
  }

  lemma {:induction false} PutShares(sel: Selection, option: Record, name: string)
    requires DistinctKeys(sel.entries)
    requires Lookup(sel, OptionId(option)).Some? ==> Lookup(sel, OptionId(option)).value.data == option
    ensures var id := OptionId(option);
      Sum(Values(Put(sel, id, Selected(option, QuantityOf(sel, id) + 1))), Share(name))
        == Sum(Values(sel), Share(name)) + (if Get(option, GroupField) == Some(name) then 1 else 0)
  {
    ShareStep(sel, option, name);
    SumPutBy(sel, OptionId(option), Selected(option, QuantityOf(sel, OptionId(option)) + 1), Share(name),
             if Get(option, GroupField) == Some(name) then 1 else 0);
  }

  /** The group share of one more of an option, less its old share. */
  lemma {:induction false} ShareStep(sel: Selection, option: Record, name: string)
    requires Lookup(sel, OptionId(option)).Some? ==> Lookup(sel, OptionId(option)).value.data == option
    ensures var id := OptionId(option);
      Share(name)(Selected(option, QuantityOf(sel, id) + 1))
        - (if HasKey(sel.entries, id) then Share(name)(Lookup(sel, id).value) else 0)
        == if Get(option, GroupField) == Some(name) then 1 else 0
  {
  }

  /** Removing one of a selected option lowers the total of its group by
      one and no other; removing an unselected option changes nothing. */
  lemma {:induction false} RemoveTotals(sel: Selection, option: Record, name: string)
    requires WellFormed(sel)
    ensures Lookup(sel, OptionId(option)).None? ==> Remove(sel, option) == sel
    ensures Lookup(sel, OptionId(option)).Some? ==>
      GroupTotal(Remove(sel, option), name)
        == GroupTotal(sel, name) - (if InGroup(Lookup(sel, OptionId(option)).value, name) then 1 else 0)
  {
    RemoveAbsent(sel, option);
    RemoveLastTotals(sel, option, name);
    RemoveOneTotals(sel, option, name);
  }

  /** Removing an option that is not selected changes nothing. */
  lemma {:induction false} RemoveAbsent(sel: Selection, option: Record)
    ensures Lookup(sel, OptionId(option)).None? ==> Remove(sel, option) == sel
  {
    if Lookup(sel, OptionId(option)).None? {
      FilterAll(sel.entries, Other(OptionId(option)));
    }
  }

  /** Removing the last one of a selected option. */
  lemma {:induction false} RemoveLastTotals(sel: Selection, option: Record, name: string)
    requires WellFormed(sel)
    ensures Lookup(sel, OptionId(option)).Some? && Lookup(sel, OptionId(option)).value.quantity <= 1 ==>
      GroupTotal(Remove(sel, option), name)
        == GroupTotal(sel, name) - (if InGroup(Lookup(sel, OptionId(option)).value, name) then 1 else 0)
  {
    if Lookup(sel, OptionId(option)).Some? && Lookup(sel, OptionId(option)).value.quantity <= 1 {
      RemoveIsDelete(sel, option);
      DeleteTotals(sel, OptionId(option), name);
    }
  }

  /** Removing one of several of a selected option. */
  lemma {:induction false} RemoveOneTotals(sel: Selection, option: Record, name: string)
    requires DistinctKeys(sel.entries)
    ensures Lookup(sel, OptionId(option)).Some? && Lookup(sel, OptionId(option)).value.quantity > 1 ==>
      GroupTotal(Remove(sel, option), name)
        == GroupTotal(sel, name) - (if InGroup(Lookup(sel, OptionId(option)).value, name) then 1 else 0)
  {
    if Lookup(sel, OptionId(option)).Some? && Lookup(sel, OptionId(option)).value.quantity > 1 {
      RemoveIsLower(sel, option);
      LowerTotals(sel, OptionId(option), name);
    }
  }

  lemma {:induction false} RemoveIsDelete(sel: Selection, option: Record)
    requires QuantityOf(sel, OptionId(option)) <= 1
    ensures Remove(sel, option) == Delete(sel, OptionId(option))
  {
  }

  lemma {:induction false} RemoveIsLower(sel: Selection, option: Record)
    requires QuantityOf(sel, OptionId(option)) > 1
    ensures var s := Lookup(sel, OptionId(option)).value;
      Remove(sel, option) == Put(sel, OptionId(option), Selected(s.data, s.quantity - 1))
  {
  }

  /** Deleting a selected option with a count of one. */
  lemma {:induction false} DeleteTotals(sel: Selection, id: string, name: string)
    requires WellFormed(sel) && Lookup(sel, id).Some? && Lookup(sel, id).value.quantity <= 1
    ensures GroupTotal(Delete(sel, id), name)
         == GroupTotal(sel, name) - (if InGroup(Lookup(sel, id).value, name) then 1 else 0)
  {
    QuantityOfWellFormed(sel, id);
    SumDelete(sel, id, Share(name));
  }

  /** Counting one fewer of a selected option. */
  lemma {:induction false} LowerTotals(sel: Selection, id: string, name: string)
    requires DistinctKeys(sel.entries) && Lookup(sel, id).Some?
    ensures GroupTotal(Put(sel, id, Selected(Lookup(sel, id).value.data, Lookup(sel, id).value.quantity - 1)), name)
         == GroupTotal(sel, name) - (if InGroup(Lookup(sel, id).value, name) then 1 else 0)
  {
    SumPut(sel, id, Selected(Lookup(sel, id).value.data, Lookup(sel, id).value.quantity - 1), Share(name));
  }

  // ---------------------------------------------------------------------------
  // The cap holds along any sequence of clicks
  // ---------------------------------------------------------------------------

  /** A click on an option's plus or minus button. */
  datatype Click = Plus(group: AddOnGroup, option: Record) | Minus(option: Record)

  function Step(sel: Selection, c: Click): Selection {
    match c
    case Plus(g, o) => Add(sel, g, o)
    case Minus(o) => Remove(sel, o)
  }

  function Apply(sel: Selection, clicks: seq<Click>): Selection
    decreases |clicks|
  {
    if |clicks| == 0 then sel else Apply(Step(sel, clicks[0]), clicks[1..])
  }

  /** Groups with distinct names, each offering add-ons of its own group,
      where an option id identifies one add-on. The dialog itself guarantees
      only the middle condition (it picks a group's options by `Grupo`); the
      names come from the product's `Acompanhamentos` text and the ids from
      the add-on sheet, unchecked. Without the other two conditions the cap
      can fail: see `SharedIdPastCap` and `RepeatedNamePastCap`. */
  ghost predicate Catalogue(groups: seq<AddOnGroup>) {
    (forall i, j :: 0 <= i < j < |groups| ==> groups[i].name != groups[j].name)
    && (forall i, p :: 0 <= i < |groups| && 0 <= p < |groups[i].options| ==>
          Get(groups[i].options[p], GroupField) == Some(groups[i].name))
    && (forall a, b :: Listed(groups, a) && Listed(groups, b) && OptionId(a) == OptionId(b) ==> a == b)
  }

  ghost predicate Listed(groups: seq<AddOnGroup>, a: Record) {
    exists i :: 0 <= i < |groups| && a in groups[i].options
  }

  /** A plus click offers an option of a listed group; a minus click may name any option. */
  ghost predicate FromCatalogue(groups: seq<AddOnGroup>, c: Click) {
    c.Plus? ==> c.group in groups && c.option in c.group.options
  }

  function Cap(g: AddOnGroup): int {
    if g.max > 0 then g.max else 0
  }

  /** Reachable selections: well formed, keyed by the ids of listed options,
      and within every group's cap. */
  ghost predicate Reachable(sel: Selection, groups: seq<AddOnGroup>) {
    WellFormed(sel)
    && KeyedByListed(sel, groups)
    && (forall g :: g in groups ==> GroupTotal(sel, g.name) <= Cap(g))
  }

  lemma {:induction false} EmptyReachable(groups: seq<AddOnGroup>)
    ensures Reachable(Obj([]), groups)
  {
    forall g | g in groups
      ensures GroupTotal(Obj([]), g.name) == 0
    {
      SumValues(Obj([]), Share(g.name));
    }
  }

  lemma {:induction false} StoredIsOption(sel: Selection, groups: seq<AddOnGroup>, option: Record)
    requires Catalogue(groups) && Reachable(sel, groups) && Listed(groups, option)
    ensures Lookup(sel, OptionId(option)).Some? ==> Lookup(sel, OptionId(option)).value.data == option
  {
    var id := OptionId(option);
    if Lookup(sel, id).Some? {
      var j := KeyIndex(sel.entries, id);
      assert sel.entries[j].0 == id;
    }
  }

  /** The entries of a selection are keyed by their option's id and hold listed options. */
  ghost predicate KeyedByListed(sel: Selection, groups: seq<AddOnGroup>) {
    forall i :: 0 <= i < |sel.entries| ==>
      sel.entries[i].0 == OptionId(sel.entries[i].1.data) && Listed(groups, sel.entries[i].1.data)
  }

  /** Entries of `r` agree with those of `sel` except possibly under `id`,
      where `r` holds a listed option with that id. */
  lemma {:induction false} KeyedAfterChange(sel: Selection, r: Selection, groups: seq<AddOnGroup>, id: string)
    requires WellFormed(sel) && WellFormed(r) && KeyedByListed(sel, groups)
    requires forall k :: k != id ==> Lookup(r, k) == Lookup(sel, k)
    requires Lookup(r, id).Some? ==>
      id == OptionId(Lookup(r, id).value.data) && Listed(groups, Lookup(r, id).value.data)
    ensures KeyedByListed(r, groups)
  {
    forall i | 0 <= i < |r.entries|
      ensures r.entries[i].0 == OptionId(r.entries[i].1.data) && Listed(groups, r.entries[i].1.data)
    {
      var k := r.entries[i].0;
      assert Lookup(r, k) == Some(r.entries[i].1);
      if k != id {
        var j := KeyIndex(sel.entries, k);
        assert sel.entries[j].0 == k;
      }
    }
  }

  lemma {:induction false} PlusReachable(sel: Selection, groups: seq<AddOnGroup>, g: AddOnGroup, o: Record)
    requires Catalogue(groups) && Reachable(sel, groups) && g in groups && o in g.options
    ensures Reachable(Add(sel, g, o), groups)
  {
    var r := Add(sel, g, o);
    AddEffect(sel, g, o);
    if GroupTotal(sel, g.name) < g.max {
      var gi :| 0 <= gi < |groups| && groups[gi] == g;
      assert Listed(groups, o);
      StoredIsOption(sel, groups, o);
      var p :| 0 <= p < |g.options| && g.options[p] == o;
      assert Get(o, GroupField) == Some(g.name);
      KeyedAfterChange(sel, r, groups, OptionId(o));
      forall h | h in groups
        ensures GroupTotal(r, h.name) <= Cap(h)
      {
        AddTotals(sel, g, o, h.name);
        if h.name == g.name {
          var hi :| 0 <= hi < |groups| && groups[hi] == h;
          assert hi == gi;
        }
      }
    }
  }

  lemma {:induction false} MinusReachable(sel: Selection, groups: seq<AddOnGroup>, o: Record)
    requires Catalogue(groups) && Reachable(sel, groups)
    ensures Reachable(Remove(sel, o), groups)
  {
    var r := Remove(sel, o);
    RemoveEffect(sel, o);
    if Lookup(sel, OptionId(o)).Some? {
      var id := OptionId(o);
      var j := KeyIndex(sel.entries, id);
      assert sel.entries[j].0 == id;
      KeyedAfterChange(sel, r, groups, id);
      forall h | h in groups
        ensures GroupTotal(r, h.name) <= Cap(h)
      {
        RemoveTotals(sel, o, h.name);
      }
    } else {
      RemoveTotals(sel, o, "");
    }
  }

  lemma {:induction false} StepReachable(sel: Selection, groups: seq<AddOnGroup>, c: Click)
    requires Catalogue(groups) && Reachable(sel, groups) && FromCatalogue(groups, c)
    ensures Reachable(Step(sel, c), groups)
  {
    match c
    case Plus(g, o) => PlusReachable(sel, groups, g, o);
    case Minus(o) => MinusReachable(sel, groups, o);
  }


  /** Starting from the empty selection, no sequence of clicks on the
      dialog's buttons takes a group past its maximum (or past zero when the
      maximum is negative), and every count stays at least one. */
  lemma {:induction false} CapsHold(sel: Selection, groups: seq<AddOnGroup>, clicks: seq<Click>)
    requires Catalogue(groups) && Reachable(sel, groups)
    requires forall k :: 0 <= k < |clicks| ==> FromCatalogue(groups, clicks[k])
    ensures Reachable(Apply(sel, clicks), groups)
    ensures forall g :: g in groups ==> GroupTotal(Apply(sel, clicks), g.name) <= Cap(g)
    decreases |clicks|
  {
    if |clicks| > 0 {
      StepReachable(sel, groups, clicks[0]);
      CapsHold(Step(sel, clicks[0]), groups, clicks[1..]);
    }
  }

  /** Add-ons of two groups that share an id: the entry under that id takes
      the later add-on, whose group then counts two, past a maximum of one.
      Such groups break the third condition of `Catalogue`, one add-on per id. */
  lemma {:induction false} SharedIdPastCap(ga: AddOnGroup, a: Record, gb: AddOnGroup, b: Record)
    requires a in ga.options && b in gb.options && OptionId(a) == OptionId(b)
    requires Get(a, GroupField) == Some(ga.name) && Get(b, GroupField) == Some(gb.name) && ga.name != gb.name
    requires ga.max > 0 && gb.max > 0
    ensures FromCatalogue([ga, gb], Plus(ga, a)) && FromCatalogue([ga, gb], Plus(gb, b))
    ensures GroupTotal(Apply(Obj([]), [Plus(ga, a), Plus(gb, b)]), gb.name) == 2
    ensures gb.max == 1 ==> GroupTotal(Apply(Obj([]), [Plus(ga, a), Plus(gb, b)]), gb.name) > Cap(gb)
    ensures !Catalogue([ga, gb])
  {
    TwoClicks(Obj([]), Plus(ga, a), Plus(gb, b));
    AddFirst(ga, a);
    AddSameId(Selected(a, 1), gb, b);
    TotalOfOne(OptionId(b), Selected(b, 2), gb.name);
    assert Listed([ga, gb], a) && Listed([ga, gb], b) by {
      assert [ga, gb][0] == ga && [ga, gb][1] == gb;
    }
  }

  /** A group name listed twice: both groups count the same add-ons, so the
      second group's larger maximum lets the shared total pass the first
      group's maximum of one. Such groups break the first condition of
      `Catalogue`. */
  lemma {:induction false} RepeatedNamePastCap(g1: AddOnGroup, g2: AddOnGroup, a: Record, b: Record)
    requires g1.name == g2.name && g1.max < g2.max && 2 <= g2.max
    requires a in g2.options && b in g2.options && OptionId(a) != OptionId(b)
    requires Get(a, GroupField) == Some(g2.name) && Get(b, GroupField) == Some(g2.name)
    ensures FromCatalogue([g1, g2], Plus(g2, a)) && FromCatalogue([g1, g2], Plus(g2, b))
    ensures GroupTotal(Apply(Obj([]), [Plus(g2, a), Plus(g2, b)]), g1.name) == 2
    ensures g1.max == 1 ==> GroupTotal(Apply(Obj([]), [Plus(g2, a), Plus(g2, b)]), g1.name) > Cap(g1)
    ensures !Catalogue([g1, g2])
  {
    TwoClicks(Obj([]), Plus(g2, a), Plus(g2, b));
    AddFirst(g2, a);
    AddNewId(OptionId(a), Selected(a, 1), g2, b);
    TotalOfTwo(OptionId(a), Selected(a, 1), OptionId(b), Selected(b, 1), g2.name);
    assert [g1, g2][0].name == [g1, g2][1].name;
  }

  lemma {:induction false} TwoClicks(sel: Selection, c: Click, d: Click)
    ensures Apply(sel, [c, d]) == Step(Step(sel, c), d)
  {
    assert [c, d][1..] == [d];
    assert [d][1..] == [];
    assert Apply(Step(sel, c), [d]) == Apply(Step(Step(sel, c), d), []);
  }

  lemma {:induction false} TotalOfNone(name: string)
    ensures GroupTotal(Obj([]), name) == 0
  {
    var empty: Selection := Obj([]);
    SumValues(empty, Share(name));
  }

  lemma {:induction false} TotalOfOne(k: string, v: Selected, name: string)
    ensures GroupTotal(Obj([(k, v)]), name) == Share(name)(v)
  {
    SumValues(Obj([(k, v)]), Share(name));
    assert ValuesOf([(k, v)]) == [v];
  }

  lemma {:induction false} TotalOfTwo(k: string, v: Selected, k': string, v': Selected, name: string)
    ensures GroupTotal(Obj([(k, v), (k', v')]), name) == Share(name)(v) + Share(name)(v')
  {
    SumValues(Obj([(k, v), (k', v')]), Share(name));
    assert ValuesOf([(k, v), (k', v')]) == [v, v'];
    assert [v, v'][1..] == [v'];
    assert Sum([v'], Share(name)) == Share(name)(v') + Sum([v'][1..], Share(name));
  }

  /** The first plus click below the cap stores one of the option. */
  lemma {:induction false} AddFirst(group: AddOnGroup, option: Record)
    requires 0 < group.max
    ensures Add(Obj([]), group, option) == Obj([(OptionId(option), Selected(option, 1))])
  {
    TotalOfNone(group.name);
  }

  /** A plus click below the cap on the option already stored under its id. */
  lemma {:induction false} AddSameId(v: Selected, group: AddOnGroup, option: Record)
    requires Share(group.name)(v) < group.max
    ensures Add(Obj([(OptionId(option), v)]), group, option)
         == Obj([(OptionId(option), Selected(option, v.quantity + 1))])
  {
    TotalOfOne(OptionId(option), v, group.name);
    assert Lookup(Obj([(OptionId(option), v)]), OptionId(option)) == Some(v);
  }

  /** A plus click below the cap on an option with a new id. */
  lemma {:induction false} AddNewId(k: string, v: Selected, group: AddOnGroup, option: Record)
    requires OptionId(option) != k && Share(group.name)(v) < group.max
    ensures Add(Obj([(k, v)]), group, option) == Obj([(k, v), (OptionId(option), Selected(option, 1))])
  {
    TotalOfOne(k, v, group.name);
    assert !HasKey([(k, v)], OptionId(option));
  }

  /** The plus button of an option already chosen stays enabled at the cap,
      yet pressing it changes nothing. */
  function PlusDisabled(sel: Selection, group: AddOnGroup, option: Record): bool {
    GroupTotal(sel, group.name) >= group.max && Lookup(sel, OptionId(option)).None?
  }

  lemma {:induction false} EnabledPlusAtCap(sel: Selection, group: AddOnGroup, option: Record)
    requires GroupTotal(sel, group.name) >= group.max && Lookup(sel, OptionId(option)).Some?
    ensures !PlusDisabled(sel, group, option) && Add(sel, group, option) == sel
  {
  }

  // ---------------------------------------------------------------------------
  // Validation
  // ---------------------------------------------------------------------------

  /** `{ isValid, totalQuantity }`. */
  datatype Status = Status(isValid: bool, totalQuantity: int)

  function StatusOf(g: AddOnGroup, sel: Selection): Status {
    Status(GroupTotal(sel, g.name) >= g.min, GroupTotal(sel, g.name))
  }

  /** `validationStatus`: one entry per group name, a later group of the
      same name overwriting an earlier one. */
  function ValidationStatus(groups: seq<AddOnGroup>, sel: Selection): Obj<Status> {
    if |groups| == 0 then Obj([])
    else
      var n := |groups| - 1;
      Put(ValidationStatus(groups[..n], sel), groups[n].name, StatusOf(groups[n], sel))
  }

  /** `isOrderValid`: every status in the object is valid. */
  predicate IsOrderValid(groups: seq<AddOnGroup>, sel: Selection) {
    var vs := Values(ValidationStatus(groups, sel));
    forall i :: 0 <= i < |vs| ==> vs[i].isValid
  }

  /** The status of the last group with the given name, if any. */
  function LastStatus(groups: seq<AddOnGroup>, sel: Selection, name: string): Option<Status> {
    if |groups| == 0 then None
    else
      var n := |groups| - 1;
      if groups[n].name == name then Some(StatusOf(groups[n], sel)) else LastStatus(groups[..n], sel, name)
  }

  /** No later group has the same name. */
  predicate LastNamed(groups: seq<AddOnGroup>, j: int) {
    0 <= j < |groups| && forall l :: j < l < |groups| ==> groups[l].name != groups[j].name
  }

  lemma {:induction false} StatusLookup(groups: seq<AddOnGroup>, sel: Selection, name: string)
    ensures DistinctKeys(ValidationStatus(groups, sel).entries)
    ensures Lookup(ValidationStatus(groups, sel), name) == LastStatus(groups, sel, name)
    decreases |groups|
  {
    if |groups| > 0 {
      var n := |groups| - 1;
      StatusLookup(groups[..n], sel, name);
      var prev := ValidationStatus(groups[..n], sel);
      PutKeys(prev, groups[n].name, StatusOf(groups[n], sel));
      LookupPut(prev, groups[n].name, StatusOf(groups[n], sel), name);
    }
  }

  lemma {:induction false} LastStatusOfLast(groups: seq<AddOnGroup>, sel: Selection, j: nat)
    requires LastNamed(groups, j)
    ensures LastStatus(groups, sel, groups[j].name) == Some(StatusOf(groups[j], sel))
    decreases |groups|
  {
    var n := |groups| - 1;
    if j < n {
      assert groups[n].name != groups[j].name;
      assert LastNamed(groups[..n], j) by {
        assert forall l :: j < l < n ==> groups[..n][l] == groups[l];
      }
      LastStatusOfLast(groups[..n], sel, j);
    }
  }

  lemma {:induction false} LastStatusFrom(groups: seq<AddOnGroup>, sel: Selection, name: string)
    requires LastStatus(groups, sel, name).Some?
    ensures exists j :: LastNamed(groups, j) && groups[j].name == name
                        && LastStatus(groups, sel, name) == Some(StatusOf(groups[j], sel))
    decreases |groups|
  {
    var n := |groups| - 1;
    if groups[n].name == name {
      assert LastNamed(groups, n);
    } else {
      LastStatusFrom(groups[..n], sel, name);
      var j :| LastNamed(groups[..n], j) && groups[..n][j].name == name
               && LastStatus(groups[..n], sel, name) == Some(StatusOf(groups[..n][j], sel));
      assert LastNamed(groups, j);
    }
  }

  /** An invalid order has an entry whose status is invalid. */
  lemma {:induction false} InvalidEntry(groups: seq<AddOnGroup>, sel: Selection) returns (e: nat)
    requires !IsOrderValid(groups, sel)
    ensures e < |ValidationStatus(groups, sel).entries|
    ensures !ValidationStatus(groups, sel).entries[e].1.isValid
  {
    var o := ValidationStatus(groups, sel);
    var vs := Values(o);
    var i :| 0 <= i < |vs| && !vs[i].isValid;
    e := EntryOfValue(o, i);
  }

  /** The confirm button is enabled exactly when every group that is the
      last of its name has reached its minimum; with no groups it always is. */
  lemma {:induction false} ValidMeetsMinimum(groups: seq<AddOnGroup>, sel: Selection, j: int)
    requires IsOrderValid(groups, sel) && LastNamed(groups, j)
    ensures GroupTotal(sel, groups[j].name) >= groups[j].min
  {
    var o := ValidationStatus(groups, sel);
    var name := groups[j].name;
    StatusLookup(groups, sel, name);
    LastStatusOfLast(groups, sel, j);
    var e := KeyIndex(o.entries, name);
    assert o.entries[e].1 == StatusOf(groups[j], sel);
    var i := ValueOfEntry(o, e);
  }

  lemma {:induction false} InvalidMissesMinimum(groups: seq<AddOnGroup>, sel: Selection)
    requires !IsOrderValid(groups, sel)
    ensures exists j :: LastNamed(groups, j) && GroupTotal(sel, groups[j].name) < groups[j].min
  {
    var o := ValidationStatus(groups, sel);
    var e := InvalidEntry(groups, sel);
    var name := o.entries[e].0;
    StatusLookup(groups, sel, name);
    LastStatusFrom(groups, sel, name);
    var j :| LastNamed(groups, j) && groups[j].name == name
             && LastStatus(groups, sel, name) == Some(StatusOf(groups[j], sel));
    assert GroupTotal(sel, groups[j].name) < groups[j].min;
  }

  /** The confirm button is enabled exactly when every group that is the
      last of its name has reached its minimum; with no groups it always is. */
  lemma {:induction false} ValidIff(groups: seq<AddOnGroup>, sel: Selection)
    ensures IsOrderValid(groups, sel) <==>
      forall j :: LastNamed(groups, j) ==> GroupTotal(sel, groups[j].name) >= groups[j].min
  {
    if IsOrderValid(groups, sel) {
      forall j | LastNamed(groups, j)
        ensures GroupTotal(sel, groups[j].name) >= groups[j].min
      {
        ValidMeetsMinimum(groups, sel, j);
      }
    } else {
      InvalidMissesMinimum(groups, sel);
    }
  }


  /** With distinct group names: valid exactly when every group has reached its minimum. */
  lemma {:induction false} ValidIffDistinct(groups: seq<AddOnGroup>, sel: Selection)
    requires forall i, j :: 0 <= i < j < |groups| ==> groups[i].name != groups[j].name
    ensures IsOrderValid(groups, sel) <==>
      forall j :: 0 <= j < |groups| ==> GroupTotal(sel, groups[j].name) >= groups[j].min
  {
    ValidIff(groups, sel);
    assert forall j :: 0 <= j < |groups| ==> LastNamed(groups, j);
  }

  // ---------------------------------------------------------------------------
  // Price
  // ---------------------------------------------------------------------------

  /** A price times a count. */
  function Times(price: real, count: int): real {
    price * count as real
  }

  lemma {:induction false} TimesFacts(price: real, count: int)
    ensures Times(price, 0) == 0.0 && Times(price, 1) == price
    ensures Times(price, count + 1) == Times(price, count) + price
  {
  }

  /** `parseCurrency(option.Preço)`. */
  function UnitPrice(option: Record): real {
    ParseCurrency(Field(option, PriceField))
  }

  /** What one selected add-on costs when each add-on costs `unit`. */
  function LineCost(unit: Record -> real): Selected -> real {
    (s: Selected) => Times(unit(s.data), s.quantity)
  }

  /** The sum over the selected add-ons of unit price times count. */
  function OptionsCost(sel: Selection, unit: Record -> real): real {
    SumReal(Values(sel), LineCost(unit))
  }

  /** `optionsPrice`. */
  function OptionsPrice(sel: Selection): real {
    OptionsCost(sel, UnitPrice)
  }

  /** `basePrice`: price minus discount. */
  function BasePrice(product: Record): real {
    ParseCurrency(Field(product, PriceField)) - ParseCurrency(Field(product, DiscountField))
  }

  /** With add-on groups the dish is always one unit. */
  function FinalMainQuantity(groups: seq<AddOnGroup>, mainQuantity: int): (q: int)
    ensures |groups| > 0 ==> q == 1
    ensures |groups| == 0 ==> q == mainQuantity
  {
    if |groups| > 0 then 1 else mainQuantity
  }

  /** Base price plus add-ons, times the dish quantity, for any price reading. */
  function TotalCost(base: real, sel: Selection, unit: Record -> real, groups: seq<AddOnGroup>, mainQuantity: int): real {
    Times(base + OptionsCost(sel, unit), FinalMainQuantity(groups, mainQuantity))
  }

  /** `totalPrice`. */
  function TotalPrice(product: Record, groups: seq<AddOnGroup>, sel: Selection, mainQuantity: int): real {
    TotalCost(BasePrice(product), sel, UnitPrice, groups, mainQuantity)
  }

  /** The dialog's base price is the card's final price. */
  lemma {:induction false} BasePriceIsCardPrice(product: Record)
    ensures BasePrice(product) == ProductCard.View(product).finalPrice
  {
    SameAsCard(Field(product, PriceField));
    SameAsCard(Field(product, DiscountField));
  }

  /** One more of an option adds exactly its unit price, whatever the prices are. */
  lemma {:induction false} AddCost(sel: Selection, group: AddOnGroup, option: Record, unit: Record -> real)
    requires WellFormed(sel) && GroupTotal(sel, group.name) < group.max
    requires Lookup(sel, OptionId(option)).Some? ==> Lookup(sel, OptionId(option)).value.data == option
    ensures OptionsCost(Add(sel, group, option), unit) == OptionsCost(sel, unit) + unit(option)
  {
    AddIsPut(sel, group, option);
    CostOfOneMore(sel, option, unit);
  }

  /** Putting one more of an option adds its unit price to the cost. */
  lemma {:induction false} CostOfOneMore(sel: Selection, option: Record, unit: Record -> real)
    requires WellFormed(sel)
    requires Lookup(sel, OptionId(option)).Some? ==> Lookup(sel, OptionId(option)).value.data == option
    ensures var id := OptionId(option);
      OptionsCost(Put(sel, id, Selected(option, QuantityOf(sel, id) + 1)), unit) == OptionsCost(sel, unit) + unit(option)
  {
    CostStep(sel, option, unit);
    SumRealPutBy(sel, OptionId(option), Selected(option, QuantityOf(sel, OptionId(option)) + 1), LineCost(unit), unit(option));
  }

  lemma {:induction false} AddIsPut(sel: Selection, group: AddOnGroup, option: Record)
    requires GroupTotal(sel, group.name) < group.max
    ensures Add(sel, group, option) == Put(sel, OptionId(option), Selected(option, QuantityOf(sel, OptionId(option)) + 1))
  {
  }

  /** The cost of one more of an option, less its old cost. */
  lemma {:induction false} CostStep(sel: Selection, option: Record, unit: Record -> real)
    requires Lookup(sel, OptionId(option)).Some? ==> Lookup(sel, OptionId(option)).value.data == option
    ensures var id := OptionId(option);
      LineCost(unit)(Selected(option, QuantityOf(sel, id) + 1))
        - (if HasKey(sel.entries, id) then LineCost(unit)(Lookup(sel, id).value) else 0.0)
        == unit(option)
  {
    TimesFacts(unit(option), QuantityOf(sel, OptionId(option)));
  }

  /** Removing one of a selected option takes exactly its unit price off. */
  lemma {:induction false} RemoveCost(sel: Selection, option: Record, unit: Record -> real)
    requires WellFormed(sel) && Lookup(sel, OptionId(option)).Some?
    ensures OptionsCost(Remove(sel, option), unit)
         == OptionsCost(sel, unit) - unit(Lookup(sel, OptionId(option)).value.data)
  {
    var id := OptionId(option);
    var s := Lookup(sel, id).value;
    QuantityOfWellFormed(sel, id);
    TimesFacts(unit(s.data), s.quantity - 1);
    var f := LineCost(unit);
    if s.quantity <= 1 {
      assert Remove(sel, option) == Delete(sel, id);
      assert f(s) == unit(s.data);
      SumRealDelete(sel, id, f);
    } else {
      var s' := Selected(s.data, s.quantity - 1);
      assert Remove(sel, option) == Put(sel, id, s');
      assert f(s') == f(s) - unit(s.data);
      SumRealPut(sel, id, s', f);
    }
  }

  /** With the component's price reading: one more of an option adds its
      listed price. */
  lemma {:induction false} AddPrice(sel: Selection, group: AddOnGroup, option: Record)
    requires WellFormed(sel) && GroupTotal(sel, group.name) < group.max
    requires Lookup(sel, OptionId(option)).Some? ==> Lookup(sel, OptionId(option)).value.data == option
    ensures OptionsPrice(Add(sel, group, option)) == OptionsPrice(sel) + UnitPrice(option)
  {
    AddCost(sel, group, option, UnitPrice);
  }

  /** With add-on groups the stepper does not change the price; without
      them the price scales with it. */
  lemma {:induction false} StepperAndPrice(base: real, sel: Selection, unit: Record -> real, groups: seq<AddOnGroup>, q: int)
    ensures |groups| > 0 ==> TotalCost(base, sel, unit, groups, q) == base + OptionsCost(sel, unit)
    ensures |groups| == 0 ==> TotalCost(base, sel, unit, groups, q) == Times(base + OptionsCost(sel, unit), q)
  {
    TimesFacts(base + OptionsCost(sel, unit), 0);
  }

  // ---------------------------------------------------------------------------
  // Confirmation and the quantity stepper
  // ---------------------------------------------------------------------------

  function ChosenFrom(s: Selected): ChosenOption {
    ChosenOption(s.data, s.quantity)
  }

  /** The options handed to the cart: each selected add-on's row with its count. */
  function ChosenOptions(sel: Selection): seq<ChosenOption> {
    Map(Values(sel), ChosenFrom)
  }

  /** `handleConfirmAddToCart`, reachable only while the confirm button is
      enabled (`disabled={!isOrderValid}`). */
  function Confirm(product: Record, groups: seq<AddOnGroup>, sel: Selection, mainQuantity: int): (r: Option<CartItem>)
    ensures r.Some? <==> IsOrderValid(groups, sel)
    ensures r.Some? ==> r.value.product == product
    ensures r.Some? ==> r.value.options == ChosenOptions(sel)
    ensures r.Some? ==> r.value.mainQuantity == FinalMainQuantity(groups, mainQuantity)
    ensures r.Some? ==> r.value.totalPrice == TotalPrice(product, groups, sel, mainQuantity)
  {
    if IsOrderValid(groups, sel) then
      Some(CartItem(product, ChosenOptions(sel), FinalMainQuantity(groups, mainQuantity),
                    TotalPrice(product, groups, sel, mainQuantity)))
    else None
  }

  /** The cart item carries every selected add-on with its count, once per
      id, and nothing else; every count is at least one. */
  lemma {:induction false} ConfirmedOptions(sel: Selection, id: string)
    requires WellFormed(sel)
    ensures var opts := ChosenOptions(sel);
      |opts| == |sel.entries|
      && (Lookup(sel, id).Some? ==> ChosenFrom(Lookup(sel, id).value) in opts)
      && (forall i :: 0 <= i < |opts| ==>
            exists e :: 0 <= e < |sel.entries| && opts[i] == ChosenFrom(sel.entries[e].1))
      && forall i :: 0 <= i < |opts| ==> opts[i].quantity >= 1
  {
    SelectedConfirmed(sel, id);
    ConfirmedFromEntries(sel);
  }

  lemma {:induction false} SelectedConfirmed(sel: Selection, id: string)
    ensures Lookup(sel, id).Some? ==> ChosenFrom(Lookup(sel, id).value) in ChosenOptions(sel)
  {
    if Lookup(sel, id).Some? {
      var j := KeyIndex(sel.entries, id);
      var i := ValueOfEntry(sel, j);
      assert ChosenOptions(sel)[i] == ChosenFrom(Values(sel)[i]);
    }
  }

  lemma {:induction false} ConfirmedFromEntries(sel: Selection)
    requires WellFormed(sel)
    ensures var opts := ChosenOptions(sel);
      |opts| == |sel.entries|
      && (forall i :: 0 <= i < |opts| ==>
            exists e :: 0 <= e < |sel.entries| && opts[i] == ChosenFrom(sel.entries[e].1))
      && forall i :: 0 <= i < |opts| ==> opts[i].quantity >= 1
  {
    var opts := ChosenOptions(sel);
    ValuesCount(sel);
    forall i | 0 <= i < |opts|
      ensures exists e :: 0 <= e < |sel.entries| && opts[i] == ChosenFrom(sel.entries[e].1)
      ensures opts[i].quantity >= 1
    {
      var e := EntryOfValue(sel, i);
    }
  }

  /** The minus and plus of the quantity stepper. */
  datatype Press = Less | More

  function Stepper(q: int, p: Press): (r: int)
    ensures p.Less? ==> r == if q - 1 > 1 then q - 1 else 1
    ensures p.More? ==> r == q + 1
  {
    match p
    case Less => if q - 1 > 1 then q - 1 else 1
    case More => q + 1
  }

  function Presses(q: int, ps: seq<Press>): int
    decreases |ps|
  {
    if |ps| == 0 then q else Presses(Stepper(q, ps[0]), ps[1..])
  }

  /** From the initial quantity of one, no presses take the quantity below
      one, and it never exceeds one plus the number of presses. */
  lemma {:induction false} StepperBounds(q: int, ps: seq<Press>)
    requires q >= 1
    ensures 1 <= Presses(q, ps) <= q + |ps|
    decreases |ps|
  {
    if |ps| > 0 {
      StepperBounds(Stepper(q, ps[0]), ps[1..]);
    }
  }
}

=== FILE: seqs.dfy ===
/** Generic sequence helpers: filtering, mapping and summing, with the
    facts about them the storefront model relies on. */
module Seqs {

  function Filter<T>(xs: seq<T>, p: T -> bool): (r: seq<T>)
    ensures |r| <= |xs|
    ensures forall i :: 0 <= i < |r| ==> p(r[i])
  {
    if |xs| == 0 then []
    else (if p(xs[0]) then [xs[0]] else []) + Filter(xs[1..], p)
  }

  lemma {:induction false} FilterMembersAll<T>(xs: seq<T>, p: T -> bool)
    ensures forall x :: x in Filter(xs, p) <==> x in xs && p(x)
  {
    forall x
      ensures x in Filter(xs, p) <==> x in xs && p(x)
    {
      FilterMembers(xs, p, x);
    }
  }

  /** The filtered sequence holds exactly the elements that satisfy `p`. */
  lemma {:induction false} FilterMembers<T>(xs: seq<T>, p: T -> bool, x: T)
    ensures x in Filter(xs, p) <==> x in xs && p(x)
  {
    if |xs| > 0 {
      FilterMembers(xs[1..], p, x);
      assert xs == [xs[0]] + xs[1..];
    }
  }

  lemma {:induction false} FilterAppend<T>(a: seq<T>, b: seq<T>, p: T -> bool)
    ensures Filter(a + b, p) == Filter(a, p) + Filter(b, p)
  {
    if |a| == 0 {
      assert a + b == b;
    } else {
      assert (a + b)[1..] == a[1..] + b;
      FilterAppend(a[1..], b, p);
    }
  }

  /** Keeping the elements that satisfy `p` and, separately, those that
      satisfy its complement `q` splits the sequence's multiset in two. */
  lemma {:induction false} FilterPartition<T>(xs: seq<T>, p: T -> bool, q: T -> bool)
    requires forall i :: 0 <= i < |xs| ==> q(xs[i]) == !p(xs[i])
    ensures multiset(Filter(xs, p)) + multiset(Filter(xs, q)) == multiset(xs)
    ensures |Filter(xs, p)| + |Filter(xs, q)| == |xs|
  {
    if |xs| > 0 {
      FilterPartition(xs[1..], p, q);
      assert xs == [xs[0]] + xs[1..];
    }
  }

  /** Filtering by a test that implies the first filter's test needs only the second. */
  lemma {:induction false} FilterOfFilter<T>(xs: seq<T>, p: T -> bool, q: T -> bool)
    requires forall i :: 0 <= i < |xs| && q(xs[i]) ==> p(xs[i])
    ensures Filter(Filter(xs, p), q) == Filter(xs, q)
  {
    if |xs| > 0 {
      FilterOfFilter(xs[1..], p, q);
      FilterAppend(if p(xs[0]) then [xs[0]] else [], Filter(xs[1..], p), q);
    }
  }

  lemma {:induction false} FilterAll<T>(xs: seq<T>, p: T -> bool)
    requires forall i :: 0 <= i < |xs| ==> p(xs[i])
    ensures Filter(xs, p) == xs
  {
    if |xs| > 0 {
      FilterAll(xs[1..], p);
      assert xs == [xs[0]] + xs[1..];
    }
  }

  lemma {:induction false} FilterNone<T>(xs: seq<T>, p: T -> bool)
    requires forall i :: 0 <= i < |xs| ==> !p(xs[i])
    ensures Filter(xs, p) == []
  {
    if |xs| > 0 {
      FilterNone(xs[1..], p);
    }
  }

  /** Filtering out exactly one element removes it and keeps the rest. */
  lemma {:induction false} FilterDropOne<T>(a: seq<T>, e: T, b: seq<T>, p: T -> bool)
    requires forall j :: 0 <= j < |a| ==> p(a[j])
    requires forall j :: 0 <= j < |b| ==> p(b[j])
    requires !p(e)
    ensures Filter(a + [e] + b, p) == a + b
  {
    FilterAll(a, p);
    FilterAll(b, p);
    FilterAppend(a + [e], b, p);
    FilterAppend(a, [e], p);
    var none: seq<T> := [];
    assert Filter([e], p) == none;
    assert a + none == a;
    calc {
      Filter(a + [e] + b, p);
      Filter(a, p) + Filter([e], p) + Filter(b, p);
      a + b;
    }
  }

  function Map<T, U>(xs: seq<T>, f: T -> U): (r: seq<U>)
    ensures |r| == |xs|
    ensures forall i :: 0 <= i < |xs| ==> r[i] == f(xs[i])
  {
    if |xs| == 0 then [] else [f(xs[0])] + Map(xs[1..], f)
  }

  function Sum<T>(xs: seq<T>, f: T -> int): int {
    if |xs| == 0 then 0 else f(xs[0]) + Sum(xs[1..], f)
  }

  function SumReal<T>(xs: seq<T>, f: T -> real): real {
    if |xs| == 0 then 0.0 else f(xs[0]) + SumReal(xs[1..], f)
  }

  lemma {:induction false} SumAppend<T>(a: seq<T>, b: seq<T>, f: T -> int)
    ensures Sum(a + b, f) == Sum(a, f) + Sum(b, f)
  {
    if |a| == 0 {
      assert a + b == b;
    } else {
      assert (a + b)[1..] == a[1..] + b;
      SumAppend(a[1..], b, f);
    }
  }

  lemma {:induction false} SumRealAppend<T>(a: seq<T>, b: seq<T>, f: T -> real)
    ensures SumReal(a + b, f) == SumReal(a, f) + SumReal(b, f)
  {
    if |a| == 0 {
      assert a + b == b;
    } else {
      assert (a + b)[1..] == a[1..] + b;
      SumRealAppend(a[1..], b, f);
    }
  }

  /** Replacing one summand changes the sum by the difference. */
  lemma {:induction false} SumUpdate<T>(xs: seq<T>, i: nat, x: T, f: T -> int)
    requires i < |xs|
    ensures Sum(xs[i := x], f) == Sum(xs, f) - f(xs[i]) + f(x)
    decreases |xs|
  {
    if i > 0 {
      SumUpdate(xs[1..], i - 1, x, f);
      assert xs[i := x][1..] == xs[1..][i - 1 := x];
    }
  }

  lemma {:induction false} SumRealUpdate<T>(xs: seq<T>, i: nat, x: T, f: T -> real)
    requires i < |xs|
    ensures SumReal(xs[i := x], f) == SumReal(xs, f) - f(xs[i]) + f(x)
    decreases |xs|
  {
    if i > 0 {
      SumRealUpdate(xs[1..], i - 1, x, f);
      assert xs[i := x][1..] == xs[1..][i - 1 := x];
    }
  }

  /** A sum does not depend on the order of the summands. */
  lemma {:induction false} SumRemoveAt<T>(xs: seq<T>, i: nat, f: T -> int)
    requires i < |xs|
    ensures Sum(xs[..i] + xs[i + 1..], f) == Sum(xs, f) - f(xs[i])
  {
    var a, e, b := xs[..i], xs[i], xs[i + 1..];
    assert xs == a + [e] + b;
    SumAppend(a + [e], b, f);
    SumAppend(a, [e], f);
    SumAppend(a, b, f);
  }

  lemma {:induction false} SumRealRemoveAt<T>(xs: seq<T>, i: nat, f: T -> real)
    requires i < |xs|
    ensures SumReal(xs[..i] + xs[i + 1..], f) == SumReal(xs, f) - f(xs[i])
  {
    var a, e, b := xs[..i], xs[i], xs[i + 1..];
    assert xs == a + [e] + b;
    SumRealAppend(a + [e], b, f);
    SumRealAppend(a, [e], f);
    SumRealAppend(a, b, f);
  }

  lemma {:induction false} SumPermutation<T>(a: seq<T>, b: seq<T>, f: T -> int)
    requires multiset(a) == multiset(b)
    ensures Sum(a, f) == Sum(b, f)
    decreases |a|
  {
    if |a| == 0 {
      assert |b| == |multiset(b)| == 0;
    } else {
      var j := MatchFirst(a, b);
      SumPermutation(a[1..], b[..j] + b[j + 1..], f);
      assert b == b[..j] + ([b[j]] + b[j + 1..]);
      SumAppend(b[..j], [b[j]] + b[j + 1..], f);
      SumAppend([b[j]], b[j + 1..], f);
      SumAppend(b[..j], b[j + 1..], f);
    }
  }

  lemma {:induction false} SumRealPermutation<T>(a: seq<T>, b: seq<T>, f: T -> real)
    requires multiset(a) == multiset(b)
    ensures SumReal(a, f) == SumReal(b, f)
    decreases |a|
  {
    if |a| == 0 {
      assert |b| == |multiset(b)| == 0;
    } else {
      var j := MatchFirst(a, b);
      SumRealPermutation(a[1..], b[..j] + b[j + 1..], f);
      assert b == b[..j] + ([b[j]] + b[j + 1..]);
      SumRealAppend(b[..j], [b[j]] + b[j + 1..], f);
      SumRealAppend([b[j]], b[j + 1..], f);
      SumRealAppend(b[..j], b[j + 1..], f);
    }
  }

  /** Where a permutation holds the first element, and what is left of both. */
  lemma {:induction false} MatchFirst<T>(a: seq<T>, b: seq<T>) returns (j: nat)
    requires multiset(a) == multiset(b) && |a| > 0
    ensures j < |b| && b[j] == a[0]
    ensures multiset(a[1..]) == multiset(b[..j] + b[j + 1..])
  {
    assert a[0] in multiset(b);
    j :| 0 <= j < |b| && b[j] == a[0];
    RemoveAtMultiset(b, j);
    assert a == [a[0]] + a[1..];
  }

  lemma {:induction false} RemoveAtMultiset<T>(b: seq<T>, j: nat)
    requires j < |b|
    ensures multiset(b[..j] + b[j + 1..]) == multiset(b) - multiset{b[j]}
  {
    assert b == b[..j] + ([b[j]] + b[j + 1..]);
    MultisetMiddle(b[..j], b[j], b[j + 1..]);
  }

  lemma {:induction false} MultisetMiddle<T>(x: seq<T>, y: T, z: seq<T>)
    ensures multiset(x + ([y] + z)) == multiset(x + z) + multiset{y}
  {
  }

  /** The union of the sets `f` gives the elements of `xs`. */
  function UnionOf<T, U>(xs: seq<T>, f: T -> set<U>): set<U> {
    if |xs| == 0 then {} else f(xs[0]) + UnionOf(xs[1..], f)
  }

  /** An element is in the union exactly when some element's set holds it. */
  lemma {:induction false} UnionOfIff<T, U>(xs: seq<T>, f: T -> set<U>, y: U)
    ensures y in UnionOf(xs, f) <==> exists i :: 0 <= i < |xs| && y in f(xs[i])
  {
    if y in UnionOf(xs, f) {
      var i := UnionWitness(xs, f, y);
    }
    if exists i :: 0 <= i < |xs| && y in f(xs[i]) {
      var i :| 0 <= i < |xs| && y in f(xs[i]);
      InUnion(xs, f, i, y);
    }
  }

  lemma {:induction false} UnionWitness<T, U>(xs: seq<T>, f: T -> set<U>, y: U) returns (i: nat)
    requires y in UnionOf(xs, f)
    ensures i < |xs| && y in f(xs[i])
    decreases |xs|
  {
    if y in f(xs[0]) {
      i := 0;
    } else {
      var j := UnionWitness(xs[1..], f, y);
      assert xs[1..][j] == xs[j + 1];
      i := j + 1;
    }
  }

  lemma {:induction false} InUnion<T, U>(xs: seq<T>, f: T -> set<U>, i: nat, y: U)
    requires i < |xs| && y in f(xs[i])
    ensures y in UnionOf(xs, f)
    decreases |xs|
  {
    if i > 0 {
      assert xs[1..][i - 1] == xs[i];
      InUnion(xs[1..], f, i - 1, y);
    }
  }
}

=== FILE: sheet_data.dfy ===
/** The menu-reading router (api/sheetData.js): like the GET branch of the
    single API handler, but it drops blank rows before reading the header
    and ignores customization keys that are only whitespace. */
module SheetData {
  import opened Text
  import opened Seqs
  import opened Js
  import opened Sheets
  import ApiIndex

  /** `row.some(cell => cell && cell.trim() !== '')`. */
  predicate HasContent(row: Row) {
    exists i :: 0 <= i < |row| && !IsBlank(row[i])
  }

  /** This router's `rowsToObjects`: blank rows are dropped first, the first
      remaining row is the header, every other remaining row one record. */
  function RowsToObjects(rows: seq<Row>): (r: seq<Record>)
    ensures var kept := Filter(rows, HasContent);
      (|kept| < 2 ==> r == [])
      && (|kept| >= 2 ==> |r| == |kept| - 1)
      && forall j, i ::
           (0 <= j < |r| && 0 <= i < |kept[0]| && LastOccurrence(kept[0], i, |kept[0]|))
           ==> (kept[0][i] in r[j] && r[j][kept[0][i]] == CellAt(kept[j + 1], i))
  {
    Sheets.RowsToObjects(Filter(rows, HasContent))
  }

  /** A blank row anywhere in a tab changes nothing. */
  lemma {:induction false} BlankRowIgnored(before: seq<Row>, blank: Row, after: seq<Row>)
    requires !HasContent(blank)
    ensures RowsToObjects(before + [blank] + after) == RowsToObjects(before + after)
  {
    FilterAppend(before + [blank], after, HasContent);
    FilterAppend(before, [blank], HasContent);
    FilterAppend(before, after, HasContent);
    assert Filter([blank], HasContent) == [];
    assert Filter(before + [blank] + after, HasContent) == Filter(before + after, HasContent);
  }

  /** On a tab without blank rows both `rowsToObjects` variants agree. */
  lemma {:induction false} AgreesWithoutBlankRows(rows: seq<Row>)
    requires forall i :: 0 <= i < |rows| ==> HasContent(rows[i])
    ensures RowsToObjects(rows) == Sheets.RowsToObjects(rows)
  {
    FilterAll(rows, HasContent);
  }

  /** `row[0] && row[0].trim() !== ''`. */
  predicate HasKeyCell(row: Row) {
    |row| > 0 && !IsBlank(row[0])
  }

  /** The customizations tab: the header row and rows whose first cell is
      empty or whitespace are skipped; the key is kept untrimmed. The single
      API handler skips only empty keys, so the two tables agree except that
      this one leaves out keys made of whitespace. */
  function Customizations(rows: seq<Row>): (r: map<string, string>)
    ensures forall k :: k in r <==> k in ApiIndex.Customizations(rows) && !IsBlank(k)
    ensures forall k :: k in r ==> r[k] == ApiIndex.Customizations(rows)[k]
  {
    var body := DropHeader(rows);
    var named := Filter(body, ApiIndex.HasKeyCell);
    FilterOfFilter(body, ApiIndex.HasKeyCell, HasKeyCell);
    WithoutBlankKeys(named);
    KeyValueTable(Filter(body, HasKeyCell))
  }

  /** `small` is `big` without its blank keys. */
  ghost predicate Restricts(small: map<string, string>, big: map<string, string>) {
    (forall k :: k in small <==> k in big && !IsBlank(k))
    && (forall k :: k in small ==> small[k] == big[k])
  }

  lemma {:induction false} RestrictsKept(small: map<string, string>, big: map<string, string>, key: string, v: string)
    requires Restricts(small, big) && !IsBlank(key)
    ensures Restricts(small[key := v], big[key := v])
  {
  }

  lemma {:induction false} RestrictsSkipped(small: map<string, string>, big: map<string, string>, key: string, v: string)
    requires Restricts(small, big) && IsBlank(key)
    ensures Restricts(small, big[key := v])
  {
  }

  /** Dropping the rows with a blank key drops exactly the blank keys from a
      table and leaves every other value as it was. */
  lemma {:induction false} WithoutBlankKeys(rows: seq<Row>)
    requires Keyed(rows)
    ensures Keyed(Filter(rows, HasKeyCell))
    ensures Restricts(KeyValueTable(Filter(rows, HasKeyCell)), KeyValueTable(rows))
    decreases |rows|
  {
    if |rows| > 0 {
      var n := |rows| - 1;
      var front := rows[..n];
      assert rows == front + [rows[n]];
      assert Keyed(front) by {
        forall i | 0 <= i < n ensures |front[i]| > 0 { assert front[i] == rows[i]; }
      }
      WithoutBlankKeys(front);
      FilterAppend(front, [rows[n]], HasKeyCell);
      KeyValueTableSnoc(front, rows[n]);
      if HasKeyCell(rows[n]) {
        assert Filter([rows[n]], HasKeyCell) == [rows[n]];
        KeyValueTableSnoc(Filter(front, HasKeyCell), rows[n]);
        RestrictsKept(KeyValueTable(Filter(front, HasKeyCell)), KeyValueTable(front), rows[n][0], CellAt(rows[n], 1));
      } else {
        assert Filter([rows[n]], HasKeyCell) == [];
        assert Filter(rows, HasKeyCell) == Filter(front, HasKeyCell);
        RestrictsSkipped(KeyValueTable(Filter(front, HasKeyCell)), KeyValueTable(front), rows[n][0], CellAt(rows[n], 1));
      }
    }
  }

  const MasterTab := "P\U{00E1}gina1"

  /** GET `/`: the tenant's menu tabs, read one by one. */
  function HandleGet(slug: Option<string>, masterId: string, read: (string, string) -> Fetch<seq<Row>>): (r: Outcome)
    ensures r.appended.None?
    ensures r.response.status == 400 <==> Missing(slug)
    ensures r.response.status == 200 <==>
      !Missing(slug) && read(masterId, MasterTab).Got?
      && TenantLink(RowsToObjects(read(masterId, MasterTab).value), slug.value).Some?
      && TabsRead(read, TenantLink(RowsToObjects(read(masterId, MasterTab).value), slug.value).value)
    ensures r.response.status == 200 ==>
      var sheet := TenantLink(RowsToObjects(read(masterId, MasterTab).value), slug.value).value;
      r.response.body == Menu(RowsToObjects(read(sheet, "Produtos").value),
                              RowsToObjects(read(sheet, "Acompanhamentos").value),
                              RowsToObjects(read(sheet, "Cupons").value),
                              Customizations(read(sheet, "Customiza\U{00E7}\U{00F5}es").value))
    ensures r.response.status == 404 <==>
      !Missing(slug) && read(masterId, MasterTab).Got?
      && TenantLink(RowsToObjects(read(masterId, MasterTab).value), slug.value).None?
    ensures r.response.status == 500 <==>
      !Missing(slug) && (read(masterId, MasterTab).Failed?
                         || (TenantLink(RowsToObjects(read(masterId, MasterTab).value), slug.value).Some?
                             && !TabsRead(read, TenantLink(RowsToObjects(read(masterId, MasterTab).value), slug.value).value)))
    ensures r.response.status in {200, 400, 404, 500}
  {
    if Missing(slug) then Outcome(Response(400, Error("Company slug is required")), None)
    else
      var failed := Outcome(Response(500, Error("Failed to fetch data from Google Sheets.")), None);
      match read(masterId, MasterTab)
      case Failed => failed
      case Got(masterRows) =>
        match TenantLink(RowsToObjects(masterRows), slug.value)
        case None => Outcome(Response(404, Error("Company '" + slug.value + "' not found.")), None)
        case Some(sheet) =>
          var products, extras := read(sheet, "Produtos"), read(sheet, "Acompanhamentos");
          var coupons, settings := read(sheet, "Cupons"), read(sheet, "Customiza\U{00E7}\U{00F5}es");
          if products.Failed? || extras.Failed? || coupons.Failed? || settings.Failed? then failed
          else
            Outcome(Response(200, Menu(RowsToObjects(products.value), RowsToObjects(extras.value),
                                       RowsToObjects(coupons.value), Customizations(settings.value))), None)
  }
}

=== FILE: sheets.dfy ===
/** Spreadsheet rows as the Google Sheets API returns them, turned into
    records keyed by the header row, and the tenant lookup in the master
    sheet that every API handler performs. */
module Sheets {
  import opened Seqs
  import opened Js

  /** One spreadsheet row: its cells, left to right; trailing empty cells are absent. */
  type Row = seq<string>

  /** The outcome of a call to the spreadsheet service. */
  datatype Fetch<T> = Failed | Got(value: T)

  /** The JSON body of an API response. */
  datatype Body =
    | Error(message: string)
    | Menu(products: seq<Record>, addOns: seq<Record>, coupons: seq<Record>, customizations: map<string, string>)
    | Saved(message: string)
    | SavedOrder(message: string, orderId: string)

  datatype Response = Response(status: int, body: Body)

  /** A cell of a row the API writes. */
  datatype Cell = TextCell(text: string) | NumberCell(number: real)

  /** A row appended to a spreadsheet range. */
  datatype Append = Append(sheetId: string, range: string, row: seq<Cell>)

  /** What a handler answers and what it wrote. */
  datatype Outcome = Outcome(response: Response, appended: Option<Append>)

  /** Each of the four menu tabs of a tenant's sheet was read. */
  predicate TabsRead(read: (string, string) -> Fetch<seq<Row>>, sheet: string) {
    read(sheet, "Produtos").Got? && read(sheet, "Acompanhamentos").Got?
    && read(sheet, "Cupons").Got? && read(sheet, "Customiza\U{00E7}\U{00F5}es").Got?
  }

  /** `!value` for a request parameter: absent or empty. */
  predicate Missing(s: Option<string>) {
    s.None? || s.value == ""
  }

  /** `rows.slice(1)`, also for no rows at all. */
  function DropHeader(rows: seq<Row>): seq<Row> {
    if |rows| == 0 then [] else rows[1..]
  }

  /** `row[i] || ''`: a missing cell reads as the empty string. */
  function CellAt(row: Row, i: nat): (c: string)
    ensures i < |row| ==> c == row[i]
    ensures i >= |row| ==> c == ""
  {
    if i < |row| then row[i] else ""
  }

  /** True when no header cell after position `i` (among the first `n`) repeats the one at `i`. */
  predicate LastOccurrence(header: Row, i: nat, n: nat)
    requires i < n <= |header|
  {
    forall j :: i < j < n ==> header[j] != header[i]
  }

  /** The record built from the first `n` header cells, assigned left to right. */
  function RecordPrefix(header: Row, row: Row, n: nat): (r: Record)
    requires n <= |header|
    ensures forall k :: k in r <==> exists i :: 0 <= i < n && header[i] == k
    ensures forall i :: 0 <= i < n && LastOccurrence(header, i, n) ==> r[header[i]] == CellAt(row, i)
  {
    if n == 0 then map[]
    else
      var r := RecordPrefix(header, row, n - 1);
      PrefixStep(header, row, n, r);
      r[header[n - 1] := CellAt(row, n - 1)]
  }

  /** Assigning the `n`-th header cell extends the keys by it and makes it the
      last occurrence of its name. */
  lemma {:induction false} PrefixStep(header: Row, row: Row, n: nat, r: Record)
    requires 0 < n <= |header|
    requires forall k :: k in r <==> exists i :: 0 <= i < n - 1 && header[i] == k
    requires forall i :: 0 <= i < n - 1 && LastOccurrence(header, i, n - 1) ==> r[header[i]] == CellAt(row, i)
    ensures var r' := r[header[n - 1] := CellAt(row, n - 1)];
      forall k :: k in r' <==> exists i :: 0 <= i < n && header[i] == k
    ensures var r' := r[header[n - 1] := CellAt(row, n - 1)];
      forall i :: 0 <= i < n && LastOccurrence(header, i, n) ==> r'[header[i]] == CellAt(row, i)
  {
    var r' := r[header[n - 1] := CellAt(row, n - 1)];
    forall i | 0 <= i < n - 1 && LastOccurrence(header, i, n)
      ensures r'[header[i]] == CellAt(row, i)
    {
      assert header[n - 1] != header[i];
      assert LastOccurrence(header, i, n - 1);
    }
  }

  /** `header.forEach((key, i) => obj[key] = row[i] || '')`: every header cell
      is a key; a repeated header takes the value of its last column. */
  function RowToRecord(header: Row, row: Row): (r: Record)
    ensures forall k :: k in r <==> k in header
    ensures forall i :: 0 <= i < |header| && LastOccurrence(header, i, |header|) ==>
      r[header[i]] == CellAt(row, i)
  {
    var r := RecordPrefix(header, row, |header|);
    assert forall k :: k in header <==> exists i :: 0 <= i < |header| && header[i] == k;
    r
  }

  /** `rowsToObjects` of api/index.js and api/submitOrder.js: the first row is
      the header, every further row becomes one record. */
  function RowsToObjects(rows: seq<Row>): (r: seq<Record>)
    ensures |rows| < 2 ==> r == []
    ensures |rows| >= 2 ==> |r| == |rows| - 1
    ensures forall j, i ::
      (0 <= j < |r| && 0 <= i < |rows[0]| && LastOccurrence(rows[0], i, |rows[0]|))
      ==> (rows[0][i] in r[j] && r[j][rows[0][i]] == CellAt(rows[j + 1], i))
  {
    if |rows| < 2 then []
    else Map(rows[1..], (row: Row) => RowToRecord(rows[0], row))
  }

  /** The header of the master sheet naming a tenant's slug. */
  const SlugColumn := "URL Empresa"
  /** The header of the master sheet holding the tenant's spreadsheet id. */
  const LinkColumn := "Link Planilha"

  predicate IsTenant(c: Record, slug: string) {
    Get(c, SlugColumn) == Some(slug)
  }

  /** `companies.find(c => c['URL Empresa'] === slug)`: the position of the
      first matching company, or -1. */
  function FindTenant(companies: seq<Record>, slug: string): (i: int)
    ensures -1 <= i < |companies|
    ensures i >= 0 ==> IsTenant(companies[i], slug)
    ensures i >= 0 ==> forall j :: 0 <= j < i ==> !IsTenant(companies[j], slug)
    ensures i < 0 ==> forall j :: 0 <= j < |companies| ==> !IsTenant(companies[j], slug)
  {
    if |companies| == 0 then -1
    else if IsTenant(companies[0], slug) then 0
    else
      var i := FindTenant(companies[1..], slug);
      assert forall j :: 1 <= j < |companies| ==> companies[j] == companies[1..][j - 1];
      if i < 0 then -1 else i + 1
  }

  /** The tenant's spreadsheet id, or None when no company has the slug or
      the first one that has it lacks a spreadsheet link (the 404 case). */
  function TenantLink(companies: seq<Record>, slug: string): (r: Option<string>)
    ensures r.Some? <==> exists i :: (0 <= i < |companies| && IsTenant(companies[i], slug)
      && (forall j :: 0 <= j < i ==> !IsTenant(companies[j], slug))
      && OrElse(companies[i], LinkColumn, "") != "")
    ensures r.Some? ==> r.value != ""
    ensures r.Some? ==> exists i :: (0 <= i < |companies|
      && IsTenant(companies[i], slug) && Get(companies[i], LinkColumn) == Some(r.value))
  {
    var i := FindTenant(companies, slug);
    if i < 0 then None
    else
      var link := OrElse(companies[i], LinkColumn, "");
      if link == "" then None else Some(link)
  }

  /** A company listed before every other company with the same slug is the
      one chosen: a later duplicate row never takes over a slug. */
  lemma {:induction false} TenantLinkFirstWins(companies: seq<Record>, extra: seq<Record>, slug: string)
    requires exists i :: 0 <= i < |companies| && IsTenant(companies[i], slug)
    ensures TenantLink(companies + extra, slug) == TenantLink(companies, slug)
  {
    var all := companies + extra;
    var i := FindTenant(companies, slug);
    assert forall j :: 0 <= j < |companies| ==> all[j] == companies[j];
    assert FindTenant(all, slug) == i;
  }

  predicate Keyed(rows: seq<Row>) {
    forall i :: 0 <= i < |rows| ==> |rows[i]| > 0
  }

  /** True when no row after `i` has the same key as row `i`. */
  predicate LastKey(rows: seq<Row>, i: nat)
    requires i < |rows| && Keyed(rows)
  {
    forall j :: i < j < |rows| ==> rows[j][0] != rows[i][0]
  }

  /** Some row from position `from` on is accepted by `p` and starts with `k`. */
  predicate Heads(rows: seq<Row>, from: nat, p: Row -> bool, k: string) {
    exists i :: from <= i < |rows| && p(rows[i]) && |rows[i]| > 0 && rows[i][0] == k
  }

  /** The first cells of the rows a filter keeps below the header are the
      first cells of the body rows it accepts. */
  lemma {:induction false} KeptFirstCells(rows: seq<Row>, p: Row -> bool)
    ensures forall k :: Heads(Filter(DropHeader(rows), p), 0, p, k) <==> Heads(rows, 1, p, k)
  {
    var body := DropHeader(rows);
    var kept := Filter(body, p);
    forall k
      ensures Heads(kept, 0, p, k) <==> Heads(rows, 1, p, k)
    {
      if Heads(kept, 0, p, k) {
        var i :| 0 <= i < |kept| && p(kept[i]) && |kept[i]| > 0 && kept[i][0] == k;
        FilterMembers(body, p, kept[i]);
        var j :| 0 <= j < |body| && body[j] == kept[i];
        assert rows[j + 1] == body[j];
      }
      if Heads(rows, 1, p, k) {
        var i :| 1 <= i < |rows| && p(rows[i]) && |rows[i]| > 0 && rows[i][0] == k;
        assert body[i - 1] == rows[i];
        FilterMembers(body, p, rows[i]);
        var j :| 0 <= j < |kept| && kept[j] == rows[i];
      }
    }
  }

  /** Rows whose first cell is a key, with the second cell (or '') as its
      value, assigned left to right as a `reduce` does. */
  function KeyValueTable(rows: seq<Row>): (r: map<string, string>)
    requires Keyed(rows)
    ensures forall k :: k in r <==> exists i :: 0 <= i < |rows| && rows[i][0] == k
  {
    if |rows| == 0 then map[]
    else
      var n := |rows| - 1;
      var front := rows[..n];
      assert forall i :: 0 <= i < n ==> front[i] == rows[i];
      KeyValueTable(front)[rows[n][0] := CellAt(rows[n], 1)]
  }

  /** One more row is one more assignment. */
  lemma {:induction false} KeyValueTableSnoc(rows: seq<Row>, row: Row)
    requires Keyed(rows) && |row| > 0
    ensures Keyed(rows + [row])
    ensures KeyValueTable(rows + [row]) == KeyValueTable(rows)[row[0] := CellAt(row, 1)]
  {
    assert (rows + [row])[..|rows|] == rows;
  }

  /** Each key holds the value of the last row with that key: a later row
      overwrites an earlier one. */
  lemma {:induction false} KeyValueTableLast(rows: seq<Row>, i: nat)
    requires i < |rows| && Keyed(rows) && LastKey(rows, i)
    ensures rows[i][0] in KeyValueTable(rows)
    ensures KeyValueTable(rows)[rows[i][0]] == CellAt(rows[i], 1)
    decreases |rows|
  {
    var n := |rows| - 1;
    if i < n {
      var front := rows[..n];
      assert front[i] == rows[i];
      assert LastKey(front, i) by {
        forall j | i < j < n ensures front[j][0] != front[i][0] {
          assert front[j] == rows[j];
        }
      }
      KeyValueTableLast(front, i);
    }
  }
}

=== FILE: submit_order.dfy ===
/** The order-writing router (api/submitOrder.js): like the POST branch of
    the single API handler, but it stores the payment method as sent and
    answers with the order id. */
module SubmitOrder {
  import opened Text
  import opened Seqs
  import opened Js
  import opened Sheets
  import opened Orders
  import ApiIndex

  const MasterTab := "P\U{00E1}gina1"
  const OrdersRange := "Pedidos!A:N"

  /** The 14 cells (columns A to N) of an order row, payment method untranslated. */
  function NewRow(order: OrderData, orderId: string, date: string): (r: seq<Cell>)
    ensures |r| == 14
    ensures r[6] == TextCell(order.paymentMethod)
    ensures order.address.None? ==> r[4] == TextCell("")
    ensures order.coupon.None? ==> r[11] == TextCell("")
  {
    [ TextCell(orderId), TextCell(date), TextCell(order.customerName),
      TextCell(if order.deliveryType == "pickup" then "Retirada" else "Entrega"),
      TextCell(TextOr(order.address)), TextCell(order.observations),
      TextCell(order.paymentMethod), TextCell(""),
      TextCell(ItemsString(order.cart)), NumberCell(order.subtotal),
      NumberCell(order.deliveryFee), TextCell(TextOr(order.coupon)),
      NumberCell(order.total), TextCell("Novo") ]
  }

  /** The two order rows differ in the payment column only, and agree there
      exactly when the method has no label. */
  lemma {:induction false} RowsDifferOnlyInPayment(order: OrderData, orderId: string, date: string)
    ensures forall c :: 0 <= c < 14 && c != 6 ==>
      NewRow(order, orderId, date)[c] == ApiIndex.NewRow(order, orderId, date)[c]
    ensures NewRow(order, orderId, date) == ApiIndex.NewRow(order, orderId, date)
        <==> order.paymentMethod !in PaymentMethods
  {
    var a := NewRow(order, orderId, date);
    var b := ApiIndex.NewRow(order, orderId, date);
    if order.paymentMethod in PaymentMethods {
      assert a[6] != b[6];
    }
  }

  /** POST `/`: append the order and answer with its id. */
  function HandlePost(orderData: Option<OrderData>, slug: Option<string>, masterId: string,
                      read: (string, string) -> Fetch<seq<Row>>, appendOk: bool,
                      timestamp: int, date: string): (r: Outcome)
    ensures r.response.status == 400 <==> orderData.None? || Missing(slug)
    ensures r.appended.Some? ==>
      orderData.Some? && !Missing(slug) && read(masterId, MasterTab).Got?
      && TenantLink(RowsToObjects(read(masterId, MasterTab).value), slug.value) == Some(r.appended.value.sheetId)
      && r.appended.value.range == OrdersRange
      && r.appended.value.row == NewRow(orderData.value, OrderId(timestamp), date)
    ensures r.response.status == 200 <==> r.appended.Some? && appendOk
    ensures r.response.status == 404 <==>
      orderData.Some? && !Missing(slug) && read(masterId, MasterTab).Got?
      && TenantLink(RowsToObjects(read(masterId, MasterTab).value), slug.value).None?
    ensures orderData.Some? && !Missing(slug) && read(masterId, MasterTab).Got?
            && TenantLink(RowsToObjects(read(masterId, MasterTab).value), slug.value).Some? ==>
      r.appended == Some(Append(TenantLink(RowsToObjects(read(masterId, MasterTab).value), slug.value).value, OrdersRange,
                                NewRow(orderData.value, OrderId(timestamp), date)))
    ensures r.response.status == 500 <==>
      orderData.Some? && !Missing(slug)
      && (read(masterId, MasterTab).Failed? || (TenantLink(RowsToObjects(read(masterId, MasterTab).value), slug.value).Some? && !appendOk))
    ensures r.response.status == 200 ==> r.response.body == SavedOrder("Pedido salvo!", OrderId(timestamp))
    ensures r.response.status in {200, 400, 404, 500}
  {
    if orderData.None? || Missing(slug) then
      Outcome(Response(400, Error("Dados do pedido ou slug faltando.")), None)
    else
      var failed := Response(500, Error("Falha ao salvar o pedido."));
      match read(masterId, MasterTab)
      case Failed => Outcome(failed, None)
      case Got(masterRows) =>
        match TenantLink(RowsToObjects(masterRows), slug.value)
        case None => Outcome(Response(404, Error("Empresa '" + slug.value + "' n\U{00E3}o encontrada.")), None)
        case Some(sheet) =>
          var orderId := OrderId(timestamp);
          var append := Append(sheet, OrdersRange, NewRow(orderData.value, orderId, date));
          if appendOk then Outcome(Response(200, SavedOrder("Pedido salvo!", orderId)), Some(append))
          else Outcome(failed, Some(append))
  }
}

=== FILE: text.dfy ===
/** String helpers with the semantics of the JavaScript string operations the
    storefront uses: whitespace as JavaScript's `\s` and `trim` see it,
    ASCII/Latin-1 lower-casing, first-occurrence `replace`, `split` and `join`,
    and decimal rendering and reading of natural numbers. */
module Text {

  // ---------------------------------------------------------------------------
  // Character classes
  // ---------------------------------------------------------------------------

  /** The characters matched by JavaScript's `\s` and removed by `trim()`. */
  predicate IsSpace(c: char) {
    c == ' ' || c == '\t' || c == '\n' || c == '\r' || c == '\U{000B}' || c == '\U{000C}'
    || c == '\U{00A0}' || c == '\U{1680}' || ('\U{2000}' <= c <= '\U{200A}')
    || c == '\U{2028}' || c == '\U{2029}' || c == '\U{202F}' || c == '\U{205F}'
    || c == '\U{3000}' || c == '\U{FEFF}'
  }

  /** JavaScript's `\d`: ASCII digits only. */
  predicate IsDigit(c: char) {
    '0' <= c <= '9'
  }

  /** JavaScript's `\w`: ASCII letters, digits and underscore. */
  predicate IsWordChar(c: char) {
    ('a' <= c <= 'z') || ('A' <= c <= 'Z') || IsDigit(c) || c == '_'
  }

  predicate AllDigits(s: string) {
    forall i :: 0 <= i < |s| ==> IsDigit(s[i])
  }

  /** True when `c` occurs nowhere in `s`. */
  predicate Lacks(s: string, c: char) {
    forall i :: 0 <= i < |s| ==> s[i] != c
  }

  // ---------------------------------------------------------------------------
  // Case
  // ---------------------------------------------------------------------------

  /** `toLowerCase` on one character, for ASCII and the Latin-1 letters. */
  function LowerChar(c: char): (r: char)
    ensures 'A' <= c <= 'Z' ==> r as int == c as int + 32
    ensures !('A' <= c <= 'Z') && !('\U{00C0}' <= c <= '\U{00DE}') ==> r == c
  {
    if 'A' <= c <= 'Z' then (c as int + 32) as char
    else if '\U{00C0}' <= c <= '\U{00DE}' && c != '\U{00D7}' then (c as int + 32) as char
    else c
  }

  /** Text with no upper-case letter is its own lower case. */
  lemma {:induction false} ToLowerOfLower(s: string)
    requires forall i :: 0 <= i < |s| ==> !('A' <= s[i] <= 'Z') && !('\U{00C0}' <= s[i] <= '\U{00DE}')
    ensures ToLower(s) == s
  {
  }

  function ToLower(s: string): (r: string)
    ensures |r| == |s|
    ensures forall i :: 0 <= i < |s| ==> r[i] == LowerChar(s[i])
  {
    if |s| == 0 then "" else [LowerChar(s[0])] + ToLower(s[1..])
  }

  // ---------------------------------------------------------------------------
  // Whitespace
  // ---------------------------------------------------------------------------

  /** Length of the run of whitespace at the start of `s`. */
  function SpaceRun(s: string): (n: nat)
    ensures n <= |s|
    ensures forall i :: 0 <= i < n ==> IsSpace(s[i])
    ensures n < |s| ==> !IsSpace(s[n])
  {
    if |s| > 0 && IsSpace(s[0]) then 1 + SpaceRun(s[1..]) else 0
  }

  function TrimStart(s: string): (r: string)
    ensures r == s[SpaceRun(s)..]
  {
    s[SpaceRun(s)..]
  }

  function TrimEnd(s: string): (r: string)
    ensures |r| <= |s| && r == s[..|r|]
    ensures |r| > 0 ==> !IsSpace(r[|r| - 1])
    ensures forall i :: |r| <= i < |s| ==> IsSpace(s[i])
  {
    if |s| > 0 && IsSpace(s[|s| - 1]) then TrimEnd(s[..|s| - 1]) else s
  }

  /** `trim()`: no whitespace left at either end, nothing else removed. */
  function Trim(s: string): (r: string)
    ensures |r| > 0 ==> !IsSpace(r[0]) && !IsSpace(r[|r| - 1])
    ensures exists i, j :: 0 <= i <= j <= |s| && r == s[i..j]
  {
    var t := TrimStart(s);
    var r := TrimEnd(t);
    assert r == s[SpaceRun(s)..SpaceRun(s) + |r|];
    r
  }

  /** A string whose first and last characters are not whitespace trims to itself. */
  lemma {:induction false} TrimOfTrimmed(s: string)
    requires |s| > 0 ==> !IsSpace(s[0]) && !IsSpace(s[|s| - 1])
    ensures Trim(s) == s
  {
  }

  /** One leading whitespace character is removed by `trim()`. */
  lemma {:induction false} TrimLeadingSpace(c: char, s: string)
    requires IsSpace(c) && |s| > 0 && !IsSpace(s[0]) && !IsSpace(s[|s| - 1])
    ensures Trim([c] + s) == s
  {
    assert ([c] + s)[1..] == s;
  }

  /** True when `s` is empty or consists of whitespace only (`s.trim() === ''`). */
  predicate IsBlank(s: string) {
    SpaceRun(s) == |s|
  }

  lemma {:induction false} BlankIffTrimEmpty(s: string)
    ensures IsBlank(s) <==> Trim(s) == ""
  {
    if !IsBlank(s) {
      var n := SpaceRun(s);
      assert !IsSpace(s[n]);
      var t := s[n..];
      assert t[0] == s[n];
    }
  }

  // ---------------------------------------------------------------------------
  // Search
  // ---------------------------------------------------------------------------

  predicate StartsWith(s: string, p: string) {
    |p| <= |s| && s[..|p|] == p
  }

  predicate OccursAt(s: string, pat: string, i: int) {
    0 <= i && i + |pat| <= |s| && forall t :: 0 <= t < |pat| ==> s[i + t] == pat[t]
  }

  /** `indexOf`: the first position where `pat` occurs, or -1. */
  function IndexOf(s: string, pat: string): (r: int)
    ensures -1 <= r <= |s|
    ensures r >= 0 ==> OccursAt(s, pat, r)
    ensures r >= 0 ==> forall j :: 0 <= j < r ==> !OccursAt(s, pat, j)
    ensures r == -1 ==> forall j :: 0 <= j <= |s| ==> !OccursAt(s, pat, j)
  {
    if |s| < |pat| then -1
    else if s[..|pat|] == pat then 0
    else
      var k := IndexOf(s[1..], pat);
      assert forall j :: 1 <= j <= |s| ==> (OccursAt(s, pat, j) <==> OccursAt(s[1..], pat, j - 1));
      if k < 0 then -1 else k + 1
  }

  /** The first occurrence is the one with no occurrence before it. */
  lemma {:induction false} IndexOfAt(s: string, pat: string, i: int)
    requires OccursAt(s, pat, i) && forall j :: 0 <= j < i ==> !OccursAt(s, pat, j)
    ensures IndexOf(s, pat) == i
  {
  }

  predicate Contains(s: string, pat: string) {
    IndexOf(s, pat) >= 0
  }

  // ---------------------------------------------------------------------------
  // Replacement
  // ---------------------------------------------------------------------------

  /** `s.replace(pat, rep)` with a string pattern: only the first occurrence. */
  function ReplaceFirst(s: string, pat: string, rep: string): (r: string)
    ensures IndexOf(s, pat) < 0 ==> r == s
    ensures IndexOf(s, pat) >= 0 ==>
      r == s[..IndexOf(s, pat)] + rep + s[IndexOf(s, pat) + |pat|..]
  {
    var i := IndexOf(s, pat);
    if i < 0 then s else s[..i] + rep + s[i + |pat|..]
  }

  lemma {:induction false} ConcatAssoc(a: string, b: string, c: string)
    ensures a + (b + c) == a + b + c
  {
  }

  /** A pattern whose first character `s` lacks is never replaced. */
  lemma {:induction false} ReplaceFirstAbsent(s: string, pat: string, rep: string)
    requires |pat| > 0 && Lacks(s, pat[0])
    ensures ReplaceFirst(s, pat, rep) == s
  {
    forall j | 0 <= j <= |s|
      ensures !OccursAt(s, pat, j)
    {
      if j < |s| {
        assert s[j] != pat[0];
      }
    }
  }

  /** `s.replace(/c/g, rep)` for a single character `c`. */
  function ReplaceChar(s: string, c: char, rep: string): (r: string)
    ensures Lacks(s, c) ==> r == s
  {
    if |s| == 0 then ""
    else (if s[0] == c then rep else [s[0]]) + ReplaceChar(s[1..], c, rep)
  }

  lemma {:induction false} ReplaceCharAppend(a: string, b: string, c: char, rep: string)
    ensures ReplaceChar(a + b, c, rep) == ReplaceChar(a, c, rep) + ReplaceChar(b, c, rep)
  {
    if |a| == 0 {
      assert a + b == b;
    } else {
      var h := if a[0] == c then rep else [a[0]];
      assert (a + b)[0] == a[0] && (a + b)[1..] == a[1..] + b;
      ReplaceCharAppend(a[1..], b, c, rep);
      ConcatAssoc(h, ReplaceChar(a[1..], c, rep), ReplaceChar(b, c, rep));
    }
  }

  /** Removing every `c` from a text followed by a text without `c`. */
  lemma {:induction false} RemoveCharKeepsTail(a: string, b: string, c: char)
    requires Lacks(b, c)
    ensures ReplaceChar(a + b, c, "") == ReplaceChar(a, c, "") + b
  {
    ReplaceCharAppend(a, b, c, "");
  }

  /** Removing every `c` from `a`, a `c` and a text without `c`. */
  lemma {:induction false} RemoveSeparator(a: string, b: string, c: char)
    requires Lacks(b, c)
    ensures ReplaceChar(a + [c] + b, c, "") == ReplaceChar(a, c, "") + b
  {
    ReplaceCharAppend(a + [c], b, c, "");
    ReplaceCharAppend(a, [c], c, "");
    assert ReplaceChar([c], c, "") == "";
  }

  lemma {:induction false} LacksAppend(a: string, b: string, c: char)
    ensures Lacks(a + b, c) <==> Lacks(a, c) && Lacks(b, c)
  {
    if !Lacks(a, c) {
      var i :| 0 <= i < |a| && a[i] == c;
      assert (a + b)[i] == c;
    } else if !Lacks(b, c) {
      var i :| 0 <= i < |b| && b[i] == c;
      assert (a + b)[|a| + i] == c;
    }
  }

  /** A join contains a character only if a piece or the separator does. */
  lemma {:induction false} LacksJoin(xs: seq<string>, sep: string, c: char)
    requires Lacks(sep, c) && forall i :: 0 <= i < |xs| ==> Lacks(xs[i], c)
    ensures Lacks(Join(xs, sep), c)
    decreases |xs|
  {
    if |xs| > 1 {
      LacksJoin(xs[1..], sep, c);
      LacksAppend(xs[0], sep, c);
      LacksAppend(xs[0] + sep, Join(xs[1..], sep), c);
    }
  }

  /** Removing every `c` (`s.replace(/c/g, '')`) leaves a string without `c`. */
  lemma {:induction false} RemoveCharLacks(s: string, c: char)
    ensures Lacks(ReplaceChar(s, c, ""), c)
  {
    if |s| > 0 {
      RemoveCharLacks(s[1..], c);
    }
  }

  /** Removing the characters `keep` rejects (`s.replace(/[^...]/g, '')`). */
  function Keep(s: string, keep: char -> bool): (r: string)
    ensures |r| <= |s|
    ensures forall i :: 0 <= i < |r| ==> keep(r[i])
  {
    if |s| == 0 then ""
    else (if keep(s[0]) then [s[0]] else "") + Keep(s[1..], keep)
  }

  /** Global replacement of the leftmost-longest matches of a pattern that
      never matches the empty string; `m(t)` is the length of the match at
      the start of `t`, or 0 when there is none. */
  function ReplaceMatches(s: string, m: string -> nat, rep: string): string
    requires forall t :: m(t) <= |t|
    decreases |s|
  {
    if |s| == 0 then ""
    else if m(s) > 0 then rep + ReplaceMatches(s[m(s)..], m, rep)
    else [s[0]] + ReplaceMatches(s[1..], m, rep)
  }

  /** The pattern `\s+`. */
  function SpacesMatch(t: string): (n: nat)
    ensures n <= |t|
  {
    SpaceRun(t)
  }

  /** `s.replace(/\s+/g, ' ')`: every run of whitespace becomes one space. */
  function CollapseSpaces(s: string): string {
    ReplaceMatches(s, SpacesMatch, " ")
  }

  /** `s.replace(/\s/g, '')`. */
  function RemoveSpaces(s: string): (r: string)
    ensures forall i :: 0 <= i < |r| ==> !IsSpace(r[i])
  {
    Keep(s, NotSpace)
  }

  predicate NotSpace(c: char) {
    !IsSpace(c)
  }

  lemma {:induction false} KeepAppend(a: string, b: string, keep: char -> bool)
    ensures Keep(a + b, keep) == Keep(a, keep) + Keep(b, keep)
    decreases |a|
  {
    if |a| == 0 {
      assert a + b == b;
    } else {
      assert (a + b)[1..] == a[1..] + b;
      KeepAppend(a[1..], b, keep);
    }
  }

  /** Text whose every character is kept is left as it is. */
  lemma {:induction false} KeepAll(s: string, keep: char -> bool)
    requires forall i :: 0 <= i < |s| ==> keep(s[i])
    ensures Keep(s, keep) == s
    decreases |s|
  {
    if |s| > 0 {
      KeepAll(s[1..], keep);
    }
  }

  /** The pattern `\s+c\s+` at the start of `t`: the length of the match,
      0 when there is none. */
  function Spaced(t: string, c: char): (n: nat)
    ensures n <= |t|
    ensures n > 0 ==> IsSpace(t[0])
  {
    var k := SpaceRun(t);
    if 0 < k < |t| && t[k] == c then
      var k2 := SpaceRun(t[k + 1..]);
      if k2 > 0 then k + 1 + k2 else 0
    else 0
  }

  /** Text in which the pattern matches at no position is left as it is. */
  lemma {:induction false} ReplaceMatchesNone(s: string, m: string -> nat, rep: string)
    requires forall t :: m(t) <= |t|
    requires forall i :: 0 <= i < |s| ==> m(s[i..]) == 0
    ensures ReplaceMatches(s, m, rep) == s
    decreases |s|
  {
    if |s| > 0 {
      assert s[0..] == s;
      forall i | 0 <= i < |s| - 1
        ensures m(s[1..][i..]) == 0
      {
        assert s[1..][i..] == s[i + 1..];
      }
      ReplaceMatchesNone(s[1..], m, rep);
    }
  }

  /** Text in which every match is already the replacement is left as it is. */
  lemma {:induction false} ReplaceMatchesSelf(s: string, m: string -> nat, rep: string)
    requires forall t :: m(t) <= |t|
    requires forall i :: 0 <= i < |s| ==> m(s[i..]) == 0 || s[i..][..m(s[i..])] == rep
    ensures ReplaceMatches(s, m, rep) == s
    decreases |s|
  {
    if |s| > 0 {
      assert s[0..] == s;
      var n := if m(s) > 0 then m(s) else 1;
      SelfAfter(s, m, rep, n);
      ReplaceMatchesSelf(s[n..], m, rep);
      SelfFirst(s, m, rep);
      assert s == s[..n] + s[n..];
    }
  }

  lemma {:induction false} SelfAfter(s: string, m: string -> nat, rep: string, n: nat)
    requires forall t :: m(t) <= |t|
    requires n <= |s|
    requires forall i :: 0 <= i < |s| ==> m(s[i..]) == 0 || s[i..][..m(s[i..])] == rep
    ensures forall i :: 0 <= i < |s[n..]| ==> m(s[n..][i..]) == 0 || s[n..][i..][..m(s[n..][i..])] == rep
  {
    forall i | 0 <= i < |s[n..]|
      ensures m(s[n..][i..]) == 0 || s[n..][i..][..m(s[n..][i..])] == rep
    {
      assert s[n..][i..] == s[i + n..];
    }
  }

  /** The first step of a replacement that leaves its match as it is. */
  lemma {:induction false} SelfFirst(s: string, m: string -> nat, rep: string)
    requires forall t :: m(t) <= |t|
    requires |s| > 0 && (m(s) == 0 || s[..m(s)] == rep)
    ensures var n := if m(s) > 0 then m(s) else 1;
      ReplaceMatches(s, m, rep) == s[..n] + ReplaceMatches(s[n..], m, rep)
  {
    if m(s) == 0 {
      assert [s[0]] == s[..1];
    }
  }

  /** A prefix at none of whose positions the pattern matches is copied. */
  lemma {:induction false} ReplaceMatchesSkip(a: string, b: string, m: string -> nat, rep: string)
    requires forall t :: m(t) <= |t|
    requires forall i :: 0 <= i < |a| ==> m((a + b)[i..]) == 0
    ensures ReplaceMatches(a + b, m, rep) == a + ReplaceMatches(b, m, rep)
    decreases |a|
  {
    if |a| == 0 {
      assert a + b == b;
    } else {
      var s := a + b;
      assert m(s[0..]) == 0 && s[0..] == s;
      assert s[1..] == a[1..] + b;
      forall i | 0 <= i < |a| - 1
        ensures m((a[1..] + b)[i..]) == 0
      {
        assert (a[1..] + b)[i..] == s[i + 1..];
      }
      ReplaceMatchesSkip(a[1..], b, m, rep);
    }
  }

  // ---------------------------------------------------------------------------
  // Split and join
  // ---------------------------------------------------------------------------

  /** `s.split(sep)` with a non-empty string separator. */
  function SplitOn(s: string, sep: string): (r: seq<string>)
    requires |sep| > 0
    ensures |r| >= 1
    ensures IndexOf(s, sep) >= 0 ==> |r| >= 2
    decreases |s|
  {
    var i := IndexOf(s, sep);
    if i < 0 then [s] else [s[..i]] + SplitOn(s[i + |sep|..], sep)
  }

  /** `s.split(/[...]/)` with a one-character class. */
  function SplitAny(s: string, cs: set<char>): (r: seq<string>)
    ensures |r| >= 1
    ensures forall k :: 0 <= k < |r| ==> forall i :: 0 <= i < |r[k]| ==> r[k][i] !in cs
  {
    if |s| == 0 then [""]
    else
      var rest := SplitAny(s[1..], cs);
      if s[0] in cs then [""] + rest else [[s[0]] + rest[0]] + rest[1..]
  }

  /** A run of whitespace after a word collapses to one space. */
  lemma {:induction false} CollapseAfterWord(w: string, sp: string, rest: string)
    requires forall i :: 0 <= i < |w| ==> !IsSpace(w[i])
    requires |sp| > 0 && (forall i :: 0 <= i < |sp| ==> IsSpace(sp[i]))
    requires |rest| > 0 && !IsSpace(rest[0])
    ensures CollapseSpaces(w + (sp + rest)) == w + (" " + CollapseSpaces(rest))
  {
    forall i | 0 <= i < |w|
      ensures SpacesMatch((w + (sp + rest))[i..]) == 0
    {
      assert (w + (sp + rest))[i..][0] == w[i];
    }
    ReplaceMatchesSkip(w, sp + rest, SpacesMatch, " ");
    SpaceRunOf(sp, rest);
    assert (sp + rest)[|sp|..] == rest;
  }

  lemma {:induction false} SpaceRunOf(sp: string, rest: string)
    requires forall i :: 0 <= i < |sp| ==> IsSpace(sp[i])
    requires |rest| > 0 ==> !IsSpace(rest[0])
    ensures SpaceRun(sp + rest) == |sp|
    decreases |sp|
  {
    if |sp| == 0 {
      assert sp + rest == rest;
    } else {
      assert (sp + rest)[1..] == sp[1..] + rest;
      SpaceRunOf(sp[1..], rest);
    }
  }

  /** Text without whitespace has nothing to collapse. */
  lemma {:induction false} CollapseNoSpaces(s: string)
    requires forall i :: 0 <= i < |s| ==> !IsSpace(s[i])
    ensures CollapseSpaces(s) == s
  {
    forall i | 0 <= i < |s|
      ensures SpacesMatch(s[i..]) == 0
    {
      assert s[i..][0] == s[i];
    }
    ReplaceMatchesNone(s, SpacesMatch, " ");
  }

  /** A character the text lacks is not found in it. */
  lemma {:induction false} AbsentChar(s: string, c: char)
    requires Lacks(s, c)
    ensures IndexOf(s, [c]) < 0
  {
    forall j | 0 <= j <= |s|
      ensures !OccursAt(s, [c], j)
    {
      if j < |s| {
        assert s[j] != [c][0];
      }
    }
  }

  /** Splitting on characters the text lacks gives the text itself. */
  lemma {:induction false} SplitAnyNone(s: string, cs: set<char>)
    requires forall i :: 0 <= i < |s| ==> s[i] !in cs
    ensures SplitAny(s, cs) == [s]
    decreases |s|
  {
    if |s| > 0 {
      SplitAnyNone(s[1..], cs);
      assert [s[0]] + s[1..] == s;
    }
  }

  /** Splitting on characters `x` lacks, at one of them, gives `x` and the pieces after it. */
  lemma {:induction false} SplitAnyAt(x: string, c: char, y: string, cs: set<char>)
    requires c in cs && forall i :: 0 <= i < |x| ==> x[i] !in cs
    ensures SplitAny(x + [c] + y, cs) == [x] + SplitAny(y, cs)
    decreases |x|
  {
    if |x| == 0 {
      assert x + [c] + y == [c] + y;
      assert ([c] + y)[1..] == y;
    } else {
      var s := x + [c] + y;
      assert s[1..] == x[1..] + [c] + y;
      SplitAnyAt(x[1..], c, y, cs);
      assert [x[0]] + x[1..] == x;
    }
  }

  /** Splitting on a separator the text does not contain gives the text itself. */
  lemma {:induction false} SplitOnAbsent(s: string, sep: string)
    requires |sep| > 0 && IndexOf(s, sep) < 0
    ensures SplitOn(s, sep) == [s]
  {
  }

  /** `xs.join(sep)`. */
  function Join(xs: seq<string>, sep: string): string {
    if |xs| == 0 then ""
    else if |xs| == 1 then xs[0]
    else xs[0] + sep + Join(xs[1..], sep)
  }

  /** A separator with a marker character that occurs in it exactly once. */
  predicate MarkedSeparator(sep: string, k: nat) {
    k < |sep| && forall j :: 0 <= j < |sep| && j != k ==> sep[j] != sep[k]
  }

  /** The first occurrence of a marked separator after a piece without the
      marker is right after that piece. */
  lemma {:induction false} FirstSeparator(x: string, sep: string, k: nat, tail: string)
    requires MarkedSeparator(sep, k) && Lacks(x, sep[k])
    ensures IndexOf(x + sep + tail, sep) == |x|
  {
    var s := x + sep + tail;
    assert s[|x|..|x| + |sep|] == sep;
    assert OccursAt(s, sep, |x|);
    forall j | 0 <= j < |x|
      ensures !OccursAt(s, sep, j)
    {
      if j + |sep| <= |s| {
        assert s[j..j + |sep|][k] == s[j + k];
        if j + k < |x| {
          assert s[j + k] == x[j + k];
        } else {
          assert s[j + k] == sep[j + k - |x|];
        }
      }
    }
  }

  /** Splitting a join on its separator gives the pieces back, provided no
      piece contains the separator's marker character. */
  lemma {:induction false} SplitJoin(xs: seq<string>, sep: string, k: nat)
    requires |xs| >= 1 && MarkedSeparator(sep, k)
    requires forall i :: 0 <= i < |xs| ==> Lacks(xs[i], sep[k])
    ensures SplitOn(Join(xs, sep), sep) == xs
    decreases |xs|
  {
    if |xs| == 1 {
    } else {
      var rest := Join(xs[1..], sep);
      FirstSeparator(xs[0], sep, k, rest);
      var s := xs[0] + sep + rest;
      assert s[..|xs[0]|] == xs[0];
      assert s[|xs[0]| + |sep|..] == rest;
      SplitJoin(xs[1..], sep, k);
    }
  }

  // ---------------------------------------------------------------------------
  // Decimal numbers
  // ---------------------------------------------------------------------------

  function DigitChar(d: nat): (c: char)
    requires d < 10
    ensures IsDigit(c)
  {
    ('0' as int + d) as char
  }

  function DigitValue(c: char): (d: nat)
    requires IsDigit(c)
    ensures d < 10 && DigitChar(d) == c
  {
    c as int - '0' as int
  }

  /** The value of a string of decimal digits (the empty string is 0). */
  function DigitsValue(s: string): nat
    requires AllDigits(s)
  {
    if |s| == 0 then 0 else DigitsValue(s[..|s| - 1]) * 10 + DigitValue(s[|s| - 1])
  }

  function Pow10(n: nat): (r: nat)
    ensures r >= 1
  {
    if n == 0 then 1 else 10 * Pow10(n - 1)
  }

  lemma {:induction false} ShiftDigit(x: int, p: int, y: int, d: int)
    ensures (x * p + y) * 10 + d == x * (p * 10) + (y * 10 + d)
  {
  }

  /** A two-digit numeral. */
  lemma {:induction false} DigitsValueTwo(s: string)
    requires |s| == 2 && AllDigits(s)
    ensures DigitsValue(s) == DigitValue(s[0]) * 10 + DigitValue(s[1])
  {
    var h := s[..1];
    assert h[..0] == [] && h[0] == s[0];
    assert DigitsValue(h) == DigitValue(s[0]);
    assert DigitsValue(s) == DigitsValue(h) * 10 + DigitValue(s[1]);
  }

  /** Reading a concatenation of digit strings shifts the first by the
      length of the second. */
  lemma {:induction false} DigitsValueAppend(a: string, b: string)
    requires AllDigits(a) && AllDigits(b)
    ensures AllDigits(a + b)
    ensures DigitsValue(a + b) == DigitsValue(a) * Pow10(|b|) + DigitsValue(b)
    decreases |b|
  {
    if |b| > 0 {
      var ab := a + b;
      var b' := b[..|b| - 1];
      var d := DigitValue(b[|b| - 1]);
      assert ab[..|ab| - 1] == a + b';
      assert ab[|ab| - 1] == b[|b| - 1];
      DigitsValueAppend(a, b');
      var x, y, p := DigitsValue(a), DigitsValue(b'), Pow10(|b'|);
      assert ab[|ab| - 1] == b[|b| - 1];
      assert DigitsValue(ab) == DigitsValue(a + b') * 10 + d;
      assert DigitsValue(b) == y * 10 + d;
      assert Pow10(|b|) == p * 10;
      ShiftDigit(x, p, y, d);
    } else {
      assert a + b == a;
    }
  }

  /** The decimal rendering of a natural number, as `toString()` gives it. */
  function NatToString(n: nat): (r: string)
    ensures |r| >= 1 && AllDigits(r)
    ensures |r| > 1 ==> r[0] != '0'
    decreases n
  {
    if n < 10 then [DigitChar(n)] else NatToString(n / 10) + [DigitChar(n % 10)]
  }

  /** `toString()` of an integer. */
  function IntToString(i: int): string {
    if i < 0 then "-" + NatToString(-i) else NatToString(i)
  }

  /** A rendered integer holds only digits and a leading minus sign. */
  lemma {:induction false} IntToStringLacks(i: int, c: char)
    requires !IsDigit(c) && c != '-'
    ensures Lacks(IntToString(i), c)
  {
    var d := NatToString(if i < 0 then -i else i);
    assert Lacks(d, c);
    if i < 0 {
      LacksAppend("-", d, c);
    }
  }

  /** Reading back a rendered natural number gives the number. */
  lemma {:induction false} NatToStringValue(n: nat)
    ensures DigitsValue(NatToString(n)) == n
    decreases n
  {
    if n >= 10 {
      var s := NatToString(n);
      assert s[..|s| - 1] == NatToString(n / 10);
      NatToStringValue(n / 10);
    }
  }

  /** The longest prefix of `s` made of digits. */
  function LeadingDigits(s: string): (r: string)
    ensures |r| <= |s| && r == s[..|r|] && AllDigits(r)
    ensures |r| < |s| ==> !IsDigit(s[|r|])
  {
    if |s| > 0 && IsDigit(s[0]) then [s[0]] + LeadingDigits(s[1..]) else ""
  }

  /** The digit prefix of digits followed by a non-digit is those digits. */
  lemma {:induction false} LeadingDigitsOf(ds: string, rest: string)
    requires AllDigits(ds) && (|rest| > 0 ==> !IsDigit(rest[0]))
    ensures LeadingDigits(ds + rest) == ds
  {
    if |ds| == 0 {
      assert ds + rest == rest;
    } else {
      assert (ds + rest)[1..] == ds[1..] + rest;
      LeadingDigitsOf(ds[1..], rest);
    }
  }

  /** `padStart(2, '0')`. */
  function PadTwo(s: string): (r: string)
    ensures |s| >= 2 ==> r == s
    ensures |s| < 2 ==> |r| == 2
    decreases 2 - |s|
  {
    if |s| >= 2 then s else PadTwo("0" + s)
  }

  lemma {:induction false} PadTwoValue(s: string)
    requires AllDigits(s)
    ensures AllDigits(PadTwo(s)) && DigitsValue(PadTwo(s)) == DigitsValue(s)
    decreases 2 - |s|
  {
    if |s| < 2 {
      DigitsValueAppend("0", s);
      assert DigitsValue("0") == 0;
      PadTwoValue("0" + s);
    }
  }
}
